=== FILE: README.md ===
# perspectivetracker, modelled in Dafny

A model of the access rules, record keeping and configurable choice lists of
perspectivetracker, a Django application in which an agency tracks client
projects: accessibility audits and other work, each project of a configurable
project type, with issues found against versioned standards, client coworkers
invited by email, and notification mails. The model follows the Python code
view by view and handler by handler. Where the code changes an object in place
(a user instance before `save()`, the tables a view writes, the audit log, a
coworker invitation), the model is a class with `modifies` clauses. Where the
code only computes (role derivation, label lookup, recipient lists, the choice
text format), the model is a function with lemmas.

Modules, in dependency order:

- `Wrappers`, `Seqs`, `Text`: option and result types; order-preserving
  filters and Python's "append unless already present" loop; Python string
  operations (`strip`, `split`, `join`, ASCII `lower`, `endswith`) on
  `seq<char>`.
- `Users`, `RoleGuards`: the four platform roles, the user row and the
  in-memory user instance, `CustomUser.save`'s superuser rule, and `has_role`
  with the three view decorators (`admin_required`, `staff_required`,
  `client_required`). Every decorated view in the model goes through these.
- `RoleSync`, `Accounts`, `Auth0Sync`, `RoleCommands`, `LoginPipeline`: the
  derivation of a platform role from Auth0 roles, the three `pre_save`
  handlers, the user manager, the `post_save` Auth0 sync, the sync
  middleware, the role management commands and the social-auth pipeline
  step.
- `ChoiceText`, `ChoiceLists`, `StatusRepair`: the `"key, Display Name"`
  text in which status and milestone choices are edited, the stored lists,
  the status label lookup, the two JSON endpoints and the one-shot repair
  script.
- `Projects`, `ProjectAccess`, `Grouping`, `ProjectForms`, `ProjectViews`:
  the project tables with their uniqueness constraints and foreign keys, the
  access checks of the project views and admin classes, the grouping loop
  that two views and a form share, the project forms, and the views whose
  write depends on more than access.
- `AuditTrail`, `ProjectTags`: the signal handlers that append to the issue
  modification log, and the two template filters.
- `Coworkers`, `ClientAccess`: client memberships with their invitation
  life cycle, the email-based coworker record, and the access rules of the
  client views.
- `Notifications`: who each notification mail goes to. The four loops
  that collect the assignee, then the project's assigned team, each address
  once, share `DefaultRecipients`. Mail delivery itself is a parameter.

Access facts of the code that shape the model:

- The client views that build their own `has_access` flag (`client_detail`,
  `note_create`, `note_detail`, `note_update`, `note_delete`,
  `coworker_delete`, `coworker_update`, `resend_invitation`;
  clients/views.py:94-494) admit the team (superuser, admin or staff) and the
  client's point of contact before any coworker check, `note_delete` and
  `coworker_delete` included (clients/views.py:352-355, 386-389). A note's
  author passes `note_delete` whatever their coworker status
  (clients/views.py:356-357). The other client views use the decorators:
  `client_create` and `client_update` are behind `staff_required`
  (clients/views.py:58-60, 168-170), `client_delete` behind `admin_required`
  (clients/views.py:207-209).
- Every view of the standard and violation catalog is behind
  `admin_required` (projects/views.py:154-303), so staff are refused.
- Each view decides access by itself, and the model keeps one predicate per
  view. Lemmas relate these predicates, for example
  `ProjectAccess.IssueChecksAreNested` and
  `ClientAccess.DetailAdmitsMatchesViews`.
- Where a view does something its authors evidently did not mean (see
  "## Findings"), the view's member models the code as written and a
  separate member states the intended behaviour.

## Model

| member | source | states |
|---|---|---|
| Text.Strip | projects/models.py:79 | Python's `strip()`: the result has no surrounding white space and is no longer than the input |
| Text.StripTrimsEnds | projects/forms.py:53 | `strip()` returns a slice of its input with only white space before and after it, so it never drops an inner character |
| Text.BlankStripsToEmpty | projects/forms.py:49 | a text strips to empty exactly when every character is white space |
| Text.JoinOfSplit | projects/templatetags/project_tags.py:17 | joining the pieces of `value.split(sep)` with `sep` gives `value` back |
| Text.SplitCount | projects/templatetags/project_tags.py:17 | `value.split(sep)` has one piece more than `sep` has occurrences |
| Text.SplitOfJoin | projects/forms.py:38-53 | splitting a join of separator-free pieces gives the pieces back |
| Users.ParseRoleName | users/models.py:4-17 | a string names a role exactly when it is one of the four stored role names, and then that role's name is the string |
| Users.RoleLabelInjective | users/models.py:17 | role names are unique: two roles with the same name are the same role |
| Users.SuperuserAdminRole | users/models.py:68-77 | `save` changes only the role, and changes it to admin exactly when the user is a superuser whose role is missing or not admin and the admin role exists |
| Users.SaveKeepsNonSuperuserRole | users/models.py:68-77 | `save` leaves a user who is not a superuser exactly as it was |
| Users.UserInstance.Load | users/models.py:54-61 | a loaded instance carries the stored row and its primary key |
| Users.UserInstance.Create | users/models.py:27 | a new instance has no primary key, is active and not manually modified, and holds the given email, role and flags |
| RoleSync.DeriveAccess | users/signals.py:140-155 | admin wins over staff, staff over client, client over user; `is_staff` is set exactly for admin and staff, `is_superuser` exactly for admin |
| RoleSync.DerivedAccessNormalised | users/signals.py:145-155 | access derived from any Auth0 role list already satisfies "admin implies staff and superuser, superuser implies staff" |
| RoleSync.Normalise | users/signals.py:85-94 | the result is normalised and differs only in the two flags: superuser exactly when it was superuser or admin, staff exactly when it was staff, superuser or admin |
| RoleSync.NormaliseFixesExactlyNormalised | users/signals.py:85-94 | the normalising step leaves a user alone exactly when the user is already normalised |
| RoleSync.MarkModified | users/signals.py:105-119 | only `manually_modified` changes; it ends up set exactly when it was set or the stored row differs in role, `is_staff` or `is_superuser` (a missing row changes nothing) |
| RoleSync.MarkNeverClears | users/signals.py:110-115 | the handler never clears `manually_modified` |
| RoleSync.Auth0Merge | users/signals.py:157-189 | an unmodified user takes all three derived fields; a manually-modified user takes a derived field only where that field still equals the stored row, and nothing when the row is missing |
| RoleSync.Auth0Update | users/signals.py:157-199 | after the merge and the final normalisation the user is normalised, its profile fields and its `manually_modified` flag unchanged |
| RoleSync.PreSave | users/signals.py:76-199 | the three `pre_save` handlers in file order leave a normalised user with its profile fields intact, marked manually modified exactly when it already was or the stored row differs from the normalised instance in an access field |
| RoleSync.RolesAfterPreSave | users/signals.py:145-155 | `get_or_create` only adds role rows, and the derived role of a linked user is present afterwards |
| RoleSync.SaveExisting | users/models.py:68-77 | saving an existing user (the superuser rule, then the `pre_save` handlers) always stores a normalised row with the same profile fields |
| RoleSync.UnchangedSaveResyncs | users/signals.py:185-189 | saving an unmodified, normalised Auth0 user whose access fields are unchanged re-applies exactly the access its Auth0 roles call for |
| RoleSync.EditedRoleSurvives | users/signals.py:158-175 | when an administrator changes the role of a non-superuser Auth0 user, the saved role is the edited one whatever Auth0 says, and the user is now manually modified |
| RoleSync.NormaliseInstance | users/signals.py:191-199 | the instance becomes the normalised version of itself, primary key unchanged |
| RoleSync.DeriveFields | users/signals.py:140-155 | the role and flags chosen are those of `DeriveAccess` |
| RoleSync.EnsureAdminStaffStatus | users/signals.py:76-94 | a new instance is untouched; an existing one is normalised |
| RoleSync.MarkUserAsManuallyModified | users/signals.py:96-119 | a new instance is untouched; an existing one becomes `MarkModified` of itself and the stored row |
| RoleSync.MergeDerivedFields | users/signals.py:157-189 | the instance becomes `Auth0Merge` of itself, the stored row and the derived access |
| RoleSync.SyncAuth0OnUserUpdate | users/signals.py:121-209 | new instances and users without an Auth0 link are untouched; otherwise the instance becomes `Auth0Update` of itself and the derived role is reported as ensured |
| Accounts.LinkRoles | users/signals.py:133-138 | no roles exactly when the user has no Auth0 link; otherwise the roles of one of that user's links |
| Accounts.LinkRolesOfLink | users/signals.py:133-138 | with one link per user, the roles found for a link's user are that link's roles |
| Accounts.LinkRolesSnoc | users/signals.py:133 | `.first()` keeps the earliest link: a later link only matters for a user who had none |
| Accounts.NormalizeEmail | users/models.py:26 | an address whose stripped form holds an `@` comes back as long as that stripped form and still holds an `@`; any other address comes back unchanged |
| Accounts.NormalizeEmailIdempotent | users/models.py:26 | normalizing a normalized address changes nothing, so the unique check on `email` sees one spelling per address |
| Accounts.Directory.constructor | users/models.py:54-57 | an empty user table with the given role rows and no links |
| Accounts.Directory.Insert | users/models.py:56 | a new instance is stored at the next primary key exactly when its email is free (the unique constraint); otherwise nothing changes |
| Accounts.Directory.Update | users/signals.py:76-209 | the stored row becomes `PreSave` of the instance against the old row and its Auth0 link, and the role table gains the ensured role |
| Accounts.Directory.Save | users/models.py:68-77 | an existing user is stored as `SaveExisting`; a new one is inserted after the superuser rule when its email is free, and fails otherwise |
| Accounts.Directory.SaveLoaded | users/models.py:68-77 | saving a loaded instance stores `SaveExisting` of it and keeps the directory valid |
| Accounts.Directory.CreateUser | users/models.py:23-30 | an empty email is refused; otherwise the email is normalized, a taken normalized email fails, and one new row holding the normalized email and the given fields (after the superuser rule) is stored |
| Accounts.Directory.CreateSuperuser | users/models.py:32-52 | an explicit `is_staff` or `is_superuser` of False is refused; then an empty email and a taken normalized email are refused as by `create_user` and change nothing, and a free one always succeeds; the new user holds the normalized email, is staff and superuser, and has the admin role when that role exists and the given role otherwise |
| Auth0Sync.AutoSyncClosedForm | users/signals.py:21-66 | an automatic sync through the user's first link skips manually-modified users and users that already have the derived access; any other user gets the derived access and, through the `pre_save` handler, `manually_modified` set |
| Auth0Sync.AutoSyncRoles | users/signals.py:31-40 | the roles table only grows; unless the user is manually modified it then holds the role the synced link derives |
| Auth0Sync.AutoSyncSetsLinkRole | users/signals.py:43-64 | through any link of a user, including one that is not its first, a sync that changes the role stores the role that link derives and marks the user, since the `pre_save` merge keeps changed fields |
| Auth0Sync.AutoSyncFreezesUser | users/signals.py:21-66 | the first automatic sync that changes a user also freezes it: every later automatic sync, through any link and with any roles, leaves it alone |
| Auth0Sync.SyncInstance | users/signals.py:17-66 | run on an instance: the row becomes `AutoSyncRow` of the instance over the stored row (unchanged when the instance is manually modified or already has the derived access), and the roles table `AutoSyncRoles` |
| Auth0Sync.SyncUser | users/middleware.py:29-77 | the user's current row becomes `AutoSyncOutcome` and the roles table `AutoSyncRoles`, the save reading the user's first link |
| Auth0Sync.SyncAuth0User | users/signals.py:12-74 | the handler for a link syncs that link's roles onto its user's current row, the save's merge reading the user's first link; with one link per user that first link is the handler's own |
| Auth0Sync.Auth0SyncMiddleware | users/middleware.py:17-87 | the response is computed from the user as loaded, before any sync; anonymous users and users without an Auth0 link change nothing; otherwise the user's row becomes `AutoSyncOutcome` with the roles of its first link, and the roles table `AutoSyncRoles`: the derived role from the `get_or_create`, plus what the save's `pre_save` creates |
| LoginPipeline.AssignDefaultRole | users/pipeline.py:9-17 | only the role can change, and it changes, to `user`, exactly when the user has no role and the `user` role exists |
| LoginPipeline.FillNames | users/pipeline.py:20-26 | only the names change; a name already set is kept; without a space in the display name the last name is kept; a filled first name holds no space |
| LoginPipeline.SplitsAtFirstSpace | users/pipeline.py:22-26 | "First Rest of name" fills an empty first name with the part before the first space and an empty last name with everything after it |
| LoginPipeline.OneWordName | users/pipeline.py:22-24 | a display name without a space fills only the first name |
| LoginPipeline.DefaultRoleMarksManual | users/pipeline.py:9-14 | giving the default role to a stored user without a role marks the user manually modified, and a non-superuser keeps the `user` role whatever its Auth0 roles say |
| LoginPipeline.DefaultRoleStep | users/pipeline.py:9-17 | the stored row becomes `SaveExisting` of the instance with the default role |
| LoginPipeline.NameStep | users/pipeline.py:20-27 | the stored row becomes `SaveExisting` of the instance with the names filled, the roles table what that save's `pre_save` creates, and the instance the stored row |
| LoginPipeline.UserSaves | users/pipeline.py:9-27 | the roles table only grows, and the instance either is untouched or equals the stored row |
| LoginPipeline.SaveUser | users/pipeline.py:9-27 | the stored row, the roles table and the instance become those of `UserSaves` |
| LoginPipeline.GetUserRole | users/pipeline.py:4-35 | an Auth0 login without a social link raises; otherwise it returns the same user; no user means no change; otherwise the row holds `UserSaves` and, for an Auth0 login, then the `post_save` sync of the link's roles onto the pipeline's instance |
| LoginPipeline.LinkSaveAfterUserSave | users/pipeline.py:30-33 | after a save whose merge read the same link, the `post_save` sync of the link's save leaves an unmarked user as it is |
| RoleGuards.AnonymousHasNoRole | users/views.py:55-60 | an anonymous user has no role at all |
| RoleGuards.SuperuserIsAdmin | users/views.py:55-60 | a superuser has `admin` whatever its stored role; any other role, and `admin` for a non-superuser, must be the stored role |
| RoleGuards.AdminRequired | users/views.py:62-68 | the view runs, with its own response, exactly when the user has `admin`; otherwise 403 |
| RoleGuards.StaffRequired | users/views.py:70-76 | the view runs exactly when the user has `admin` or `staff` |
| RoleGuards.ClientRequired | users/views.py:78-86 | the view runs exactly when the user has `admin`, `staff` or `client` |
| RoleGuards.GuardHierarchy | users/views.py:62-86 | whoever passes `admin_required` passes `staff_required`, and whoever passes that passes `client_required` |
| RoleGuards.GuardHierarchyStrict | users/views.py:62-86 | a staff member is refused admin pages, a client staff pages |
| RoleGuards.BasicUsersRefused | users/views.py:62-86 | a non-superuser with the `user` role or none passes no decorator; a superuser passes all three |
| RoleGuards.ClientRequiredIsTeamOrClient | users/views.py:70-86 | `client_required` admits exactly team members and clients, `staff_required` exactly team members |
| RoleCommands.CountLinksSnoc | users/management/commands/sync_all_auth0_users.py:38-145 | counting the links a command updates grows by one exactly for an updated link |
| RoleCommands.NotYetVisited | users/management/commands/sync_all_auth0_users.py:38-39 | with one link per user, a user whose link comes later in the loop still has the row it had before the command |
| RoleCommands.AppliedThroughSnoc | users/management/commands/sync_all_auth0_users.py:38-145 | processing one more link extends "every visited user is updated, every other row unchanged" by that link |
| RoleCommands.AdvanceLinks | users/management/commands/sync_all_auth0_users.py:38-145 | one loop iteration keeps both the row relation and the count of updated users |
| RoleCommands.RunLinks | users/management/commands/sync_all_auth0_users.py:38-39 | the walk over the links keeps the number of rows; each visit reads the user's current row, so a user with several links is visited once per link |
| RoleCommands.RunCount | users/management/commands/sync_all_auth0_users.py:38-145 | the number of visits counted is at most the number of links |
| RoleCommands.RunSnoc | users/management/commands/sync_all_auth0_users.py:38-145 | one more link changes only its user's row, to what the visit stores from the current row, and counts one more exactly when the current row satisfies the count |
| RoleCommands.LinkRolesDerivedWithin | users/signals.py:133-155 | the role a user's first link derives is one that some Auth0 link derives |
| RoleCommands.VisitRoles | users/management/commands/sync_all_auth0_users.py:47-57 | a visit only grows the roles table, and afterwards the role the visited link derives exists |
| RoleCommands.RunRoles | users/management/commands/sync_all_auth0_users.py:38-57 | the roles table after the walk contains the one before |
| RoleCommands.RunRolesSnoc | users/management/commands/sync_all_auth0_users.py:38-130 | one more link applies `VisitRoles` to the table, with the save exactly when the current row satisfies the count |
| RoleCommands.RunRolesStep | users/management/commands/sync_all_auth0_users.py:47-57 | one more link only grows the table, creates the role the link derives, and nothing no link derives |
| RoleCommands.RunRolesWithin | users/management/commands/sync_all_auth0_users.py:47-57 | after the walk, the role each visited link derives exists, and every role created is one some Auth0 link derives |
| RoleCommands.RunAdvance | users/management/commands/sync_all_auth0_users.py:38-145 | a loop step that stores the visit, the visit's roles and the count keeps rows, roles table and count equal to the walk's |
| RoleCommands.RunComplete | users/management/commands/sync_all_auth0_users.py:38-145 | after the last link the loop's rows, roles table and count are those of the walk over all links |
| RoleCommands.RunLinksDistinct | users/management/commands/sync_all_auth0_users.py:38-145 | with one link per user and a visit that, through the user's first link, relates each row to its result, the walk relates every linked row to its row before and counts as over the rows before |
| RoleCommands.RunLinksDistinctStep | users/management/commands/sync_all_auth0_users.py:38-145 | one step of that argument: the visited link is its user's first and the user not yet visited |
| RoleCommands.DerivedRowIsFixed | users/signals.py:76-100 | a row given derived access is left alone by normalisation and by the superuser rule of `save` |
| RoleCommands.SyncAllSaveClosedForm | users/management/commands/sync_all_auth0_users.py:101-130 | the save stores the derived access, and `manually_modified` ends up set whenever the access changed, even when `--force` had just reset it |
| RoleCommands.SyncAllVisitsAgree | users/management/commands/sync_all_auth0_users.py:60-130 | a visit through the user's first link stores `SyncAllOutcome` |
| RoleCommands.ChangedUserSkippedLater | users/management/commands/sync_all_auth0_users.py:60-130 | without `--force`, the visit that changes a user's access marks it, so every later link of that user is skipped |
| RoleCommands.SyncAllDistinct | users/management/commands/sync_all_auth0_users.py:38-145 | with one link per user the walk takes each linked row to `SyncAllOutcome` and counts the users that needed an update |
| RoleCommands.ManuallyModifiedSkippedWithoutForce | users/management/commands/sync_all_auth0_users.py:60-67 | without `--force` a manually-modified user is never touched |
| RoleCommands.ForcedResetSurvivesOnlyWithoutChange | users/management/commands/sync_all_auth0_users.py:101-114 | with `--force` a manually-modified user gets the derived access, and its reset flag stays cleared exactly when the access was already the derived one |
| RoleCommands.AssignSyncAllFields | users/management/commands/sync_all_auth0_users.py:69-114 | the instance takes the three derived fields and, under `--force`, a cleared `manually_modified` |
| RoleCommands.SyncAllSave | users/management/commands/sync_all_auth0_users.py:101-130 | the linked user's row becomes what `SyncAllVisit` stores, the merge reading the user's first link; the roles table gains what the save's `pre_save` creates; when that link is the visited one, the row is `SyncAllOutcome` |
| RoleCommands.SyncAllStep | users/management/commands/sync_all_auth0_users.py:38-145 | one link: only its user's row changes, to `SyncAllVisit` of the current row; the roles table becomes `VisitRoles` (the `get_or_create`, then the save's); it counts as updated exactly when `needs_update` holds; through the user's first link the result is `SyncAllOutcome` |
| RoleCommands.SyncAllAuth0Users | users/management/commands/sync_all_auth0_users.py:22-152 | every visited link is updated or skipped (the counts add up to the number of links, the preserved count stays 0); the rows, the roles table and the count are those of the walk over the links; with one link per user each linked row becomes `SyncAllOutcome`, every other row is unchanged |
| RoleCommands.RolesSyncSaveClosedForm | users/management/commands/sync_auth0_roles.py:66-71 | the save stores the derived access and raises `manually_modified` exactly when the access changed |
| RoleCommands.RolesSyncVisitsAgree | users/management/commands/sync_auth0_roles.py:58-71 | a visit through the user's first link stores `RolesSyncOutcome` |
| RoleCommands.VisitedLinkRoleWins | users/management/commands/sync_auth0_roles.py:58-71 | for a user with several links, a visit whose link calls for another role stores that role and marks the user, whatever the first link says |
| RoleCommands.RolesSyncDistinct | users/management/commands/sync_auth0_roles.py:37-84 | with one link per user the walk takes each linked row to `RolesSyncOutcome` and counts the users it updates |
| RoleCommands.RolesSyncAlwaysDerives | users/management/commands/sync_auth0_roles.py:58-71 | this command ignores `manually_modified`: every Auth0 user ends with the derived access, the same access the other batch sync gives the users it updates |
| RoleCommands.RolesSyncSave | users/management/commands/sync_auth0_roles.py:66-71 | the linked user's row becomes what `RolesSyncVisit` stores, the merge reading the user's first link; the roles table gains what the save's `pre_save` creates; when that link is the visited one, the row is `RolesSyncOutcome` |
| RoleCommands.RolesSyncStep | users/management/commands/sync_auth0_roles.py:37-84 | one link: only its user's row changes, to `RolesSyncVisit` of the current row; the roles table becomes `VisitRoles` (the `get_or_create` at 46-56, then the save's); it counts as updated exactly when `--force` is given or the access differs; through the user's first link the result is `RolesSyncOutcome` |
| RoleCommands.SyncAuth0Roles | users/management/commands/sync_auth0_roles.py:22-90 | updated plus skipped is the number of links; the rows, the roles table and the count are those of the walk over the links; with one link per user each linked row becomes `RolesSyncOutcome`, every other row is unchanged |
| RoleCommands.OverrideSticks | users/management/commands/update_auth0_user_role.py:79-82 | the new role is stored, the profile kept, and the user marked manually modified, unless the user is a superuser moved off `admin` |
| RoleCommands.SuperuserKeepsAdmin | users/management/commands/update_auth0_user_role.py:79-82 | a superuser without an Auth0 link keeps `admin` (and superuser) while that role exists, although the command reports the update |
| RoleCommands.DomainOverrideStep | users/management/commands/update_auth0_user_role.py:47-60 | the step is one `DomainVisit`: a user whose email the filter matches and who lacks the role gets it through `save`, which creates the role the user's first link derives, and is counted; any other user is untouched |
| RoleCommands.ExactMatchIgnoringCase | users/management/commands/update_auth0_user_role.py:37-40 | every address PostgreSQL's case-sensitive `endswith` selects, SQLite's case-insensitive one selects too |
| RoleCommands.EnginesDisagreeOnCase | users/management/commands/update_auth0_user_role.py:37-40 | the engines differ: "A@X" matches "@x" on SQLite and not on PostgreSQL |
| RoleCommands.DomainOverride | users/management/commands/update_auth0_user_role.py:35-62 | the rows, roles table and count are those of `DomainRun` over the links, the email filter matching as the database engine does; with one link per user the count is the number of matching Auth0 users without the role, each of them is saved with it, every other row is unchanged |
| RoleCommands.DomainStepRelated | users/management/commands/update_auth0_user_role.py:35-62 | a matching user without the role is saved with it and counted; any other user is left as it was and not counted |
| RoleCommands.DomainVisit | users/management/commands/update_auth0_user_role.py:47-60 | a visit keeps the number of rows, only grows the roles table, and counts one more exactly when the filter matches the user's current email and the user lacks the role |
| RoleCommands.DomainRun | users/management/commands/update_auth0_user_role.py:45-60 | the walk keeps the number of rows, only grows the roles table, and counts at most one per link |
| RoleCommands.DomainRunSnoc | users/management/commands/update_auth0_user_role.py:47-60 | one more link is one more `DomainVisit` |
| RoleCommands.DomainRunDistinct | users/management/commands/update_auth0_user_role.py:45-60 | with one link per user the walk gives every matching user without the role the override, for a roles table containing the one at the start, and counts them |
| RoleCommands.DomainRunDistinctStep | users/management/commands/update_auth0_user_role.py:47-60 | one step of that argument |
| RoleCommands.FindByEmail | users/management/commands/update_auth0_user_role.py:67 | no index exactly when no user has the email; otherwise the index of a user with that email |
| RoleCommands.UpdateAuth0UserRole | users/management/commands/update_auth0_user_role.py:18-92 | an unknown role name and a missing role row are errors that change nothing; the domain mode is `DomainRun` with the filter "@domain" matched as the database engine matches it (ignoring ASCII case on SQLite), and with one link per user one override per matching user; otherwise an unknown email is an error, a user who has the role changes nothing, and any other user is saved with the role |
| RoleCommands.PromotionClosedForm | users/management/commands/update_superuser_roles.py:18-20 | giving a superuser the admin role through `save` always yields admin, staff, superuser and manually modified |
| RoleCommands.PromotedRows | users/management/commands/update_superuser_roles.py:16-22 | visiting users keeps the number of rows |
| RoleCommands.PromotedRowsSnoc | users/management/commands/update_superuser_roles.py:17-22 | visiting one more user promotes it exactly when it needs promotion, leaving the others |
| RoleCommands.PromotionLinkRolesSnoc | users/management/commands/update_superuser_roles.py:17-22 | visiting one more user adds to the created roles exactly the role its first Auth0 link derives, when it is promoted and has a link |
| RoleCommands.PromoteStep | users/management/commands/update_superuser_roles.py:17-22 | a superuser without `admin` is promoted and counted, and the roles table gains what its save's `pre_save` creates; anyone else is untouched and the table unchanged |
| RoleCommands.PromoteCountStep | users/management/commands/update_superuser_roles.py:18-21 | visiting one more user adds one to the count exactly when it needs promotion |
| RoleCommands.PromoteAdvance | users/management/commands/update_superuser_roles.py:16-22 | a loop step keeps the rows and roles table equal to those after visiting the users so far |
| RoleCommands.PromotedRowsComplete | users/management/commands/update_superuser_roles.py:16-22 | once every user is visited, each row is promoted exactly when it needed it, and every superuser has `admin` |
| RoleCommands.PromoteVisit | users/management/commands/update_superuser_roles.py:17-22 | visiting one more user keeps the rows, roles table and count equal to those after the users visited so far |
| RoleCommands.PromoteSuperusers | users/management/commands/update_superuser_roles.py:16-22 | after the walk over every user the rows are the promoted rows, the roles table has gained exactly the roles the promoted users' first Auth0 links derive, and the count is the number of users that needed promotion |
| RoleCommands.UpdateSuperuserRoles | users/management/commands/update_superuser_roles.py:7-30 | a missing admin role is reported and changes neither rows nor roles table; otherwise the count is the number of superusers without `admin`, exactly those are promoted, the roles table gains exactly the roles their first Auth0 links derive, and afterwards every superuser has `admin` |
| ChoiceText.Keys | projects/forms.py:69 | one key per entry, in order, each the entry's first element |
| ChoiceText.NonBlankLinesShape | projects/forms.py:53 | every line kept is non-empty, stripped and free of line breaks |
| ChoiceText.ParseLineShape | projects/forms.py:56-66 | a line without a comma is rejected naming it; every error names the line; an accepted line gives two non-empty stripped halves with a comma-free key |
| ChoiceText.ParsedLines | projects/forms.py:56 | one outcome per line, in order |
| ChoiceText.Collect | projects/forms.py:56-66 | the lines are accepted exactly when each is, and then their values come in line order |
| ChoiceText.ParsedIsWellFormed | projects/forms.py:47-74 | every accepted list is made of non-empty stripped pairs, with comma-free keys, no line breaks and distinct keys |
| ChoiceText.BlankTextIsEmpty | projects/forms.py:49-50 | blank or white-space-only text is the empty list |
| ChoiceText.ParseRenderedLine | projects/forms.py:58-66 | a `"key, display"` line parses back to its pair: labels may hold commas, keys may not |
| ChoiceText.RenderLines | projects/forms.py:36-37 | one `"key, display"` line per pair, in order |
| ChoiceText.RenderedLinesSurvive | projects/forms.py:38-53 | the non-blank lines of a rendered well-formed list are exactly its `"key, display"` lines |
| ChoiceText.RenderedLinesParse | projects/forms.py:56-66 | each rendered line of a well-formed list parses to its pair |
| ChoiceText.RoundTrip | projects/forms.py:33-74 | rendering a well-formed list into the editing text and validating it gives the list back |
| ChoiceText.ReparseIsStable | projects/forms.py:33-74 | saving the editing text of an accepted list unchanged stores the same list |
| ChoiceText.FirstError | projects/forms.py:56-64 | the first rejected line decides the error, whatever follows |
| ChoiceText.LineWithoutCommaRejected | projects/forms.py:58-60 | a non-blank line without a comma, after accepted lines, rejects the text naming that line |
| ChoiceText.RepeatedKeyRejected | projects/forms.py:69-71 | two accepted lines with the same key reject the whole text |
| ChoiceText.ParseEachLine | projects/forms.py:56-66 | the loop returns `Collect` of the line outcomes: the first error, or every pair in line order |
| ChoiceText.CleanChoicesText | projects/forms.py:47-74 | the validation returns `ParseChoiceText` of the text |
| ChoiceText.InitialChoiceText | projects/forms.py:33-38 | an empty list gives no initial text, an entry that is not a pair fails the unpacking, any other list gives its rendering |
| ChoiceLists.DefaultStatusesAreChoices | projects/models.py:32-41 | a new project starts on the first default status key, a new violation on the first violation status key |
| ChoiceLists.StatusChoices | projects/models.py:51-55 | never empty: the type's list when it has one, otherwise the default triple |
| ChoiceLists.FirstMatchWins | projects/models.py:57-62 | the stripped label of the first pair whose non-empty key strips to the status is shown |
| ChoiceLists.NoMatchFallsBack | projects/models.py:63 | with no matching pair the raw status is shown |
| ChoiceLists.KeyShowsItsLabel | projects/models.py:57-63 | for a well-formed stored list each key shows its own label |
| ChoiceLists.TrimEntry | projects/views.py:542-543 | both halves of the entry are stripped |
| ChoiceLists.FirstOfEachKey | projects/views.py:537-549 | the endpoint's list is never longer than the configured list |
| ChoiceLists.FirstOfEachKeyIsClean | projects/views.py:540-549 | every entry kept has two non-empty stripped halves, the keys are distinct, and each comes from an input entry |
| ChoiceLists.FirstOfEachKeyIsComplete | projects/views.py:540-549 | every input key with both halves non-empty after stripping is offered |
| ChoiceLists.FirstOfEachKeyKeepsWellFormed | projects/views.py:540-549 | a list the form accepted comes back from the endpoint unchanged |
| ChoiceLists.StatusChoicesEndpoint | projects/views.py:529-561 | a list with an entry that is not a pair fails; otherwise the answer is the de-duplicated list, or the default triple for a type without one |
| ChoiceLists.EndpointStep | projects/views.py:540-549 | an entry is kept exactly when both stripped halves are non-empty and its key is not yet seen; the seen keys stay the keys of the kept entries |
| ChoiceLists.FormatChoices | projects/forms.py:188-192 | a list with an entry that is not a pair fails; otherwise entries with an empty half are dropped and the rest stripped |
| ChoiceLists.FormattedSnoc | projects/forms.py:188-192 | one more entry adds its stripped form exactly when both raw halves are present, and nothing otherwise |
| ChoiceLists.MilestoneChoicesEndpoint | projects/views.py:566-589 | the four phases for a type without a list; otherwise the formatted list |
| ChoiceLists.StatusFieldChoices | projects/forms.py:184-192 | the project form offers the formatted status list of the project's type (or the default) |
| ChoiceLists.FormattedKeepsWellFormed | projects/forms.py:188-192 | a well-formed list is offered unchanged |
| ChoiceLists.ReplacementsAreKeepable | fix_status_choices.py:46-78 | the two built-in replacement lists pass the keep test |
| ChoiceLists.AccessibilityLabelsCommaFree | fix_status_choices.py:46-53 | no label of the accessibility list contains a comma |
| ChoiceLists.RepairedIsKeepable | fix_status_choices.py:44-79 | every repaired list passes the keep test, and another type's list is kept exactly when it passes |
| ChoiceLists.RepairIsIdempotent | fix_status_choices.py:44-84 | running the repair a second time changes nothing |
| StatusRepair.Resaved | projects/models.py:15-24 | a save with a new status list replaces only that list and fills an empty slug from the name; a set slug is kept |
| StatusRepair.Fixed | fix_status_choices.py:40-87 | after the script a type holds the repaired list of the row it had when listed, its other fields intact; a type neither named `accessibility` nor needing repair is unchanged |
| StatusRepair.FixedAfterFirstStep | fix_status_choices.py:81-87 | a listed type the walk does not save stays as the first step left it; a saved one gets its repaired list |
| StatusRepair.AccessibilityIsRepairedToItsList | fix_status_choices.py:45-53 | a type named exactly `accessibility` is repaired to the accessibility list, whatever list it held |
| StatusRepair.Partial | fix_status_choices.py:40 | while the walk is under way the same types exist |
| StatusRepair.PartialStep | fix_status_choices.py:40-87 | one more visited type replaces exactly that type's row by its repaired row |
| StatusRepair.FixedNeedsNoRepair | fix_status_choices.py:44-84 | after the script every type passes the keep test, and a second run would save nothing |
| StatusRepair.FindTypeNamed | fix_status_choices.py:17 | finds a type with exactly that name, or reports that there is none |
| StatusRepair.SaveWithChoices | fix_status_choices.py:32-33 | a successful save replaces that type's row by `Resaved`; a refused save changes nothing; the other tables are untouched |
| StatusRepair.FirstStep | fix_status_choices.py:16-38 | the type named exactly `accessibility`, if any, gets the accessibility list; every other type is unchanged |
| StatusRepair.RepairOne | fix_status_choices.py:44-87 | the type ends as `Fixed` of its listed row, and is saved exactly when its repaired list differs from the listed one |
| StatusRepair.Walk | fix_status_choices.py:40-87 | every listed type ends repaired, and the ids saved are those needing repair, in listing order |
| StatusRepair.FixStatusChoices | fix_status_choices.py:11-89 | every type ends as `Fixed` of the row it had when listed (so the listing taken before the first step decides the walk), and the saved ids are the types needing repair, in listing order |
| Grouping.FirstSeenKeysShape | projects/views.py:53-59 | the dict holds each key once, and exactly the keys some item has |
| Grouping.ItemKeyIsSeen | projects/views.py:56-58 | every item's key is a key of the dict |
| Grouping.EachItemInOneGroup | projects/views.py:55-59 | every item lands in the list of its own key and in no other |
| Grouping.MembersSnoc | projects/views.py:59 | one more item extends its own key's list and no other |
| Grouping.FirstSeenKeysSnoc | projects/views.py:57-58 | one more item adds its key at the end when the key is new |
| Grouping.UnseenKeyHasNoMembers | projects/views.py:57-58 | a key no item has so far has an empty list |
| Grouping.GroupBy | projects/views.py:53-59 | the keys come in order of first appearance and each key's list holds exactly the items with that key, in their original order |
| Grouping.GroupOrderStep | projects/views.py:53-59 | the key order grows by the item's key exactly when that key has no list yet |
| Grouping.GroupMembersStep | projects/views.py:53-59 | appending the item to its key's list keeps every list equal to the items with that key so far |
| Projects.NewProject | projects/models.py:38-46 | a new project holds the given fields, no assignees, and starts `not_started` |
| Projects.NewProjectViolation | projects/models.py:112-121 | a new project violation holds the given fields, starts `open` and has no location |
| Projects.StripTrailingSpace | projects/models.py:79 | a trailing space never changes what stripping returns |
| Projects.StandardLabelShape | projects/models.py:78-79 | a standard's label is stripped; without a version it is the stripped name; with a stripped name and version it is "name version" |
| Projects.StandardLabelsCanCollide | projects/models.py:78-83 | two standards the (name, version) constraint tells apart can share a label |
| Projects.FilledSlugKeepsSlug | projects/models.py:15-17 | a set slug is never changed, an empty one becomes `slugify(name)`, and filling twice is filling once |
| Projects.ListOrEmpty | projects/models.py:18-23 | a non-empty choice list is kept; a null or empty one becomes `[]` |
| Projects.ProjectTypeInstance.Load | projects/models.py:6-13 | a loaded instance holds the stored row and its key |
| Projects.ProjectTypeInstance.Create | projects/models.py:8-13 | a new instance has no key, an empty slug and empty choice lists |
| Projects.ProjectTypeInstance.PrepareSave | projects/models.py:15-23 | the slug is filled when empty and each null or empty choice list becomes `[]`; nothing else changes |
| Projects.ProjectTypeInstance.FillSlugSignal | projects/signals.py:55-59 | the `pre_save` handler fills an empty slug and changes nothing else |
| Projects.ProjectTypeInstance.SaveBody | projects/models.py:15-24 | before the write the row differs from the instance's only by the filled slug, both choice fields hold lists, and a set slug is kept |
| Projects.TypeWriteKeepsUnique | projects/models.py:8-10 | writing a type whose name and slug no other type holds keeps names and slugs unique |
| Projects.LinkInsertKeepsOne | projects/models.py:141-143 | adding a standard to a project that has none keeps one standard per project |
| Projects.ProjectStore.constructor | projects/models.py:6-192 | an empty database satisfies every constraint |
| Projects.ProjectStore.SaveProjectType | projects/models.py:8-24 | the instance is prepared as `save` does, then inserted or written over its row; a name or slug held by another type is refused and changes nothing |
| Projects.ProjectStore.FreshId | projects/models.py:6 | a new key above every key in use |
| Projects.ProjectStore.AddStandard | projects/models.py:82-83 | a standard is stored exactly when its (name, version) pair is free |
| Projects.ProjectStore.AddViolation | projects/models.py:88-100 | a violation is stored exactly when its standard exists and (standard, name) is free; a missing standard is the reference error |
| Projects.ProjectStore.AddPage | projects/models.py:152-167 | a page is stored exactly when its project exists and (project, name) is free |
| Projects.ProjectStore.AddProject | projects/models.py:39-40 | a project is stored exactly when its type exists |
| Projects.ProjectStore.UpdateProject | projects/models.py:39-40 | an edited project is written over its row exactly when its type exists |
| Projects.ProjectStore.SetAssignees | projects/models.py:46 | the project's assignees become exactly the given users; nothing else changes |
| Projects.ProjectStore.AddProjectViolation | projects/models.py:112-113 | a project violation is stored exactly when its project and violation exist |
| Projects.ProjectStore.AddProjectStandard | projects/models.py:131-143 | a link is stored exactly when its project and standard exist and the project has no standard yet; the latter case is the unique-constraint error |
| Projects.ProjectStore.DeleteProjectType | projects/views.py:513-521 | deleting a type no project uses removes only that type and keeps every constraint |
| ProjectAccess.IssueChecksAreNested | projects/views.py:349-381 | whoever may delete an issue may open its project, whoever may open the project may update its issues, and updating adds exactly the issue's own assignee |
| ProjectAccess.IssueChecksAreStrict | projects/views.py:311-381 | an assigned non-team user may open the project but not delete its issues; an outside assignee may update the issue but not open the project |
| ProjectAccess.ProjectListIsAccessible | projects/views.py:11-22 | every listed project is one the user may open; unfiltered, the team sees all projects and anyone else exactly their assigned ones; a type filter only narrows; an empty filter is none |
| ProjectAccess.AdminProjectsMatchList | projects/admin.py:26-30 | the admin project list equals the unfiltered `project_list` |
| ProjectAccess.StandardsAdminIsAdminOnly | projects/admin.py:45-80 | the standards and violations admin follows the admin role: staff who are not superusers see nothing and change nothing; admins see every row |
| ProjectAccess.AdminIssuesAreUpdatable | projects/admin.py:90-94 | an issue is in the admin list exactly when `project_violation_update` would let the user in |
| ProjectAccess.StaffChangeMoreThanTheySee | projects/admin.py:103-116 | staff may add, change and delete project standards, yet see only the links of projects they are assigned to |
| ProjectForms.UserLabel | projects/forms.py:115-121 | a user missing a first or last name is labelled by email alone |
| ProjectForms.UserLabelShape | projects/forms.py:116-121 | a named user's label is "first last (email)", so two users with the same name get the same label exactly when their emails agree |
| FormFields.ErrorOf | projects/forms.py:47-102 | a field reports an error exactly when its clean step failed, and it is that step's error |
| FormFields.CleanCharField | projects/models.py:38 | an accepted value is the stripped text, no longer than the input, non-empty when the field is required and within `max_length` when there is one |
| FormFields.RequiredRefusesBlank | projects/models.py:38 | a required field refuses exactly the values made only of white space; an optional field without `max_length` accepts every value |
| FormFields.CleanedValueIsFixed | projects/models.py:38 | submitting a cleaned value again gives the same cleaned value |
| ProjectForms.CleanTypeName | projects/models.py:8 | an accepted type name is the stripped name, non-empty and at most 100 characters |
| ProjectForms.TypeFormErrors | projects/forms.py:20-102 | the type form is refused exactly when the name is empty or too long, a choice text does not parse, or the stripped name is taken; each field reports its own error, and the unique check runs only on a name that passed its field |
| ProjectForms.SubmitProjectTypeForm | projects/forms.py:7-112 | the form is refused exactly as `TypeFormErrors` says and then stores nothing; a valid form stores the stripped name and description, the filled slug and the two parsed lists, or fails with the unique error on a slug clash; the stored name is non-empty and at most 100 characters; only the types table changes |
| ProjectForms.SaveTypeWithLists | projects/forms.py:104-112 | the type is stored with the form's fields, the two given lists and the filled slug, or a slug clash leaves the types unchanged with the unique error; other tables are untouched |
| ProjectForms.PickersOverlapOnSuperuserClients | projects/forms.py:155-168 | a user is offered by both pickers exactly when an active superuser holds the client role |
| ProjectForms.ResaveKeepsOfferedAssignees | projects/forms.py:171-182 | re-saving an edit as shown keeps exactly the current assignees some picker offers; inactive ones and ones with role user or no role are dropped |
| ProjectForms.CleanedFields | projects/models.py:38-41 | the client and the type are kept, and the name and the status come back stripped |
| ProjectForms.CleanedFormResubmits | projects/models.py:38-41 | a valid submission's cleaned fields are valid again and clean to themselves; the stored name and status are non-empty and within 200 and 50 characters |
| ProjectForms.AssignUsers | projects/forms.py:200-209 | after the loop the project's assignees are exactly the picked staff and clients; nothing else changes |
| ProjectForms.CreatedRowAsWritten | projects/views.py:86-90 | the row `project_create` stores as written has no assignees |
| ProjectForms.CreatedRow | projects/views.py:86-90 | the intended new row has the picked staff and clients as assignees and the requester as creator |
| ProjectForms.CreateDropsPickedStaff | projects/views.py:86-90 | a staff member picked on the create form is not assigned as written, and is in the intended row |
| ProjectForms.SaveProjectEdit | projects/forms.py:194-211 | an edit writes the form's fields over the row, keeps its creator, and makes the picks the assignees; nothing else changes |
| ProjectForms.SaveNewProject | projects/forms.py:194-211 | the corrected save of `project_create`: a new project gets a fresh key and holds the intended row, with the picks as assignees; nothing else changes |
| ProjectForms.StandardsOfNonEmpty | projects/forms.py:276-278 | a project's standards are non-empty exactly when some link attaches one |
| ProjectForms.OfferedViolations | projects/forms.py:280-282 | every offered violation exists and belongs to one of the project's standards |
| ProjectForms.ViolationDropdown | projects/forms.py:285-293 | the group labels are the standards' labels in order of first appearance, with no repeats; each group holds exactly the offered violations with that label, in table order |
| ProjectForms.CollidingStandardsShareAGroup | projects/forms.py:285-290 | two violations of different standards whose labels coincide land in one group |
| ProjectForms.StandardFieldState | projects/forms.py:316-334 | the field is disabled exactly when a new link is made for a project that already has a standard, and offers nothing exactly when there is no project |
| ProjectViews.ProjectCreate | projects/views.py:69-92 | 403 exactly outside the team; an invalid form exactly when the name or the status is empty or too long, the type is unknown or a pick is not offered; otherwise a fresh project holding the cleaned fields, created by the requester and, as written, with no assignees |
| ProjectViews.ProjectUpdate | projects/views.py:103-125 | 403 outside the team, 404 for an unknown project, a crash when the status list of the project's type holds an entry that is not a pair (projects/forms.py:184-192), an invalid form as for create; otherwise the cleaned fields over the row, creator kept, the picks as assignees |
| ProjectViews.IssuesOf | projects/views.py:49 | every listed issue belongs to the project |
| ProjectViews.ProjectDetail | projects/views.py:35-67 | 404 exactly for an unknown project, 403 exactly when the user may not open it; otherwise the project's issues, grouped by standard exactly when the type supports standards, with standards in order of first appearance and each group holding exactly that standard's issues |
| ProjectViews.IssueListedUnderItsStandard | projects/views.py:52-59 | every issue is listed under its violation's standard and under no other |
| ProjectViews.IntendedIssueViolationOptions | projects/forms.py:273-293 | every accepted violation belongs to one of the project's standards; a type without standards accepts none |
| ProjectViews.ForeignViolationAccepted | projects/forms.py:274-299 | as written, a violation of a standard the project does not have is accepted; the corrected options refuse it |
| ProjectViews.IntendedOptionsNarrowWritten | projects/forms.py:274-306 | the corrected options are a subset of the written ones |
| ProjectViews.AssignableToIssues | projects/forms.py:266-271 | every client the project form offers can be given an issue, and an offered staff member can exactly when it holds a role |
| ProjectViews.ProjectViolationCreate | projects/views.py:306-331 | 404, 403, the "add standards first" refusal and an invalid form each exactly in their case; as written, once the project has a standard any stored violation is accepted, with a status among the choices, a location of at most 255 characters once stripped, a screenshot that is absent or a non-empty image with a name of at most 100 characters, and an assignee that is absent or active with a role; the new issue gets a fresh key, stores the stripped location, and only the issues table changes |
| ProjectViews.LongScreenshotNameRefused | projects/models.py:117 | an upload whose name is longer than 100 characters is refused, whatever its content |
| ProjectViews.IssuesNeedAStandard | projects/views.py:316-321 | a project without a standard is offered no violation, as written and as intended |
| ProjectViews.ProjectStandardCreate | projects/views.py:395-418 | 404, 403, the "already has a standard" refusal and the unknown-standard error each exactly in their case; otherwise one new link; every project keeps at most one standard |
| ProjectViews.StandardCreateFormIsNeverDisabled | projects/views.py:405-411 | the form the create view builds never has its standard field disabled |
| ProjectViews.ProjectTypeDelete | projects/views.py:506-521 | 403 without the admin role, 404 for an unknown type, a refusal exactly while a project uses it; otherwise only that type is removed and every project still has its type |
| AuditTrail.Latest | projects/signals.py:30 | the newest entry of an issue is one of its entries; there is none exactly when the issue has no entry |
| AuditTrail.LatestSnoc | projects/signals.py:30 | an appended entry becomes its issue's newest and leaves every other issue's newest alone |
| AuditTrail.AfterIssueSave | projects/signals.py:16-40 | a save appends at most one entry, after which the issue's newest entry holds its current status; no other issue's newest entry changes |
| AuditTrail.IssueSaveEntries | projects/signals.py:19-40 | a new issue gets one `creation` entry; a re-saved issue gets a `status_change` entry from its newest value (none if it has no entry), and nothing exactly when the newest value is the current status |
| AuditTrail.UnchangedResaveAppendsNothing | projects/signals.py:28-31 | saving again without a status change appends nothing |
| AuditTrail.AfterCommentSave | projects/signals.py:42-53 | exactly one `comment` entry is appended, for the comment's issue and by its author, exactly when the comment is new and attached to an issue; otherwise the log is unchanged |
| AuditTrail.CommentThenResaveLogsStatusChange | projects/signals.py:30-40 | after a comment entry, re-saving the issue with the same status logs a `status_change` from no value |
| AuditTrail.AuditLog.constructor | projects/signals.py:16-53 | the log starts empty |
| AuditTrail.AuditLog.HandleIssueSave | projects/signals.py:16-40 | the log becomes what `AfterIssueSave` gives |
| AuditTrail.AuditLog.HandleCommentSave | projects/signals.py:42-53 | the log becomes what `AfterCommentSave` gives |
| AuditTrail.ProjectViolationInstance.constructor | projects/signals.py:10-14 | the instance holds the given key and time |
| AuditTrail.ProjectViolationInstance.UpdateTimestamps | projects/signals.py:10-14 | only an instance that has a key gets the current time; the key never changes |
| ProjectTags.GetItem | projects/templatetags/project_tags.py:5-10 | nothing for a missing or empty dictionary; otherwise a value exactly when the key is present, and then the stored value |
| ProjectTags.SplitFilter | projects/templatetags/project_tags.py:12-17 | no pieces for a missing or empty value; an error exactly for an empty delimiter; otherwise pieces that join back to the value, one more than the delimiter's occurrences |
| ProjectTags.EmptyValueHasNoPieces | projects/templatetags/project_tags.py:15-16 | on the empty string the filter gives no pieces where a plain split gives one empty piece |
| Coworkers.ParseCoworkerRole | clients/models.py:35-39 | a key names a role exactly when it is one of the three role keys, and then that role's key is the input |
| Coworkers.NewClientCoworker | clients/models.py:47-52 | a new membership is a viewer, pending, with no invitation yet |
| Coworkers.PendingWithToken | clients/views.py:504 | every matched row is pending and holds the token |
| Coworkers.ActivatingConsumesToken | clients/views.py:504-511 | activating a row removes it, and only it, from the pending matches of every token |
| Coworkers.CleanInviteEmail | clients/forms.py:58-71 | "no user" exactly when no user has the email; "already associated" only for a user already linked to the client in any status; otherwise that user, not yet linked |
| Coworkers.CleanInviteEmailWithUniqueEmails | clients/forms.py:58-71 | with unique emails the check refuses exactly the users already associated with the client |
| Coworkers.CoworkerTable.constructor | clients/models.py:56-57 | an empty table keeps the unique pair constraint |
| Coworkers.CoworkerTable.SetInvitation | clients/views.py:486-488 | only the row's token and sending time change |
| Coworkers.CoworkerTable.SendInvitation | clients/models.py:62-71 | the row gets the new token and sending time, keeps its role and status, and the call returns true |
| Coworkers.CoworkerTable.Invite | clients/forms.py:58-86 | refused exactly when the email check fails, with its error and no change; otherwise one new pending row for that user and client with the chosen role and the invitation sent |
| Coworkers.CoworkerTable.AcceptInvitation | clients/views.py:501-511 | "invalid or expired" exactly when no pending row has the token, an error when several do; otherwise the one matching row becomes active and nothing else changes |
| Coworkers.CoworkerTable.UpdateRole | clients/views.py:442-449 | the role changes exactly when the key is one of the three roles; otherwise nothing changes |
| Coworkers.CoworkerTable.Remove | clients/views.py:377-410 | only that row is removed |
| Coworkers.TokenAcceptedOnce | clients/views.py:504-511 | once its only pending row is active, the same token finds nothing |
| Coworkers.NewCoworker | clients/models.py:103-114 | a new coworker record is pending, without an account, with the given client, email, role and token |
| Coworkers.CleanCoworkerEmail | clients/forms.py:102-110 | refused exactly when a client is given and already has a record with that email; otherwise the email itself |
| Coworkers.CleanedCoworkerKeepsUnique | clients/models.py:114-125 | a record saved after the check with an unused token keeps the token and (client, email) constraints |
| Coworkers.InviteKeepsPairsUnique | clients/models.py:56-57 | a membership saved after the invite check keeps the (client, user) pairs unique |
| ClientAccess.AtLeast | clients/views.py:240-244 | a threshold admits exactly the roles ranked at or above it, itself and the coworker admin included |
| ClientAccess.CheckGate | clients/views.py:233-249 | the flag the `has_access` chain builds is exactly the gate: team, point of contact, note author, or an active membership at the threshold |
| ClientAccess.ClientDetailFlags | clients/views.py:99-120 | `has_access` is exactly "may view the client" and `is_admin` exactly "is a client admin" |
| ClientAccess.ThresholdsNested | clients/views.py:235-244 | a coworker admin passes the editor check and an editor the viewer check; a client admin may add notes and view the client |
| ClientAccess.ThresholdsStrict | clients/views.py:109-117 | for an outside user with one active membership, a viewer may open the client but not add notes, an editor may add notes but is not a client admin, and only the admin role makes a client admin |
| ClientAccess.InactiveMembersRefused | clients/views.py:111-117 | a pending or declined membership counts for nothing: only the team and the point of contact pass |
| ClientAccess.AuthorKeepsNote | clients/views.py:269-368 | a note's author may view, edit and delete it; each note check extends the matching client check; a non-author deletes exactly as a client admin |
| ClientAccess.RemoveSelfAlwaysAllowed | clients/views.py:399-401 | a member may always remove their own membership; anyone else needs the admin check |
| ClientAccess.ClientList | clients/views.py:24-56 | the team sees every client; platform role client is refused; anyone else is refused exactly when they have no active membership; the list never names an unknown client |
| ClientAccess.ListedClientsOpen | clients/views.py:38-44 | every listed client's detail page admits the user |
| ClientAccess.ClientRoleRefusedListButNotDetail | clients/views.py:31-34 | a client-role user is refused the list even when the detail page of one of its clients admits them |
| ClientAccess.PocOptionsWithinStaffUsers | clients/forms.py:18-23 | the point-of-contact choices lie within the listed staff users; a superuser without role admin or staff is listed but not offered |
| ClientAccess.ResendInvitation | clients/views.py:459-494 | 404 exactly for an unknown row, 403 exactly for a non-admin of its client; otherwise only the row's token and sending time change |
| ClientAccess.CoworkerUpdate | clients/views.py:417-451 | 404 and 403 as for resend; a valid role key is applied; anything else leaves the row alone |
| ClientAccess.CoworkerDelete | clients/views.py:377-410 | 404 exactly for an unknown row, 403 exactly when the user is neither a client admin nor the member; otherwise only that row is removed |
| ClientAccess.ViewerPostsThroughDetail | clients/views.py:119-149 | as written, an active viewer who may neither add notes nor invite does both through the detail page |
| ClientAccess.DetailAdmitsMatchesViews | clients/views.py:126-149 | with each form behind its own view's check, the page admits a form exactly when that view would, and never more than as written |
| ClientAccess.PostedNote | clients/views.py:130-134 | the saved note belongs to the client and the requester, with a non-empty title of at most 255 characters and non-empty content |
| ClientAccess.NoteOutcome | clients/views.py:127-136 | a note is added exactly when both fields pass; otherwise each field's error is reported |
| ClientAccess.InviteRefusal | clients/forms.py:40-71 | an invite form that does not validate reports the email field's error exactly when `clean_email` fails, and a refused role exactly when the key is not one of `ROLE_CHOICES` |
| ClientAccess.ClientDetail | clients/views.py:94-166 | 404 and 403 exactly in their cases; anyone admitted gets the page with `is_admin`, the note outcome for a note post, and for an invite post either the form's errors (an unknown or missing role key, the email check) with nothing changed or the stored pending row followed by a server error at the success message; the success redirect never happens |
| ClientAccess.IntendedClientDetail | clients/views.py:126-149 | the corrected page: a form the user may not use through its own view shows the page; a note post gives the note outcome; a saved invitation answers with the redirect and never a server error |
| Notifications.AddMissing | perspectivetracker/utils.py:121-124 | the loop's list is the input list followed by each kept, not-yet-present candidate in order |
| Notifications.DefaultRecipients | perspectivetracker/utils.py:116-124 | no address twice; the assignee first when there is one; an address is present exactly when it is the assignee's or a team member's; empty exactly when there is neither |
| Notifications.DefaultRecipientsOrder | perspectivetracker/utils.py:116-124 | with unique team addresses the list is the assignee followed by the team in order, less the assignee |
| Notifications.IssueRecipients | perspectivetracker/utils.py:161-169 | the loop builds exactly the default recipient list |
| Notifications.CommentRecipients | perspectivetracker/utils.py:208-216 | no address twice; present exactly when the assignee's, or a team member's other than the author's |
| Notifications.CommentAuthorSkipped | perspectivetracker/utils.py:211-216 | the author is mailed exactly when they are the assignee; every other address is mailed exactly as in the default list |
| Notifications.CommentRecipientList | perspectivetracker/utils.py:208-216 | the loop builds exactly the comment recipient list |
| Notifications.TaskCompletedRecipients | perspectivetracker/utils.py:509-521 | no address twice; the comment-style list comes first; present exactly when the assignee's, a member's other than the actor's, or the list creator's |
| Notifications.TaskCreatorAlwaysTold | perspectivetracker/utils.py:519-521 | the creator is always mailed, even when acting; an acting member who is neither assignee nor creator is not |
| Notifications.CompletedRecipients | perspectivetracker/utils.py:396-411 | no address twice; the default list comes first; unpublished, it is the default list; published, it adds exactly the coworkers' addresses |
| Notifications.CompletedRecipientList | perspectivetracker/utils.py:396-411 | the loops build exactly the completed-milestone list |
| Notifications.CoworkersOnlyWhenPublished | perspectivetracker/utils.py:405-411 | a coworker outside the team is mailed exactly when the milestone is published |
| Notifications.AdminEmails | perspectivetracker/utils.py:727-734 | an address is listed exactly when some superuser or role-admin user has it |
| Notifications.MergeAdmins | perspectivetracker/utils.py:724-737 | the list keeps its entries and order; it is unchanged unless `receive_all_emails` is set on the first settings row; then it holds exactly its own and the admins' addresses; no duplicate is introduced |
| Notifications.WithCompanyName | perspectivetracker/utils.py:719-721 | the context always has a company name; a given one is kept, otherwise the default is filled in |
| Notifications.Outgoing | perspectivetracker/utils.py:44-48 | nothing is sent exactly when the chosen list (given, else defaults) is empty; a sent list starts with it and, with `receive_all_emails`, holds every admin |
| Notifications.EmptyListSendsNothing | perspectivetracker/utils.py:126-127 | an empty default list sends nothing and answers false, even when admins receive all mail |
| Notifications.WelcomeFor | perspectivetracker/utils.py:866-881 | administrator welcome exactly for superusers; staff welcome exactly for other staff-flagged or role admin or staff users; client welcome exactly for other role-client users; none exactly for the rest |
| Notifications.NormalisedWelcome | perspectivetracker/utils.py:866-873 | after the save handlers have run, role admin gets the administrator welcome and role staff or the staff flag the staff one |
| Notifications.RoleChangeSubject | perspectivetracker/utils.py:993-1005 | the four subjects, chosen by which of the two roles are present, roles printed by name |
| Notifications.RoleChangeSubjectRevealsCase | perspectivetracker/utils.py:993-1005 | equal subjects mean the same roles were present and absent |
| Notifications.ManagerRecipients | perspectivetracker/utils.py:906-914 | the user first, then the current manager exactly when there is one |
| Notifications.ManagerAssignment | perspectivetracker/utils.py:906-944 | the previous manager is mailed first exactly when there was one other than the current; then each recipient in order; the answer is true exactly when every recipient's mail went out |
| Notifications.ManagerMailsNeverEmpty | perspectivetracker/utils.py:943-944 | the loop always has a recipient, so the "no mails" false never arises |

## Left out

- Mail transport (`send_email_with_fallback`'s SMTP and console back ends) and `send_coworker_invitation`: I/O. Whether a mail went out is the parameter `deliver`.
- Templates, URL routing, flash messages and redirect targets: a view's outcome is a tag (refused, not found, form errors, done) rather than an HTTP response.
- The dashboards and `completion_rate`: they read and display data and change no state.
- `uuid4`, `timezone.now` and `slugify`: they become parameters of the operations that use them.
- The writes of the Auth0 domain and client id into `extra_data` (users/pipeline.py:31-32): no modelled rule reads those two keys. The save of the link that follows is modelled, with the `post_save` sync it triggers.
- Concurrency, database transactions and the dispatch machinery of Django signals: each modelled save makes the calls that dispatch would make to the modelled handlers, in file order.
- The issue form's `notes` field and the screenshot file itself: neither is stored in the model, and Pillow's image check is the parameter `opensAsImage`.
- `Issue`, `Comment` and `IssueModification` are not part of projects/models.py. They are modelled with only the fields the signal handlers read, and `modifications.first()` is taken to return the newest entry.
- A milestone status of `published` is not among the declared status choices. The model compares the status string, as the code does.
- `Meta.ordering`: listings are sets. The order of dropdowns and of the issue list is an `order` parameter.
- The writes of `project_delete`, of the standard and violation catalog views, of issue update and delete, and of `project_standard_delete`: only the checks in front of them are modelled.
- `project_type_create` and `project_type_update`: beyond the form (`ProjectForms.SubmitProjectTypeForm`) they only save.
- ProjectViews.ProjectCreate: does not check the client foreign key, because client rows are not part of `ProjectStore`.
- ProjectViews.ProjectUpdate: does not check the client foreign key, for the same reason.
- ClientAccess.ClientDetail: the format check of the invite form's `EmailField` is not modelled; the address is looked up as posted.
- ClientAccess.IntendedClientDetail: the same omission as `ClientAccess.ClientDetail`.
- Accounts.NormalizeEmail: lower-cases ASCII letters only, while Python's `str.lower()` also lower-cases letters of other scripts.
- `manually_modified` and `manager`: users/models.py:54-77 declares neither column on `CustomUser`, yet the signal handlers, the commands, the middleware, the user forms and the manager mail use both (users/signals.py:22, 115, 158; users/management/commands/sync_all_auth0_users.py:61-109; users/forms.py:53, 107; perspectivetracker/utils.py:913). The model takes both as stored columns. The lines below name each member whose contract depends on that schema and what the code does without the columns.
- RoleSync.MarkModified: assumes a stored `manually_modified` column. Without it the flag set at users/signals.py:115 lives only on the instance being saved and is never stored.
- RoleSync.MarkNeverClears: assumes the same column as `RoleSync.MarkModified`.
- RoleSync.MarkUserAsManuallyModified: assumes the same column as `RoleSync.MarkModified`.
- RoleSync.Auth0Merge: assumes the column. Without it, an instance that the first handler did not mark has no such attribute: users/signals.py:158 raises AttributeError, the handler catches it at 208, and no derived field is applied.
- RoleSync.Auth0Update: assumes the column, with the same consequence as `RoleSync.Auth0Merge`.
- RoleSync.MergeDerivedFields: assumes the column, with the same consequence as `RoleSync.Auth0Merge`.
- RoleSync.SyncAuth0OnUserUpdate: assumes the column, with the same consequence as `RoleSync.Auth0Merge`.
- RoleSync.PreSave: assumes the column, with the same consequence as `RoleSync.Auth0Merge`.
- RoleSync.SaveExisting: assumes the column, with the same consequence as `RoleSync.Auth0Merge`.
- RoleSync.UnchangedSaveResyncs: assumes the column. Without it an unchanged resave of an Auth0 user stops at the AttributeError and does not resync.
- RoleSync.EditedRoleSurvives: assumes the column. Without it the edit is kept for that save only, because the in-memory flag is set on the instance, but it is not stored for later syncs.
- Accounts.Directory.Update: stores `PreSave`, so it rests on the same column as `RoleSync.PreSave`.
- Auth0Sync.SyncAuth0User: assumes the column. Without it `hasattr` at users/signals.py:22 is false, so the automatic sync never skips a user.
- Auth0Sync.SyncUser: assumes the column, with the same consequence as `Auth0Sync.SyncAuth0User`.
- Auth0Sync.AutoSyncClosedForm: assumes the column, with the same consequence as `Auth0Sync.SyncAuth0User`.
- Auth0Sync.AutoSyncFreezesUser: assumes the column. Without it no automatic sync is ever skipped, so the freeze it states does not happen.
- Auth0Sync.Auth0SyncMiddleware: assumes the column. Without it the `hasattr` test at users/middleware.py:30 is false.
- LoginPipeline.DefaultRoleMarksManual: assumes the column. Without it the mark is not stored.
- RoleCommands.SyncAllAuth0Users: assumes the column. Without it users/management/commands/sync_all_auth0_users.py:61 raises AttributeError for the first linked user inside the transaction, the handler at 152 reports the error, and nothing is stored.
- RoleCommands.SyncAllStep: assumes the column, with the same consequence as `RoleCommands.SyncAllAuth0Users`.
- RoleCommands.SyncAllSave: assumes the column, with the same consequence as `RoleCommands.SyncAllAuth0Users`.
- RoleCommands.AssignSyncAllFields: assumes the column, with the same consequence as `RoleCommands.SyncAllAuth0Users`.
- RoleCommands.SyncAllSaveClosedForm: assumes the column, with the same consequence as `RoleCommands.SyncAllAuth0Users`.
- RoleCommands.ManuallyModifiedSkippedWithoutForce: assumes the column, with the same consequence as `RoleCommands.SyncAllAuth0Users`.
- RoleCommands.ForcedResetSurvivesOnlyWithoutChange: assumes the column, with the same consequence as `RoleCommands.SyncAllAuth0Users`.
- RoleCommands.RolesSyncSaveClosedForm: assumes the column. Without it the flag that the save raises is not stored.
- RoleCommands.RolesSyncSave: assumes the column, with the same consequence as `RoleCommands.RolesSyncSaveClosedForm`.
- RoleCommands.SyncAuth0Roles: assumes the column, with the same consequence as `RoleCommands.RolesSyncSaveClosedForm`.
- RoleCommands.OverrideSticks: assumes the column. Without it the override is kept by the save that makes it, but the mark is not stored.
- RoleCommands.UpdateAuth0UserRole: assumes the column, with the same consequence as `RoleCommands.OverrideSticks`.
- RoleCommands.ChangedUserSkippedLater: assumes the column. Without it no later link is skipped, because the mark is not stored.
- RoleCommands.VisitedLinkRoleWins: assumes the column, with the same consequence as `RoleCommands.RolesSyncSaveClosedForm`.
- Auth0Sync.AutoSyncSetsLinkRole: assumes the column, with the same consequence as `Auth0Sync.SyncAuth0User`.
- Auth0Sync.SyncInstance: assumes the column, with the same consequence as `Auth0Sync.SyncAuth0User`.
- Notifications.ManagerRecipients: assumes a stored `manager` column. Without it perspectivetracker/utils.py:913 raises AttributeError before any mail goes out.
- Notifications.ManagerAssignment: assumes the same column as `Notifications.ManagerRecipients`.
- Notifications.ManagerMailsNeverEmpty: assumes the same column as `Notifications.ManagerRecipients`.
- Coworkers.CleanInviteEmail: the form's client is always given; the code's branch for a form without a client is not modelled.
- ClientAccess.CheckGate: requires the (client, user) pairs to be unique, which `unique_together` guarantees; the `MultipleObjectsReturned` error is therefore not modelled.
- Coworkers.CoworkerTable.AcceptInvitation: several pending rows with one token are reported as the outcome `MultipleMatches`, where the code raises an uncaught error.
- The redirect choice of `accept_invitation` after activation: presentation only.
- Notifications.MergeAdmins: the code extends the caller's list in place; the model returns a new sequence with the same contents. The path that logs an exception is not modelled.
- `send_project_created_notification`, `send_project_updated_notification` and `send_assignment_notification`: their recipient lists are the assignees' emails as given. Only the sending step (`Notifications.Outgoing`) is modelled.
- `send_role_welcome_email`, the achievement mails and the point-of-contact mails: each goes to one fixed address, so there is no recipient rule to model.
- `Task` and `TaskList` are not part of this model. Only the recipient list of the task mails is modelled.
- Logging and `print` output.
- `AdminSettings.objects.first()`: the "receive all notifications" flag is read from the first settings row, which is a parameter.
- `Auth0SyncMiddleware` is not listed in the installed middleware. It is modelled as a function of the request's user, not as part of the request path.

## Findings

| source | as written | input that shows it | evidently intended | confidence | as-written member | corrected member |
|---|---|---|---|---|---|---|
| projects/views.py:86-90 | `project_create` saves with `commit=False` and then calls `save_m2m()`. `assigned_to` is not in the form's `Meta.fields`, so the staff and client picks are never written. | Any creation that picks at least one staff or client user | The new project is assigned to the picked users, as `ProjectForm.save` does on update | high (not executed) | ProjectForms.CreateDropsPickedStaff | ProjectForms.CreatedRow |
| projects/forms.py:274-306 | When the project has standards, only the dropdown widget is grouped. The field's queryset stays at its default, every violation. | A posted violation id that belongs to a standard the project does not have | Only the violations of the project's standards are accepted | medium (not executed) | ProjectViews.ForeignViolationAccepted | ProjectViews.IntendedIssueViolationOptions |
| clients/views.py:119-149 | `client_detail` handles the note form and the invite form for every user it lets in, viewer coworkers included. | An active viewer coworker who posts a note or an invitation to the client page | Posting through the detail page needs the same rights as `note_create` (editor) and the coworker admin check (admin) | medium (not executed) | ClientAccess.ViewerPostsThroughDetail | ClientAccess.DetailAdmitsMatchesViews |
| clients/views.py:142-149 | After a valid invitation is saved and mailed, the success message reads `coworker.email`. `ClientCoworker` has no `email` field, so the request ends in an AttributeError, a server error, with the row kept. | Any valid invitation posted to the client page | The page redirects with a message naming the invited user's address (`coworker.user.email`) | high (not executed) | ClientAccess.ClientDetail | ClientAccess.IntendedClientDetail |

=== FILE: accounts.dfy ===
/**
 * The stored users, the Role table and the Auth0 links, with the user
 * manager (`create_user`, `create_superuser`) and `CustomUser.save` as it
 * runs together with the `pre_save` handlers (users/models.py,
 * users/signals.py).
 */
module Accounts {
  import opened Wrappers
  import opened Text
  import opened Users
  import opened RoleSync

  /** A `UserSocialAuth` row with provider auth0: the linked user and the `roles` of its extra data. */
  datatype Auth0Link = Auth0Link(user: nat, roles: seq<string>)

  /** The Auth0 roles of the first link of user `uid`, if the user has one. */
  function LinkRoles(links: seq<Auth0Link>, uid: nat): (r: Option<seq<string>>)
    ensures r.None? <==> forall k | 0 <= k < |links| :: links[k].user != uid
    ensures r.Some? ==> exists k | 0 <= k < |links| :: links[k] == Auth0Link(uid, r.value)
  {
    if links == [] then None
    else if links[0].user == uid then Some(links[0].roles)
    else LinkRoles(links[1..], uid)
  }

  /**
   * Every user has at most one Auth0 link. Nothing in the schema guarantees
   * it: the `(provider, uid)` pair is unique, but `associate_by_email` in the
   * login pipeline attaches a second Auth0 identity with the same email to the
   * existing user. The model allows several links per user; this predicate is
   * the hypothesis under which the commands' results take a per-user form.
   */
  predicate DistinctUsers(links: seq<Auth0Link>) {
    forall i, j | 0 <= i < j < |links| :: links[i].user != links[j].user
  }

  /** With one link per user, the link found for a user is that user's link. */
  lemma {:induction false} LinkRolesOfLink(links: seq<Auth0Link>, k: nat)
    requires k < |links|
    requires DistinctUsers(links)
    ensures LinkRoles(links, links[k].user) == Some(links[k].roles)
  {
    if k > 0 {
      assert links[0].user != links[k].user;
      LinkRolesOfLink(links[1..], k - 1);
    }
  }

  /** Looking a user up in a prefix that grows by one link. */
  lemma {:induction false} LinkRolesSnoc(links: seq<Auth0Link>, l: Auth0Link, uid: nat)
    ensures LinkRoles(links + [l], uid) ==
      if LinkRoles(links, uid).Some? then LinkRoles(links, uid)
      else if l.user == uid then Some(l.roles) else None
  {
    if links != [] {
      assert (links + [l])[1..] == links[1..] + [l];
      LinkRolesSnoc(links[1..], l, uid);
    }
  }

  /**
   * `BaseUserManager.normalize_email`: when the stripped address holds an
   * `@`, its local part is kept and the domain after the last `@` is
   * lower-cased; otherwise the address is returned as given.
   */
  function NormalizeEmail(email: string): (r: string)
    ensures '@' !in Strip(email) ==> r == email
    ensures '@' in Strip(email) ==> |r| == |Strip(email)| && '@' in r
  {
    var s := Strip(email);
    if '@' in s then
      var at := LastIndexOf(s, '@');
      s[..at] + "@" + Lower(s[at + 1..])
    else email
  }

  /** A lower-cased string holds an `@` only where the original did. */
  lemma LowerKeepsAt(d: string)
    requires '@' !in d
    ensures '@' !in Lower(d)
    ensures forall k | 0 <= k < |Lower(d)| :: !('A' <= Lower(d)[k] <= 'Z')
  {
    var l := Lower(d);
    forall k | 0 <= k < |l| ensures l[k] != '@' {
      assert d[k] != '@';
    }
  }

  /** A stripped address whose domain has one `@` before it and no upper case is already normalized. */
  lemma NormalizedFixed(name: string, dom: string)
    requires '@' !in dom && forall k | 0 <= k < |dom| :: !('A' <= dom[k] <= 'Z')
    requires IsStripped(name + "@" + dom)
    ensures NormalizeEmail(name + "@" + dom) == name + "@" + dom
  {
    var r := name + "@" + dom;
    StripOfStripped(r);
    assert r[|name|] == '@';
    var at := LastIndexOf(r, '@');
    assert at == |name|;
    assert r[..at] == name;
    assert r[at + 1..] == dom;
    LowerOfLower(dom);
  }

  /** Rewriting the domain of a stripped address in lower case keeps it stripped. */
  lemma LowerDomainStripped(s: string, at: nat)
    requires at < |s| && s[at] == '@' && IsStripped(s)
    ensures IsStripped(s[..at] + "@" + Lower(s[at + 1..]))
  {
    var dom := s[at + 1..];
    var r := s[..at] + "@" + Lower(dom);
    assert r[0] == if at == 0 then '@' else s[0];
    if dom != [] {
      assert r[|r| - 1] == Lower(dom)[|dom| - 1];
      assert dom[|dom| - 1] == s[|s| - 1];
    }
  }

  /** A normalized address normalizes to itself, so the unique check sees one spelling per address. */
  lemma NormalizeEmailIdempotent(email: string)
    ensures NormalizeEmail(NormalizeEmail(email)) == NormalizeEmail(email)
  {
    var s := Strip(email);
    if '@' in s {
      var at := LastIndexOf(s, '@');
      LowerKeepsAt(s[at + 1..]);
      LowerDomainStripped(s, at);
      NormalizedFixed(s[..at], Lower(s[at + 1..]));
    }
  }

  datatype CreateError = EmailRequired | NotStaff | NotSuperuser | DuplicateEmail

  /** No stored user has this email (the unique constraint on `email`). */
  predicate EmailFree(rows: seq<User>, email: string) {
    forall i | 0 <= i < |rows| :: rows[i].email != email
  }

  class Directory {
    /** The `CustomUser` table; a user's primary key is its index. */
    var rows: seq<User>
    /** The rows of the Role table. */
    var roles: set<RoleName>
    /** The Auth0 `UserSocialAuth` rows. */
    var links: seq<Auth0Link>

    ghost predicate Valid()
      reads this
    {
      (forall i | 0 <= i < |rows| :: rows[i].id == i)
      && (forall i, j | 0 <= i < j < |rows| :: rows[i].email != rows[j].email)
      && (forall k | 0 <= k < |links| :: links[k].user < |rows|)
    }

    constructor (roles: set<RoleName>)
      ensures Valid() && rows == [] && links == [] && this.roles == roles
    {
      rows := [];
      this.roles := roles;
      links := [];
    }

    /** The insert branch of `save`, after the superuser rule (new instances skip every `pre_save` handler). */
    method Insert(inst: UserInstance) returns (ok: bool)
      requires Valid() && inst.pk.None?
      modifies this, inst
      ensures Valid() && links == old(links) && roles == old(roles)
      ensures inst.email == old(inst.email)
      ensures ok <==> EmailFree(old(rows), inst.email)
      ensures ok ==>
        inst.pk == Some(|old(rows)|)
        && rows == old(rows) + [old(inst.Value()).(id := |old(rows)|)]
        && inst.Value() == rows[|old(rows)|]
      ensures !ok ==> rows == old(rows) && inst.Value() == old(inst.Value())
    {
      if !EmailFree(rows, inst.email) {
        return false;
      }
      inst.pk := Some(|rows|);
      rows := rows + [inst.Value()];
      return true;
    }

    /** The update branch of `save`: the three `pre_save` handlers in file order, then the write. */
    method Update(inst: UserInstance)
      requires Valid()
      requires inst.pk.Some? && inst.pk.value < |rows| && inst.email == rows[inst.pk.value].email
      modifies this, inst
      ensures Valid() && links == old(links) && inst.pk == old(inst.pk)
      ensures rows == old(rows)[inst.pk.value := PreSave(old(inst.Value()), Some(old(rows)[inst.pk.value]), LinkRoles(links, inst.pk.value))]
      ensures roles == RolesAfterPreSave(old(roles), LinkRoles(links, inst.pk.value))
      ensures inst.Value() == rows[inst.pk.value]
    {
      var pk := inst.pk.value;
      var stored := Some(rows[pk]);
      var link := LinkRoles(links, pk);
      ghost var before := inst.Value();
      EnsureAdminStaffStatus(inst);
      MarkUserAsManuallyModified(inst, stored);
      var ensured := SyncAuth0OnUserUpdate(inst, stored, link);
      assert inst.Value() == PreSave(before, stored, link);
      if ensured.Some? {
        roles := roles + {ensured.value};
      }
      rows := rows[pk := inst.Value()];
    }

    /**
     * `CustomUser.save`: the superuser rule, then (for an instance that has a
     * primary key) the three `pre_save` handlers, then the insert or update.
     * An insert whose email is taken fails with the unique constraint.
     */
    method Save(inst: UserInstance) returns (ok: bool)
      requires Valid()
      requires inst.pk.Some? ==> inst.pk.value < |rows| && inst.email == rows[inst.pk.value].email
      modifies this, inst
      ensures Valid() && links == old(links)
      ensures inst.email == old(inst.email)
      ensures old(inst.pk).Some? ==>
        ok && inst.pk == old(inst.pk)
        && rows == old(rows)[inst.pk.value := SaveExisting(old(inst.Value()), Some(old(rows)[inst.pk.value]), old(roles), LinkRoles(links, inst.pk.value))]
        && roles == RolesAfterPreSave(old(roles), LinkRoles(links, inst.pk.value))
        && inst.Value() == rows[inst.pk.value]
      ensures old(inst.pk).None? ==>
        roles == old(roles)
        && (ok <==> EmailFree(old(rows), inst.email))
        && (ok ==> inst.pk == Some(|old(rows)|)
                   && rows == old(rows) + [SuperuserAdminRole(old(inst.Value()), roles).(id := |old(rows)|)]
                   && inst.Value() == rows[|old(rows)|])
        && (!ok ==> rows == old(rows))
    {
      if inst.isSuperuser && inst.role != Some(Admin) && Admin in roles {
        inst.role := Some(Admin);
      }
      assert inst.Value() == SuperuserAdminRole(old(inst.Value()), roles);
      if inst.pk.None? {
        ok := Insert(inst);
      } else {
        Update(inst);
        ok := true;
      }
    }


    /** `save` of an instance loaded from its row (the commands and signal handlers). */
    method SaveLoaded(inst: UserInstance)
      requires Valid()
      requires inst.pk.Some? && inst.pk.value < |rows| && inst.email == rows[inst.pk.value].email
      modifies this, inst
      ensures Valid() && links == old(links) && old(roles) <= roles && inst.pk == old(inst.pk)
      ensures rows == old(rows)[inst.pk.value := SaveExisting(old(inst.Value()), Some(old(rows)[inst.pk.value]), old(roles), LinkRoles(links, inst.pk.value))]
      ensures roles == RolesAfterPreSave(old(roles), LinkRoles(links, inst.pk.value))
      ensures inst.Value() == rows[inst.pk.value]
    {
      var _ := Save(inst);
    }

    /**
     * `create_user`: an empty email is refused; the new user is saved once,
     * under its normalized email, and a taken normalized email fails.
     */
    method CreateUser(email: string, role: Option<RoleName>, isStaff: bool, isSuperuser: bool)
      returns (r: Result<UserInstance, CreateError>)
      requires Valid()
      modifies this
      ensures Valid() && links == old(links) && roles == old(roles)
      ensures email == [] ==> r == Err(EmailRequired) && rows == old(rows)
      ensures email != [] && !EmailFree(old(rows), NormalizeEmail(email)) ==> r == Err(DuplicateEmail) && rows == old(rows)
      ensures email != [] && EmailFree(old(rows), NormalizeEmail(email)) ==>
        r.Ok? && fresh(r.value) && r.value.pk == Some(|old(rows)|)
        && rows == old(rows) + [SuperuserAdminRole(User(|old(rows)|, NormalizeEmail(email), "", "", role, isStaff, isSuperuser, true, false), roles)]
        && r.value.Value() == rows[|old(rows)|]
    {
      if email == [] {
        return Err(EmailRequired);
      }
      var user := new UserInstance.Create(NormalizeEmail(email), role, isStaff, isSuperuser);
      var ok := Save(user);
      if !ok {
        return Err(DuplicateEmail);
      }
      return Ok(user);
    }

    /**
     * `create_superuser`: `is_staff` and `is_superuser` default to True and
     * anything else is refused; the user gets the admin role when it exists.
     */
    method CreateSuperuser(email: string, isStaff: Option<bool>, isSuperuser: Option<bool>, role: Option<RoleName>)
      returns (r: Result<UserInstance, CreateError>)
      requires Valid()
      modifies this
      ensures Valid() && links == old(links) && roles == old(roles)
      ensures isStaff == Some(false) ==> r == Err(NotStaff) && rows == old(rows)
      ensures isStaff != Some(false) && isSuperuser == Some(false) ==> r == Err(NotSuperuser) && rows == old(rows)
      ensures isStaff != Some(false) && isSuperuser != Some(false) && email == [] ==> r == Err(EmailRequired) && rows == old(rows)
      ensures isStaff != Some(false) && isSuperuser != Some(false) && email != [] && !EmailFree(old(rows), NormalizeEmail(email))
        ==> r == Err(DuplicateEmail) && rows == old(rows)
      ensures r.Ok? ==>
        |rows| == |old(rows)| + 1 && rows[..|old(rows)|] == old(rows)
        && (var u := rows[|old(rows)|];
            u.email == NormalizeEmail(email) && u.isStaff && u.isSuperuser && !u.manuallyModified
            && (Admin in roles ==> u.role == Some(Admin))
            && (Admin !in roles ==> u.role == role))
      ensures isStaff != Some(false) && isSuperuser != Some(false) && email != [] && EmailFree(old(rows), NormalizeEmail(email)) ==> r.Ok?
    {
      var staff := if isStaff.None? then true else isStaff.value;
      var superuser := if isSuperuser.None? then true else isSuperuser.value;
      if staff != true {
        return Err(NotStaff);
      }
      if superuser != true {
        return Err(NotSuperuser);
      }
      r := CreateUser(email, role, staff, superuser);
      if r.Err? {
        return r;
      }
      var user := r.value;
      var pk := user.pk.value;
      if Admin in roles {
        user.role := Some(Admin);
        assert LinkRoles(links, pk).None?;
        var _ := Save(user);
      }
    }
  }
}

=== FILE: audit_trail.dfy ===
/**
 * The audit trail kept by the signal handlers of projects/signals.py: every
 * saved issue and every new comment on an issue may append an
 * `IssueModification` entry. The log is kept oldest first, so the entry
 * `issue.modifications.first()` returns (the newest) is the last entry of
 * that issue. `Issue` and `Comment` rows are not defined in the model
 * module; only the fields the handlers read are kept here.
 */
module AuditTrail {
  import opened Wrappers

  /** `modification_type`. */
  datatype ModificationKind = Creation | StatusChange | CommentAdded

  /** One `IssueModification` row. */
  datatype Modification = Modification(
    issue: nat,
    milestone: Option<nat>,
    modifiedBy: Option<nat>,
    kind: ModificationKind,
    previousValue: Option<string>,
    newValue: Option<string>,
    comment: Option<nat>)

  /** The fields of an `Issue` that the handlers read. */
  datatype Issue = Issue(id: nat, milestone: Option<nat>, createdBy: Option<nat>, currentStatus: string)

  /** The fields of a `Comment` that the handler reads; `issue` is the issue it is attached to, if any. */
  datatype Comment = Comment(id: nat, issue: Option<Issue>, createdBy: Option<nat>)

  /** The newest entry of an issue, if it has any. */
  function Latest(entries: seq<Modification>, issue: nat): (r: Option<Modification>)
    ensures r.Some? ==> r.value in entries && r.value.issue == issue
    ensures r.None? <==> forall m | m in entries :: m.issue != issue
    decreases |entries|
  {
    if entries == [] then None
    else if entries[|entries| - 1].issue == issue then Some(entries[|entries| - 1])
    else
      var init := entries[..|entries| - 1];
      assert entries == init + [entries[|entries| - 1]];
      Latest(init, issue)
  }

  /** One more entry becomes the newest of its issue and leaves the others' newest alone. */
  lemma LatestSnoc(entries: seq<Modification>, m: Modification, issue: nat)
    ensures Latest(entries + [m], issue) == (if m.issue == issue then Some(m) else Latest(entries, issue))
  {
    assert (entries + [m])[..|entries|] == entries;
  }

  /** The entry `handle_issue_save` writes, if any. */
  function IssueSaveEntry(entries: seq<Modification>, issue: Issue, created: bool): Option<Modification> {
    if created then
      Some(Modification(issue.id, issue.milestone, issue.createdBy, Creation, None, Some(issue.currentStatus), None))
    else
      var latest := Latest(entries, issue.id);
      if latest.None? || latest.value.newValue != Some(issue.currentStatus) then
        Some(Modification(issue.id, issue.milestone, issue.createdBy, StatusChange,
                          if latest.Some? then latest.value.newValue else None,
                          Some(issue.currentStatus), None))
      else None
  }

  /** The log after `handle_issue_save`. */
  function AfterIssueSave(entries: seq<Modification>, issue: Issue, created: bool): (r: seq<Modification>)
    ensures entries <= r && |r| <= |entries| + 1
    ensures Latest(r, issue.id).Some? && Latest(r, issue.id).value.newValue == Some(issue.currentStatus)
    ensures forall j | j != issue.id :: Latest(r, j) == Latest(entries, j)
  {
    var e := IssueSaveEntry(entries, issue, created);
    if e.Some? then
      assert e.value.issue == issue.id;
      forall j ensures Latest(entries + [e.value], j) == (if e.value.issue == j then Some(e.value) else Latest(entries, j)) {
        LatestSnoc(entries, e.value, j);
      }
      entries + [e.value]
    else entries
  }

  /**
   * What each save writes: a new issue gets exactly one `creation` entry
   * holding its status; a re-saved issue gets a `status_change` entry from
   * its newest entry's value when it has no entry yet or that value differs
   * from the current status, and nothing otherwise.
   */
  lemma IssueSaveEntries(entries: seq<Modification>, issue: Issue, created: bool)
    ensures created ==> (AfterIssueSave(entries, issue, created) ==
      entries + [Modification(issue.id, issue.milestone, issue.createdBy, Creation, None, Some(issue.currentStatus), None)])
    ensures !created && Latest(entries, issue.id).None? ==> (AfterIssueSave(entries, issue, created) ==
      entries + [Modification(issue.id, issue.milestone, issue.createdBy, StatusChange, None, Some(issue.currentStatus), None)])
    ensures (!created && Latest(entries, issue.id).Some? && Latest(entries, issue.id).value.newValue != Some(issue.currentStatus))
      ==> (AfterIssueSave(entries, issue, created) ==
        entries + [Modification(issue.id, issue.milestone, issue.createdBy, StatusChange,
                                Latest(entries, issue.id).value.newValue, Some(issue.currentStatus), None)])
    ensures !created ==> (AfterIssueSave(entries, issue, created) == entries <==>
      Latest(entries, issue.id).Some? && Latest(entries, issue.id).value.newValue == Some(issue.currentStatus))
  {
  }

  /** Saving an issue again without changing its status appends nothing. */
  lemma UnchangedResaveAppendsNothing(entries: seq<Modification>, issue: Issue, created: bool)
    ensures AfterIssueSave(AfterIssueSave(entries, issue, created), issue, false) == AfterIssueSave(entries, issue, created)
  {
  }

  /** The log after `handle_comment_save`. */
  function AfterCommentSave(entries: seq<Modification>, c: Comment, created: bool): (r: seq<Modification>)
    ensures entries <= r
    ensures |r| == |entries| + 1 <==> created && c.issue.Some?
    ensures r == entries <==> !(created && c.issue.Some?)
    ensures created && c.issue.Some? ==> (r[|entries|].kind == CommentAdded && r[|entries|].issue == c.issue.value.id
      && r[|entries|].comment == Some(c.id) && r[|entries|].modifiedBy == c.createdBy && r[|entries|].newValue == None)
  {
    if created && c.issue.Some? then
      entries + [Modification(c.issue.value.id, c.issue.value.milestone, c.createdBy, CommentAdded, None, None, Some(c.id))]
    else entries
  }

  /**
   * A comment entry carries no value, so once a comment is the newest
   * entry of an issue the next save of that issue appends a
   * `status_change` entry from no value, even though its status is the one
   * it had.
   */
  lemma CommentThenResaveLogsStatusChange(entries: seq<Modification>, issue: Issue, created: bool, c: Comment)
    requires c.issue == Some(issue)
    ensures var logged := AfterCommentSave(AfterIssueSave(entries, issue, created), c, true);
      AfterIssueSave(logged, issue, false) ==
        logged + [Modification(issue.id, issue.milestone, issue.createdBy, StatusChange, None, Some(issue.currentStatus), None)]
  {
    var saved := AfterIssueSave(entries, issue, created);
    var m := Modification(issue.id, issue.milestone, c.createdBy, CommentAdded, None, None, Some(c.id));
    LatestSnoc(saved, m, issue.id);
  }

  /** The `IssueModification` table. The handlers only ever append to it. */
  class AuditLog {
    var entries: seq<Modification>

    /** An empty log. */
    constructor ()
      ensures entries == []
    {
      entries := [];
    }

    /** `handle_issue_save`, run after an issue is saved. */
    method HandleIssueSave(issue: Issue, created: bool)
      modifies this
      ensures entries == AfterIssueSave(old(entries), issue, created)
    {
      if created {
        entries := entries + [Modification(issue.id, issue.milestone, issue.createdBy, Creation, None,
                                           Some(issue.currentStatus), None)];
      } else {
        var latest := Latest(entries, issue.id);
        if latest.None? || latest.value.newValue != Some(issue.currentStatus) {
          var previous := if latest.Some? then latest.value.newValue else None;
          entries := entries + [Modification(issue.id, issue.milestone, issue.createdBy, StatusChange, previous,
                                             Some(issue.currentStatus), None)];
        }
      }
    }

    /** `handle_comment_save`, run after a comment is saved. */
    method HandleCommentSave(c: Comment, created: bool)
      modifies this
      ensures entries == AfterCommentSave(old(entries), c, created)
    {
      if created && c.issue.Some? {
        var issue := c.issue.value;
        entries := entries + [Modification(issue.id, issue.milestone, c.createdBy, CommentAdded, None, None, Some(c.id))];
      }
    }
  }

  /** A `ProjectViolation` instance as the pre-save handler sees it. */
  class ProjectViolationInstance {
    var pk: Option<nat>
    var updatedAt: nat

    constructor (pk: Option<nat>, updatedAt: nat)
      ensures this.pk == pk && this.updatedAt == updatedAt
    {
      this.pk := pk;
      this.updatedAt := updatedAt;
    }

    /** `update_violation_timestamps`: only a row that already exists gets the current time. */
    method UpdateTimestamps(now: nat)
      modifies this
      ensures pk == old(pk)
      ensures old(pk).Some? ==> updatedAt == now
      ensures old(pk).None? ==> updatedAt == old(updatedAt)
    {
      if pk.Some? {
        updatedAt := now;
      }
    }
  }
}

=== FILE: auth0_sync.dfy ===
/**
 * The automatic Auth0 role syncs: the `post_save` handler on Auth0 links
 * (`sync_auth0_user`, users/signals.py) and `Auth0SyncMiddleware`
 * (users/middleware.py). Both skip manually-modified users, derive the
 * access from the Auth0 roles, and save only when it differs; the save then
 * runs the `pre_save` handlers.
 */
module Auth0Sync {
  import opened Wrappers
  import opened Users
  import opened RoleSync
  import opened Accounts

  /**
   * The row an automatic sync leaves for `u`, syncing the Auth0 roles
   * `auth0Roles`; `first` holds the Auth0 roles of the user's first link,
   * which the `pre_save` merge of the save reads.
   */
  function AutoSyncOutcome(u: User, auth0Roles: seq<string>, first: Option<seq<string>>, roles: set<RoleName>): User {
    AutoSyncRow(u, u, auth0Roles, first, roles)
  }

  /**
   * The stored row after an automatic sync of the instance `u` whose row
   * holds `stored`: the handler reads the instance, and saves it only when
   * its access differs from the derived one.
   */
  function AutoSyncRow(u: User, stored: User, auth0Roles: seq<string>, first: Option<seq<string>>, roles: set<RoleName>): User {
    var a := DeriveAccess(auth0Roles);
    if u.manuallyModified || HasAccess(u, a) then stored
    else SaveExisting(Normalise(WithAccess(u, a)), Some(stored), roles + {a.role}, first)
  }

  /** The roles table after an automatic sync: the derived role, and what the save's `pre_save` creates. */
  function AutoSyncRoles(u: User, auth0Roles: seq<string>, first: Option<seq<string>>, roles: set<RoleName>): (r: set<RoleName>)
    ensures roles <= r
    ensures !u.manuallyModified ==> DeriveAccess(auth0Roles).role in r
  {
    var a := DeriveAccess(auth0Roles);
    if u.manuallyModified then roles
    else if HasAccess(u, a) then roles + {a.role}
    else RolesAfterPreSave(roles + {a.role}, first)
  }

  /**
   * An automatic sync through the user's first link that changes anything
   * stores the derived access and, through `mark_user_as_manually_modified`,
   * also sets `manually_modified`.
   */
  lemma {:induction false} AutoSyncClosedForm(u: User, auth0Roles: seq<string>, roles: set<RoleName>)
    ensures AutoSyncOutcome(u, auth0Roles, Some(auth0Roles), roles) ==
      if u.manuallyModified || HasAccess(u, DeriveAccess(auth0Roles)) then u
      else WithAccess(u, DeriveAccess(auth0Roles)).(manuallyModified := true)
  {
    var a := DeriveAccess(auth0Roles);
    if !u.manuallyModified && !HasAccess(u, a) {
      var w := WithAccess(u, a);
      DerivedAccessNormalised(u, auth0Roles);
      NormaliseFixesExactlyNormalised(w);
      assert SuperuserAdminRole(w, roles + {a.role}) == w;
      var m := MarkModified(w, Some(u));
      assert m == w.(manuallyModified := true);
      assert Auth0Merge(m, Some(u), a) == m;
      NormaliseFixesExactlyNormalised(m);
    }
  }

  /**
   * Through any link, an automatic sync that changes a user stores the
   * role that link derives and marks the user, since the `pre_save` merge
   * keeps the fields the sync changed.
   */
  lemma {:induction false} AutoSyncSetsLinkRole(u: User, auth0Roles: seq<string>, first: Option<seq<string>>, roles: set<RoleName>)
    requires !u.manuallyModified && u.role != Some(DeriveAccess(auth0Roles).role)
    ensures AutoSyncOutcome(u, auth0Roles, first, roles).role == Some(DeriveAccess(auth0Roles).role)
    ensures AutoSyncOutcome(u, auth0Roles, first, roles).manuallyModified
  {
    var a := DeriveAccess(auth0Roles);
    var w := WithAccess(u, a);
    DerivedAccessNormalised(u, auth0Roles);
    NormaliseFixesExactlyNormalised(w);
    assert SuperuserAdminRole(w, roles + {a.role}) == w;
    var m := MarkModified(w, Some(u));
    assert m.manuallyModified && m.role == w.role;
    if first.Some? {
      assert Auth0Merge(m, Some(u), DeriveAccess(first.value)).role == w.role;
    }
  }

  /**
   * The first automatic sync that changes a user also freezes it: every later
   * automatic sync skips the user, through whichever link and whatever its
   * Auth0 roles have become.
   */
  lemma {:induction false} AutoSyncFreezesUser(u: User, r1: seq<string>, first1: Option<seq<string>>, roles1: set<RoleName>,
                                                r2: seq<string>, first2: Option<seq<string>>, roles2: set<RoleName>)
    requires !u.manuallyModified && !HasAccess(u, DeriveAccess(r1))
    ensures AutoSyncOutcome(u, r1, first1, roles1).manuallyModified
    ensures AutoSyncOutcome(AutoSyncOutcome(u, r1, first1, roles1), r2, first2, roles2) == AutoSyncOutcome(u, r1, first1, roles1)
  {
    var a := DeriveAccess(r1);
    var w := WithAccess(u, a);
    DerivedAccessNormalised(u, r1);
    NormaliseFixesExactlyNormalised(w);
    assert SuperuserAdminRole(w, roles1 + {a.role}) == w;
    assert AccessChanged(u, w);
  }

  /** The sync both paths share, run on the instance `user`, syncing the Auth0 roles `auth0Roles`. */
  method SyncInstance(d: Directory, user: UserInstance, auth0Roles: seq<string>)
    requires d.Valid()
    requires user.pk.Some? && user.pk.value < |d.rows| && user.email == d.rows[user.pk.value].email
    modifies d, user
    ensures d.Valid() && d.links == old(d.links) && user.pk == old(user.pk)
    ensures var uid := user.pk.value;
      d.rows == old(d.rows)[uid := AutoSyncRow(old(user.Value()), old(d.rows)[uid], auth0Roles, LinkRoles(d.links, uid), old(d.roles))]
      && d.roles == AutoSyncRoles(old(user.Value()), auth0Roles, LinkRoles(d.links, uid), old(d.roles))
  {
    if user.manuallyModified {
      return;
    }
    ghost var u := user.Value();
    var newRole, isStaff, isSuperuser := DeriveFields(auth0Roles);
    ghost var a := Access(newRole, isStaff, isSuperuser);
    d.roles := d.roles + {newRole};
    if user.role != Some(newRole) || user.isStaff != isStaff || user.isSuperuser != isSuperuser {
      assert !HasAccess(u, a);
      user.role := Some(newRole);
      user.isStaff := isStaff;
      user.isSuperuser := isSuperuser;
      assert user.Value() == WithAccess(u, a);
      NormaliseInstance(user);
      assert user.Value() == Normalise(WithAccess(u, a));
      var _ := d.Save(user);
    } else {
      assert HasAccess(u, a);
    }
  }

  /** The sync on the user's current row, syncing the Auth0 roles `auth0Roles`. */
  method SyncUser(d: Directory, uid: nat, auth0Roles: seq<string>)
    requires d.Valid() && uid < |d.rows|
    modifies d
    ensures d.Valid() && d.links == old(d.links)
    ensures d.rows == old(d.rows)[uid := AutoSyncOutcome(old(d.rows)[uid], auth0Roles, LinkRoles(d.links, uid), old(d.roles))]
    ensures d.roles == AutoSyncRoles(old(d.rows)[uid], auth0Roles, LinkRoles(d.links, uid), old(d.roles))
  {
    var user := new UserInstance.Load(d.rows[uid]);
    SyncInstance(d, user, auth0Roles);
  }

  /**
   * `sync_auth0_user`: the `post_save` handler for the Auth0 link
   * `d.links[k]`. With one link per user the save's merge reads the same
   * link, and the handler stores the derived access and marks the user.
   */
  method SyncAuth0User(d: Directory, k: nat)
    requires d.Valid() && k < |d.links|
    modifies d
    ensures d.Valid() && d.links == old(d.links)
    ensures var uid := d.links[k].user;
      d.rows == old(d.rows)[uid := AutoSyncOutcome(old(d.rows)[uid], d.links[k].roles, LinkRoles(d.links, uid), old(d.roles))]
      && d.roles == AutoSyncRoles(old(d.rows)[uid], d.links[k].roles, LinkRoles(d.links, uid), old(d.roles))
    ensures DistinctUsers(d.links) ==> LinkRoles(d.links, d.links[k].user) == Some(d.links[k].roles)
  {
    var link := d.links[k];
    assert LinkRoles(d.links, link.user).Some?;
    SyncUser(d, link.user, link.roles);
    if DistinctUsers(d.links) {
      LinkRolesOfLink(d.links, k);
    }
  }

  /**
   * `Auth0SyncMiddleware.__call__`: the response is produced first, from the
   * request's user as loaded; then an authenticated Auth0 user is synced.
   * `user` is the primary key of the signed-in user (None when anonymous).
   * The middleware is not installed in the application's settings.
   */
  method Auth0SyncMiddleware<R>(d: Directory, user: Option<nat>, getResponse: Option<User> -> R) returns (response: R)
    requires d.Valid() && (user.Some? ==> user.value < |d.rows|)
    modifies d
    ensures d.Valid() && d.links == old(d.links)
    ensures response == getResponse(if user.Some? then Some(old(d.rows)[user.value]) else None)
    ensures user.None? || LinkRoles(d.links, user.value).None? ==> d.rows == old(d.rows) && d.roles == old(d.roles)
    ensures user.Some? && LinkRoles(d.links, user.value).Some? ==>
      d.rows == old(d.rows)[user.value := AutoSyncOutcome(old(d.rows)[user.value], LinkRoles(d.links, user.value).value,
                                                           LinkRoles(d.links, user.value), old(d.roles))]
      && d.roles == AutoSyncRoles(old(d.rows)[user.value], LinkRoles(d.links, user.value).value,
                                  LinkRoles(d.links, user.value), old(d.roles))
  {
    var requestUser := if user.Some? then Some(d.rows[user.value]) else None;
    response := getResponse(requestUser);
    if user.None? {
      return;
    }
    var link := LinkRoles(d.links, user.value);
    if link.None? {
      return;
    }
    SyncUser(d, user.value, link.value);
  }
}

=== FILE: choice_lists.dfy ===
/**
 * Stored choice lists and what reads them: the default lists, the status
 * label lookup of a project (projects/models.py), the two JSON endpoints
 * and the status field of the project form (projects/views.py,
 * projects/forms.py), and the one-shot repair rule of fix_status_choices.py.
 */
module ChoiceLists {
  import opened Wrappers
  import opened Seqs
  import opened Text
  import opened ChoiceText

  /** `Project.DEFAULT_STATUS_CHOICES`, also the endpoint's and the repair's default. */
  const DefaultStatusChoices: seq<seq<string>> :=
    [["not_started", "Not Started"], ["in_progress", "In Progress"], ["completed", "Completed"]]

  /** The four phases the milestone endpoint offers when a type configures none. */
  const DefaultMilestoneChoices: seq<seq<string>> :=
    [["design", "Design Phase"], ["development", "Development Phase"],
     ["testing", "Testing Phase"], ["deployment", "Deployment Phase"]]

  /** The list the repair gives every type named `accessibility`. */
  const AccessibilityStatusChoices: seq<seq<string>> :=
    [["audit", "Audit"], ["remediation", "Remediation"], ["qa", "QA"], ["monitoring", "Monitoring"],
     ["statement_in_progress", "Accessibility Statement In Progress"],
     ["statement_given", "Accessibility Statement Given"]]

  /** `ProjectViolation.STATUS_CHOICES`. */
  const ViolationStatusChoices: seq<seq<string>> :=
    [["open", "Open"], ["in_progress", "In Progress"], ["fixed", "Fixed"],
     ["wont_fix", "Won't Fix"], ["not_applicable", "Not Applicable"]]

  /** `Milestone.STATUS_CHOICES`. */
  const MilestoneStatusChoices: seq<seq<string>> :=
    [["not_started", "Not Started"], ["in_progress", "In Progress"],
     ["completed", "Completed"], ["delayed", "Delayed"]]

  /** The status a new project starts with. */
  const NewProjectStatus: string := "not_started"

  /** The status a new project violation starts with. */
  const NewViolationStatus: string := "open"

  /** The defaults start new records on a configured key. */
  lemma DefaultStatusesAreChoices()
    ensures NewProjectStatus == DefaultStatusChoices[0][0]
    ensures NewViolationStatus == ViolationStatusChoices[0][0]
  {
  }

  /** `Project.get_status_choices`: the type's list when it is non-empty, else the default triple. */
  function StatusChoices(typeChoices: seq<seq<string>>): (r: seq<seq<string>>)
    ensures r != []
    ensures typeChoices != [] ==> r == typeChoices
    ensures typeChoices == [] ==> r == DefaultStatusChoices
  {
    if typeChoices != [] then typeChoices else DefaultStatusChoices
  }

  /**
   * The search in `Project.get_status_display`: the stripped label of the first
   * pair whose non-empty key, stripped, equals the status; the raw status when
   * none does. An entry that is not a pair stops the search with an error.
   */
  function FindStatusLabel(choices: seq<seq<string>>, status: string): Result<string, Crash> {
    if choices == [] then Ok(status)
    else if |choices[0]| != 2 then Err(UnpackError)
    else if choices[0][0] != [] && Strip(choices[0][0]) == status then Ok(Strip(choices[0][1]))
    else FindStatusLabel(choices[1..], status)
  }

  /** `Project.get_status_display` of a project whose type has the given list. */
  function StatusDisplay(typeChoices: seq<seq<string>>, status: string): Result<string, Crash> {
    FindStatusLabel(StatusChoices(typeChoices), status)
  }

  /** A key matches a status when it is non-empty and strips to the status. */
  predicate KeyMatches(e: seq<string>, status: string)
    requires |e| == 2
  {
    e[0] != [] && Strip(e[0]) == status
  }

  /** The label of the first matching pair is returned, stripped. */
  lemma {:induction false} FirstMatchWins(choices: seq<seq<string>>, status: string, i: nat)
    requires AllPairs(choices) && i < |choices|
    requires KeyMatches(choices[i], status)
    requires forall j | 0 <= j < i :: !KeyMatches(choices[j], status)
    ensures FindStatusLabel(choices, status) == Ok(Strip(choices[i][1]))
  {
    if i > 0 {
      assert forall j | 0 <= j < i - 1 :: choices[1..][j] == choices[j + 1];
      FirstMatchWins(choices[1..], status, i - 1);
    }
  }

  /** With no matching pair the raw status is returned unchanged. */
  lemma {:induction false} NoMatchFallsBack(choices: seq<seq<string>>, status: string)
    requires AllPairs(choices)
    requires forall j | 0 <= j < |choices| :: !KeyMatches(choices[j], status)
    ensures FindStatusLabel(choices, status) == Ok(status)
  {
    if choices != [] {
      assert forall j | 0 <= j < |choices| - 1 :: choices[1..][j] == choices[j + 1];
      NoMatchFallsBack(choices[1..], status);
    }
  }

  /** A stored well-formed list shows the label of each of its keys. */
  lemma KeyShowsItsLabel(cs: seq<seq<string>>, i: nat)
    requires WellFormed(cs) && i < |cs|
    ensures StatusDisplay(cs, cs[i][0]) == Ok(cs[i][1])
  {
    forall j | 0 <= j < i ensures !KeyMatches(cs[j], cs[i][0]) {
      StripOfStripped(cs[j][0]);
      assert Keys(cs)[j] != Keys(cs)[i];
    }
    StripOfStripped(cs[i][0]);
    StripOfStripped(cs[i][1]);
    FirstMatchWins(cs, cs[i][0], i);
  }

  /** One entry with both halves stripped. */
  function TrimEntry(e: seq<string>): (r: seq<string>)
    requires |e| == 2
    ensures |r| == 2 && IsStripped(r[0]) && IsStripped(r[1])
  {
    [Strip(e[0]), Strip(e[1])]
  }

  /** An entry the status endpoint offers: both stripped halves non-empty. */
  predicate Offered(e: seq<string>) {
    |e| == 2 && e[0] != [] && e[1] != []
  }

  /**
   * The list `project_type_status_choices` builds from a configured list:
   * each entry stripped, entries with an empty half dropped, and only the
   * first entry of each key kept, in order.
   */
  function FirstOfEachKey(cs: seq<seq<string>>): (r: seq<seq<string>>)
    requires AllPairs(cs)
    ensures |r| <= |cs|
    decreases |cs|
  {
    if cs == [] then []
    else
      var kept := FirstOfEachKey(cs[..|cs| - 1]);
      var e := TrimEntry(cs[|cs| - 1]);
      if !Offered(e) || e[0] in Keys(kept) then kept else kept + [e]
  }

  /** The endpoint's answer: the default triple when the type has no list. */
  function StatusEndpointChoices(typeChoices: seq<seq<string>>): seq<seq<string>>
    requires AllPairs(typeChoices)
  {
    if typeChoices == [] then DefaultStatusChoices else FirstOfEachKey(typeChoices)
  }

  /** The entries the endpoint keeps are offered, stripped, with distinct keys, and come from the input. */
  lemma {:induction false} FirstOfEachKeyIsClean(cs: seq<seq<string>>)
    requires AllPairs(cs)
    ensures forall i | 0 <= i < |FirstOfEachKey(cs)| ::
      Offered(FirstOfEachKey(cs)[i]) && IsStripped(FirstOfEachKey(cs)[i][0]) && IsStripped(FirstOfEachKey(cs)[i][1])
    ensures Distinct(Keys(FirstOfEachKey(cs)))
    ensures forall e | e in FirstOfEachKey(cs) :: exists j | 0 <= j < |cs| :: e == TrimEntry(cs[j])
    decreases |cs|
  {
    if cs != [] {
      var init := cs[..|cs| - 1];
      FirstOfEachKeyIsClean(init);
      var kept := FirstOfEachKey(init);
      var e := TrimEntry(cs[|cs| - 1]);
      forall x | x in kept ensures exists j | 0 <= j < |cs| :: x == TrimEntry(cs[j]) {
        var j :| 0 <= j < |init| && x == TrimEntry(init[j]);
        assert init[j] == cs[j];
      }
      if Offered(e) && e[0] !in Keys(kept) {
        var r := kept + [e];
        assert Keys(r) == Keys(kept) + [e[0]];
      }
    }
  }

  /** Every offered key of the input is offered by the endpoint. */
  lemma {:induction false} FirstOfEachKeyIsComplete(cs: seq<seq<string>>, i: nat)
    requires AllPairs(cs) && i < |cs| && Offered(TrimEntry(cs[i]))
    ensures TrimEntry(cs[i])[0] in Keys(FirstOfEachKey(cs))
    decreases |cs|
  {
    var init := cs[..|cs| - 1];
    var kept := FirstOfEachKey(init);
    if i < |cs| - 1 {
      assert cs[i] == init[i];
      FirstOfEachKeyIsComplete(init, i);
      var r := FirstOfEachKey(cs);
      if r != kept {
        assert Keys(r) == Keys(kept) + [TrimEntry(cs[|cs| - 1])[0]];
      }
    } else {
      var r := FirstOfEachKey(cs);
      if r != kept {
        assert Keys(r)[|kept|] == TrimEntry(cs[i])[0];
      }
    }
  }

  /** A list the parser accepted comes back from the endpoint unchanged. */
  lemma {:induction false} FirstOfEachKeyKeepsWellFormed(cs: seq<seq<string>>)
    requires WellFormed(cs)
    ensures FirstOfEachKey(cs) == cs
    decreases |cs|
  {
    if cs != [] {
      var init := cs[..|cs| - 1];
      WellFormedInit(cs);
      FirstOfEachKeyKeepsWellFormed(init);
      assert init + [cs[|cs| - 1]] == cs;
    }
  }

  /** A well-formed list less its last entry is well formed, and that entry is offered, stripped and new. */
  lemma WellFormedInit(cs: seq<seq<string>>)
    requires WellFormed(cs) && cs != []
    ensures WellFormed(cs[..|cs| - 1])
    ensures var last := cs[|cs| - 1];
      Offered(last) && TrimEntry(last) == last && last[0] !in Keys(cs[..|cs| - 1])
  {
    var init := cs[..|cs| - 1];
    var last := cs[|cs| - 1];
    assert Keys(init) == Keys(cs)[..|cs| - 1];
    StripOfStripped(last[0]);
    StripOfStripped(last[1]);
    assert last[0] !in Keys(init) by {
      forall j | 0 <= j < |init| ensures Keys(init)[j] != last[0] {
        assert Keys(cs)[j] != Keys(cs)[|cs| - 1];
      }
    }
  }

  /**
   * One round of the endpoint's loop: the entry is kept exactly when both
   * stripped halves are non-empty and its key is not yet seen, and the seen
   * keys stay the keys of the kept entries.
   */
  lemma EndpointStep(cs: seq<seq<string>>, i: nat, kept: seq<seq<string>>, seen: set<string>, key: string, display: string)
    requires i < |cs| && AllPairs(cs[..i]) && |cs[i]| == 2
    requires kept == FirstOfEachKey(cs[..i]) && seen == Elements(Keys(kept))
    requires key == Strip(cs[i][0]) && display == Strip(cs[i][1])
    ensures AllPairs(cs[..i + 1])
    ensures key != [] && display != [] && key !in seen ==>
      kept + [[key, display]] == FirstOfEachKey(cs[..i + 1]) && seen + {key} == Elements(Keys(kept + [[key, display]]))
    ensures !(key != [] && display != [] && key !in seen) ==> kept == FirstOfEachKey(cs[..i + 1])
  {
    assert cs[..i + 1][..i] == cs[..i];
    var e := TrimEntry(cs[i]);
    assert e == [key, display];
    assert Keys(kept + [e]) == Keys(kept) + [e[0]];
  }

  /** `project_type_status_choices`, building the answer with a set of seen keys. */
  method StatusChoicesEndpoint(typeChoices: seq<seq<string>>) returns (r: Result<seq<seq<string>>, Crash>)
    ensures !AllPairs(typeChoices) ==> r == Err(UnpackError)
    ensures AllPairs(typeChoices) ==> r == Ok(StatusEndpointChoices(typeChoices))
  {
    if typeChoices == [] {
      return Ok(DefaultStatusChoices);
    }
    var choices: seq<seq<string>> := [];
    var seenKeys: set<string> := {};
    var i := 0;
    while i < |typeChoices|
      invariant 0 <= i <= |typeChoices|
      invariant AllPairs(typeChoices[..i])
      invariant choices == FirstOfEachKey(typeChoices[..i])
      invariant seenKeys == Elements(Keys(choices))
    {
      if |typeChoices[i]| != 2 {
        return Err(UnpackError);
      }
      var key := Strip(typeChoices[i][0]);
      var display := Strip(typeChoices[i][1]);
      EndpointStep(typeChoices, i, choices, seenKeys, key, display);
      if key != [] && display != [] && key !in seenKeys {
        choices := choices + [[key, display]];
        seenKeys := seenKeys + {key};
      }
      i := i + 1;
    }
    assert typeChoices[..i] == typeChoices;
    return Ok(choices);
  }

  /** An entry whose raw key and label are both non-empty (`if key and display`). */
  predicate RawPresent(e: seq<string>) {
    |e| == 2 && e[0] != [] && e[1] != []
  }

  /**
   * The status field of the project form and the milestone endpoint: entries
   * with an empty raw half dropped, the rest stripped, nothing de-duplicated.
   */
  function Formatted(cs: seq<seq<string>>): seq<seq<string>> {
    var present := Filter(cs, RawPresent);
    FilterSatisfies(cs, RawPresent);
    seq(|present|, i requires 0 <= i < |present| => TrimEntry(present[i]))
  }

  /** One more entry adds its stripped form when both raw halves are present, and nothing otherwise. */
  lemma FormattedSnoc(cs: seq<seq<string>>, x: seq<string>)
    ensures Formatted(cs + [x]) == Formatted(cs) + (if RawPresent(x) then [TrimEntry(x)] else [])
  {
    FilterSnoc(cs, x, RawPresent);
    var lhs := Formatted(cs + [x]);
    var rhs := Formatted(cs) + (if RawPresent(x) then [TrimEntry(x)] else []);
    assert |lhs| == |rhs|;
    forall i | 0 <= i < |lhs| ensures lhs[i] == rhs[i] { }
  }

  /** The loop shared by `ProjectForm.__init__` and `project_type_milestone_choices`. */
  method FormatChoices(cs: seq<seq<string>>) returns (r: Result<seq<seq<string>>, Crash>)
    ensures !AllPairs(cs) ==> r == Err(UnpackError)
    ensures AllPairs(cs) ==> r == Ok(Formatted(cs))
  {
    var formatted: seq<seq<string>> := [];
    var i := 0;
    while i < |cs|
      invariant 0 <= i <= |cs|
      invariant AllPairs(cs[..i])
      invariant formatted == Formatted(cs[..i])
    {
      if |cs[i]| != 2 {
        return Err(UnpackError);
      }
      assert cs[..i + 1] == cs[..i] + [cs[i]];
      FormattedSnoc(cs[..i], cs[i]);
      var key, display := cs[i][0], cs[i][1];
      if key != [] && display != [] {
        formatted := formatted + [[Strip(key), Strip(display)]];
      }
      i := i + 1;
    }
    assert cs[..i] == cs;
    return Ok(formatted);
  }

  /** `project_type_milestone_choices`: the four phases when the type has no list. */
  method MilestoneChoicesEndpoint(typeChoices: seq<seq<string>>) returns (r: Result<seq<seq<string>>, Crash>)
    ensures typeChoices == [] ==> r == Ok(DefaultMilestoneChoices)
    ensures typeChoices != [] && !AllPairs(typeChoices) ==> r == Err(UnpackError)
    ensures typeChoices != [] && AllPairs(typeChoices) ==> r == Ok(Formatted(typeChoices))
  {
    if typeChoices == [] {
      return Ok(DefaultMilestoneChoices);
    }
    r := FormatChoices(typeChoices);
  }

  /** The status field offered by `ProjectForm` for a project of a type with the given list. */
  method StatusFieldChoices(typeChoices: seq<seq<string>>) returns (r: Result<seq<seq<string>>, Crash>)
    ensures !AllPairs(StatusChoices(typeChoices)) ==> r == Err(UnpackError)
    ensures AllPairs(StatusChoices(typeChoices)) ==> r == Ok(Formatted(StatusChoices(typeChoices)))
  {
    r := FormatChoices(StatusChoices(typeChoices));
  }

  /** A well-formed list is offered unchanged by the form and the milestone endpoint. */
  lemma {:induction false} FormattedKeepsWellFormed(cs: seq<seq<string>>)
    requires WellFormed(cs)
    ensures Formatted(cs) == cs
    decreases |cs|
  {
    if cs == [] {
      assert Filter(cs, RawPresent) == [];
    } else {
      var init := cs[..|cs| - 1];
      WellFormedInit(cs);
      FormattedKeepsWellFormed(init);
      FormattedSnoc(init, cs[|cs| - 1]);
      assert init + [cs[|cs| - 1]] == cs;
    }
  }

  /** The label of some entry contains a comma (`has_combined`). */
  predicate HasCombined(cs: seq<seq<string>>) {
    exists i | 0 <= i < |cs| :: |cs[i]| >= 2 && ',' in cs[i][1]
  }

  /** The repair keeps a list of another type exactly when this holds. */
  predicate Keepable(cs: seq<seq<string>>) {
    cs != [] && AllPairs(cs) && !HasCombined(cs)
  }

  /** The status list fix_status_choices.py computes for a type. */
  function RepairedChoices(name: string, cs: seq<seq<string>>): seq<seq<string>> {
    if Lower(name) == "accessibility" then AccessibilityStatusChoices
    else if cs != [] && AllPairs(cs) then
      (if HasCombined(cs) then DefaultStatusChoices else cs)
    else DefaultStatusChoices
  }

  /** No label of the accessibility list contains a comma. */
  lemma AccessibilityLabelsCommaFree()
    ensures forall i | 0 <= i < |AccessibilityStatusChoices| :: ',' !in AccessibilityStatusChoices[i][1]
  {
    var labels := ["Audit", "Remediation", "QA", "Monitoring",
                   "Accessibility Statement In Progress", "Accessibility Statement Given"];
    assert forall i | 0 <= i < 6 :: AccessibilityStatusChoices[i][1] == labels[i];
    assert ',' !in labels[4] && ',' !in labels[5];
  }

  /** The built-in replacement lists pass the keep condition. */
  lemma ReplacementsAreKeepable()
    ensures Keepable(DefaultStatusChoices) && Keepable(AccessibilityStatusChoices)
  {
    assert ',' !in DefaultStatusChoices[0][1] && ',' !in DefaultStatusChoices[1][1] && ',' !in DefaultStatusChoices[2][1];
    AccessibilityLabelsCommaFree();
  }

  /** Every repaired list passes the keep condition and another type's list is kept exactly when it passes. */
  lemma RepairedIsKeepable(name: string, cs: seq<seq<string>>)
    ensures Keepable(RepairedChoices(name, cs))
    ensures Lower(name) != "accessibility" ==> (RepairedChoices(name, cs) == cs <==> Keepable(cs))
  {
    ReplacementsAreKeepable();
  }

  /** Running the repair a second time changes nothing. */
  lemma RepairIsIdempotent(name: string, cs: seq<seq<string>>)
    ensures RepairedChoices(name, RepairedChoices(name, cs)) == RepairedChoices(name, cs)
  {
    RepairedIsKeepable(name, cs);
  }
}

=== FILE: choice_text.dfy ===
/**
 * The `"key, Display Name"` text format in which project-type status and
 * milestone choice lists are edited (projects/forms.py, ProjectTypeForm):
 * the parser behind `clean_status_choices_text` / `clean_milestone_choices_text`
 * and the serialiser behind the form's initial text, with the round trip
 * between the two.
 */
module ChoiceText {
  import opened Wrappers
  import opened Seqs
  import opened Text

  /** Every entry of a stored list is a `[key, label]` pair. */
  predicate AllPairs(cs: seq<seq<string>>) {
    forall i | 0 <= i < |cs| :: |cs[i]| == 2
  }

  /** The keys of a list of pairs, in order (`[choice[0] for choice in choices]`; no entry here is empty). */
  function Keys(cs: seq<seq<string>>): (r: seq<string>)
    ensures |r| == |cs|
    ensures forall i | 0 <= i < |cs| && cs[i] != [] :: r[i] == cs[i][0]
  {
    seq(|cs|, i requires 0 <= i < |cs| => if cs[i] == [] then [] else cs[i][0])
  }

  /** The validation errors the two `clean_*_choices_text` methods raise. */
  datatype ChoiceError = InvalidFormat(line: string) | MissingPart(line: string) | DuplicateKeys

  /** Unpacking `for key, display in choices` fails on an entry that is not a pair. */
  datatype Crash = UnpackError

  predicate NonEmpty(s: string) {
    s != []
  }

  /** The stripped, non-blank lines of the text, in order. */
  function NonBlankLines(text: string): seq<string> {
    Filter(StripAll(Split(text, "\n")), NonEmpty)
  }

  /** Each such line is non-empty, stripped and free of line breaks. */
  lemma NonBlankLinesShape(text: string)
    ensures forall l | l in NonBlankLines(text) :: l != [] && IsStripped(l) && '\n' !in l
  {
    var pieces := Split(text, "\n");
    SplitPiecesAvoidSeparator(text, '\n');
    var stripped := StripAll(pieces);
    forall l | l in stripped ensures '\n' !in l {
      var i :| 0 <= i < |stripped| && stripped[i] == l;
      assert pieces[i] in pieces;
      StripKeepsCharacters(pieces[i]);
    }
  }

  /**
   * One line split at its first comma, both halves stripped. A line without a
   * comma, or with an empty half, is rejected naming the line.
   */
  function ParseLine(line: string): Result<seq<string>, ChoiceError> {
    var parts := StripAll(SplitOnce(line, ','));
    if |parts| != 2 then Err(InvalidFormat(line))
    else if parts[0] == [] || parts[1] == [] then Err(MissingPart(line))
    else Ok(parts)
  }

  /**
   * What a parsed line looks like: a pair of non-empty stripped halves with a
   * comma-free key; a line without a comma is rejected by name.
   */
  lemma ParseLineShape(line: string)
    ensures ',' !in line ==> ParseLine(line) == Err(InvalidFormat(line))
    ensures ParseLine(line).Err? ==> ParseLine(line).error in {InvalidFormat(line), MissingPart(line)}
    ensures ParseLine(line).Ok? ==> |ParseLine(line).value| == 2
    ensures ParseLine(line).Ok? ==> ParseLine(line).value[0] != [] && ParseLine(line).value[1] != []
    ensures ParseLine(line).Ok? ==> IsStripped(ParseLine(line).value[0]) && IsStripped(ParseLine(line).value[1])
    ensures ParseLine(line).Ok? ==> ',' !in ParseLine(line).value[0]
    ensures ParseLine(line).Ok? && '\n' !in line ==> '\n' !in ParseLine(line).value[0] && '\n' !in ParseLine(line).value[1]
  {
    var halves := SplitOnce(line, ',');
    if |halves| == 2 {
      StripKeepsCharacters(halves[0]);
      StripKeepsCharacters(halves[1]);
    }
  }

  /** The outcome of each line, in order. */
  function ParsedLines(lines: seq<string>): (r: seq<Result<seq<string>, ChoiceError>>)
    ensures |r| == |lines|
    ensures forall i | 0 <= i < |lines| :: r[i] == ParseLine(lines[i])
  {
    seq(|lines|, i requires 0 <= i < |lines| => ParseLine(lines[i]))
  }

  /** All line values when every line is accepted; otherwise the first error. */
  function Collect(rs: seq<Result<seq<string>, ChoiceError>>): (r: Result<seq<seq<string>>, ChoiceError>)
    ensures r.Ok? <==> forall i | 0 <= i < |rs| :: rs[i].Ok?
    ensures r.Ok? ==> |r.value| == |rs|
    ensures r.Ok? ==> forall i | 0 <= i < |rs| :: rs[i] == Ok(r.value[i])
  {
    if rs == [] then Ok([])
    else
      match rs[0]
      case Err(e) => Err(e)
      case Ok(p) =>
        match Collect(rs[1..])
        case Err(e) => Err(e)
        case Ok(ps) => Ok([p] + ps)
  }

  /** `clean_status_choices_text` and `clean_milestone_choices_text` (they are identical). */
  function ParseChoiceText(text: string): Result<seq<seq<string>>, ChoiceError> {
    if Strip(text) == [] then Ok([])
    else
      match Collect(ParsedLines(NonBlankLines(text)))
      case Err(e) => Err(e)
      case Ok(cs) => if Distinct(Keys(cs)) then Ok(cs) else Err(DuplicateKeys)
  }

  /**
   * A list the text format can represent: pairs of non-empty stripped strings
   * without line breaks, comma-free keys, distinct keys.
   */
  predicate WellFormed(cs: seq<seq<string>>) {
    AllPairs(cs)
    && (forall i | 0 <= i < |cs| ::
          cs[i][0] != [] && cs[i][1] != []
          && IsStripped(cs[i][0]) && IsStripped(cs[i][1])
          && ',' !in cs[i][0] && '\n' !in cs[i][0] && '\n' !in cs[i][1])
    && Distinct(Keys(cs))
  }

  /** The `"key, display"` line of each pair. */
  function RenderLines(cs: seq<seq<string>>): (r: seq<string>)
    requires AllPairs(cs)
    ensures |r| == |cs|
    ensures forall i | 0 <= i < |cs| :: r[i] == cs[i][0] + ", " + cs[i][1]
  {
    seq(|cs|, i requires 0 <= i < |cs| && AllPairs(cs) => cs[i][0] + ", " + cs[i][1])
  }

  /** The editing text of a stored list: its lines joined by `\n`. */
  function Render(cs: seq<seq<string>>): string
    requires AllPairs(cs)
  {
    Join(RenderLines(cs), "\n")
  }

  /** Every accepted list is well formed, in line order. */
  lemma {:induction false} ParsedIsWellFormed(text: string, cs: seq<seq<string>>)
    requires ParseChoiceText(text) == Ok(cs)
    ensures WellFormed(cs)
  {
    if Strip(text) != [] {
      var lines := NonBlankLines(text);
      NonBlankLinesShape(text);
      assert Collect(ParsedLines(lines)) == Ok(cs);
      forall i | 0 <= i < |cs|
        ensures cs[i][0] != [] && cs[i][1] != []
        ensures IsStripped(cs[i][0]) && IsStripped(cs[i][1])
        ensures ',' !in cs[i][0] && '\n' !in cs[i][0] && '\n' !in cs[i][1]
      {
        assert lines[i] in lines;
        ParseLineShape(lines[i]);
        assert ParseLine(lines[i]) == Ok(cs[i]);
      }
    }
  }

  /** Blank or white-space-only text is the empty list. */
  lemma BlankTextIsEmpty(text: string)
    requires forall k | 0 <= k < |text| :: IsSpace(text[k])
    ensures ParseChoiceText(text) == Ok([])
  {
    BlankStripsToEmpty(text);
  }

  /** A `"key, display"` line parses back to its pair: labels may contain commas, keys may not. */
  lemma ParseRenderedLine(k: string, l: string)
    requires k != [] && l != [] && IsStripped(k) && IsStripped(l) && ',' !in k
    ensures ParseLine(k + ", " + l) == Ok([k, l])
  {
    var line := k + ", " + l;
    assert line == k + [','] + ([' '] + l);
    SplitOnceAt(k, ',', [' '] + l);
    var halves := SplitOnce(line, ',');
    assert halves == [k, [' '] + l];
    StripOfStripped(k);
    StripAfterBlank(l);
    var parts := StripAll(halves);
    assert parts[0] == k && parts[1] == l;
    assert parts == [k, l];
  }

  /** The first character of a join is that of its first non-empty part. */
  lemma JoinStartsWithFirst(parts: seq<string>, sep: string)
    requires parts != [] && parts[0] != []
    ensures Join(parts, sep) != [] && Join(parts, sep)[0] == parts[0][0]
  {
  }

  /** The lines of a rendered well-formed list come back as its `"key, display"` lines. */
  lemma {:induction false} RenderedLinesSurvive(cs: seq<seq<string>>)
    requires WellFormed(cs) && cs != []
    ensures NonBlankLines(Render(cs)) == RenderLines(cs)
  {
    var lines := RenderLines(cs);
    forall i | 0 <= i < |lines|
      ensures '\n' !in lines[i] && IsStripped(lines[i]) && lines[i] != []
    {
      assert lines[i] == cs[i][0] + ", " + cs[i][1];
    }
    SplitOfJoin(lines, '\n');
    forall i | 0 <= i < |lines| ensures Strip(lines[i]) == lines[i] {
      StripOfStripped(lines[i]);
    }
    assert StripAll(lines) == lines;
    FilterAll(lines, NonEmpty);
  }

  /** When every line is accepted, the values are collected in order. */
  lemma {:induction false} CollectAccepted(rs: seq<Result<seq<string>, ChoiceError>>, vs: seq<seq<string>>)
    requires |rs| == |vs| && forall i | 0 <= i < |rs| :: rs[i] == Ok(vs[i])
    ensures Collect(rs) == Ok(vs)
  {
    if rs != [] {
      CollectAccepted(rs[1..], vs[1..]);
      assert vs == [vs[0]] + vs[1..];
    }
  }

  /** Each `"key, display"` line of a well-formed list parses to its pair. */
  lemma {:induction false} RenderedLinesParse(cs: seq<seq<string>>)
    requires WellFormed(cs)
    ensures Collect(ParsedLines(RenderLines(cs))) == Ok(cs)
  {
    var rs := ParsedLines(RenderLines(cs));
    forall i | 0 <= i < |rs| ensures rs[i] == Ok(cs[i]) {
      RenderedLineParses(cs, i);
    }
    CollectAccepted(rs, cs);
  }

  /** The `"key, display"` line of one pair of a well-formed list parses to that pair. */
  lemma RenderedLineParses(cs: seq<seq<string>>, i: nat)
    requires WellFormed(cs) && i < |cs|
    ensures ParseLine(RenderLines(cs)[i]) == Ok(cs[i])
  {
    var k, l := cs[i][0], cs[i][1];
    assert RenderLines(cs)[i] == k + ", " + l;
    ParseRenderedLine(k, l);
    assert [k, l] == cs[i];
  }

  /** Round trip: rendering a well-formed list and parsing the text gives the list back. */
  lemma {:induction false} RoundTrip(cs: seq<seq<string>>)
    requires WellFormed(cs)
    ensures ParseChoiceText(Render(cs)) == Ok(cs)
  {
    if cs == [] {
      assert Render(cs) == [];
    } else {
      RenderedLinesSurvive(cs);
      RenderedLinesParse(cs);
      JoinStartsWithFirst(RenderLines(cs), "\n");
      BlankStripsToEmpty(Render(cs));
    }
  }

  /** Saving the editing text of an accepted list unchanged stores the same list. */
  lemma ReparseIsStable(text: string, cs: seq<seq<string>>)
    requires ParseChoiceText(text) == Ok(cs)
    ensures ParseChoiceText(Render(cs)) == Ok(cs)
  {
    ParsedIsWellFormed(text, cs);
    RoundTrip(cs);
  }

  /** The first rejected line decides the error, whatever follows it. */
  lemma {:induction false} FirstError(rs: seq<Result<seq<string>, ChoiceError>>, i: nat)
    requires i < |rs| && rs[i].Err?
    requires forall j | 0 <= j < i :: rs[j].Ok?
    ensures Collect(rs) == Err(rs[i].error)
  {
    if i > 0 {
      assert forall j | 0 <= j < i - 1 :: rs[1..][j] == rs[j + 1];
      FirstError(rs[1..], i - 1);
    }
  }

  /**
   * A non-blank line without a comma is rejected by name when the lines
   * before it are fine.
   */
  lemma LineWithoutCommaRejected(text: string, i: nat)
    requires Strip(text) != []
    requires i < |NonBlankLines(text)| && ',' !in NonBlankLines(text)[i]
    requires forall j | 0 <= j < i :: ParseLine(NonBlankLines(text)[j]).Ok?
    ensures ParseChoiceText(text) == Err(InvalidFormat(NonBlankLines(text)[i]))
  {
    ParseLineShape(NonBlankLines(text)[i]);
    FirstError(ParsedLines(NonBlankLines(text)), i);
  }

  /** Two accepted lines with the same key make the whole text rejected. */
  lemma RepeatedKeyRejected(text: string, i: nat, j: nat)
    requires Strip(text) != []
    requires i < j < |NonBlankLines(text)|
    requires ParseLine(NonBlankLines(text)[i]).Ok? && ParseLine(NonBlankLines(text)[j]).Ok?
    requires ParseLine(NonBlankLines(text)[i]).value[0] == ParseLine(NonBlankLines(text)[j]).value[0]
    ensures ParseChoiceText(text).Err?
  {
    var lines := NonBlankLines(text);
    var r := Collect(ParsedLines(lines));
    if r.Ok? {
      assert ParsedLines(lines)[i] == Ok(r.value[i]);
      assert ParsedLines(lines)[j] == Ok(r.value[j]);
      assert Keys(r.value)[i] == Keys(r.value)[j];
      assert !Distinct(Keys(r.value));
    }
  }

  /** An accepted line extends the values collected so far. */
  lemma CollectPrefixStep(rs: seq<Result<seq<string>, ChoiceError>>, i: nat, vs: seq<seq<string>>, p: seq<string>)
    requires i < |rs| && Collect(rs[..i]) == Ok(vs) && rs[i] == Ok(p)
    ensures Collect(rs[..i + 1]) == Ok(vs + [p])
  {
    assert forall j | 0 <= j < i :: rs[..i][j] == rs[j];
    CollectAccepted(rs[..i + 1], vs + [p]);
  }

  /** A rejected line after accepted ones decides the outcome. */
  lemma CollectPrefixError(rs: seq<Result<seq<string>, ChoiceError>>, i: nat)
    requires i < |rs| && Collect(rs[..i]).Ok? && rs[i].Err?
    ensures Collect(rs) == Err(rs[i].error)
  {
    assert forall j | 0 <= j < i :: rs[..i][j] == rs[j];
    FirstError(rs, i);
  }

  /** The loop of the form's validation: accepted pairs are appended in line order. */
  method ParseEachLine(lines: seq<string>) returns (r: Result<seq<seq<string>>, ChoiceError>)
    ensures r == Collect(ParsedLines(lines))
  {
    ghost var rs := ParsedLines(lines);
    var choices: seq<seq<string>> := [];
    var i := 0;
    while i < |lines|
      invariant 0 <= i <= |lines|
      invariant Collect(rs[..i]) == Ok(choices)
    {
      var parts := StripAll(SplitOnce(lines[i], ','));
      if |parts| != 2 {
        CollectPrefixError(rs, i);
        return Err(InvalidFormat(lines[i]));
      }
      var key, display := parts[0], parts[1];
      if key == [] || display == [] {
        CollectPrefixError(rs, i);
        return Err(MissingPart(lines[i]));
      }
      assert parts == [key, display];
      CollectPrefixStep(rs, i, choices, [key, display]);
      choices := choices + [[key, display]];
      i := i + 1;
    }
    assert rs[..i] == rs;
    return Ok(choices);
  }

  /** `clean_status_choices_text` / `clean_milestone_choices_text` as the form runs them. */
  method CleanChoicesText(text: string) returns (r: Result<seq<seq<string>>, ChoiceError>)
    ensures r == ParseChoiceText(text)
  {
    if Strip(text) == [] {
      return Ok([]);
    }
    var lines := NonBlankLines(text);
    var parsed := ParseEachLine(lines);
    if parsed.Err? {
      return Err(parsed.error);
    }
    var keys := Keys(parsed.value);
    DistinctIffSameSize(keys);
    if |Elements(keys)| != |keys| {
      return Err(DuplicateKeys);
    }
    return Ok(parsed.value);
  }

  /**
   * The initial editing text of the form: nothing for an empty list, the
   * rendered lines otherwise; an entry that is not a pair fails the unpacking.
   */
  method InitialChoiceText(stored: seq<seq<string>>) returns (r: Result<Option<string>, Crash>)
    ensures stored == [] ==> r == Ok(None)
    ensures stored != [] && !AllPairs(stored) ==> r == Err(UnpackError)
    ensures stored != [] && AllPairs(stored) ==> r == Ok(Some(Render(stored)))
  {
    if stored == [] {
      return Ok(None);
    }
    var items: seq<string> := [];
    var i := 0;
    while i < |stored|
      invariant 0 <= i <= |stored|
      invariant AllPairs(stored[..i])
      invariant items == RenderLines(stored[..i])
    {
      if |stored[i]| != 2 {
        return Err(UnpackError);
      }
      var key, display := stored[i][0], stored[i][1];
      items := items + [key + ", " + display];
      assert stored[..i + 1] == stored[..i] + [stored[i]];
      i := i + 1;
    }
    assert stored[..i] == stored;
    return Ok(Some(Join(items, "\n")));
  }
}

=== FILE: client_access.dfy ===
/**
 * The access rules of clients/views.py. Every client view lets in the
 * team (superuser, or platform role admin or staff) and the client's
 * point of contact; beyond that each view admits active coworkers from a
 * role threshold upward, and the note views also admit the note's author.
 * Each view builds its `has_access` flag step by step; `CheckGate` is that
 * chain, and the predicates below are what it computes.
 */
module ClientAccess {
  import opened Wrappers
  import opened Text
  import opened FormFields
  import opened Users
  import opened RoleGuards
  import opened Coworkers

  /** The order of coworker roles: viewer below editor below admin. */
  function Rank(r: CoworkerRole): nat {
    match r
    case Viewer => 0
    case Editor => 1
    case Administrator => 2
  }

  /** The roles a threshold admits: `min` and every role above it. */
  function AtLeast(min: CoworkerRole): (roles: set<CoworkerRole>)
    ensures forall r: CoworkerRole :: r in roles <==> Rank(r) >= Rank(min)
    ensures min in roles && Administrator in roles
  {
    set r: CoworkerRole | r in {Administrator, Editor, Viewer} && Rank(r) >= Rank(min)
  }

  /** `ClientCoworker.objects.get(client=client, user=user, status='active')` finds a row whose role is in `roles`. */
  predicate ActiveIn(rows: map<nat, ClientCoworker>, client: nat, user: nat, roles: set<CoworkerRole>) {
    exists id | id in rows :: rows[id].client == client && rows[id].user == user && rows[id].status == Active && rows[id].role in roles
  }

  /** `request.user == client.point_of_contact`. */
  predicate IsPointOfContact(u: User, c: Client) {
    c.pointOfContact == Some(u.id)
  }

  /** The chain every client view runs, with the view's coworker threshold and, for notes, the author test. */
  predicate Gate(u: User, cid: nat, c: Client, rows: map<nat, ClientCoworker>, isAuthor: bool, threshold: CoworkerRole) {
    IsTeam(u) || IsPointOfContact(u, c) || isAuthor || ActiveIn(rows, cid, u.id, AtLeast(threshold))
  }

  /** `client_detail`'s `has_access`: any active coworker. */
  predicate CanViewClient(u: User, cid: nat, c: Client, rows: map<nat, ClientCoworker>) {
    Gate(u, cid, c, rows, false, Viewer)
  }

  /** `client_detail`'s `is_admin`, and the check of `coworker_update` and `resend_invitation`: coworker admins only. */
  predicate IsClientAdmin(u: User, cid: nat, c: Client, rows: map<nat, ClientCoworker>) {
    Gate(u, cid, c, rows, false, Administrator)
  }

  /** `note_create`: editors and admins among the coworkers. */
  predicate CanAddNote(u: User, cid: nat, c: Client, rows: map<nat, ClientCoworker>) {
    Gate(u, cid, c, rows, false, Editor)
  }

  /** A `ClientNote` row. */
  datatype ClientNote = ClientNote(client: nat, author: Option<nat>, title: string, content: string)

  /** `request.user == note.author`; a note without an author has none. */
  predicate IsAuthor(u: User, n: ClientNote) {
    n.author == Some(u.id)
  }

  /** `note_detail`: the author, or any active coworker. */
  predicate CanViewNote(u: User, c: Client, n: ClientNote, rows: map<nat, ClientCoworker>) {
    Gate(u, n.client, c, rows, IsAuthor(u, n), Viewer)
  }

  /** `note_update`: the author, or an editor or admin coworker. */
  predicate CanEditNote(u: User, c: Client, n: ClientNote, rows: map<nat, ClientCoworker>) {
    Gate(u, n.client, c, rows, IsAuthor(u, n), Editor)
  }

  /** `note_delete`: the author, or an admin coworker. */
  predicate CanDeleteNote(u: User, c: Client, n: ClientNote, rows: map<nat, ClientCoworker>) {
    Gate(u, n.client, c, rows, IsAuthor(u, n), Administrator)
  }

  /** `coworker_delete`: whoever passes the admin check, and the member themself. */
  predicate CanRemoveCoworker(u: User, c: Client, target: ClientCoworker, rows: map<nat, ClientCoworker>) {
    IsClientAdmin(u, target.client, c, rows) || target.user == u.id
  }

  /**
   * The `has_access` chain: team, then point of contact, then (note views)
   * the author, then the active membership and its role.
   */
  method CheckGate(u: User, cid: nat, c: Client, rows: map<nat, ClientCoworker>, isAuthor: bool, threshold: CoworkerRole)
    returns (hasAccess: bool)
    requires PairsUnique(rows)
    ensures hasAccess == Gate(u, cid, c, rows, isAuthor, threshold)
  {
    hasAccess := false;
    if u.isSuperuser || u.role == Some(Admin) || u.role == Some(Staff) {
      hasAccess := true;
    } else if c.pointOfContact == Some(u.id) {
      hasAccess := true;
    } else if isAuthor {
      hasAccess := true;
    } else if exists id | id in rows :: rows[id].client == cid && rows[id].user == u.id && rows[id].status == Active {
      var id :| id in rows && rows[id].client == cid && rows[id].user == u.id && rows[id].status == Active;
      if Rank(rows[id].role) >= Rank(threshold) {
        hasAccess := true;
      }
    }
  }

  /** `client_detail`'s two flags, set together along one chain. */
  method ClientDetailFlags(u: User, cid: nat, c: Client, rows: map<nat, ClientCoworker>) returns (hasAccess: bool, isAdmin: bool)
    requires PairsUnique(rows)
    ensures hasAccess == CanViewClient(u, cid, c, rows)
    ensures isAdmin == IsClientAdmin(u, cid, c, rows)
  {
    hasAccess, isAdmin := false, false;
    if u.isSuperuser || u.role == Some(Admin) || u.role == Some(Staff) {
      hasAccess, isAdmin := true, true;
    } else if c.pointOfContact == Some(u.id) {
      hasAccess, isAdmin := true, true;
    } else if exists id | id in rows :: rows[id].client == cid && rows[id].user == u.id && rows[id].status == Active {
      var id :| id in rows && rows[id].client == cid && rows[id].user == u.id && rows[id].status == Active;
      hasAccess := true;
      if rows[id].role == Administrator {
        isAdmin := true;
      }
    }
  }

  /** A higher threshold admits fewer users: viewer < editor < coworker admin, for any author test. */
  lemma ThresholdsNested(u: User, cid: nat, c: Client, rows: map<nat, ClientCoworker>, isAuthor: bool)
    ensures Gate(u, cid, c, rows, isAuthor, Administrator) ==> Gate(u, cid, c, rows, isAuthor, Editor)
    ensures Gate(u, cid, c, rows, isAuthor, Editor) ==> Gate(u, cid, c, rows, isAuthor, Viewer)
    ensures IsClientAdmin(u, cid, c, rows) ==> CanAddNote(u, cid, c, rows) && CanViewClient(u, cid, c, rows)
  {
  }

  /**
   * The nesting is strict. For a user outside the team who is not the
   * point of contact, whose one membership of the client is active: a
   * viewer may open the client but not add notes, and an editor may add
   * notes but is not a client admin.
   */
  lemma ThresholdsStrict(u: User, cid: nat, c: Client, rows: map<nat, ClientCoworker>, id: nat)
    requires !IsTeam(u) && !IsPointOfContact(u, c) && PairsUnique(rows)
    requires id in rows && rows[id].client == cid && rows[id].user == u.id && rows[id].status == Active
    ensures rows[id].role == Viewer ==> CanViewClient(u, cid, c, rows) && !CanAddNote(u, cid, c, rows)
    ensures rows[id].role == Editor ==> CanAddNote(u, cid, c, rows) && !IsClientAdmin(u, cid, c, rows)
    ensures rows[id].role == Administrator <==> IsClientAdmin(u, cid, c, rows)
  {
  }

  /** A pending or declined membership counts for nothing: only the team and the point of contact get in. */
  lemma InactiveMembersRefused(u: User, cid: nat, c: Client, rows: map<nat, ClientCoworker>, threshold: CoworkerRole)
    requires forall id | id in rows && rows[id].client == cid && rows[id].user == u.id :: rows[id].status != Active
    ensures Gate(u, cid, c, rows, false, threshold) <==> IsTeam(u) || IsPointOfContact(u, c)
  {
  }

  /** A note's author may view, edit and delete it whatever their membership; the note checks extend the client checks. */
  lemma AuthorKeepsNote(u: User, c: Client, n: ClientNote, rows: map<nat, ClientCoworker>)
    ensures IsAuthor(u, n) ==> CanViewNote(u, c, n, rows) && CanEditNote(u, c, n, rows) && CanDeleteNote(u, c, n, rows)
    ensures CanViewClient(u, n.client, c, rows) ==> CanViewNote(u, c, n, rows)
    ensures CanAddNote(u, n.client, c, rows) ==> CanEditNote(u, c, n, rows)
    ensures IsClientAdmin(u, n.client, c, rows) ==> CanDeleteNote(u, c, n, rows)
    ensures !IsAuthor(u, n) ==> (CanDeleteNote(u, c, n, rows) <==> IsClientAdmin(u, n.client, c, rows))
  {
  }

  /** A member may always remove their own membership, pending or not; anyone else needs the admin check. */
  lemma RemoveSelfAlwaysAllowed(u: User, c: Client, target: ClientCoworker, rows: map<nat, ClientCoworker>)
    ensures target.user == u.id ==> CanRemoveCoworker(u, c, target, rows)
    ensures target.user != u.id ==> (CanRemoveCoworker(u, c, target, rows) <==> IsClientAdmin(u, target.client, c, rows))
  {
  }

  /** The clients where the user holds an active membership, whatever its role. */
  function MemberClients(u: User, clients: map<nat, Client>, rows: map<nat, ClientCoworker>): set<nat> {
    set cid | cid in clients && ActiveIn(rows, cid, u.id, AtLeast(Viewer))
  }

  /**
   * `client_list`: the team sees every client; platform role client is
   * always refused; anyone else sees the clients they are an active member
   * of, and is refused when there are none.
   */
  function ClientList(u: User, clients: map<nat, Client>, rows: map<nat, ClientCoworker>): (g: Guarded<set<nat>>)
    ensures IsTeam(u) ==> g == Ran(clients.Keys)
    ensures !IsTeam(u) && u.role == Some(RoleName.Client) ==> g.Forbidden?
    ensures !IsTeam(u) && u.role != Some(RoleName.Client) ==> (g.Ran? <==> MemberClients(u, clients, rows) != {})
    ensures g.Ran? ==> g.response <= clients.Keys
  {
    if u.isSuperuser || u.role == Some(Admin) || u.role == Some(Staff) then Ran(clients.Keys)
    else if u.role == Some(RoleName.Client) then Forbidden
    else
      var member := MemberClients(u, clients, rows);
      if member != {} then Ran(member) else Forbidden
  }

  /** Every listed client opens for the user: the list never shows a client whose detail page refuses them. */
  lemma ListedClientsOpen(u: User, clients: map<nat, Client>, rows: map<nat, ClientCoworker>)
    ensures ClientList(u, clients, rows).Ran? ==>
      forall cid | cid in ClientList(u, clients, rows).response :: CanViewClient(u, cid, clients[cid], rows)
  {
  }

  /**
   * A client-role user is refused the list even when they are an active
   * member, or the point of contact, of a client whose detail page admits
   * them.
   */
  lemma ClientRoleRefusedListButNotDetail(u: User, clients: map<nat, Client>, rows: map<nat, ClientCoworker>, cid: nat)
    requires !IsTeam(u) && u.role == Some(RoleName.Client)
    requires cid in clients && ActiveIn(rows, cid, u.id, AtLeast(Viewer))
    ensures ClientList(u, clients, rows).Forbidden?
    ensures CanViewClient(u, cid, clients[cid], rows)
  {
  }

  /** `ClientForm`'s point-of-contact choices: users with role admin or staff. */
  function PocOptions(users: seq<User>): set<nat> {
    set i | 0 <= i < |users| && (users[i].role == Some(Admin) || users[i].role == Some(Staff))
  }

  /** The `staff_users` the client views pass along: role admin or staff, or superuser. */
  function StaffUsers(users: seq<User>): set<nat> {
    set i | 0 <= i < |users| && IsTeam(users[i])
  }

  /** The form offers a subset of `staff_users`: a superuser without role admin or staff is listed but not offered. */
  lemma PocOptionsWithinStaffUsers(users: seq<User>, i: nat)
    ensures PocOptions(users) <= StaffUsers(users)
    ensures i < |users| && users[i].isSuperuser && users[i].role != Some(Admin) && users[i].role != Some(Staff) ==>
      i in StaffUsers(users) && i !in PocOptions(users)
  {
  }

  /** A view's answer: no such row (404), refused (403), or done. */
  datatype ClientOutcome = NotFound | Denied | Done

  /** The rows of the coworker table point at stored clients. */
  predicate ClientsPresent(rows: map<nat, ClientCoworker>, clients: map<nat, Client>) {
    forall k | k in rows :: rows[k].client in clients
  }

  /** The POST of `resend_invitation`: a new token and sending time; role and status stay. */
  method ResendInvitation(table: CoworkerTable, clients: map<nat, Client>, u: User, id: nat, token: string, now: nat)
    returns (o: ClientOutcome)
    requires table.Valid() && ClientsPresent(table.rows, clients)
    modifies table
    ensures table.Valid()
    ensures o == NotFound <==> id !in old(table.rows)
    ensures o == Denied <==> (id in old(table.rows) &&
      !IsClientAdmin(u, old(table.rows)[id].client, clients[old(table.rows)[id].client], old(table.rows)))
    ensures o == Done ==> (table.rows == old(table.rows)[id :=
      old(table.rows)[id].(invitationSent := Some(now), invitationToken := Some(token))])
    ensures o != Done ==> table.rows == old(table.rows)
  {
    if id !in table.rows {
      return NotFound;
    }
    var cid := table.rows[id].client;
    var hasAccess := CheckGate(u, cid, clients[cid], table.rows, false, Administrator);
    if !hasAccess {
      return Denied;
    }
    table.SetInvitation(id, token, now);
    o := Done;
  }

  /** The POST of `coworker_update`: a valid role key is applied, anything else leaves the row alone. */
  method CoworkerUpdate(table: CoworkerTable, clients: map<nat, Client>, u: User, id: nat, roleKey: string)
    returns (o: ClientOutcome)
    requires table.Valid() && ClientsPresent(table.rows, clients)
    modifies table
    ensures table.Valid()
    ensures o == NotFound <==> id !in old(table.rows)
    ensures o == Denied <==> (id in old(table.rows) &&
      !IsClientAdmin(u, old(table.rows)[id].client, clients[old(table.rows)[id].client], old(table.rows)))
    ensures o == Done && ParseCoworkerRole(roleKey).Some? ==>
      table.rows == old(table.rows)[id := old(table.rows)[id].(role := ParseCoworkerRole(roleKey).value)]
    ensures o != Done || ParseCoworkerRole(roleKey).None? ==> table.rows == old(table.rows)
  {
    if id !in table.rows {
      return NotFound;
    }
    var cid := table.rows[id].client;
    var hasAccess := CheckGate(u, cid, clients[cid], table.rows, false, Administrator);
    if !hasAccess {
      return Denied;
    }
    var applied := table.UpdateRole(id, roleKey);
    o := Done;
  }

  /** The POST of `coworker_delete`. */
  method CoworkerDelete(table: CoworkerTable, clients: map<nat, Client>, u: User, id: nat) returns (o: ClientOutcome)
    requires table.Valid() && ClientsPresent(table.rows, clients)
    modifies table
    ensures table.Valid()
    ensures o == NotFound <==> id !in old(table.rows)
    ensures o == Denied <==> (id in old(table.rows) &&
      !CanRemoveCoworker(u, clients[old(table.rows)[id].client], old(table.rows)[id], old(table.rows)))
    ensures o == Done ==> table.rows == old(table.rows) - {id}
    ensures o != Done ==> table.rows == old(table.rows)
  {
    if id !in table.rows {
      return NotFound;
    }
    var target := table.rows[id];
    var hasAccess := CheckGate(u, target.client, clients[target.client], table.rows, false, Administrator);
    if u.id == target.user {
      hasAccess := true;
    }
    if !hasAccess {
      return Denied;
    }
    table.Remove(id);
    o := Done;
  }

  /**
   * What a `client_detail` request submits: nothing, the note form, or the
   * invite form with the posted email and role key.
   */
  datatype DetailPost = NoPost | NoteForm(title: string, content: string) | InviteForm(email: string, roleKey: string)

  /** As written, `client_detail` handles either form for everyone its `has_access` admits. */
  predicate DetailAdmitsAsWritten(u: User, cid: nat, c: Client, rows: map<nat, ClientCoworker>, post: DetailPost) {
    CanViewClient(u, cid, c, rows)
  }

  /** The form handling `client_detail` evidently means: each form behind the check of its own view. */
  predicate DetailAdmits(u: User, cid: nat, c: Client, rows: map<nat, ClientCoworker>, post: DetailPost) {
    match post
    case NoPost => CanViewClient(u, cid, c, rows)
    case NoteForm(_, _) => CanAddNote(u, cid, c, rows)
    case InviteForm(_, _) => IsClientAdmin(u, cid, c, rows)
  }

  /**
   * As written, an active viewer who may not use `note_create`, and who is
   * not a client admin, still adds notes and invites coworkers through the
   * forms of `client_detail`.
   */
  lemma ViewerPostsThroughDetail()
    ensures var u := User(7, "viewer@example.com", "", "", Some(Basic), false, false, true, false);
      var c := ClientRow("Acme", None);
      var rows := map[0 := ClientCoworker(1, 7, Viewer, Active, None, None)];
      && DetailAdmitsAsWritten(u, 1, c, rows, NoteForm("t", "c")) && !CanAddNote(u, 1, c, rows)
      && DetailAdmitsAsWritten(u, 1, c, rows, InviteForm("x@example.com", "admin")) && !IsClientAdmin(u, 1, c, rows)
  {
    var u := User(7, "viewer@example.com", "", "", Some(Basic), false, false, true, false);
    var c := ClientRow("Acme", None);
    var rows := map[0 := ClientCoworker(1, 7, Viewer, Active, None, None)];
    assert rows[0].role == Viewer;
    ThresholdsStrict(u, 1, c, rows, 0);
  }

  /**
   * With each form behind its own view's check, the detail page admits a
   * form exactly when the dedicated view would, and never admits a post the
   * page as written refuses.
   */
  lemma DetailAdmitsMatchesViews(u: User, cid: nat, c: Client, rows: map<nat, ClientCoworker>, post: DetailPost)
    ensures post.NoteForm? ==> (DetailAdmits(u, cid, c, rows, post) <==> CanAddNote(u, cid, c, rows))
    ensures post.InviteForm? ==> (DetailAdmits(u, cid, c, rows, post) <==> IsClientAdmin(u, cid, c, rows))
    ensures DetailAdmits(u, cid, c, rows, post) ==> DetailAdmitsAsWritten(u, cid, c, rows, post)
  {
    ThresholdsNested(u, cid, c, rows, false);
  }

  /** `max_length` of `ClientNote.title`. */
  const NoteTitleMaxLength := 255

  /** `ClientNoteForm` accepts the post: `title` (at most 255 characters) and `content` are given. */
  predicate NoteFormValid(title: string, content: string) {
    CleanCharField(title, true, Some(NoteTitleMaxLength)).Ok? && CleanCharField(content, true, None).Ok?
  }

  /** The note a valid `ClientNoteForm` saves: stripped title and content, the client and the author. */
  function PostedNote(cid: nat, author: nat, title: string, content: string): (n: ClientNote)
    requires NoteFormValid(title, content)
    ensures n.client == cid && n.author == Some(author)
    ensures n.title != [] && |n.title| <= NoteTitleMaxLength && n.content != []
  {
    ClientNote(cid, Some(author), Strip(title), Strip(content))
  }

  /** What `client_detail` does with a request. */
  datatype DetailOutcome =
    | ClientMissing
    | DetailDenied
    | Shown(isAdmin: bool)
    | NoteAdded(note: ClientNote)
    | NoteInvalid(title: Option<FieldError>, content: Option<FieldError>)
    | Invited(id: nat)
    | InviteCrashed(id: nat)
    | InviteRefused(email: Option<InviteError>, roleRefused: bool)

  /**
   * `ClientCoworkerForm` accepts the post: the role key is one of the
   * `ROLE_CHOICES` keys and `clean_email` finds a user not yet associated.
   */
  predicate InviteFormValid(users: seq<User>, rows: map<nat, ClientCoworker>, cid: nat, email: string, roleKey: string) {
    ParseCoworkerRole(roleKey).Some? && CleanInviteEmail(users, rows, cid, email).Ok?
  }

  /** The answer to an invite form that does not validate: the email field's error, and whether the role was refused. */
  function InviteRefusal(users: seq<User>, rows: map<nat, ClientCoworker>, cid: nat, email: string, roleKey: string): (o: DetailOutcome)
    requires !InviteFormValid(users, rows, cid, email, roleKey)
    ensures o.InviteRefused? && (o.email.Some? || o.roleRefused)
    ensures o.roleRefused <==> ParseCoworkerRole(roleKey).None?
    ensures o.email.None? <==> CleanInviteEmail(users, rows, cid, email).Ok?
    ensures o.email.Some? ==> CleanInviteEmail(users, rows, cid, email) == Err(o.email.value)
  {
    var check := CleanInviteEmail(users, rows, cid, email);
    InviteRefused(if check.Err? then Some(check.error) else None, ParseCoworkerRole(roleKey).None?)
  }

  /** The outcome of a note post to `client_detail`. */
  function NoteOutcome(cid: nat, author: nat, title: string, content: string): (o: DetailOutcome)
    ensures o.NoteAdded? <==> NoteFormValid(title, content)
    ensures o.NoteAdded? ==> o.note == PostedNote(cid, author, title, content)
    ensures !o.NoteAdded? ==> (o.NoteInvalid? && (o.title.None? <==> CleanCharField(title, true, Some(NoteTitleMaxLength)).Ok?)
      && (o.content.None? <==> CleanCharField(content, true, None).Ok?))
  {
    if NoteFormValid(title, content) then NoteAdded(PostedNote(cid, author, title, content))
    else NoteInvalid(ErrorOf(CleanCharField(title, true, Some(NoteTitleMaxLength))), ErrorOf(CleanCharField(content, true, None)))
  }

  /**
   * `client_detail` as written: whoever `has_access` admits may post either
   * form. A valid note is saved. A valid invitation is saved and mailed, and
   * then the success message reads `coworker.email`, which `ClientCoworker`
   * does not have, so the request ends in a server error with the row kept.
   */
  method ClientDetail(table: CoworkerTable, users: seq<User>, clients: map<nat, Client>, u: User, cid: nat, post: DetailPost,
                      token: string, now: nat) returns (o: DetailOutcome)
    requires table.Valid()
    modifies table
    ensures table.Valid()
    ensures o == ClientMissing <==> cid !in clients
    ensures o == DetailDenied <==> (cid in clients && !CanViewClient(u, cid, clients[cid], old(table.rows)))
    ensures cid in clients && CanViewClient(u, cid, clients[cid], old(table.rows)) ==>
      match post
      case NoPost => o == Shown(IsClientAdmin(u, cid, clients[cid], old(table.rows)))
      case NoteForm(title, content) => o == NoteOutcome(cid, u.id, title, content)
      case InviteForm(email, roleKey) =>
        if InviteFormValid(users, old(table.rows), cid, email, roleKey) then o.InviteCrashed?
        else o == InviteRefusal(users, old(table.rows), cid, email, roleKey)
    ensures o.InviteCrashed? ==> (post.InviteForm? && InviteFormValid(users, old(table.rows), cid, post.email, post.roleKey)
      && o.id !in old(table.rows) && table.rows == old(table.rows)[o.id :=
      ClientCoworker(cid, CleanInviteEmail(users, old(table.rows), cid, post.email).value, ParseCoworkerRole(post.roleKey).value,
                     Pending, Some(now), Some(token))])
    ensures !o.InviteCrashed? ==> table.rows == old(table.rows)
    ensures !o.Invited?
  {
    if cid !in clients {
      return ClientMissing;
    }
    var c := clients[cid];
    var hasAccess, isAdmin := ClientDetailFlags(u, cid, c, table.rows);
    if !hasAccess {
      return DetailDenied;
    }
    match post {
      case NoPost =>
        o := Shown(isAdmin);
      case NoteForm(title, content) =>
        o := NoteOutcome(cid, u.id, title, content);
      case InviteForm(email, roleKey) =>
        var role := ParseCoworkerRole(roleKey);
        if !InviteFormValid(users, table.rows, cid, email, roleKey) {
          o := InviteRefusal(users, table.rows, cid, email, roleKey);
        } else {
          var r := table.Invite(users, cid, email, role.value, token, now);
          o := InviteCrashed(r.value);
        }
    }
  }

  /**
   * `client_detail` as evidently intended: each form behind the check of
   * its own view (the note form for note authors, the invite form for
   * client admins), and a saved invitation answered with the redirect.
   */
  method IntendedClientDetail(table: CoworkerTable, users: seq<User>, clients: map<nat, Client>, u: User, cid: nat,
                              post: DetailPost, token: string, now: nat) returns (o: DetailOutcome)
    requires table.Valid()
    modifies table
    ensures table.Valid()
    ensures o == ClientMissing <==> cid !in clients
    ensures o == DetailDenied <==> (cid in clients && !CanViewClient(u, cid, clients[cid], old(table.rows)))
    ensures cid in clients && CanViewClient(u, cid, clients[cid], old(table.rows)) && !DetailAdmits(u, cid, clients[cid], old(table.rows), post)
      ==> o == Shown(IsClientAdmin(u, cid, clients[cid], old(table.rows)))
    ensures o.NoteAdded? || o.NoteInvalid? ==> (post.NoteForm? && DetailAdmits(u, cid, clients[cid], old(table.rows), post)
      && o == NoteOutcome(cid, u.id, post.title, post.content))
    ensures o.Invited? || o.InviteRefused? ==> (post.InviteForm? && DetailAdmits(u, cid, clients[cid], old(table.rows), post))
    ensures o.Invited? ==> (post.InviteForm? && InviteFormValid(users, old(table.rows), cid, post.email, post.roleKey)
      && table.rows == old(table.rows)[o.id :=
      ClientCoworker(cid, CleanInviteEmail(users, old(table.rows), cid, post.email).value, ParseCoworkerRole(post.roleKey).value,
                     Pending, Some(now), Some(token))])
    ensures o.InviteRefused? ==> (post.InviteForm? && !InviteFormValid(users, old(table.rows), cid, post.email, post.roleKey)
      && o == InviteRefusal(users, old(table.rows), cid, post.email, post.roleKey))
    ensures !o.InviteCrashed?
    ensures !o.Invited? ==> table.rows == old(table.rows)
  {
    if cid !in clients {
      return ClientMissing;
    }
    var c := clients[cid];
    var hasAccess, isAdmin := ClientDetailFlags(u, cid, c, table.rows);
    if !hasAccess {
      return DetailDenied;
    }
    match post {
      case NoPost =>
        o := Shown(isAdmin);
      case NoteForm(title, content) =>
        var mayAdd := CheckGate(u, cid, c, table.rows, false, Editor);
        if mayAdd {
          o := NoteOutcome(cid, u.id, title, content);
        } else {
          o := Shown(isAdmin);
        }
      case InviteForm(email, roleKey) =>
        if isAdmin {
          var role := ParseCoworkerRole(roleKey);
          if !InviteFormValid(users, table.rows, cid, email, roleKey) {
            o := InviteRefusal(users, table.rows, cid, email, roleKey);
          } else {
            var r := table.Invite(users, cid, email, role.value, token, now);
            o := Invited(r.value);
          }
        } else {
          o := Shown(isAdmin);
        }
    }
  }
}

=== FILE: coworkers.dfy ===
/**
 * Client coworkers (clients/models.py, clients/forms.py): the
 * `ClientCoworker` membership with its invitation life cycle (pending,
 * then active once the emailed token is accepted), the invite form, and
 * the separate email-based `Coworker` record with its own form check.
 * Tokens and times are parameters: `uuid4` and `timezone.now` are not
 * part of this model.
 */
module Coworkers {
  import opened Wrappers
  import opened Users
  import opened RoleCommands

  /** `ClientCoworker.ROLE_CHOICES`. */
  datatype CoworkerRole = Administrator | Editor | Viewer

  /** The stored key of each coworker role. */
  function CoworkerRoleKey(r: CoworkerRole): string {
    match r
    case Administrator => "admin"
    case Editor => "editor"
    case Viewer => "viewer"
  }

  /** The role whose key is `s`, if `s` is one of the three keys. */
  function ParseCoworkerRole(s: string): (r: Option<CoworkerRole>)
    ensures r.Some? ==> CoworkerRoleKey(r.value) == s
    ensures r.None? <==> forall c: CoworkerRole :: CoworkerRoleKey(c) != s
  {
    if s == "admin" then Some(Administrator)
    else if s == "editor" then Some(Editor)
    else if s == "viewer" then Some(Viewer)
    else None
  }

  /** `ClientCoworker.STATUS_CHOICES`. */
  datatype InvitationStatus = Pending | Active | Declined

  /** A `Client` row, as far as the access rules read it. */
  datatype Client = ClientRow(companyName: string, pointOfContact: Option<nat>)

  /** A `ClientCoworker` row. */
  datatype ClientCoworker = ClientCoworker(
    client: nat,
    user: nat,
    role: CoworkerRole,
    status: InvitationStatus,
    invitationSent: Option<nat>,
    invitationToken: Option<string>)

  /** A membership as the model defaults fill it: role viewer, status pending, no invitation yet. */
  function NewClientCoworker(client: nat, user: nat): (c: ClientCoworker)
    ensures c.role == Viewer && c.status == Pending
    ensures c.invitationSent.None? && c.invitationToken.None?
    ensures c.client == client && c.user == user
  {
    ClientCoworker(client, user, Viewer, Pending, None, None)
  }

  /** `unique_together = ('client', 'user')`. */
  predicate PairsUnique(rows: map<nat, ClientCoworker>) {
    forall a, b | a in rows && b in rows && a != b :: rows[a].client != rows[b].client || rows[a].user != rows[b].user
  }

  /** Some membership links this client and user, whatever its status. */
  predicate Associated(rows: map<nat, ClientCoworker>, client: nat, user: nat) {
    exists id | id in rows :: rows[id].client == client && rows[id].user == user
  }

  /** The rows `accept_invitation` looks up: pending, with this token. */
  function PendingWithToken(rows: map<nat, ClientCoworker>, token: string): (r: set<nat>)
    ensures forall id | id in r :: id in rows && rows[id].status == Pending && rows[id].invitationToken == Some(token)
  {
    set id | id in rows && rows[id].status == Pending && rows[id].invitationToken == Some(token)
  }

  /** Activating a matched row takes it, and only it, out of the pending set of every token. */
  lemma ActivatingConsumesToken(rows: map<nat, ClientCoworker>, id: nat, token: string, other: string)
    requires id in rows
    ensures PendingWithToken(rows[id := rows[id].(status := Active)], other) == PendingWithToken(rows, other) - {id}
  {
  }

  /** Why `ClientCoworkerForm.clean_email` refuses an email. */
  datatype InviteError = NoUserWithEmail | AlreadyAssociated

  /**
   * `clean_email`: the email must belong to a user, and that user must not
   * be associated with the client in any status; the result is that user.
   */
  function CleanInviteEmail(users: seq<User>, rows: map<nat, ClientCoworker>, client: nat, email: string): (r: Result<nat, InviteError>)
    ensures r == Err(NoUserWithEmail) <==> forall i | 0 <= i < |users| :: users[i].email != email
    ensures r == Err(AlreadyAssociated) ==> exists i | 0 <= i < |users| :: users[i].email == email && Associated(rows, client, i)
    ensures r.Ok? ==> r.value < |users| && users[r.value].email == email && !Associated(rows, client, r.value)
  {
    var found := FindByEmail(users, email);
    if found.None? then Err(NoUserWithEmail)
    else if Associated(rows, client, found.value) then Err(AlreadyAssociated)
    else Ok(found.value)
  }

  /** With unique emails, the check refuses exactly the users already associated. */
  lemma CleanInviteEmailWithUniqueEmails(users: seq<User>, rows: map<nat, ClientCoworker>, client: nat, i: nat)
    requires i < |users|
    requires forall a, b | 0 <= a < b < |users| :: users[a].email != users[b].email
    ensures CleanInviteEmail(users, rows, client, users[i].email) ==
      (if Associated(rows, client, i) then Err(AlreadyAssociated) else Ok(i))
  {
    var r := CleanInviteEmail(users, rows, client, users[i].email);
    assert r != Err(NoUserWithEmail);
    var found := FindByEmail(users, users[i].email);
    assert found.value == i;
  }

  /** The `ClientCoworker` table. */
  class CoworkerTable {
    var rows: map<nat, ClientCoworker>
    var nextId: nat

    /** The unique pair constraint, and ids handed out below `nextId`. */
    ghost predicate Valid()
      reads this
    {
      (forall id | id in rows :: id < nextId) && PairsUnique(rows)
    }

    /** An empty table. */
    constructor ()
      ensures Valid() && rows == map[]
    {
      rows := map[];
      nextId := 0;
    }

    /** The row's invitation fields replaced by a new token and sending time; role and status stay. */
    method SetInvitation(id: nat, token: string, now: nat)
      requires Valid() && id in rows
      modifies this
      ensures Valid() && nextId == old(nextId)
      ensures rows == old(rows)[id := old(rows)[id].(invitationSent := Some(now), invitationToken := Some(token))]
    {
      rows := rows[id := rows[id].(invitationSent := Some(now), invitationToken := Some(token))];
    }

    /** `ClientCoworker.send_invitation`: a fresh token and the sending time, then `True`. */
    method SendInvitation(id: nat, token: string, now: nat) returns (sent: bool)
      requires Valid() && id in rows
      modifies this
      ensures Valid() && nextId == old(nextId) && sent
      ensures id in rows && rows[id].role == old(rows)[id].role && rows[id].status == old(rows)[id].status
      ensures rows[id].invitationToken == Some(token) && rows[id].invitationSent == Some(now)
      ensures rows == old(rows)[id := old(rows)[id].(invitationSent := Some(now), invitationToken := Some(token))]
    {
      SetInvitation(id, token, now);
      sent := true;
    }

    /**
     * The invite form: `clean_email`, then `save`, which binds the new
     * membership to that user and this client with the chosen role and
     * sends the invitation.
     */
    method Invite(users: seq<User>, client: nat, email: string, role: CoworkerRole, token: string, now: nat)
      returns (r: Result<nat, InviteError>)
      requires Valid()
      modifies this
      ensures Valid()
      ensures r.Err? <==> CleanInviteEmail(users, old(rows), client, email).Err?
      ensures r.Err? ==> r.error == CleanInviteEmail(users, old(rows), client, email).error && rows == old(rows)
      ensures r.Ok? ==> r.value !in old(rows) && rows == old(rows)[r.value :=
        ClientCoworker(client, CleanInviteEmail(users, old(rows), client, email).value, role, Pending, Some(now), Some(token))]
    {
      var user := CleanInviteEmail(users, rows, client, email);
      if user.Err? {
        return Err(user.error);
      }
      var id := nextId;
      nextId := nextId + 1;
      rows := rows[id := NewClientCoworker(client, user.value).(role := role)];
      var sent := SendInvitation(id, token, now);
      r := Ok(id);
    }

    /** `accept_invitation`: the pending row with this token becomes active. */
    method AcceptInvitation(token: string) returns (r: AcceptOutcome)
      requires Valid()
      modifies this
      ensures Valid() && nextId == old(nextId)
      ensures r == InvalidOrExpired <==> PendingWithToken(old(rows), token) == {}
      ensures r == MultipleMatches <==> |PendingWithToken(old(rows), token)| > 1
      ensures r.Accepted? ==> (PendingWithToken(old(rows), token) == {r.id}
        && rows == old(rows)[r.id := old(rows)[r.id].(status := Active)])
      ensures !r.Accepted? ==> rows == old(rows)
    {
      var matches := PendingWithToken(rows, token);
      if matches == {} {
        return InvalidOrExpired;
      }
      if |matches| > 1 {
        return MultipleMatches;
      }
      var id :| id in matches;
      assert |matches - {id}| == 0;
      assert matches == {id};
      rows := rows[id := rows[id].(status := Active)];
      r := Accepted(id);
    }

    /** The role update of `coworker_update`: only one of the three role keys is applied. */
    method UpdateRole(id: nat, roleKey: string) returns (applied: bool)
      requires Valid() && id in rows
      modifies this
      ensures Valid() && nextId == old(nextId)
      ensures applied <==> ParseCoworkerRole(roleKey).Some?
      ensures applied ==> rows == old(rows)[id := old(rows)[id].(role := ParseCoworkerRole(roleKey).value)]
      ensures !applied ==> rows == old(rows)
    {
      var role := ParseCoworkerRole(roleKey);
      if role.None? {
        return false;
      }
      rows := rows[id := rows[id].(role := role.value)];
      applied := true;
    }

    /** `coworker.delete()`. */
    method Remove(id: nat)
      requires Valid()
      modifies this
      ensures Valid() && nextId == old(nextId)
      ensures rows == old(rows) - {id}
    {
      rows := rows - {id};
    }
  }

  /** What `accept_invitation` finds: no pending row with the token, more than one, or exactly one. */
  datatype AcceptOutcome = InvalidOrExpired | MultipleMatches | Accepted(id: nat)

  /**
   * A token is accepted at most once: once its only pending row is active,
   * the same token finds nothing.
   */
  lemma TokenAcceptedOnce(rows: map<nat, ClientCoworker>, token: string, id: nat)
    requires PendingWithToken(rows, token) == {id}
    ensures PendingWithToken(rows[id := rows[id].(status := Active)], token) == {}
  {
    ActivatingConsumesToken(rows, id, token, token);
  }

  /** `Coworker.STATUS_CHOICES`. */
  datatype CoworkerStatus = CoworkerPending | CoworkerActive | CoworkerInactive

  /** A `Coworker` row: an emailed collaborator, with or without an account. */
  datatype Coworker = Coworker(
    client: nat,
    user: Option<nat>,
    email: string,
    role: CoworkerRole,
    status: CoworkerStatus,
    invitationToken: string,
    invitedBy: Option<nat>)

  /** A new `Coworker` as the field defaults fill it, with its generated token. */
  function NewCoworker(client: nat, email: string, role: CoworkerRole, token: string, invitedBy: Option<nat>): (c: Coworker)
    ensures c.status == CoworkerPending && c.user.None?
    ensures c.client == client && c.email == email && c.role == role && c.invitationToken == token
  {
    Coworker(client, None, email, role, CoworkerPending, token, invitedBy)
  }

  /** `unique=True` on the token and `unique_together = ('client', 'email')`. */
  predicate CoworkersUnique(records: map<nat, Coworker>) {
    forall a, b | a in records && b in records && a != b ::
      records[a].invitationToken != records[b].invitationToken
      && (records[a].client != records[b].client || records[a].email != records[b].email)
  }

  /** `CoworkerForm.clean_email` refuses an email the client already has. */
  datatype CoworkerFormError = EmailAlreadyAssociated

  /**
   * `CoworkerForm.clean_email`: with a client in the form's initial data,
   * an email already recorded for that client is refused.
   */
  function CleanCoworkerEmail(records: map<nat, Coworker>, client: Option<nat>, email: string): (r: Result<string, CoworkerFormError>)
    ensures r.Err? <==> client.Some? && exists id | id in records :: records[id].client == client.value && records[id].email == email
    ensures r.Ok? ==> r.value == email
  {
    if client.Some? && exists id | id in records :: records[id].client == client.value && records[id].email == email then
      Err(EmailAlreadyAssociated)
    else Ok(email)
  }

  /** A record saved after the check, with a token no record holds, keeps both unique constraints. */
  lemma CleanedCoworkerKeepsUnique(records: map<nat, Coworker>, id: nat, client: nat, email: string, role: CoworkerRole,
                                   token: string, invitedBy: Option<nat>)
    requires CoworkersUnique(records) && id !in records
    requires CleanCoworkerEmail(records, Some(client), email).Ok?
    requires forall k | k in records :: records[k].invitationToken != token
    ensures CoworkersUnique(records[id := NewCoworker(client, email, role, token, invitedBy)])
  {
  }

  /** An invite that passes the form check keeps the membership pairs unique. */
  lemma InviteKeepsPairsUnique(rows: map<nat, ClientCoworker>, id: nat, users: seq<User>, client: nat, email: string,
                               role: CoworkerRole, token: string, now: nat)
    requires PairsUnique(rows) && id !in rows
    requires CleanInviteEmail(users, rows, client, email).Ok?
    ensures PairsUnique(rows[id := ClientCoworker(client, CleanInviteEmail(users, rows, client, email).value, role, Pending,
                                                  Some(now), Some(token))])
  {
  }
}

=== FILE: form_fields.dfy ===
/**
 * The clean step of the text fields Django generates for a model form: a
 * model `CharField` or `TextField` becomes a form `CharField` that strips
 * its value, refuses an empty value when the model field is not
 * `blank=True`, and checks the model's `max_length` on the stripped value.
 */
module FormFields {
  import opened Wrappers
  import opened Text

  /** Why a form text field refuses a value: it is required and empty, or longer than `max_length`. */
  datatype FieldError = Required | TooLong

  /** The error of a field's clean step, if it raised one. */
  function ErrorOf<T, E>(r: Result<T, E>): (e: Option<E>)
    ensures e.None? <==> r.Ok?
    ensures e.Some? ==> r == Err(e.value)
  {
    if r.Err? then Some(r.error) else None
  }

  /**
   * The cleaned value of a form text field: the stripped value, unless the
   * field is required and that is empty, or the field has a `max_length`
   * and that is exceeded. An empty value skips the length check.
   */
  function CleanCharField(value: string, required: bool, maxLength: Option<nat>): (r: Result<string, FieldError>)
    ensures r.Ok? ==> IsStripped(r.value) && |r.value| <= |value|
    ensures r.Ok? && required ==> r.value != []
    ensures r.Ok? && maxLength.Some? ==> |r.value| <= maxLength.value
  {
    var v := Strip(value);
    if required && v == [] then Err(Required)
    else if maxLength.Some? && |v| > maxLength.value then Err(TooLong)
    else Ok(v)
  }

  /**
   * A required field refuses exactly the values made of white space only,
   * and a field with no `max_length` that is not required accepts everything.
   */
  lemma RequiredRefusesBlank(value: string, maxLength: Option<nat>)
    ensures CleanCharField(value, true, maxLength) == Err(Required) <==> forall k | 0 <= k < |value| :: IsSpace(value[k])
    ensures CleanCharField(value, false, None).Ok?
  {
    BlankStripsToEmpty(value);
  }

  /** Submitting a cleaned value again gives the same cleaned value. */
  lemma CleanedValueIsFixed(value: string, required: bool, maxLength: Option<nat>)
    requires CleanCharField(value, required, maxLength).Ok?
    ensures CleanCharField(CleanCharField(value, required, maxLength).value, required, maxLength)
      == CleanCharField(value, required, maxLength)
  {
    StripOfStripped(Strip(value));
  }
}

=== FILE: grouping.dfy ===
/**
 * The "group into a dict of lists" loop that projects/views.py and
 * projects/forms.py both use: a dict keyed in order of first appearance,
 * each key holding the items with that key in their original order.
 */
module Grouping {
  import opened Seqs

  /** The keys of `items`, each once, in order of first appearance (the dict's key order). */
  function FirstSeenKeys<T, K(==)>(items: seq<T>, key: T -> K): (r: seq<K>)
    decreases |items|
  {
    if items == [] then []
    else
      var init := FirstSeenKeys(items[..|items| - 1], key);
      var k := key(items[|items| - 1]);
      if k in init then init else init + [k]
  }

  /** The items of `items` whose key is `k`, in order: the list stored under `k`. */
  function Members<T(==,!new), K(==)>(items: seq<T>, key: T -> K, k: K): seq<T> {
    Filter(items, x => key(x) == k)
  }

  /** The key order lists each key once, and exactly the keys some item has. */
  lemma {:induction false} FirstSeenKeysShape<T, K>(items: seq<T>, key: T -> K)
    ensures Distinct(FirstSeenKeys(items, key))
    ensures forall k :: k in FirstSeenKeys(items, key) <==> exists i | 0 <= i < |items| :: key(items[i]) == k
    decreases |items|
  {
    if items != [] {
      var init := items[..|items| - 1];
      FirstSeenKeysShape(init, key);
      var ks := FirstSeenKeys(init, key);
      var k := key(items[|items| - 1]);
      forall j | 0 <= j < |init| ensures items[j] == init[j] { }
      forall x ensures x in FirstSeenKeys(items, key) <==> exists i | 0 <= i < |items| :: key(items[i]) == x {
        if x in ks {
          var i :| 0 <= i < |init| && key(init[i]) == x;
          assert key(items[i]) == x;
        }
        if exists i | 0 <= i < |items| :: key(items[i]) == x {
          var i :| 0 <= i < |items| && key(items[i]) == x;
          if i < |init| {
            assert key(init[i]) == x;
          }
        }
      }
    }
  }

  /** The key of every item appears in the key order. */
  lemma {:induction false} ItemKeyIsSeen<T, K>(items: seq<T>, key: T -> K, i: nat)
    requires i < |items|
    ensures key(items[i]) in FirstSeenKeys(items, key)
    decreases |items|
  {
    var init := items[..|items| - 1];
    if i < |init| {
      ItemKeyIsSeen(init, key, i);
      assert init[i] == items[i];
    }
  }

  /** Every item lands in the group of its own key and in no other group. */
  lemma EachItemInOneGroup<T(!new), K>(items: seq<T>, key: T -> K, i: nat, k: K)
    requires i < |items|
    ensures items[i] in Members(items, key, key(items[i]))
    ensures k != key(items[i]) ==> items[i] !in Members(items, key, k)
  {
    assert items[i] in items;
  }

  /** One more item extends its own key's group and no other. */
  lemma MembersSnoc<T(!new), K>(items: seq<T>, x: T, key: T -> K, k: K)
    ensures Members(items + [x], key, k) == Members(items, key, k) + (if key(x) == k then [x] else [])
  {
    FilterSnoc(items, x, y => key(y) == k);
  }

  /** One more item adds its key to the order when the key is new. */
  lemma FirstSeenKeysSnoc<T, K>(items: seq<T>, x: T, key: T -> K)
    ensures FirstSeenKeys(items + [x], key) ==
      (if key(x) in FirstSeenKeys(items, key) then FirstSeenKeys(items, key) else FirstSeenKeys(items, key) + [key(x)])
  {
    assert (items + [x])[..|items|] == items;
  }

  /** A key no item has so far has an empty group. */
  lemma UnseenKeyHasNoMembers<T(!new), K>(items: seq<T>, key: T -> K, k: K)
    requires k !in FirstSeenKeys(items, key)
    ensures Members(items, key, k) == []
  {
    FirstSeenKeysShape(items, key);
    forall x | x in items ensures key(x) != k {
      var j :| 0 <= j < |items| && items[j] == x;
    }
    FilterNone(items, x => key(x) == k);
  }

  /** One round of the grouping loop extends the key order exactly when the item's key has no group yet. */
  lemma GroupOrderStep<T, K(!new)>(items: seq<T>, i: nat, key: T -> K, order: seq<K>, keys: set<K>)
    requires i < |items|
    requires order == FirstSeenKeys(items[..i], key) && keys == Elements(order)
    ensures key(items[i]) in keys ==> order == FirstSeenKeys(items[..i + 1], key)
    ensures key(items[i]) !in keys ==> order + [key(items[i])] == FirstSeenKeys(items[..i + 1], key)
  {
    assert items[..i + 1] == items[..i] + [items[i]];
    FirstSeenKeysSnoc(items[..i], items[i], key);
  }

  /** Appending the item to its key's group keeps every group that of the longer prefix. */
  lemma GroupMembersStep<T(!new), K>(items: seq<T>, i: nat, key: T -> K, groups: map<K, seq<T>>)
    requires i < |items| && key(items[i]) in groups
    requires forall c | c in groups :: groups[c] == Members(items[..i], key, c)
    ensures var k := key(items[i]);
      var g := groups[k := groups[k] + [items[i]]];
      forall c | c in g :: g[c] == Members(items[..i + 1], key, c)
  {
    var k := key(items[i]);
    var g := groups[k := groups[k] + [items[i]]];
    assert items[..i + 1] == items[..i] + [items[i]];
    forall c | c in g ensures g[c] == Members(items[..i + 1], key, c) {
      MembersSnoc(items[..i], items[i], key, c);
    }
  }

  /**
   * The grouping loop: for each item, create the key's list on first sight
   * and append the item to it.
   */
  method GroupBy<T(==,!new), K(==,!new)>(items: seq<T>, key: T -> K) returns (order: seq<K>, groups: map<K, seq<T>>)
    ensures order == FirstSeenKeys(items, key)
    ensures groups.Keys == Elements(order)
    ensures forall k | k in groups :: groups[k] == Members(items, key, k)
  {
    order := [];
    groups := map[];
    var i := 0;
    while i < |items|
      invariant 0 <= i <= |items|
      invariant order == FirstSeenKeys(items[..i], key)
      invariant groups.Keys == Elements(order)
      invariant forall k | k in groups :: groups[k] == Members(items[..i], key, k)
    {
      var x := items[i];
      var k := key(x);
      GroupOrderStep(items, i, key, order, groups.Keys);
      if k !in groups {
        UnseenKeyHasNoMembers(items[..i], key, k);
        order := order + [k];
        groups := groups[k := []];
      }
      GroupMembersStep(items, i, key, groups);
      groups := groups[k := groups[k] + [x]];
      i := i + 1;
    }
    assert items[..i] == items;
  }
}

=== FILE: login_pipeline.dfy ===
/**
 * The social-auth pipeline step `get_user_role` (users/pipeline.py): a
 * default role for users without one, then the first and last name from the
 * Auth0 profile, each followed by a save, then the save of the Auth0 link,
 * whose `post_save` handler syncs the user's roles.
 */
module LoginPipeline {
  import opened Wrappers
  import opened Text
  import opened Users
  import opened RoleSync
  import opened Accounts
  import opened Auth0Sync

  /** The user with the `user` role when it has no role and that role exists. */
  function AssignDefaultRole(u: User, roles: set<RoleName>): (r: User)
    ensures r == u.(role := r.role)
    ensures r.role != u.role <==> u.role.None? && Basic in roles
    ensures r.role != u.role ==> r.role == Some(Basic)
  {
    if u.role.None? && Basic in roles then u.(role := Some(Basic)) else u
  }

  /**
   * The names filled from an Auth0 display name split at its first space:
   * the first part fills an empty first name, the rest (if there is a space)
   * an empty last name. Names already set are kept.
   */
  function FillNames(u: User, name: string): (r: User)
    ensures r == u.(firstName := r.firstName, lastName := r.lastName)
    ensures u.firstName != [] ==> r.firstName == u.firstName
    ensures u.lastName != [] ==> r.lastName == u.lastName
    ensures ' ' !in name ==> r.lastName == u.lastName
    ensures ' ' !in r.firstName || r.firstName == u.firstName
  {
    var parts := SplitOnce(name, ' ');
    var first := if u.firstName == [] then parts[0] else u.firstName;
    var last := if |parts| > 1 && u.lastName == [] then parts[1] else u.lastName;
    u.(firstName := first, lastName := last)
  }

  /** A display name "First Rest of name" fills both empty names. */
  lemma SplitsAtFirstSpace(u: User, first: string, rest: string)
    requires u.firstName == [] && u.lastName == []
    requires ' ' !in first
    ensures FillNames(u, first + [' '] + rest) == u.(firstName := first, lastName := rest)
  {
    SplitOnceAt(first, ' ', rest);
  }

  /** A one-word display name fills only the first name. */
  lemma OneWordName(u: User, name: string)
    requires u.firstName == [] && ' ' !in name
    ensures FillNames(u, name) == u.(firstName := name)
  {
  }

  /**
   * Giving the default role to a stored user without a role is an access
   * change, so the `pre_save` handler marks the user as manually modified;
   * a non-superuser keeps the `user` role even when its Auth0 roles say
   * otherwise.
   */
  lemma {:induction false} DefaultRoleMarksManual(u: User, roles: set<RoleName>, link: Option<seq<string>>)
    requires u.role.None? && Basic in roles
    ensures SaveExisting(AssignDefaultRole(u, roles), Some(u), roles, link).manuallyModified
    ensures !u.isSuperuser ==> SaveExisting(AssignDefaultRole(u, roles), Some(u), roles, link).role == Some(Basic)
  {
    var w := SuperuserAdminRole(AssignDefaultRole(u, roles), roles);
    assert w.role.Some?;
    var m := MarkModified(Normalise(w), Some(u));
    assert m.manuallyModified;
    if link.Some? {
      assert Auth0Merge(m, Some(u), DeriveAccess(link.value)).role == m.role;
    }
  }

  /** The first half of `get_user_role`: the default role, then a save. */
  method DefaultRoleStep(d: Directory, inst: UserInstance)
    requires d.Valid()
    requires inst.pk.Some? && inst.pk.value < |d.rows| && inst.email == d.rows[inst.pk.value].email
    modifies d, inst
    ensures d.Valid() && d.links == old(d.links) && inst.pk == old(inst.pk) && inst.email == old(inst.email)
    ensures var pk := inst.pk.value;
      if old(inst.role).None? && Basic in old(d.roles) then
        d.rows == old(d.rows)[pk := SaveExisting(AssignDefaultRole(old(inst.Value()), old(d.roles)), Some(old(d.rows)[pk]), old(d.roles), LinkRoles(d.links, pk))]
        && d.roles == RolesAfterPreSave(old(d.roles), LinkRoles(d.links, pk))
        && inst.Value() == d.rows[pk]
      else d.rows == old(d.rows) && d.roles == old(d.roles) && inst.Value() == old(inst.Value())
  {
    if inst.role.None? && Basic in d.roles {
      inst.role := Some(Basic);
      d.SaveLoaded(inst);
    }
  }

  /** The second half of `get_user_role`: the names from the Auth0 display name, then a save. */
  method NameStep(d: Directory, inst: UserInstance, name: string)
    requires d.Valid()
    requires inst.pk.Some? && inst.pk.value < |d.rows| && inst.email == d.rows[inst.pk.value].email
    modifies d, inst
    ensures d.Valid() && d.links == old(d.links) && inst.pk == old(inst.pk) && inst.email == old(inst.email)
    ensures var pk := inst.pk.value;
      d.rows == old(d.rows)[pk := SaveExisting(FillNames(old(inst.Value()), name), Some(old(d.rows)[pk]), old(d.roles), LinkRoles(d.links, pk))]
      && d.roles == RolesAfterPreSave(old(d.roles), LinkRoles(d.links, pk))
      && inst.Value() == d.rows[pk]
  {
    ghost var filled := FillNames(inst.Value(), name);
    var parts := SplitOnce(name, ' ');
    if |parts| > 0 && inst.firstName == [] {
      inst.firstName := parts[0];
    }
    if |parts| > 1 && inst.lastName == [] {
      inst.lastName := parts[1];
    }
    assert inst.Value() == filled;
    d.SaveLoaded(inst);
  }

  /** The stored row, the instance and the roles table after the user's saves in `get_user_role`. */
  datatype Saved = Saved(row: User, inst: User, roles: set<RoleName>)

  /**
   * The user's saves in `get_user_role` for the instance `u0` whose row
   * holds `stored`: the default-role save when it applies, then the name
   * save when a display name is used. After a save the instance is the
   * stored row.
   */
  function UserSaves(u0: User, stored: User, roles: set<RoleName>, link: Option<seq<string>>, name: Option<string>): (s: Saved)
    ensures roles <= s.roles
    ensures s.inst == u0 || s.inst == s.row
  {
    var defaulted := u0.role.None? && Basic in roles;
    var row1 := if defaulted then SaveExisting(AssignDefaultRole(u0, roles), Some(stored), roles, link) else stored;
    var inst1 := if defaulted then row1 else u0;
    var roles1 := if defaulted then RolesAfterPreSave(roles, link) else roles;
    if name.Some? then
      var row2 := SaveExisting(FillNames(inst1, name.value), Some(row1), roles1, link);
      Saved(row2, row2, RolesAfterPreSave(roles1, link))
    else Saved(row1, inst1, roles1)
  }

  /** The user's saves of `get_user_role`: the default role, then the names when `name` is given. */
  method SaveUser(d: Directory, inst: UserInstance, name: Option<string>)
    requires d.Valid()
    requires inst.pk.Some? && inst.pk.value < |d.rows| && inst.email == d.rows[inst.pk.value].email
    modifies d, inst
    ensures d.Valid() && d.links == old(d.links) && inst.pk == old(inst.pk) && inst.email == old(inst.email)
    ensures var pk := inst.pk.value;
      var s := UserSaves(old(inst.Value()), old(d.rows)[pk], old(d.roles), LinkRoles(d.links, pk), name);
      d.rows == old(d.rows)[pk := s.row] && d.roles == s.roles && inst.Value() == s.inst
  {
    DefaultRoleStep(d, inst);
    if name.Some? {
      NameStep(d, inst, name.value);
    }
  }

  /** Why `get_user_role` raises. */
  datatype PipelineError = NoSocialLink

  /**
   * `get_user_role(backend, user, response, details=..., social=...)`:
   * `user` is the pipeline's instance (None when no user was created);
   * `isAuth0` is `backend.name == 'auth0'`; `name` is `details['name']` when
   * present; `social` is the index of the Auth0 link `kwargs['social']`, None
   * when there is none. The earlier pipeline steps attach that link to the
   * pipeline's user, and `social.user` is the pipeline's own instance. An
   * Auth0 login without a link raises on `extra_data`; otherwise the step
   * returns the same user. The link's save runs `sync_auth0_user` on that
   * instance.
   */
  method GetUserRole(d: Directory, user: Option<UserInstance>, isAuth0: bool, name: Option<string>, social: Option<nat>)
    returns (result: Result<Option<UserInstance>, PipelineError>)
    requires d.Valid()
    requires user.Some? ==> user.value.pk.Some? && user.value.pk.value < |d.rows|
                            && user.value.email == d.rows[user.value.pk.value].email
    requires social.Some? ==> social.value < |d.links| && user.Some? && user.value.pk == Some(d.links[social.value].user)
    modifies d, if user.Some? then {user.value} else {}
    ensures result == if isAuth0 && social.None? then Err(NoSocialLink) else Ok(user)
    ensures d.Valid() && d.links == old(d.links)
    ensures user.None? ==> d.rows == old(d.rows) && d.roles == old(d.roles)
    ensures user.Some? && old(user.value.pk).Some? && old(user.value.pk).value < |old(d.rows)| ==>
      var pk := old(user.value.pk).value;
      var link := LinkRoles(d.links, pk);
      var s := UserSaves(old(user.value.Value()), old(d.rows)[pk], old(d.roles), link, if isAuth0 then name else None);
      if isAuth0 && social.Some? then
        d.rows == old(d.rows)[pk := AutoSyncRow(s.inst, s.row, d.links[social.value].roles, link, s.roles)]
        && d.roles == AutoSyncRoles(s.inst, d.links[social.value].roles, link, s.roles)
      else d.rows == old(d.rows)[pk := s.row] && d.roles == s.roles
  {
    if user.None? {
      if isAuth0 {
        return Err(NoSocialLink);
      }
      return Ok(None);
    }
    var inst := user.value;
    ghost var pk := inst.pk.value;
    ghost var rows0 := d.rows;
    SaveUser(d, inst, if isAuth0 then name else None);
    if isAuth0 {
      if social.None? {
        return Err(NoSocialLink);
      }
      // the writes of the Auth0 domain and client id into `extra_data` are not modelled;
      // the link's save then runs the `post_save` handler
      SyncInstance(d, inst, d.links[social.value].roles);
      assert rows0[pk := d.rows[pk]] == d.rows;
    }
    return Ok(user);
  }

  /**
   * On an Auth0 login whose link holds the roles the pre-save merge reads
   * (the user's first link), the `post_save` sync after a save of the user
   * changes nothing further: the merge has already applied the derived access,
   * unless the user is manually modified.
   */
  lemma {:induction false} LinkSaveAfterUserSave(w: User, stored: User, roles: set<RoleName>, auth0Roles: seq<string>, roles2: set<RoleName>)
    requires !SaveExisting(w, Some(stored), roles, Some(auth0Roles)).manuallyModified
    ensures var v := SaveExisting(w, Some(stored), roles, Some(auth0Roles));
      AutoSyncRow(v, v, auth0Roles, Some(auth0Roles), roles2) == v
  {
    var v := SaveExisting(w, Some(stored), roles, Some(auth0Roles));
    assert HasAccess(v, DeriveAccess(auth0Roles));
  }
}

=== FILE: notifications.dfy ===
/**
 * Who the notification emails of perspectivetracker/utils.py go to, and
 * which welcome and role-change message a user gets. Sending itself is a
 * parameter: `deliver` says whether the mail to an address went out.
 * Addresses are the users' email strings.
 */
module Notifications {
  import opened Wrappers
  import opened Seqs
  import opened Users

  /** The loop `for e in emails: if e not in recipients and keep(e): recipients.append(e)`. */
  method AddMissing(recipients: seq<string>, emails: seq<string>, keep: string -> bool) returns (r: seq<string>)
    ensures r == AppendMissing(recipients, emails, keep)
  {
    r := recipients;
    var i := 0;
    while i < |emails|
      invariant 0 <= i <= |emails|
      invariant AppendMissing(r, emails[i..], keep) == AppendMissing(recipients, emails, keep)
    {
      assert emails[i..][1..] == emails[i + 1..];
      if emails[i] !in r && keep(emails[i]) {
        r := r + [emails[i]];
      }
      i := i + 1;
    }
  }

  /** Every address is kept. */
  function KeepAll(): string -> bool {
    e => true
  }

  /** The assignee's address, when there is an assignee, starts the list. */
  function Start(assignee: Option<string>): seq<string> {
    if assignee.Some? then [assignee.value] else []
  }

  /**
   * The default recipients of the issue and milestone created and updated
   * emails: the assignee, then the project team in order, each address once.
   */
  function DefaultRecipients(assignee: Option<string>, team: seq<string>): (r: seq<string>)
    ensures Distinct(r)
    ensures assignee.Some? ==> |r| > 0 && r[0] == assignee.value
    ensures forall e :: e in r <==> assignee == Some(e) || e in team
    ensures r == [] <==> assignee.None? && team == []
  {
    AppendMissing(Start(assignee), team, KeepAll())
  }

  /** Addresses not yet in a list. */
  function NotIn(list: seq<string>): string -> bool {
    e => e !in list
  }

  /** Team addresses are unique, so the team follows the assignee in its own order, less the assignee. */
  lemma DefaultRecipientsOrder(assignee: Option<string>, team: seq<string>)
    requires Distinct(team)
    ensures DefaultRecipients(assignee, team) == Start(assignee) + Filter(team, NotIn(Start(assignee)))
  {
    AppendMissingOrder(Start(assignee), team, KeepAll());
    FilterSameTest(team, NewTo(Start(assignee), KeepAll()), NotIn(Start(assignee)));
  }

  /** Two tests that agree everywhere filter alike. */
  lemma {:induction false} FilterSameTest(s: seq<string>, p: string -> bool, q: string -> bool)
    requires forall e :: p(e) == q(e)
    ensures Filter(s, p) == Filter(s, q)
  {
    if s != [] {
      FilterSameTest(s[1..], p, q);
    }
  }

  /** The default recipient loop of `send_issue_created_email` and its siblings. */
  method IssueRecipients(assignee: Option<string>, team: seq<string>) returns (r: seq<string>)
    ensures r == DefaultRecipients(assignee, team)
  {
    r := [];
    if assignee.Some? {
      r := r + [assignee.value];
    }
    assert r == Start(assignee);
    r := AddMissing(r, team, KeepAll());
  }

  /** Team members whose address is not the comment author's. */
  function NotAuthor(author: string): string -> bool {
    e => e != author
  }

  /** The default recipients of `send_comment_notification_email`: team members other than the author are added. */
  function CommentRecipients(assignee: Option<string>, team: seq<string>, author: string): (r: seq<string>)
    ensures Distinct(r)
    ensures forall e :: e in r <==> assignee == Some(e) || (e in team && e != author)
  {
    AppendMissing(Start(assignee), team, NotAuthor(author))
  }

  /** The author is left out unless the author is the assignee, who is never skipped. */
  lemma CommentAuthorSkipped(assignee: Option<string>, team: seq<string>, author: string)
    ensures author in CommentRecipients(assignee, team, author) <==> assignee == Some(author)
    ensures forall e | e != author :: e in CommentRecipients(assignee, team, author) <==> e in DefaultRecipients(assignee, team)
  {
  }

  /** The default recipient loop of `send_comment_notification_email`. */
  method CommentRecipientList(assignee: Option<string>, team: seq<string>, author: string) returns (r: seq<string>)
    ensures r == CommentRecipients(assignee, team, author)
  {
    r := [];
    if assignee.Some? {
      r := r + [assignee.value];
    }
    assert r == Start(assignee);
    r := AddMissing(r, team, NotAuthor(author));
  }

  /**
   * The default recipients of `send_task_completed_email`: the assignee,
   * the task list's members other than the acting user, then the list's
   * creator if not yet present. Users are told apart by their unique
   * address. `send_task_notification_email` builds the same list without
   * the creator, which is `CommentRecipients` with the actor in place of
   * the author.
   */
  function TaskCompletedRecipients(assignee: Option<string>, members: seq<string>, actor: string, creator: Option<string>)
    : (r: seq<string>)
    ensures Distinct(r)
    ensures CommentRecipients(assignee, members, actor) <= r
    ensures forall e :: e in r <==> assignee == Some(e) || (e in members && e != actor) || creator == Some(e)
  {
    AppendMissing(CommentRecipients(assignee, members, actor), Start(creator), KeepAll())
  }

  /** The creator is always told, even when the creator is the acting user; other members never are when acting. */
  lemma TaskCreatorAlwaysTold(assignee: Option<string>, members: seq<string>, actor: string, creator: string)
    ensures creator in TaskCompletedRecipients(assignee, members, actor, Some(creator))
    ensures actor != creator && assignee != Some(actor) ==> actor !in TaskCompletedRecipients(assignee, members, actor, Some(creator))
  {
  }

  /**
   * The default recipients of `send_milestone_completed_email`: the usual
   * list, then, for a published milestone, the addresses of every coworker
   * of the project's client, whatever the membership's status.
   */
  function CompletedRecipients(assignee: Option<string>, team: seq<string>, status: string, coworkers: seq<string>): (r: seq<string>)
    ensures Distinct(r)
    ensures DefaultRecipients(assignee, team) <= r
    ensures status != "published" ==> r == DefaultRecipients(assignee, team)
    ensures status == "published" ==> forall e :: e in r <==> e in DefaultRecipients(assignee, team) || e in coworkers
  {
    var base := DefaultRecipients(assignee, team);
    if status == "published" then AppendMissing(base, coworkers, KeepAll()) else base
  }

  /** The default recipient loops of `send_milestone_completed_email`. */
  method CompletedRecipientList(assignee: Option<string>, team: seq<string>, status: string, coworkers: seq<string>)
    returns (r: seq<string>)
    ensures r == CompletedRecipients(assignee, team, status, coworkers)
  {
    r := IssueRecipients(assignee, team);
    if status == "published" {
      r := AddMissing(r, coworkers, KeepAll());
    }
  }

  /** Coworker addresses reach a completed-milestone mail only when it is published (or they are on the team). */
  lemma CoworkersOnlyWhenPublished(assignee: Option<string>, team: seq<string>, status: string, coworkers: seq<string>, e: string)
    requires e in coworkers && e !in team && assignee != Some(e)
    ensures e in CompletedRecipients(assignee, team, status, coworkers) <==> status == "published"
  {
  }

  /** `CustomUser.objects.filter(Q(is_superuser=True) | Q(role__name='admin'))`, in table order. */
  function AdminEmails(users: seq<User>): (r: seq<string>)
    ensures forall e :: e in r <==> exists i | 0 <= i < |users| :: (users[i].isSuperuser || users[i].role == Some(Admin)) && users[i].email == e
  {
    if users == [] then []
    else
      var rest := AdminEmails(users[1..]);
      assert forall i | 1 <= i < |users| :: users[i] == users[1..][i - 1];
      if users[0].isSuperuser || users[0].role == Some(Admin) then [users[0].email] + rest else rest
  }

  /**
   * The recipient handling of `send_email_with_fallback`: with the first
   * admin settings row present and `receive_all_emails` set, each admin
   * address not yet in the list is appended to it.
   */
  function MergeAdmins(recipients: seq<string>, receiveAll: Option<bool>, admins: seq<string>): (r: seq<string>)
    ensures recipients <= r
    ensures receiveAll != Some(true) ==> r == recipients
    ensures receiveAll == Some(true) ==> forall e :: e in r <==> e in recipients || e in admins
    ensures Distinct(recipients) ==> Distinct(r)
  {
    if receiveAll == Some(true) then AppendMissing(recipients, admins, KeepAll()) else recipients
  }

  /** The mail context: `company_name` is filled in only when the caller gave none. */
  function WithCompanyName(context: map<string, string>): (r: map<string, string>)
    ensures "company_name" in r
    ensures "company_name" in context ==> r == context
    ensures "company_name" !in context ==> r == context["company_name" := "Techopolis Online Solutions, LLC"]
  {
    if "company_name" in context then context else context["company_name" := "Techopolis Online Solutions, LLC"]
  }

  /**
   * A notification: the caller's list, or the defaults when none is
   * given; an empty list is answered `False` with nothing sent, any other
   * list goes to the mailer after the admin merge.
   */
  function Outgoing(given: Option<seq<string>>, defaults: seq<string>, receiveAll: Option<bool>, admins: seq<string>)
    : (r: Option<seq<string>>)
    ensures r.None? <==> (if given.Some? then given.value else defaults) == []
    ensures r.Some? ==> (if given.Some? then given.value else defaults) <= r.value
    ensures r.Some? && receiveAll == Some(true) ==> forall e | e in admins :: e in r.value
  {
    var list := if given.Some? then given.value else defaults;
    if list == [] then None else Some(MergeAdmins(list, receiveAll, admins))
  }

  /** The value the notification functions return: `False` without sending, otherwise the mailer's answer. */
  function NotificationResult(out: Option<seq<string>>, deliver: seq<string> -> bool): bool {
    out.Some? && deliver(out.value)
  }

  /** An empty list is never merged with the admins, even when they would receive all mail. */
  lemma EmptyListSendsNothing(defaults: seq<string>, admins: seq<string>, deliver: seq<string> -> bool)
    requires defaults == []
    ensures Outgoing(None, defaults, Some(true), admins).None?
    ensures !NotificationResult(Outgoing(None, defaults, Some(true), admins), deliver)
  {
  }

  /** The welcome mails of `send_user_created_email`. */
  datatype Welcome = AdministratorWelcome | StaffWelcome | ClientWelcome

  /** The subject and template of each welcome mail. */
  function WelcomeMail(w: Welcome): (string, string) {
    match w
    case AdministratorWelcome => ("Welcome to Perspective Tracker as Administrator", "emails/superuser_welcome.html")
    case StaffWelcome => ("Welcome to Techopolis - You're on the Team!", "emails/staff_welcome.html")
    case ClientWelcome => ("Welcome to Perspective Tracker - Client Account", "emails/client_welcome.html")
  }

  /** Which welcome a new user gets: superusers the administrator one, then staff, then clients; anyone else none. */
  function WelcomeFor(u: User): (w: Option<Welcome>)
    ensures w == Some(AdministratorWelcome) <==> u.isSuperuser
    ensures w == Some(StaffWelcome) <==> !u.isSuperuser && (u.isStaff || u.role == Some(Admin) || u.role == Some(Staff))
    ensures w == Some(ClientWelcome) <==> !u.isSuperuser && !u.isStaff && u.role == Some(RoleName.Client)
    ensures w.None? <==> !u.isSuperuser && !u.isStaff && (u.role.None? || u.role.value == Basic)
  {
    if u.isSuperuser then Some(AdministratorWelcome)
    else if u.isStaff || u.role == Some(Admin) || u.role == Some(Staff) then Some(StaffWelcome)
    else if u.role == Some(RoleName.Client) then Some(ClientWelcome)
    else
      assert u.role.Some? ==> u.role.value == Basic;
      None
  }

  /**
   * For a user the signal handlers have normalised, the welcome follows
   * the role alone except for superusers: admins get the administrator
   * welcome, and staff flags without a team role still get the staff one.
   */
  lemma NormalisedWelcome(u: User)
    requires Normalised(u)
    ensures u.role == Some(Admin) ==> WelcomeFor(u) == Some(AdministratorWelcome)
    ensures !u.isSuperuser && u.role == Some(Staff) ==> WelcomeFor(u) == Some(StaffWelcome)
    ensures !u.isSuperuser && u.isStaff ==> WelcomeFor(u) == Some(StaffWelcome)
  {
  }

  /** The subject of `send_role_change_email`; a role prints as its name. */
  function RoleChangeSubject(oldRole: Option<RoleName>, newRole: Option<RoleName>): (s: string)
    ensures oldRole.Some? && newRole.Some? ==>
      s == "Your Role Has Changed: " + RoleLabel(oldRole.value) + " \U{2192} " + RoleLabel(newRole.value)
    ensures oldRole.None? && newRole.Some? ==> s == "Role Assigned: " + RoleLabel(newRole.value)
    ensures oldRole.Some? && newRole.None? ==> s == "Role Removed"
    ensures oldRole.None? && newRole.None? ==> s == "Account Update: Role Change"
  {
    if newRole.Some? && oldRole.Some? then
      "Your Role Has Changed: " + RoleLabel(oldRole.value) + " \U{2192} " + RoleLabel(newRole.value)
    else if newRole.Some? then "Role Assigned: " + RoleLabel(newRole.value)
    else if oldRole.Some? then "Role Removed"
    else "Account Update: Role Change"
  }

  /** The subject tells which of the two roles were present. */
  lemma RoleChangeSubjectRevealsCase(a: Option<RoleName>, b: Option<RoleName>, c: Option<RoleName>, d: Option<RoleName>)
    requires RoleChangeSubject(a, b) == RoleChangeSubject(c, d)
    ensures a.Some? == c.Some? && b.Some? == d.Some?
  {
    var s := RoleChangeSubject(a, b);
    assert s == RoleChangeSubject(c, d);
    if a.Some? && b.Some? {
      assert s[0] == 'Y';
    } else if b.Some? {
      assert s[0] == 'R' && s[5] == 'A';
    } else if a.Some? {
      assert s[0] == 'R' && s[5] == 'R';
    } else {
      assert s[0] == 'A';
    }
  }

  /** A user as the manager mails see them: primary key and address. */
  datatype Person = Person(id: nat, email: string)

  /** The mails `send_manager_assignment_email` sends from its loop: the user, then the current manager if any. */
  function ManagerRecipients(user: Person, manager: Option<Person>): (r: seq<string>)
    ensures |r| >= 1 && r[0] == user.email
    ensures |r| == 2 <==> manager.Some?
    ensures manager.Some? ==> r[1] == manager.value.email
  {
    [user.email] + (if manager.Some? then [manager.value.email] else [])
  }

  /** The previous manager gets the separate reassignment mail when there was one and it is not the current manager. */
  predicate NotifiesPrevious(manager: Option<Person>, previous: Option<Person>) {
    previous.Some? && previous != manager
  }

  /**
   * `send_manager_assignment_email`: the reassignment mail to the previous
   * manager first (its outcome is not looked at), then one mail per
   * recipient; the result is whether every one of those went out.
   * `sent` lists the addresses mailed, in order.
   */
  method ManagerAssignment(user: Person, manager: Option<Person>, previous: Option<Person>, deliver: string -> bool)
    returns (ok: bool, sent: seq<string>)
    ensures sent == (if NotifiesPrevious(manager, previous) then [previous.value.email] else []) + ManagerRecipients(user, manager)
    ensures ok <==> forall e | e in ManagerRecipients(user, manager) :: deliver(e)
  {
    var recipients := [user.email];
    if manager.Some? {
      recipients := recipients + [manager.value.email];
    }
    sent := [];
    if previous.Some? && previous != manager {
      var ignored := deliver(previous.value.email);
      sent := sent + [previous.value.email];
    }
    var prefix := sent;
    var results: seq<bool> := [];
    var i := 0;
    while i < |recipients|
      invariant 0 <= i <= |recipients| && |results| == i
      invariant sent == prefix + recipients[..i]
      invariant forall j | 0 <= j < i :: results[j] == deliver(recipients[j])
    {
      results := results + [deliver(recipients[i])];
      sent := sent + [recipients[i]];
      i := i + 1;
    }
    assert recipients[..i] == recipients;
    ok := |results| > 0 && forall j | 0 <= j < |results| :: results[j];
    assert recipients == ManagerRecipients(user, manager);
  }

  /** There is always at least one mail in the loop, so the "no mails" answer `False` never arises. */
  lemma ManagerMailsNeverEmpty(user: Person, manager: Option<Person>)
    ensures ManagerRecipients(user, manager) != []
    ensures manager.None? ==> ManagerRecipients(user, manager) == [user.email]
  {
  }
}

=== FILE: project_access.dfy ===
/**
 * Who may see and change projects and their records: the checks at the
 * top of the views in projects/views.py, and the querysets and
 * permission hooks of the admin classes in projects/admin.py. Every view
 * here is behind `login_required`, so the requester is a signed-in user.
 */
module ProjectAccess {
  import opened Wrappers
  import opened Users
  import opened RoleGuards
  import opened Projects

  /** `request.user in project.assigned_to.all()`. */
  predicate Assigned(u: User, p: Project) {
    u.id in p.assignedTo
  }

  /**
   * The check of `project_detail`, `project_violation_create`,
   * `project_standard_create` and `project_standard_delete`.
   */
  predicate CanAccessProject(u: User, p: Project) {
    IsTeam(u) || Assigned(u, p)
  }

  /** The check of `project_violation_update`: the issue's own assignee is also let in. */
  predicate CanUpdateIssue(u: User, p: Project, v: ProjectViolation) {
    IsTeam(u) || Assigned(u, p) || v.assignedTo == Some(u.id)
  }

  /** The check of `project_violation_delete`: superusers and admin or staff only. */
  predicate CanDeleteIssue(u: User) {
    IsTeam(u)
  }

  /** Deleting an issue needs more than updating it, and updating more than seeing its project. */
  lemma IssueChecksAreNested(u: User, p: Project, v: ProjectViolation)
    ensures CanDeleteIssue(u) ==> CanAccessProject(u, p)
    ensures CanAccessProject(u, p) ==> CanUpdateIssue(u, p, v)
    ensures CanUpdateIssue(u, p, v) <==> CanAccessProject(u, p) || v.assignedTo == Some(u.id)
  {
  }

  /**
   * The nesting is strict: an assigned user who is not on the team may see
   * the project but not delete its issues, and an assignee from outside the
   * project may update the issue but not see the project.
   */
  lemma IssueChecksAreStrict(u: User, p: Project, v: ProjectViolation)
    requires !IsTeam(u)
    ensures Assigned(u, p) ==> CanAccessProject(u, p) && !CanDeleteIssue(u)
    ensures !Assigned(u, p) && v.assignedTo == Some(u.id) ==> CanUpdateIssue(u, p, v) && !CanAccessProject(u, p)
  {
  }

  /**
   * `project_list`: the team sees every project, anyone else the projects
   * they are assigned to; a non-empty `type` parameter keeps the projects
   * whose type has that slug.
   */
  function ProjectList(u: User, projects: map<nat, Project>, types: map<nat, ProjectType>, typeSlug: Option<string>): set<nat> {
    set id | id in projects && (IsTeam(u) || Assigned(u, projects[id]))
      && (typeSlug.None? || typeSlug.value == [] ||
          (projects[id].projectType in types && types[projects[id].projectType].slug == typeSlug.value))
  }

  /**
   * Every listed project is one the user may open; without a filter the
   * team sees all projects and anyone else exactly their assigned ones; a
   * filter only narrows the list, and an empty filter is no filter.
   */
  lemma ProjectListIsAccessible(u: User, projects: map<nat, Project>, types: map<nat, ProjectType>, typeSlug: Option<string>)
    ensures forall id | id in ProjectList(u, projects, types, typeSlug) :: id in projects && CanAccessProject(u, projects[id])
    ensures IsTeam(u) ==> ProjectList(u, projects, types, None) == projects.Keys
    ensures !IsTeam(u) ==> ProjectList(u, projects, types, None) == set id | id in projects && Assigned(u, projects[id])
    ensures ProjectList(u, projects, types, typeSlug) <= ProjectList(u, projects, types, None)
    ensures ProjectList(u, projects, types, Some([])) == ProjectList(u, projects, types, None)
  {
  }

  /** `ProjectAdmin.get_queryset`: all projects for the team, assigned ones otherwise. */
  function AdminProjects(u: User, projects: map<nat, Project>): set<nat> {
    if IsTeam(u) then projects.Keys else set id | id in projects && u.id in projects[id].assignedTo
  }

  /** The admin list and the unfiltered project list show the same projects. */
  lemma AdminProjectsMatchList(u: User, projects: map<nat, Project>, types: map<nat, ProjectType>)
    ensures AdminProjects(u, projects) == ProjectList(u, projects, types, None)
  {
  }

  /**
   * `StandardAdmin` and `ViolationAdmin`: listing, adding, changing and
   * deleting are all allowed to superusers and role admin only; everyone
   * else gets an empty list.
   */
  predicate ManagesStandards(u: User) {
    u.isSuperuser || u.role == Some(Admin)
  }

  /** `get_queryset` of `StandardAdmin` and `ViolationAdmin`. */
  function AdminStandardRows<R>(u: User, rows: map<nat, R>): set<nat> {
    if ManagesStandards(u) then rows.Keys else {}
  }

  /**
   * The standards admin follows `has_role(user, 'admin')`: staff members
   * who are not superusers see an empty list and may change nothing.
   */
  lemma StandardsAdminIsAdminOnly<R>(u: User, rows: map<nat, R>)
    ensures ManagesStandards(u) <==> HasRole(SignedIn(u), Admin)
    ensures !u.isSuperuser && u.role == Some(Staff) ==> !ManagesStandards(u) && AdminStandardRows(u, rows) == {}
    ensures ManagesStandards(u) ==> AdminStandardRows(u, rows) == rows.Keys
  {
  }

  /**
   * `ProjectViolationAdmin.get_queryset`: everything for the team; for
   * anyone else the issues of projects they are assigned to together with
   * the issues assigned to them.
   */
  function AdminProjectViolations(u: User, projects: map<nat, Project>, issues: map<nat, ProjectViolation>): set<nat> {
    if IsTeam(u) then issues.Keys
    else
      set id | id in issues &&
        ((issues[id].project in projects && u.id in projects[issues[id].project].assignedTo)
         || issues[id].assignedTo == Some(u.id))
  }

  /** An issue appears in the admin list exactly when its update view would let the user in. */
  lemma AdminIssuesAreUpdatable(u: User, projects: map<nat, Project>, issues: map<nat, ProjectViolation>, id: nat)
    requires id in issues && issues[id].project in projects
    ensures id in AdminProjectViolations(u, projects, issues) <==>
      CanUpdateIssue(u, projects[issues[id].project], issues[id])
  {
  }

  /** `ProjectStandardAdmin.get_queryset`: all links for superusers and role admin, otherwise links of assigned projects. */
  function AdminProjectStandards(u: User, projects: map<nat, Project>, links: map<nat, ProjectStandard>): set<nat> {
    if ManagesStandards(u) then links.Keys
    else
      set id | id in links && links[id].project in projects && u.id in projects[links[id].project].assignedTo
  }

  /** `has_add_permission`, `has_change_permission`, `has_delete_permission` of `ProjectStandardAdmin`. */
  predicate ChangesProjectStandards(u: User) {
    IsTeam(u)
  }

  /**
   * Staff may add, change and delete project standards, yet their list
   * holds only the links of projects they are assigned to.
   */
  lemma StaffChangeMoreThanTheySee(u: User, projects: map<nat, Project>, links: map<nat, ProjectStandard>)
    requires !u.isSuperuser && u.role == Some(Staff)
    ensures ChangesProjectStandards(u)
    ensures forall id | id in AdminProjectStandards(u, projects, links) ::
      links[id].project in projects && Assigned(u, projects[links[id].project])
    ensures forall id | id in links && links[id].project in projects && !Assigned(u, projects[links[id].project]) ::
      id !in AdminProjectStandards(u, projects, links)
  {
  }
}

=== FILE: project_forms.dfy ===
/**
 * The forms of projects/forms.py: the project type form that turns its two
 * choice texts into stored lists, the project form with its staff and
 * client pickers and its assignment loop, the user labels of the pickers,
 * the grouped violation dropdown of the issue form and the standard field
 * of the project-standard form.
 */
module ProjectForms {
  import opened Wrappers
  import opened Seqs
  import opened Text
  import opened FormFields
  import opened Users
  import opened ChoiceText
  import opened Projects
  import opened Grouping

  /** `label_from_instance` of both user pickers. */
  function UserLabel(u: User): (r: string)
    ensures u.firstName == [] || u.lastName == [] ==> r == u.email
  {
    if u.firstName != [] && u.lastName != [] then u.firstName + " " + u.lastName + " (" + u.email + ")"
    else u.email
  }

  /**
   * A named user's label starts with the name and ends with the email in
   * parentheses, so two users with the same name but different emails get
   * different labels.
   */
  lemma UserLabelShape(a: User, b: User)
    requires a.firstName != [] && a.lastName != []
    ensures var prefix := a.firstName + " " + a.lastName + " (";
      UserLabel(a) == prefix + a.email + ")"
    ensures b.firstName == a.firstName && b.lastName == a.lastName ==>
      (UserLabel(a) == UserLabel(b) <==> a.email == b.email)
  {
    var prefix := a.firstName + " " + a.lastName + " (";
    if b.firstName == a.firstName && b.lastName == a.lastName && UserLabel(a) == UserLabel(b) {
      var la, lb := prefix + a.email + ")", prefix + b.email + ")";
      assert |a.email| == |b.email|;
      assert la[|prefix|..|prefix| + |a.email|] == a.email;
      assert lb[|prefix|..|prefix| + |b.email|] == b.email;
    }
  }

  // ---------------------------------------------------------------------
  // ProjectTypeForm

  /** Another type than `self` already has the name (the form's unique check on `name`). */
  predicate NameTaken(types: map<nat, ProjectType>, self: Option<nat>, name: string) {
    exists t | t in types && Some(t) != self :: types[t].name == name
  }

  /** `max_length` of `ProjectType.name`. */
  const TypeNameMaxLength := 100

  /** The cleaned `name` of `ProjectTypeForm`: required, at most 100 characters once stripped. */
  function CleanTypeName(name: string): (r: Result<string, FieldError>)
    ensures r.Ok? ==> r.value == Strip(name) && r.value != [] && |r.value| <= TypeNameMaxLength
  {
    CleanCharField(name, true, Some(TypeNameMaxLength))
  }

  /** How a submitted project type form ends. */
  datatype TypeFormOutcome =
    | TypeFormInvalid(name: Option<FieldError>, status: Option<ChoiceError>, milestone: Option<ChoiceError>, nameTaken: bool)
    | TypeSaveFailed(error: DbError)
    | TypeSaved(id: nat)

  /**
   * The refusal of an invalid `ProjectTypeForm`, or nothing for a valid one:
   * the `name` field, both clean methods, and the unique check on `name`,
   * which runs only on a name that passed its field.
   */
  function TypeFormErrors(types: map<nat, ProjectType>, self: Option<nat>, name: string, statusText: string,
                          milestoneText: string): (r: Option<TypeFormOutcome>)
    ensures r.None? <==> (CleanTypeName(name).Ok? && ParseChoiceText(statusText).Ok?
      && ParseChoiceText(milestoneText).Ok? && !NameTaken(types, self, Strip(name)))
    ensures r.Some? ==> (r.value.TypeFormInvalid?
      && (r.value.name.None? <==> CleanTypeName(name).Ok?)
      && (r.value.status.None? <==> ParseChoiceText(statusText).Ok?)
      && (r.value.milestone.None? <==> ParseChoiceText(milestoneText).Ok?)
      && (r.value.nameTaken <==> CleanTypeName(name).Ok? && NameTaken(types, self, Strip(name))))
  {
    var cleanName := CleanTypeName(name);
    var status := ParseChoiceText(statusText);
    var milestone := ParseChoiceText(milestoneText);
    var taken := cleanName.Ok? && NameTaken(types, self, cleanName.value);
    if cleanName.Err? || status.Err? || milestone.Err? || taken then
      Some(TypeFormInvalid(ErrorOf(cleanName), ErrorOf(status), ErrorOf(milestone), taken))
    else None
  }

  /**
   * A POST of `ProjectTypeForm` on a new or loaded instance: the `name`
   * field (required, `max_length` 100) and both clean methods run, the
   * unique check on a valid `name` runs, and only a valid form is saved,
   * with the stripped name and description and the two parsed lists. A
   * slug that collides with another type's is refused by the database.
   */
  method SubmitProjectTypeForm(store: ProjectStore, inst: ProjectTypeInstance, name: string, description: string,
                               supportsStandards: bool, statusText: string, milestoneText: string,
                               slugify: string -> string) returns (r: TypeFormOutcome)
    requires store.Valid() && (inst.pk.Some? ==> inst.pk.value in store.types)
    modifies store, inst
    ensures store.Valid()
    ensures r.TypeFormInvalid? <==> TypeFormErrors(old(store.types), old(inst.pk), name, statusText, milestoneText).Some?
    ensures r.TypeFormInvalid? ==> r == TypeFormErrors(old(store.types), old(inst.pk), name, statusText, milestoneText).value
    ensures !r.TypeSaved? ==> store.types == old(store.types)
    ensures r.TypeSaveFailed? ==> r.error == UniqueViolation
    ensures r.TypeSaved? ==> (r.id in store.types && inst.pk == Some(r.id)
      && store.types[r.id] == ProjectType(Strip(name), Strip(description), FilledSlug(old(inst.slug), Strip(name), slugify),
           supportsStandards, ParseChoiceText(statusText).value, ParseChoiceText(milestoneText).value))
    ensures r.TypeSaved? ==> store.types[r.id].name != [] && |store.types[r.id].name| <= TypeNameMaxLength
    ensures r.TypeSaved? ==> WellFormed(store.types[r.id].statusChoices) && WellFormed(store.types[r.id].milestoneChoices)
    ensures store.projects == old(store.projects) && store.standards == old(store.standards)
    ensures store.violations == old(store.violations) && store.projectViolations == old(store.projectViolations)
    ensures store.projectStandards == old(store.projectStandards) && store.pages == old(store.pages)
  {
    var status := CleanChoicesText(statusText);
    var milestone := CleanChoicesText(milestoneText);
    var errors := TypeFormErrors(store.types, inst.pk, name, statusText, milestoneText);
    if errors.Some? {
      return errors.value;
    }
    inst.name, inst.description, inst.supportsStandards := Strip(name), Strip(description), supportsStandards;
    ParsedIsWellFormed(statusText, status.value);
    ParsedIsWellFormed(milestoneText, milestone.value);
    r := SaveTypeWithLists(store, inst, status.value, milestone.value, slugify);
  }

  /** The save of a valid `ProjectTypeForm`: the two parsed lists copied onto the instance, then `save()`. */
  method SaveTypeWithLists(store: ProjectStore, inst: ProjectTypeInstance, statusList: seq<seq<string>>,
                           milestoneList: seq<seq<string>>, slugify: string -> string) returns (r: TypeFormOutcome)
    requires store.Valid() && (inst.pk.Some? ==> inst.pk.value in store.types)
    modifies store, inst
    ensures store.Valid() && !r.TypeFormInvalid?
    ensures !r.TypeSaved? ==> store.types == old(store.types)
    ensures r.TypeSaveFailed? ==> r.error == UniqueViolation
    ensures r.TypeSaved? ==> (r.id in store.types && inst.pk == Some(r.id)
      && store.types[r.id] == ProjectType(old(inst.name), old(inst.description), FilledSlug(old(inst.slug), old(inst.name), slugify),
           old(inst.supportsStandards), statusList, milestoneList))
    ensures store.projects == old(store.projects) && store.standards == old(store.standards)
    ensures store.violations == old(store.violations) && store.projectViolations == old(store.projectViolations)
    ensures store.projectStandards == old(store.projectStandards) && store.pages == old(store.pages)
  {
    inst.statusChoices, inst.milestoneChoices := Some(statusList), Some(milestoneList);
    var saved := store.SaveProjectType(inst, slugify);
    if saved.Err? {
      return TypeSaveFailed(saved.error);
    }
    return TypeSaved(saved.value);
  }

  // ---------------------------------------------------------------------
  // ProjectForm

  /** The fields of `ProjectForm` the model keeps (`notes` is free text and left out). */
  datatype ProjectFields = ProjectFields(name: string, client: nat, projectType: nat, status: string)

  /** `max_length` of `Project.name` and of `Project.status`. */
  const ProjectNameMaxLength := 200
  const ProjectStatusMaxLength := 50

  /** The fields as `clean` leaves them: `name` and `status` stripped. */
  function CleanedFields(fields: ProjectFields): (c: ProjectFields)
    ensures c.client == fields.client && c.projectType == fields.projectType
    ensures IsStripped(c.name) && IsStripped(c.status)
  {
    fields.(name := Strip(fields.name), status := Strip(fields.status))
  }

  /** The `assigned_staff` queryset: active users with role admin or staff, and active superusers. */
  function StaffOptions(users: seq<User>): set<nat> {
    set i | 0 <= i < |users| && users[i].isActive && IsTeam(users[i])
  }

  /** The `assigned_clients` queryset: active users with role client. */
  function ClientOptions(users: seq<User>): set<nat> {
    set i | 0 <= i < |users| && users[i].isActive && users[i].role == Some(Client)
  }

  /** The staff picker's initial selection on an edit: current team members, active or not. */
  function InitialStaff(users: seq<User>, current: set<nat>): set<nat> {
    set i | i in current && i < |users| && IsTeam(users[i])
  }

  /** The client picker's initial selection on an edit: current users with role client, active or not. */
  function InitialClients(users: seq<User>, current: set<nat>): set<nat> {
    set i | i in current && i < |users| && users[i].role == Some(Client)
  }

  /** A user is offered by both pickers exactly when an active superuser holds the client role. */
  lemma PickersOverlapOnSuperuserClients(users: seq<User>, i: nat)
    ensures i in StaffOptions(users) && i in ClientOptions(users) <==>
      (i < |users| && users[i].isActive && users[i].isSuperuser && users[i].role == Some(Client))
  {
  }

  /**
   * Re-saving an edit form with the pickers as they were shown keeps exactly
   * the current users that either picker offers: an inactive assignee, or
   * an assignee with role user or no role, is dropped.
   */
  lemma ResaveKeepsOfferedAssignees(users: seq<User>, current: set<nat>, i: nat)
    ensures (InitialStaff(users, current) * StaffOptions(users)) + (InitialClients(users, current) * ClientOptions(users))
      == current * (StaffOptions(users) + ClientOptions(users))
    ensures i in current && i < |users| && !users[i].isActive ==>
      i !in (InitialStaff(users, current) * StaffOptions(users)) + (InitialClients(users, current) * ClientOptions(users))
    ensures i in current && i < |users| && !IsTeam(users[i]) && users[i].role != Some(Client) ==>
      i !in (InitialStaff(users, current) * StaffOptions(users)) + (InitialClients(users, current) * ClientOptions(users))
  {
  }

  /**
   * The form accepts the submission: `name` (at most 200 characters) and
   * `status` (at most 50) are given, the type exists and every picked user
   * is offered. The status choices the views set on the field do not
   * restrict it: the model field has no choices, so the form field checks
   * only the text.
   */
  predicate ProjectFormValid(types: map<nat, ProjectType>, users: seq<User>, fields: ProjectFields,
                             staff: seq<nat>, clients: seq<nat>) {
    && CleanCharField(fields.name, true, Some(ProjectNameMaxLength)).Ok?
    && CleanCharField(fields.status, true, Some(ProjectStatusMaxLength)).Ok?
    && fields.projectType in types
    && (forall s | s in staff :: s in StaffOptions(users))
    && (forall c | c in clients :: c in ClientOptions(users))
  }

  /**
   * A valid submission stays valid when its cleaned fields are submitted
   * again, and cleans to the same fields; the stored name and status are
   * never empty and within their lengths.
   */
  lemma CleanedFormResubmits(types: map<nat, ProjectType>, users: seq<User>, fields: ProjectFields,
                             staff: seq<nat>, clients: seq<nat>)
    requires ProjectFormValid(types, users, fields, staff, clients)
    ensures ProjectFormValid(types, users, CleanedFields(fields), staff, clients)
    ensures CleanedFields(CleanedFields(fields)) == CleanedFields(fields)
    ensures var c := CleanedFields(fields);
      c.name != [] && |c.name| <= ProjectNameMaxLength && c.status != [] && |c.status| <= ProjectStatusMaxLength
  {
    CleanedValueIsFixed(fields.name, true, Some(ProjectNameMaxLength));
    CleanedValueIsFixed(fields.status, true, Some(ProjectStatusMaxLength));
  }

  /**
   * The loop of `ProjectForm.save`: each picked staff user, then each picked
   * client, is added to the cleared `assigned_to`.
   */
  method AssignUsers(store: ProjectStore, id: nat, staff: seq<nat>, clients: seq<nat>)
    requires store.Valid() && id in store.projects
    modifies store
    ensures store.Valid()
    ensures store.projects == old(store.projects)[id := old(store.projects)[id].(assignedTo := Elements(staff) + Elements(clients))]
    ensures store.types == old(store.types) && store.standards == old(store.standards)
    ensures store.violations == old(store.violations) && store.projectViolations == old(store.projectViolations)
    ensures store.projectStandards == old(store.projectStandards) && store.pages == old(store.pages)
  {
    var picked: set<nat> := {};
    var i := 0;
    while i < |staff|
      invariant 0 <= i <= |staff|
      invariant picked == Elements(staff[..i])
    {
      assert staff[..i + 1] == staff[..i] + [staff[i]];
      picked := picked + {staff[i]};
      i := i + 1;
    }
    assert staff[..i] == staff;
    var j := 0;
    while j < |clients|
      invariant 0 <= j <= |clients|
      invariant picked == Elements(staff) + Elements(clients[..j])
    {
      assert clients[..j + 1] == clients[..j] + [clients[j]];
      picked := picked + {clients[j]};
      j := j + 1;
    }
    assert clients[..j] == clients;
    store.SetAssignees(id, picked);
  }

  /**
   * The row `project_create` stores, as written: it saves the form with
   * `commit=False`, so `ProjectForm.save` skips its assignment loop, and the
   * following `save_m2m` only covers many-to-many fields listed in the
   * form's `Meta.fields`, which `assigned_to` is not. The picks are lost.
   */
  function CreatedRowAsWritten(fields: ProjectFields, creator: nat, staff: seq<nat>, clients: seq<nat>): (p: Project)
    ensures p.assignedTo == {}
  {
    Project(fields.name, fields.client, fields.projectType, fields.status, Some(creator), {})
  }

  /** The row `project_create` evidently means to store: the picks become the assignees. */
  function CreatedRow(fields: ProjectFields, creator: nat, staff: seq<nat>, clients: seq<nat>): (p: Project)
    ensures p.assignedTo == Elements(staff) + Elements(clients)
    ensures p.createdBy == Some(creator) && p.projectType == fields.projectType
  {
    Project(fields.name, fields.client, fields.projectType, fields.status, Some(creator), Elements(staff) + Elements(clients))
  }

  /** A staff member picked on the create form is not current to the project as written. */
  lemma CreateDropsPickedStaff(fields: ProjectFields, creator: nat, s: nat)
    ensures s !in CreatedRowAsWritten(fields, creator, [s], []).assignedTo
    ensures s in CreatedRow(fields, creator, [s], []).assignedTo
  {
    assert s in [s];
  }

  /**
   * `ProjectForm.save` on an existing project: the edited fields over the
   * row, `created_by` kept, then the assignment loop.
   */
  method SaveProjectEdit(store: ProjectStore, id: nat, fields: ProjectFields, staff: seq<nat>, clients: seq<nat>)
    requires store.Valid() && id in store.projects && fields.projectType in store.types
    modifies store
    ensures store.Valid()
    ensures store.projects == old(store.projects)[id := Project(fields.name, fields.client, fields.projectType,
      fields.status, old(store.projects)[id].createdBy, Elements(staff) + Elements(clients))]
    ensures store.types == old(store.types) && store.standards == old(store.standards)
    ensures store.violations == old(store.violations) && store.projectViolations == old(store.projectViolations)
    ensures store.projectStandards == old(store.projectStandards) && store.pages == old(store.pages)
  {
    var row := store.projects[id];
    var edited := Project(fields.name, fields.client, fields.projectType, fields.status, row.createdBy, row.assignedTo);
    var r := store.UpdateProject(id, edited);
    AssignUsers(store, id, staff, clients);
  }

  /** A new project saved with its picks current, created by `creator`. */
  method SaveNewProject(store: ProjectStore, fields: ProjectFields, creator: nat, staff: seq<nat>, clients: seq<nat>)
    returns (id: nat)
    requires store.Valid() && fields.projectType in store.types
    modifies store
    ensures store.Valid()
    ensures id !in old(store.projects)
    ensures store.projects == old(store.projects)[id := CreatedRow(fields, creator, staff, clients)]
    ensures store.types == old(store.types) && store.standards == old(store.standards)
    ensures store.violations == old(store.violations) && store.projectViolations == old(store.projectViolations)
    ensures store.projectStandards == old(store.projectStandards) && store.pages == old(store.pages)
  {
    var added := store.AddProject(CreatedRowAsWritten(fields, creator, staff, clients));
    id := added.value;
    AssignUsers(store, id, staff, clients);
  }

  // ---------------------------------------------------------------------
  // ProjectViolationForm and ProjectStandardForm

  /** The standards attached to a project. */
  function StandardsOf(links: map<nat, ProjectStandard>, project: nat): set<nat> {
    set l | l in links && links[l].project == project :: links[l].standard
  }

  /** A project has some standard in its set exactly when a link attaches one. */
  lemma StandardsOfNonEmpty(links: map<nat, ProjectStandard>, project: nat)
    ensures StandardsOf(links, project) != {} <==> HasStandard(links, project)
  {
    if HasStandard(links, project) {
      var l :| l in links && links[l].project == project;
      assert links[l].standard in StandardsOf(links, project);
    }
  }

  /** The violations of the project's standards, in the table's `(standard name, version, name)` order. */
  function OfferedViolations(violations: map<nat, Violation>, links: map<nat, ProjectStandard>, project: nat,
                             order: seq<nat>): (r: seq<nat>)
    ensures forall v | v in r :: v in violations && violations[v].standard in StandardsOf(links, project)
  {
    var standards := StandardsOf(links, project);
    Filter(order, v => v in violations && violations[v].standard in standards)
  }

  /** The optgroup label of a violation: its standard's string form. */
  function GroupLabel(standards: map<nat, Standard>, violations: map<nat, Violation>): nat -> string {
    v => if v in violations && violations[v].standard in standards then StandardLabel(standards[violations[v].standard]) else ""
  }

  /**
   * The grouped dropdown of `ProjectViolationForm.__init__` for a type with
   * standards and a project that has one: the offered violations grouped by
   * their standard's label, labels in order of first appearance.
   */
  method ViolationDropdown(standards: map<nat, Standard>, violations: map<nat, Violation>,
                           links: map<nat, ProjectStandard>, project: nat, order: seq<nat>)
    returns (labels: seq<string>, groups: map<string, seq<nat>>)
    ensures labels == FirstSeenKeys(OfferedViolations(violations, links, project, order), GroupLabel(standards, violations))
    ensures groups.Keys == Elements(labels)
    ensures forall k | k in groups ::
      groups[k] == Members(OfferedViolations(violations, links, project, order), GroupLabel(standards, violations), k)
  {
    var offered := OfferedViolations(violations, links, project, order);
    labels, groups := GroupBy(offered, GroupLabel(standards, violations));
  }

  /**
   * Groups are keyed by label, not by standard: two offered violations of
   * different standards whose labels coincide (standards "A B" with no
   * version and "A" version "B") share one optgroup.
   */
  lemma CollidingStandardsShareAGroup(standards: map<nat, Standard>, violations: map<nat, Violation>,
                                      offered: seq<nat>, i: nat, j: nat)
    requires i < |offered| && j < |offered|
    requires offered[i] in violations && offered[j] in violations
    requires violations[offered[i]].standard in standards && violations[offered[j]].standard in standards
    requires StandardLabel(standards[violations[offered[i]].standard]) == StandardLabel(standards[violations[offered[j]].standard])
    ensures var key := GroupLabel(standards, violations);
      offered[i] in Members(offered, key, key(offered[j])) && offered[j] in Members(offered, key, key(offered[i]))
  {
    var key := GroupLabel(standards, violations);
    EachItemInOneGroup(offered, key, i, key(offered[i]));
    EachItemInOneGroup(offered, key, j, key(offered[j]));
  }

  /** The state of the `standard` field of `ProjectStandardForm`. */
  datatype StandardField = NoStandards | Disabled | AllStandards

  /**
   * `ProjectStandardForm.__init__`: without a project nothing is offered; a
   * new link for a project that already has a standard disables the field;
   * otherwise every standard is offered.
   */
  function StandardFieldState(project: Option<nat>, links: map<nat, ProjectStandard>, instanceSaved: bool): (f: StandardField)
    ensures f == Disabled <==> project.Some? && HasStandard(links, project.value) && !instanceSaved
    ensures f == NoStandards <==> project.None?
  {
    if project.None? then NoStandards
    else if HasStandard(links, project.value) && !instanceSaved then Disabled
    else AllStandards
  }
}

=== FILE: project_tags.dfy ===
/**
 * The two template filters of projects/templatetags/project_tags.py.
 */
module ProjectTags {
  import opened Wrappers
  import opened Text

  /**
   * `get_item`: nothing from a missing or empty dictionary, otherwise
   * `dictionary.get(key)`.
   */
  function GetItem<K, V>(dictionary: Option<map<K, V>>, key: K): (r: Option<V>)
    ensures dictionary.None? || |dictionary.value| == 0 ==> r.None?
    ensures dictionary.Some? ==> (r.Some? <==> key in dictionary.value)
    ensures r.Some? ==> dictionary.Some? && key in dictionary.value && r.value == dictionary.value[key]
  {
    if dictionary.None? || |dictionary.value| == 0 then None
    else if key in dictionary.value then Some(dictionary.value[key])
    else None
  }

  /** `str.split` refuses an empty separator with a `ValueError`. */
  datatype SplitError = EmptySeparator

  /**
   * `split`: no pieces for a missing or empty value, otherwise
   * `value.split(delimiter)`, which fails on an empty delimiter.
   */
  function SplitFilter(value: Option<string>, delimiter: string): (r: Result<seq<string>, SplitError>)
    ensures value.None? || value.value == [] ==> r == Ok([])
    ensures value.Some? && value.value != [] ==> (r.Err? <==> delimiter == [])
    ensures r.Ok? && value.Some? && value.value != [] ==>
      delimiter != [] && Join(r.value, delimiter) == value.value && |r.value| == Occurrences(value.value, delimiter) + 1
  {
    if value.None? || value.value == [] then Ok([])
    else if delimiter == [] then Err(EmptySeparator)
    else
      JoinOfSplit(value.value, delimiter);
      SplitCount(value.value, delimiter);
      Ok(Split(value.value, delimiter))
  }

  /** The filter and a plain split differ on the empty string: no pieces against one empty piece. */
  lemma EmptyValueHasNoPieces(delimiter: string)
    requires delimiter != []
    ensures SplitFilter(Some(""), delimiter) == Ok([])
    ensures Split("", delimiter) == [""]
  {
  }
}

=== FILE: project_views.dfy ===
/**
 * The views of projects/views.py that decide something beyond access: the
 * grouping of a project's issues by standard on the detail page, the
 * creation of an issue, the attachment of a standard to a project and the
 * deletion of a project type. Each view is modelled on its POST path: the
 * checks in source order, then the write.
 */
module ProjectViews {
  import opened Wrappers
  import opened Seqs
  import opened Text
  import opened Users
  import opened RoleGuards
  import opened ChoiceText
  import opened ChoiceLists
  import opened Projects
  import opened ProjectAccess
  import opened Grouping
  import opened ProjectForms
  import opened FormFields

  /** How a view ends: 404, 403, a refusal redirect, an invalid form, an uncaught exception (500), or the written row. */
  datatype Outcome = NotFound | Denied | Refused | Invalid | Crashed | Done(id: nat)

  /** The standard of an issue's violation (0 only for a dangling reference, which `Valid()` excludes). */
  function IssueStandard(issues: map<nat, ProjectViolation>, violations: map<nat, Violation>, id: nat): nat {
    if id in issues && issues[id].violation in violations then violations[issues[id].violation].standard else 0
  }

  /** `staff_required`: role admin or staff, or a superuser. */
  predicate PassesStaffRequired(u: User) {
    HasRole(SignedIn(u), Admin) || HasRole(SignedIn(u), Staff)
  }

  /**
   * `project_create` on POST, behind `staff_required`: 403 for anyone else,
   * an invalid form, or the new project created by the requester with the
   * cleaned fields. As written the picks are not stored: the form is saved
   * with `commit=False` and `save_m2m` does not cover `assigned_to`.
   */
  method ProjectCreate(store: ProjectStore, users: seq<User>, u: User, fields: ProjectFields,
                       staff: seq<nat>, clients: seq<nat>) returns (r: Outcome)
    requires store.Valid()
    modifies store
    ensures store.Valid()
    ensures r == Denied <==> !PassesStaffRequired(u)
    ensures r == Invalid <==> PassesStaffRequired(u) && !ProjectFormValid(old(store.types), users, fields, staff, clients)
    ensures r.Done? ==> (r.id !in old(store.projects)
      && store.projects == old(store.projects)[r.id := CreatedRowAsWritten(CleanedFields(fields), u.id, staff, clients)])
    ensures r.Done? ==> store.projects[r.id].assignedTo == {} && store.projects[r.id].createdBy == Some(u.id)
    ensures !r.Done? ==> store.projects == old(store.projects)
    ensures !r.NotFound? && !r.Refused?
    ensures store.types == old(store.types) && store.standards == old(store.standards)
    ensures store.violations == old(store.violations) && store.projectViolations == old(store.projectViolations)
    ensures store.projectStandards == old(store.projectStandards) && store.pages == old(store.pages)
  {
    if !PassesStaffRequired(u) {
      return Denied;
    }
    if !ProjectFormValid(store.types, users, fields, staff, clients) {
      return Invalid;
    }
    var added := store.AddProject(CreatedRowAsWritten(CleanedFields(fields), u.id, staff, clients));
    return Done(added.value);
  }

  /**
   * `project_update` on POST, behind `staff_required`: 403, 404, a crash
   * when building the form unpacks a status entry of the project's type
   * that is not a pair, an invalid form, or the edited project, with the
   * cleaned fields and its assignees replaced by the picks.
   */
  method ProjectUpdate(store: ProjectStore, users: seq<User>, u: User, pk: nat, fields: ProjectFields,
                       staff: seq<nat>, clients: seq<nat>) returns (r: Outcome)
    requires store.Valid()
    modifies store
    ensures store.Valid()
    ensures r == Denied <==> !PassesStaffRequired(u)
    ensures r == NotFound <==> PassesStaffRequired(u) && pk !in old(store.projects)
    ensures r == Crashed <==> (PassesStaffRequired(u) && pk in old(store.projects)
      && !AllPairs(StatusChoices(old(store.types)[old(store.projects)[pk].projectType].statusChoices)))
    ensures r == Invalid <==> (PassesStaffRequired(u) && pk in old(store.projects)
      && AllPairs(StatusChoices(old(store.types)[old(store.projects)[pk].projectType].statusChoices))
      && !ProjectFormValid(old(store.types), users, fields, staff, clients))
    ensures r.Done? ==> (r.id == pk && pk in old(store.projects)
      && store.projects == old(store.projects)[pk := Project(Strip(fields.name), fields.client, fields.projectType,
           Strip(fields.status), old(store.projects)[pk].createdBy, Elements(staff) + Elements(clients))])
    ensures !r.Done? ==> store.projects == old(store.projects)
    ensures store.types == old(store.types) && store.standards == old(store.standards)
    ensures store.violations == old(store.violations) && store.projectViolations == old(store.projectViolations)
    ensures store.projectStandards == old(store.projectStandards) && store.pages == old(store.pages)
  {
    if !PassesStaffRequired(u) {
      return Denied;
    }
    if pk !in store.projects {
      return NotFound;
    }
    // `ProjectForm(request.POST, instance=project)` formats the status choices of the project's type
    var choices := StatusFieldChoices(store.types[store.projects[pk].projectType].statusChoices);
    if choices.Err? {
      return Crashed;
    }
    if !ProjectFormValid(store.types, users, fields, staff, clients) {
      return Invalid;
    }
    SaveProjectEdit(store, pk, CleanedFields(fields), staff, clients);
    return Done(pk);
  }

  /** The grouping key of the detail page: an issue's standard. */
  function ByStandard(issues: map<nat, ProjectViolation>, violations: map<nat, Violation>): nat -> nat {
    id => IssueStandard(issues, violations, id)
  }

  /** The issues of a project, in the order the table lists them. */
  function IssuesOf(issues: map<nat, ProjectViolation>, order: seq<nat>, project: nat): (r: seq<nat>)
    ensures forall id | id in r :: id in issues && issues[id].project == project
  {
    Filter(order, id => id in issues && issues[id].project == project)
  }

  /** What `project_detail` renders: the project's issues, grouped by standard when the type supports standards. */
  datatype Detail = Detail(issues: seq<nat>, grouped: Option<(seq<nat>, map<nat, seq<nat>>)>)

  /**
   * `project_detail`: 404 for an unknown project, 403 unless the user may
   * access it; otherwise the issues, and for a type with standards the
   * dict from standard to its issues, keys in order of first appearance.
   */
  method ProjectDetail(store: ProjectStore, u: User, pk: nat, order: seq<nat>) returns (r: Result<Detail, Outcome>)
    requires store.Valid()
    ensures r.Err? ==> r.error == NotFound || r.error == Denied
    ensures r == Err(NotFound) <==> pk !in store.projects
    ensures r.Ok? <==> pk in store.projects && CanAccessProject(u, store.projects[pk])
    ensures r.Ok? ==> r.value.issues == IssuesOf(store.projectViolations, order, pk)
    ensures r.Ok? ==> (r.value.grouped.Some? <==> store.types[store.projects[pk].projectType].supportsStandards)
    ensures r.Ok? && r.value.grouped.Some? ==>
      var key := ByStandard(store.projectViolations, store.violations);
      && r.value.grouped.value.0 == FirstSeenKeys(r.value.issues, key)
      && r.value.grouped.value.1.Keys == Elements(r.value.grouped.value.0)
      && forall k | k in r.value.grouped.value.1 :: r.value.grouped.value.1[k] == Members(r.value.issues, key, k)
  {
    if pk !in store.projects {
      return Err(NotFound);
    }
    var project := store.projects[pk];
    if !(IsTeam(u) || u.id in project.assignedTo) {
      return Err(Denied);
    }
    var issues := IssuesOf(store.projectViolations, order, pk);
    if !store.types[project.projectType].supportsStandards {
      return Ok(Detail(issues, None));
    }
    var keyOrder, groups := GroupBy(issues, ByStandard(store.projectViolations, store.violations));
    return Ok(Detail(issues, Some((keyOrder, groups))));
  }

  /** On the detail page every issue is listed under the standard of its violation and under no other. */
  lemma IssueListedUnderItsStandard(issues: map<nat, ProjectViolation>, violations: map<nat, Violation>, listed: seq<nat>, i: nat, k: nat)
    requires i < |listed|
    ensures var key := ByStandard(issues, violations);
      && key(listed[i]) in FirstSeenKeys(listed, key)
      && listed[i] in Members(listed, key, key(listed[i]))
      && (k != key(listed[i]) ==> listed[i] !in Members(listed, key, k))
  {
    var key := ByStandard(issues, violations);
    ItemKeyIsSeen(listed, key, i);
    EachItemInOneGroup(listed, key, i, k);
  }

  /**
   * An uploaded file as the form field sees it: its name, its size, and
   * whether Pillow opens and verifies it as an image (a parameter here).
   */
  datatype Upload = Upload(name: string, size: nat, opensAsImage: bool)

  /**
   * The issue form's fields that the model keeps: the violation, the
   * status, the location, the screenshot upload (None when no file is sent)
   * and the assignee.
   */
  datatype IssueForm = IssueForm(violation: nat, status: string, location: string, screenshot: Option<Upload>, assignedTo: Option<nat>)

  /**
   * The optional `screenshot` field (an `ImageField` with the default
   * `max_length` of 100): no file, or a file with a non-empty name of at
   * most 100 characters, a non-zero size, and image content.
   */
  predicate ScreenshotAccepted(screenshot: Option<Upload>) {
    screenshot.None?
    || (var f := screenshot.value; f.name != [] && |f.name| <= 100 && f.size > 0 && f.opensAsImage)
  }

  /** An image upload is refused when its name is longer than 100 characters, whatever its content. */
  lemma LongScreenshotNameRefused(f: Upload)
    requires |f.name| > 100
    ensures !ScreenshotAccepted(Some(f))
  {
  }

  /**
   * The violations the `violation` field of `ProjectViolationForm` accepts,
   * as written: for a type with standards and a project that has one, the
   * field keeps its default queryset, every violation; otherwise none.
   */
  function IssueViolationOptions(store: map<nat, Violation>, links: map<nat, ProjectStandard>,
                                 supportsStandards: bool, project: nat): set<nat> {
    if supportsStandards && HasStandard(links, project) then store.Keys else {}
  }

  /**
   * The violations the field evidently means to accept: those of the
   * project's own standards, the ones the grouped dropdown offers.
   */
  function IntendedIssueViolationOptions(violations: map<nat, Violation>, links: map<nat, ProjectStandard>,
                                         supportsStandards: bool, project: nat): (r: set<nat>)
    ensures forall v | v in r :: v in violations && violations[v].standard in StandardsOf(links, project)
    ensures !supportsStandards ==> r == {}
  {
    if supportsStandards then
      set v | v in violations && violations[v].standard in StandardsOf(links, project)
    else {}
  }

  /**
   * As written, the form accepts a violation of a standard the project does
   * not have: project 0 has standard 1, yet violation 7 of standard 2 passes.
   */
  lemma ForeignViolationAccepted()
    ensures var violations := map[5 := Violation("1.1.1", 1), 7 := Violation("2.4.4", 2)];
      var links := map[3 := ProjectStandard(0, 1)];
      && 7 in IssueViolationOptions(violations, links, true, 0)
      && violations[7].standard !in StandardsOf(links, 0)
      && 7 !in IntendedIssueViolationOptions(violations, links, true, 0)
  {
    var violations := map[5 := Violation("1.1.1", 1), 7 := Violation("2.4.4", 2)];
    var links := map[3 := ProjectStandard(0, 1)];
    assert links[3].project == 0;
    assert StandardsOf(links, 0) == {1};
  }

  /** The intended options are a subset of the written ones: the correction only refuses more. */
  lemma IntendedOptionsNarrowWritten(violations: map<nat, Violation>, links: map<nat, ProjectStandard>,
                                     supportsStandards: bool, project: nat)
    ensures IntendedIssueViolationOptions(violations, links, supportsStandards, project)
      <= IssueViolationOptions(violations, links, supportsStandards, project)
  {
    var r := IntendedIssueViolationOptions(violations, links, supportsStandards, project);
    if r != {} {
      var v :| v in r;
      var l :| l in links && links[l].project == project && links[l].standard == violations[v].standard;
      assert HasStandard(links, project);
    }
  }

  /** A status the issue form's `status` field accepts: a key of `ProjectViolation.STATUS_CHOICES`. */
  predicate IssueStatusAccepted(status: string) {
    status in Keys(ViolationStatusChoices)
  }

  /**
   * The `assigned_to` queryset of `ProjectViolationForm`: every active user
   * with a role, whether or not assigned to the project.
   */
  function AssigneeOptions(users: seq<User>): set<nat> {
    set i | 0 <= i < |users| && users[i].isActive && users[i].role.Some?
  }

  /** The optional `assigned_to` field accepts no assignee or an offered one. */
  predicate AssigneeAccepted(users: seq<User>, assignee: Option<nat>) {
    assignee.None? || assignee.value in AssigneeOptions(users)
  }

  /**
   * An issue can go to every client the project form offers, and to every
   * offered staff member that holds a role; an active superuser without a
   * role is offered for projects but not for issues.
   */
  lemma AssignableToIssues(users: seq<User>, i: nat)
    ensures i in ClientOptions(users) ==> i in AssigneeOptions(users)
    ensures i in StaffOptions(users) ==> (i in AssigneeOptions(users) <==> users[i].role.Some?)
  {
  }

  /** The form checks of the issue view, as written. */
  predicate IssueFormValid(store: map<nat, Violation>, links: map<nat, ProjectStandard>, users: seq<User>,
                           supportsStandards: bool, project: nat, form: IssueForm) {
    && form.violation in IssueViolationOptions(store, links, supportsStandards, project)
    && IssueStatusAccepted(form.status)
    && CleanCharField(form.location, false, Some(255)).Ok?
    && ScreenshotAccepted(form.screenshot)
    && AssigneeAccepted(users, form.assignedTo)
  }

  /**
   * `project_violation_create` on POST: 404, 403 unless the user may access
   * the project, a refusal when the type supports standards and the project
   * has none, an invalid form, or the new issue. The violation is checked
   * against the field's queryset as written: any stored violation once the
   * project has a standard, none for a type without standards.
   */
  method ProjectViolationCreate(store: ProjectStore, users: seq<User>, u: User, projectId: nat, form: IssueForm) returns (r: Outcome)
    requires store.Valid()
    modifies store
    ensures store.Valid()
    ensures r == NotFound <==> projectId !in old(store.projects)
    ensures r == Denied <==> projectId in old(store.projects) && !CanAccessProject(u, old(store.projects)[projectId])
    ensures r == Refused <==> (projectId in old(store.projects) && CanAccessProject(u, old(store.projects)[projectId])
      && old(store.types)[old(store.projects)[projectId].projectType].supportsStandards
      && !HasStandard(old(store.projectStandards), projectId))
    ensures r == Invalid <==> (projectId in old(store.projects) && CanAccessProject(u, old(store.projects)[projectId])
      && var supports := old(store.types)[old(store.projects)[projectId].projectType].supportsStandards;
         && (supports ==> HasStandard(old(store.projectStandards), projectId))
         && !IssueFormValid(old(store.violations), old(store.projectStandards), users, supports, projectId, form))
    ensures r.Done? ==> (projectId in old(store.projects) && CanAccessProject(u, old(store.projects)[projectId])
      && old(store.types)[old(store.projects)[projectId].projectType].supportsStandards
      && HasStandard(old(store.projectStandards), projectId)
      && form.violation in old(store.violations)
      && IssueStatusAccepted(form.status) && AssigneeAccepted(users, form.assignedTo)
      && |Strip(form.location)| <= 255 && ScreenshotAccepted(form.screenshot)
      && r.id !in old(store.projectViolations)
      && store.projectViolations == old(store.projectViolations)[r.id :=
           ProjectViolation(projectId, form.violation, form.status, Strip(form.location), form.assignedTo)])
    ensures !r.Done? ==> store.projectViolations == old(store.projectViolations)
    ensures store.types == old(store.types) && store.projects == old(store.projects)
    ensures store.standards == old(store.standards) && store.violations == old(store.violations)
    ensures store.projectStandards == old(store.projectStandards) && store.pages == old(store.pages)
  {
    if projectId !in store.projects {
      return NotFound;
    }
    var project := store.projects[projectId];
    if !(IsTeam(u) || u.id in project.assignedTo) {
      return Denied;
    }
    var supports := store.types[project.projectType].supportsStandards;
    if supports && !HasStandard(store.projectStandards, projectId) {
      return Refused;
    }
    if !IssueFormValid(store.violations, store.projectStandards, users, supports, projectId, form) {
      return Invalid;
    }
    var location := CleanCharField(form.location, false, Some(255)).value;
    var added := store.AddProjectViolation(ProjectViolation(projectId, form.violation, form.status, location, form.assignedTo));
    if added.Err? {
      assert false;
      return Invalid;
    }
    return Done(added.value);
  }

  /** A project of a type with standards gets issues only once a standard is attached. */
  lemma IssuesNeedAStandard(store: map<nat, ProjectStandard>, projectId: nat, violations: map<nat, Violation>)
    requires !HasStandard(store, projectId)
    ensures IssueViolationOptions(violations, store, true, projectId) == {}
    ensures IntendedIssueViolationOptions(violations, store, true, projectId) == {}
  {
  }

  /**
   * `project_standard_create` on POST: 404, 403 unless the user may access
   * the project, a refusal when the project already has a standard, an
   * invalid form for an unknown standard, or the new link. The project
   * keeps at most one standard.
   */
  method ProjectStandardCreate(store: ProjectStore, u: User, projectId: nat, standard: nat) returns (r: Outcome)
    requires store.Valid()
    modifies store
    ensures store.Valid()
    ensures r == NotFound <==> projectId !in old(store.projects)
    ensures r == Denied <==> projectId in old(store.projects) && !CanAccessProject(u, old(store.projects)[projectId])
    ensures r == Refused <==> (projectId in old(store.projects) && CanAccessProject(u, old(store.projects)[projectId])
      && HasStandard(old(store.projectStandards), projectId))
    ensures r == Invalid <==> (projectId in old(store.projects) && CanAccessProject(u, old(store.projects)[projectId])
      && !HasStandard(old(store.projectStandards), projectId) && standard !in old(store.standards))
    ensures r.Done? ==> (r.id !in old(store.projectStandards)
      && store.projectStandards == old(store.projectStandards)[r.id := ProjectStandard(projectId, standard)])
    ensures !r.Done? ==> store.projectStandards == old(store.projectStandards)
    ensures OneStandardPerProject(store.projectStandards)
    ensures store.types == old(store.types) && store.projects == old(store.projects)
    ensures store.standards == old(store.standards) && store.violations == old(store.violations)
    ensures store.projectViolations == old(store.projectViolations) && store.pages == old(store.pages)
  {
    if projectId !in store.projects {
      return NotFound;
    }
    var project := store.projects[projectId];
    if !(IsTeam(u) || u.id in project.assignedTo) {
      return Denied;
    }
    if HasStandard(store.projectStandards, projectId) {
      return Refused;
    }
    if standard !in store.standards {
      return Invalid;
    }
    var added := store.AddProjectStandard(ProjectStandard(projectId, standard));
    if added.Err? {
      assert false;
      return Invalid;
    }
    return Done(added.value);
  }

  /**
   * The create view refuses a project that already has a standard before
   * building the form, so the form it shows never has its field disabled.
   */
  lemma StandardCreateFormIsNeverDisabled(links: map<nat, ProjectStandard>, project: nat)
    requires !HasStandard(links, project)
    ensures StandardFieldState(Some(project), links, false) == AllStandards
  {
  }

  /**
   * `project_type_delete` on POST, behind `admin_required`: 403 unless the
   * user has the admin role, 404 for an unknown type, a refusal while any
   * project uses the type, else the type is gone and no project is left
   * pointing at a missing type.
   */
  method ProjectTypeDelete(store: ProjectStore, u: User, typeId: nat) returns (r: Outcome)
    requires store.Valid()
    modifies store
    ensures store.Valid()
    ensures r == Denied <==> !HasRole(SignedIn(u), Admin)
    ensures r == NotFound <==> HasRole(SignedIn(u), Admin) && typeId !in old(store.types)
    ensures r == Refused <==> HasRole(SignedIn(u), Admin) && typeId in old(store.types) && TypeInUse(old(store.projects), typeId)
    ensures r.Done? ==> r.id == typeId && store.types == old(store.types) - {typeId}
    ensures !r.Done? ==> store.types == old(store.types)
    ensures forall p | p in store.projects :: store.projects[p].projectType in store.types
    ensures store.projects == old(store.projects) && store.standards == old(store.standards)
    ensures store.violations == old(store.violations) && store.projectViolations == old(store.projectViolations)
    ensures store.projectStandards == old(store.projectStandards) && store.pages == old(store.pages)
  {
    if !HasRole(SignedIn(u), Admin) {
      return Denied;
    }
    if typeId !in store.types {
      return NotFound;
    }
    if TypeInUse(store.projects, typeId) {
      return Refused;
    }
    store.DeleteProjectType(typeId);
    return Done(typeId);
  }
}

=== FILE: projects.dfy ===
/**
 * The project records of projects/models.py: project types with their
 * configurable choice lists, projects, standards and their violations,
 * the violations found in a project, the standard attached to a project,
 * and pages. The tables live in a `ProjectStore`, whose `Valid()` is the
 * conjunction of the models' uniqueness constraints and foreign keys.
 */
module Projects {
  import opened Wrappers
  import opened Text
  import opened ChoiceLists

  /** A stored `ProjectType` row; the choice lists are JSON arrays of `[key, label]` arrays. */
  datatype ProjectType = ProjectType(
    name: string,
    description: string,
    slug: string,
    supportsStandards: bool,
    statusChoices: seq<seq<string>>,
    milestoneChoices: seq<seq<string>>)

  /** A stored `Project` row; `assignedTo` holds user ids. */
  datatype Project = Project(
    name: string,
    client: nat,
    projectType: nat,
    status: string,
    createdBy: Option<nat>,
    assignedTo: set<nat>)

  /** A stored `Standard` row. */
  datatype Standard = Standard(name: string, version: string)

  /** A stored `Violation` row: one criterion of a standard. */
  datatype Violation = Violation(name: string, standard: nat)

  /** A stored `ProjectViolation` row: a violation found in a project (an issue). */
  datatype ProjectViolation = ProjectViolation(
    project: nat,
    violation: nat,
    status: string,
    location: string,
    assignedTo: Option<nat>)

  /** A stored `ProjectStandard` row. */
  datatype ProjectStandard = ProjectStandard(project: nat, standard: nat)

  /** A stored `Page` row. */
  datatype Page = Page(project: nat, name: string)

  /** The database refusing a write: a unique constraint or a foreign key would break. */
  datatype DbError = UniqueViolation | MissingReference

  /** A project as created without an explicit status: it starts `not_started`. */
  function NewProject(name: string, client: nat, projectType: nat, createdBy: Option<nat>): (p: Project)
    ensures p.status == NewProjectStatus && p.assignedTo == {}
    ensures p.name == name && p.client == client && p.projectType == projectType && p.createdBy == createdBy
  {
    Project(name, client, projectType, "not_started", createdBy, {})
  }

  /** A project violation as created without an explicit status or location: it starts `open`, with no location. */
  function NewProjectViolation(project: nat, violation: nat, assignedTo: Option<nat>): (v: ProjectViolation)
    ensures v.status == NewViolationStatus && v.location == []
    ensures v.project == project && v.violation == violation && v.assignedTo == assignedTo
  {
    ProjectViolation(project, violation, "open", "", assignedTo)
  }

  /** `Standard.__str__`: name and version separated by a space, stripped. */
  function StandardLabel(s: Standard): string {
    Strip(s.name + " " + s.version)
  }

  /** Appending a space never changes what `Strip` returns. */
  lemma {:induction false} StripTrailingSpace(x: string)
    ensures Strip(x + " ") == Strip(x)
    decreases |x|
  {
    if x == [] {
      assert Strip(" ") == Strip(""[..0]);
    } else if IsSpace(x[0]) {
      assert (x + " ")[1..] == x[1..] + " ";
      StripTrailingSpace(x[1..]);
    } else {
      assert (x + " ")[..|x|] == x;
    }
  }

  /**
   * The label of a standard is stripped; without a version it is the
   * stripped name alone; with a stripped, non-empty name and version it is
   * exactly "name version".
   */
  lemma StandardLabelShape(s: Standard)
    ensures IsStripped(StandardLabel(s))
    ensures s.version == [] ==> StandardLabel(s) == Strip(s.name)
    ensures s.name != [] && s.version != [] && IsStripped(s.name) && IsStripped(s.version) ==>
      StandardLabel(s) == s.name + " " + s.version
  {
    if s.version == [] {
      assert s.name + " " + s.version == s.name + " ";
      StripTrailingSpace(s.name);
    }
    if s.name != [] && s.version != [] && IsStripped(s.name) && IsStripped(s.version) {
      var t := s.name + " " + s.version;
      assert t[0] == s.name[0] && t[|t| - 1] == s.version[|s.version| - 1];
      StripOfStripped(t);
    }
  }

  /**
   * Two standards that the (name, version) constraint tells apart can still
   * share a label, so labels do not identify standards.
   */
  lemma StandardLabelsCanCollide()
    ensures Standard("A B", "") != Standard("A", "B")
    ensures StandardLabel(Standard("A B", "")) == StandardLabel(Standard("A", "B"))
  {
    StandardLabelShape(Standard("A", "B"));
    StandardLabelShape(Standard("A B", ""));
    StripOfStripped("A B");
  }

  /** `if not self.slug: self.slug = slugify(self.name)`. */
  function FilledSlug(slug: string, name: string, slugify: string -> string): string {
    if slug == [] then slugify(name) else slug
  }

  /** A non-empty slug is never changed, and filling twice is filling once. */
  lemma FilledSlugKeepsSlug(slug: string, name: string, slugify: string -> string)
    ensures slug != [] ==> FilledSlug(slug, name, slugify) == slug
    ensures slug == [] ==> FilledSlug(slug, name, slugify) == slugify(name)
    ensures FilledSlug(FilledSlug(slug, name, slugify), name, slugify) == FilledSlug(slug, name, slugify)
  {
  }

  /** `if not x: x = []` for a JSON choice list, where None is JSON null. */
  function ListOrEmpty(x: Option<seq<seq<string>>>): (r: seq<seq<string>>)
    ensures x.Some? && x.value != [] ==> r == x.value
    ensures x.None? || x.value == [] ==> r == []
  {
    if x.Some? then x.value else []
  }

  /**
   * An in-memory `ProjectType` instance; a choice field read back as JSON
   * null is `None`. `pk` is None until the instance is first saved.
   */
  class ProjectTypeInstance {
    var pk: Option<nat>
    var name: string
    var description: string
    var slug: string
    var supportsStandards: bool
    var statusChoices: Option<seq<seq<string>>>
    var milestoneChoices: Option<seq<seq<string>>>

    /** `ProjectType.objects.get(pk=...)`. */
    constructor Load(id: nat, row: ProjectType)
      ensures pk == Some(id) && name == row.name && description == row.description
      ensures slug == row.slug && supportsStandards == row.supportsStandards
      ensures statusChoices == Some(row.statusChoices) && milestoneChoices == Some(row.milestoneChoices)
    {
      pk := Some(id);
      name := row.name;
      description := row.description;
      slug := row.slug;
      supportsStandards := row.supportsStandards;
      statusChoices := Some(row.statusChoices);
      milestoneChoices := Some(row.milestoneChoices);
    }

    /** `ProjectType(name=..., ...)`: a new, unsaved instance with the field defaults. */
    constructor Create(name: string, description: string, supportsStandards: bool)
      ensures pk.None? && this.name == name && this.description == description
      ensures slug == [] && this.supportsStandards == supportsStandards
      ensures statusChoices == Some([]) && milestoneChoices == Some([])
    {
      pk := None;
      this.name := name;
      this.description := description;
      slug := [];
      this.supportsStandards := supportsStandards;
      statusChoices := Some([]);
      milestoneChoices := Some([]);
    }

    /** The row `save` writes for this instance once both choice fields hold a list. */
    function Row(): ProjectType
      reads this
    {
      ProjectType(name, description, slug, supportsStandards,
        ListOrEmpty(statusChoices), ListOrEmpty(milestoneChoices))
    }

    /**
     * The body of `ProjectType.save` before the row is written: an empty
     * slug is filled from the name, and a falsy choice list becomes `[]`.
     */
    method PrepareSave(slugify: string -> string)
      modifies this
      ensures slug == FilledSlug(old(slug), name, slugify)
      ensures statusChoices == Some(ListOrEmpty(old(statusChoices)))
      ensures milestoneChoices == Some(ListOrEmpty(old(milestoneChoices)))
      ensures pk == old(pk) && name == old(name) && description == old(description)
      ensures supportsStandards == old(supportsStandards)
    {
      if slug == [] {
        slug := slugify(name);
      }
      if statusChoices.None? || statusChoices.value == [] {
        statusChoices := Some([]);
      }
      if milestoneChoices.None? || milestoneChoices.value == [] {
        milestoneChoices := Some([]);
      }
    }

    /** `handle_project_type_slug`, the `pre_save` handler run inside `save`. */
    method FillSlugSignal(slugify: string -> string)
      modifies this
      ensures slug == FilledSlug(old(slug), name, slugify)
      ensures pk == old(pk) && name == old(name) && description == old(description)
      ensures supportsStandards == old(supportsStandards)
      ensures statusChoices == old(statusChoices) && milestoneChoices == old(milestoneChoices)
    {
      if slug == [] {
        slug := slugify(name);
      }
    }

    /**
     * `save` as a whole before the write: the model's body, then the
     * `pre_save` handler, which finds nothing left to do.
     */
    method SaveBody(slugify: string -> string)
      modifies this
      ensures slug == FilledSlug(old(slug), name, slugify)
      ensures old(slug) != [] ==> slug == old(slug)
      ensures Row() == old(Row()).(slug := FilledSlug(old(slug), old(name), slugify))
      ensures statusChoices.Some? && milestoneChoices.Some?
      ensures pk == old(pk)
    {
      PrepareSave(slugify);
      ghost var prepared := slug;
      FillSlugSignal(slugify);
      FilledSlugKeepsSlug(old(slug), name, slugify);
      assert slug == prepared;
    }
  }

  /** Distinct type ids have distinct names and distinct slugs (`unique=True`). */
  predicate TypesUnique(types: map<nat, ProjectType>) {
    forall a, b | a in types && b in types && a != b ::
      types[a].name != types[b].name && types[a].slug != types[b].slug
  }

  /** Another type than `self` already holds the name or the slug. */
  predicate NameOrSlugTaken(types: map<nat, ProjectType>, self: Option<nat>, name: string, slug: string) {
    exists t | t in types && Some(t) != self :: types[t].name == name || types[t].slug == slug
  }

  /** Writing a row whose name and slug no other type holds keeps the names and slugs unique. */
  lemma TypeWriteKeepsUnique(types: map<nat, ProjectType>, id: nat, row: ProjectType)
    requires TypesUnique(types) && !NameOrSlugTaken(types, Some(id), row.name, row.slug)
    ensures TypesUnique(types[id := row])
  {
    var u := types[id := row];
    forall a, b | a in u && b in u && a != b ensures u[a].name != u[b].name && u[a].slug != u[b].slug {
      if a == id {
        assert b in types && Some(b) != Some(id);
      } else if b == id {
        assert a in types && Some(a) != Some(id);
      }
    }
  }

  /** `Standard`: unique together on (name, version). */
  predicate StandardsUnique(standards: map<nat, Standard>) {
    forall a, b | a in standards && b in standards && a != b :: standards[a] != standards[b]
  }

  /** `Violation`: unique together on (standard, name). */
  predicate ViolationsUnique(violations: map<nat, Violation>) {
    forall a, b | a in violations && b in violations && a != b :: violations[a] != violations[b]
  }

  /** `ProjectStandard`: the `one_standard_per_project` constraint. */
  predicate OneStandardPerProject(links: map<nat, ProjectStandard>) {
    forall a, b | a in links && b in links && a != b :: links[a].project != links[b].project
  }

  /** `Page`: unique together on (project, name). */
  predicate PagesUnique(pages: map<nat, Page>) {
    forall a, b | a in pages && b in pages && a != b :: pages[a] != pages[b]
  }

  /** Adding a link for a project that has none keeps one standard per project. */
  lemma LinkInsertKeepsOne(links: map<nat, ProjectStandard>, id: nat, l: ProjectStandard)
    requires OneStandardPerProject(links) && id !in links && !HasStandard(links, l.project)
    ensures OneStandardPerProject(links[id := l])
  {
    var u := links[id := l];
    forall a, b | a in u && b in u && a != b ensures u[a].project != u[b].project {
      if a == id {
        assert b in links;
      } else if b == id {
        assert a in links;
      }
    }
  }

  /** Every key of a table is below the next id to hand out. */
  predicate IdsBelow(ids: set<nat>, next: nat) {
    forall id | id in ids :: id < next
  }

  /** Some project uses the type (the test `project_type_delete` makes). */
  predicate TypeInUse(projects: map<nat, Project>, t: nat) {
    exists p | p in projects :: projects[p].projectType == t
  }

  /** Some link attaches a standard to the project. */
  predicate HasStandard(links: map<nat, ProjectStandard>, project: nat) {
    exists l | l in links :: links[l].project == project
  }

  /** Every key of every table is below the next id to hand out. */
  predicate KeysBelow(types: map<nat, ProjectType>, projects: map<nat, Project>, standards: map<nat, Standard>,
                      violations: map<nat, Violation>, projectViolations: map<nat, ProjectViolation>,
                      projectStandards: map<nat, ProjectStandard>, pages: map<nat, Page>, next: nat) {
    && IdsBelow(types.Keys, next) && IdsBelow(projects.Keys, next)
    && IdsBelow(standards.Keys, next) && IdsBelow(violations.Keys, next)
    && IdsBelow(projectViolations.Keys, next) && IdsBelow(projectStandards.Keys, next)
    && IdsBelow(pages.Keys, next)
  }

  /** The unique constraints of the models. */
  predicate RowsUnique(types: map<nat, ProjectType>, standards: map<nat, Standard>, violations: map<nat, Violation>,
                       projectStandards: map<nat, ProjectStandard>, pages: map<nat, Page>) {
    TypesUnique(types) && StandardsUnique(standards) && ViolationsUnique(violations)
    && OneStandardPerProject(projectStandards) && PagesUnique(pages)
  }

  /** Every foreign key points at a stored row. */
  predicate RefsIntact(types: map<nat, ProjectType>, projects: map<nat, Project>, standards: map<nat, Standard>,
                       violations: map<nat, Violation>, projectViolations: map<nat, ProjectViolation>,
                       projectStandards: map<nat, ProjectStandard>, pages: map<nat, Page>) {
    && (forall p | p in projects :: projects[p].projectType in types)
    && (forall v | v in violations :: violations[v].standard in standards)
    && (forall v | v in projectViolations ::
          projectViolations[v].project in projects && projectViolations[v].violation in violations)
    && (forall l | l in projectStandards ::
          projectStandards[l].project in projects && projectStandards[l].standard in standards)
    && (forall g | g in pages :: pages[g].project in projects)
  }

  /** The database tables of the projects app. */
  class ProjectStore {
    var types: map<nat, ProjectType>
    var projects: map<nat, Project>
    var standards: map<nat, Standard>
    var violations: map<nat, Violation>
    var projectViolations: map<nat, ProjectViolation>
    var projectStandards: map<nat, ProjectStandard>
    var pages: map<nat, Page>
    var nextId: nat

    /** The unique constraints, and foreign keys that point at stored rows. */
    ghost predicate Valid()
      reads this
    {
      && KeysBelow(types, projects, standards, violations, projectViolations, projectStandards, pages, nextId)
      && RowsUnique(types, standards, violations, projectStandards, pages)
      && RefsIntact(types, projects, standards, violations, projectViolations, projectStandards, pages)
    }

    /** An empty database. */
    constructor ()
      ensures Valid()
      ensures types == map[] && projects == map[] && standards == map[] && violations == map[]
      ensures projectViolations == map[] && projectStandards == map[] && pages == map[]
    {
      types, projects, standards, violations := map[], map[], map[], map[];
      projectViolations, projectStandards, pages := map[], map[], map[];
      nextId := 0;
    }

    /**
     * `ProjectType.save` followed by the write: the instance is prepared as
     * `SaveBody` says, then inserted (new instance) or written over its row.
     * A name or slug held by another type is refused.
     */
    method SaveProjectType(inst: ProjectTypeInstance, slugify: string -> string) returns (r: Result<nat, DbError>)
      requires Valid()
      requires inst.pk.Some? ==> inst.pk.value in types
      modifies this, inst
      ensures Valid()
      ensures inst.Row() == old(inst.Row()).(slug := FilledSlug(old(inst.slug), old(inst.name), slugify))
      ensures r.Ok? ==> r.value in types && types[r.value] == inst.Row() && inst.pk == Some(r.value)
      ensures r.Ok? ==> types == old(types)[r.value := inst.Row()]
      ensures r.Ok? && old(inst.pk).Some? ==> r.value == old(inst.pk).value
      ensures r.Ok? <==> !NameOrSlugTaken(old(types), old(inst.pk), inst.name, inst.slug)
      ensures r.Err? ==> r.error == UniqueViolation && types == old(types) && inst.pk == old(inst.pk)
      ensures projects == old(projects) && standards == old(standards) && violations == old(violations)
      ensures projectViolations == old(projectViolations) && projectStandards == old(projectStandards)
      ensures pages == old(pages)
    {
      inst.SaveBody(slugify);
      var row := inst.Row();
      if NameOrSlugTaken(types, inst.pk, row.name, row.slug) {
        return Err(UniqueViolation);
      }
      var id: nat;
      if inst.pk.Some? {
        id := inst.pk.value;
      } else {
        id := FreshId();
        inst.pk := Some(id);
        assert !NameOrSlugTaken(types, Some(id), row.name, row.slug);
      }
      TypeWriteKeepsUnique(types, id, row);
      types := types[id := row];
      r := Ok(id);
    }

    /** A fresh id for a new row. */
    method FreshId() returns (id: nat)
      requires Valid()
      modifies this
      ensures Valid() && id == old(nextId) && nextId == id + 1
      ensures types == old(types) && projects == old(projects) && standards == old(standards)
      ensures violations == old(violations) && projectViolations == old(projectViolations)
      ensures projectStandards == old(projectStandards) && pages == old(pages)
    {
      id := nextId;
      nextId := nextId + 1;
    }

    /** Inserting a `Standard`: refused when the (name, version) pair is taken. */
    method AddStandard(s: Standard) returns (r: Result<nat, DbError>)
      requires Valid()
      modifies this
      ensures Valid()
      ensures r.Ok? <==> s !in old(standards).Values
      ensures r.Ok? ==> r.value !in old(standards) && standards == old(standards)[r.value := s]
      ensures r.Err? ==> r.error == UniqueViolation && standards == old(standards)
      ensures types == old(types) && projects == old(projects) && violations == old(violations)
      ensures projectViolations == old(projectViolations) && projectStandards == old(projectStandards)
      ensures pages == old(pages)
    {
      if s in standards.Values {
        return Err(UniqueViolation);
      }
      var id := FreshId();
      standards := standards[id := s];
      r := Ok(id);
    }

    /** Inserting a `Violation`: its standard must exist and (standard, name) must be free. */
    method AddViolation(v: Violation) returns (r: Result<nat, DbError>)
      requires Valid()
      modifies this
      ensures Valid()
      ensures r.Ok? <==> v.standard in old(standards) && v !in old(violations).Values
      ensures r.Ok? ==> r.value !in old(violations) && violations == old(violations)[r.value := v]
      ensures r.Err? ==> violations == old(violations)
      ensures r == Err(MissingReference) <==> v.standard !in old(standards)
      ensures types == old(types) && projects == old(projects) && standards == old(standards)
      ensures projectViolations == old(projectViolations) && projectStandards == old(projectStandards)
      ensures pages == old(pages)
    {
      if v.standard !in standards {
        return Err(MissingReference);
      }
      if v in violations.Values {
        return Err(UniqueViolation);
      }
      var id := FreshId();
      violations := violations[id := v];
      r := Ok(id);
    }

    /** Inserting a `Page`: its project must exist and (project, name) must be free. */
    method AddPage(g: Page) returns (r: Result<nat, DbError>)
      requires Valid()
      modifies this
      ensures Valid()
      ensures r.Ok? <==> g.project in old(projects) && g !in old(pages).Values
      ensures r.Ok? ==> r.value !in old(pages) && pages == old(pages)[r.value := g]
      ensures r.Err? ==> pages == old(pages)
      ensures types == old(types) && projects == old(projects) && standards == old(standards)
      ensures violations == old(violations) && projectViolations == old(projectViolations)
      ensures projectStandards == old(projectStandards)
    {
      if g.project !in projects {
        return Err(MissingReference);
      }
      if g in pages.Values {
        return Err(UniqueViolation);
      }
      var id := FreshId();
      pages := pages[id := g];
      r := Ok(id);
    }

    /** Inserting a `Project`: its type must exist (`on_delete=PROTECT` keeps it there). */
    method AddProject(p: Project) returns (r: Result<nat, DbError>)
      requires Valid()
      modifies this
      ensures Valid()
      ensures r.Ok? <==> p.projectType in old(types)
      ensures r.Ok? ==> r.value !in old(projects) && projects == old(projects)[r.value := p]
      ensures r.Err? ==> r.error == MissingReference && projects == old(projects)
      ensures types == old(types) && standards == old(standards) && violations == old(violations)
      ensures projectViolations == old(projectViolations) && projectStandards == old(projectStandards)
      ensures pages == old(pages)
    {
      if p.projectType !in types {
        return Err(MissingReference);
      }
      var id := FreshId();
      projects := projects[id := p];
      r := Ok(id);
    }

    /** Writing an edited project over its row; its type must exist. */
    method UpdateProject(id: nat, p: Project) returns (r: Result<nat, DbError>)
      requires Valid() && id in projects
      modifies this
      ensures Valid()
      ensures r.Ok? <==> p.projectType in old(types)
      ensures r.Ok? ==> r.value == id && projects == old(projects)[id := p]
      ensures r.Err? ==> r.error == MissingReference && projects == old(projects)
      ensures types == old(types) && standards == old(standards) && violations == old(violations)
      ensures projectViolations == old(projectViolations) && projectStandards == old(projectStandards)
      ensures pages == old(pages)
    {
      if p.projectType !in types {
        return Err(MissingReference);
      }
      projects := projects[id := p];
      r := Ok(id);
    }

    /** `project.assigned_to.clear()` followed by adding each of `users`. */
    method SetAssignees(id: nat, users: set<nat>)
      requires Valid() && id in projects
      modifies this
      ensures Valid()
      ensures projects == old(projects)[id := old(projects)[id].(assignedTo := users)]
      ensures types == old(types) && standards == old(standards) && violations == old(violations)
      ensures projectViolations == old(projectViolations) && projectStandards == old(projectStandards)
      ensures pages == old(pages)
    {
      projects := projects[id := projects[id].(assignedTo := users)];
    }

    /** Inserting a `ProjectViolation`: its project and violation must exist. */
    method AddProjectViolation(v: ProjectViolation) returns (r: Result<nat, DbError>)
      requires Valid()
      modifies this
      ensures Valid()
      ensures r.Ok? <==> v.project in old(projects) && v.violation in old(violations)
      ensures r.Ok? ==> r.value !in old(projectViolations) && projectViolations == old(projectViolations)[r.value := v]
      ensures r.Err? ==> r.error == MissingReference && projectViolations == old(projectViolations)
      ensures types == old(types) && projects == old(projects) && standards == old(standards)
      ensures violations == old(violations) && projectStandards == old(projectStandards)
      ensures pages == old(pages)
    {
      if v.project !in projects || v.violation !in violations {
        return Err(MissingReference);
      }
      var id := FreshId();
      projectViolations := projectViolations[id := v];
      r := Ok(id);
    }

    /** Inserting a `ProjectStandard`: refused by `one_standard_per_project` when the project has one. */
    method AddProjectStandard(l: ProjectStandard) returns (r: Result<nat, DbError>)
      requires Valid()
      modifies this
      ensures Valid()
      ensures r.Ok? <==> (l.project in old(projects) && l.standard in old(standards)
        && !HasStandard(old(projectStandards), l.project))
      ensures r.Ok? ==> r.value !in old(projectStandards) && projectStandards == old(projectStandards)[r.value := l]
      ensures r.Err? ==> projectStandards == old(projectStandards)
      ensures r == Err(UniqueViolation) <==> (l.project in old(projects) && l.standard in old(standards)
        && HasStandard(old(projectStandards), l.project))
      ensures types == old(types) && projects == old(projects) && standards == old(standards)
      ensures violations == old(violations) && projectViolations == old(projectViolations)
      ensures pages == old(pages)
    {
      if l.project !in projects || l.standard !in standards {
        return Err(MissingReference);
      }
      if HasStandard(projectStandards, l.project) {
        return Err(UniqueViolation);
      }
      var id := FreshId();
      LinkInsertKeepsOne(projectStandards, id, l);
      projectStandards := projectStandards[id := l];
      r := Ok(id);
    }

    /** Deleting a project type no project uses; the foreign keys stay intact. */
    method DeleteProjectType(t: nat)
      requires Valid() && !TypeInUse(projects, t)
      modifies this
      ensures Valid()
      ensures types == old(types) - {t}
      ensures projects == old(projects) && standards == old(standards) && violations == old(violations)
      ensures projectViolations == old(projectViolations) && projectStandards == old(projectStandards)
      ensures pages == old(pages)
    {
      types := types - {t};
    }
  }
}

=== FILE: role_commands.dfy ===
/**
 * The role management commands (users/management/commands/): the two Auth0
 * batch syncs, the role override by email or domain, and the superuser
 * promotion. Each walks the users, changes instances in place and saves them
 * through `Directory.Save`, so the `pre_save` handlers run on every save.
 */
module RoleCommands {
  import opened Wrappers
  import opened Seqs
  import opened Text
  import opened Users
  import opened RoleSync
  import opened Accounts

  /** The number of links whose user satisfies `p` (with the link's Auth0 roles). */
  function CountLinks(rows: seq<User>, links: seq<Auth0Link>, p: (User, seq<string>) -> bool): nat {
    if links == [] then 0
    else
      var l := links[|links| - 1];
      CountLinks(rows, links[..|links| - 1], p) + (if l.user < |rows| && p(rows[l.user], l.roles) then 1 else 0)
  }

  /** Counting over one more link. */
  lemma CountLinksSnoc(rows: seq<User>, links: seq<Auth0Link>, k: nat, p: (User, seq<string>) -> bool)
    requires k < |links| && links[k].user < |rows|
    ensures CountLinks(rows, links[..k + 1], p)
            == CountLinks(rows, links[..k], p) + (if p(rows[links[k].user], links[k].roles) then 1 else 0)
  {
    assert links[..k + 1][..k] == links[..k];
  }

  /**
   * After processing the links `links` (distinct users), each linked user's
   * row is related by `rel` (given its Auth0 roles) to the row before the
   * command, and every other row is unchanged.
   */
  ghost predicate AppliedThrough(rows0: seq<User>, rows: seq<User>, links: seq<Auth0Link>, rel: (User, seq<string>, User) -> bool) {
    |rows| == |rows0|
    && forall i | 0 <= i < |rows| ::
         match LinkRoles(links, i)
         case None => rows[i] == rows0[i]
         case Some(r) => rel(rows0[i], r, rows[i])
  }

  /** A user whose link comes later is still as it was before the command. */
  lemma {:induction false} NotYetVisited(rows0: seq<User>, rows: seq<User>, links: seq<Auth0Link>, k: nat, rel: (User, seq<string>, User) -> bool)
    requires k < |links| && links[k].user < |rows|
    requires DistinctUsers(links)
    requires AppliedThrough(rows0, rows, links[..k], rel)
    ensures rows[links[k].user] == rows0[links[k].user]
  {
    assert LinkRoles(links[..k], links[k].user).None? by {
      forall j | 0 <= j < k ensures links[..k][j].user != links[k].user {
        assert links[..k][j] == links[j];
      }
    }
  }

  /** Processing one more link keeps `AppliedThrough`. */
  lemma {:induction false} AppliedThroughSnoc(rows0: seq<User>, rows: seq<User>, rows': seq<User>, links: seq<Auth0Link>, k: nat,
                                               rel: (User, seq<string>, User) -> bool)
    requires k < |links| && links[k].user < |rows|
    requires DistinctUsers(links)
    requires AppliedThrough(rows0, rows, links[..k], rel)
    requires |rows'| == |rows| && forall i | 0 <= i < |rows| && i != links[k].user :: rows'[i] == rows[i]
    requires rel(rows0[links[k].user], links[k].roles, rows'[links[k].user])
    ensures AppliedThrough(rows0, rows', links[..k + 1], rel)
  {
    assert links[..k + 1] == links[..k] + [links[k]];
    assert LinkRoles(links[..k], links[k].user).None? by {
      forall j | 0 <= j < k ensures links[..k][j].user != links[k].user {
        assert links[..k][j] == links[j];
      }
    }
    forall i | 0 <= i < |rows'|
      ensures match LinkRoles(links[..k + 1], i)
              case None => rows'[i] == rows0[i]
              case Some(r) => rel(rows0[i], r, rows'[i])
    {
      LinkRolesSnoc(links[..k], links[k], i);
    }
  }

  /** The loop step shared by the commands that walk the Auth0 links. */
  lemma {:induction false} AdvanceLinks(rows0: seq<User>, rows: seq<User>, rows': seq<User>, links: seq<Auth0Link>, k: nat,
                                         rel: (User, seq<string>, User) -> bool, p: (User, seq<string>) -> bool,
                                         changed: bool, count: nat)
    requires k < |links| && links[k].user < |rows|
    requires DistinctUsers(links)
    requires AppliedThrough(rows0, rows, links[..k], rel) && count == CountLinks(rows0, links[..k], p)
    requires |rows'| == |rows| && forall i | 0 <= i < |rows| && i != links[k].user :: rows'[i] == rows[i]
    requires rel(rows[links[k].user], links[k].roles, rows'[links[k].user])
    requires changed == p(rows[links[k].user], links[k].roles)
    ensures AppliedThrough(rows0, rows', links[..k + 1], rel)
    ensures (if changed then count + 1 else count) == CountLinks(rows0, links[..k + 1], p)
  {
    NotYetVisited(rows0, rows, links, k, rel);
    AppliedThroughSnoc(rows0, rows, rows', links, k, rel);
    CountLinksSnoc(rows0, links, k, p);
  }

  /* ---------------- the walk over the Auth0 links ---------------- */

  /**
   * The rows after a command has visited `links` in order. Each visit reads
   * the user's current row, so a user with several links is visited once per
   * link and sees what the earlier visits stored. `visit` gives the row a
   * visit stores, from the user's row, the visited link's Auth0 roles and the
   * Auth0 roles of the user's first link in `all`, which the `pre_save` merge
   * reads.
   */
  function RunLinks(rows: seq<User>, links: seq<Auth0Link>, all: seq<Auth0Link>,
                    visit: (User, seq<string>, Option<seq<string>>) -> User): (r: seq<User>)
    ensures |r| == |rows|
  {
    if links == [] then rows
    else
      var prev := RunLinks(rows, links[..|links| - 1], all, visit);
      var l := links[|links| - 1];
      if l.user < |prev| then prev[l.user := visit(prev[l.user], l.roles, LinkRoles(all, l.user))] else prev
  }

  /** The number of visits of `RunLinks` whose user, as the visit found it, satisfies `p`. */
  function RunCount(rows: seq<User>, links: seq<Auth0Link>, all: seq<Auth0Link>,
                    visit: (User, seq<string>, Option<seq<string>>) -> User, p: (User, seq<string>) -> bool): (n: nat)
    ensures n <= |links|
  {
    if links == [] then 0
    else
      var prev := RunLinks(rows, links[..|links| - 1], all, visit);
      var l := links[|links| - 1];
      RunCount(rows, links[..|links| - 1], all, visit, p) + (if l.user < |prev| && p(prev[l.user], l.roles) then 1 else 0)
  }

  /** Walking one more link. */
  lemma RunSnoc(rows: seq<User>, links: seq<Auth0Link>, all: seq<Auth0Link>, k: nat,
                visit: (User, seq<string>, Option<seq<string>>) -> User, p: (User, seq<string>) -> bool)
    requires k < |links| && links[k].user < |rows|
    ensures var prev := RunLinks(rows, links[..k], all, visit);
      var l := links[k];
      && RunLinks(rows, links[..k + 1], all, visit) == prev[l.user := visit(prev[l.user], l.roles, LinkRoles(all, l.user))]
      && RunCount(rows, links[..k + 1], all, visit, p)
         == RunCount(rows, links[..k], all, visit, p) + (if p(prev[l.user], l.roles) then 1 else 0)
  {
    assert links[..k + 1][..k] == links[..k];
  }

  /** The roles the Auth0 links ask for. */
  function LinkDerivedRoles(links: seq<Auth0Link>): set<RoleName> {
    set l | l in links :: DeriveAccess(l.roles).role
  }

  /** The role a user's first link asks for is one the links ask for. */
  lemma LinkRolesDerivedWithin(links: seq<Auth0Link>, uid: nat)
    requires LinkRoles(links, uid).Some?
    ensures DeriveAccess(LinkRoles(links, uid).value).role in LinkDerivedRoles(links)
  {
    var k :| 0 <= k < |links| && links[k] == Auth0Link(uid, LinkRoles(links, uid).value);
    assert links[k] in links;
  }

  /**
   * The roles table after one visit of a batch sync: the `get_or_create` of
   * the visited link's derived role, then, when the user is saved, the one of
   * the `pre_save` merge for the role the user's first link derives.
   */
  function VisitRoles(roles: set<RoleName>, l: Auth0Link, all: seq<Auth0Link>, saved: bool): (r: set<RoleName>)
    ensures roles <= r && DeriveAccess(l.roles).role in r
  {
    var created := roles + {DeriveAccess(l.roles).role};
    if saved then RolesAfterPreSave(created, LinkRoles(all, l.user)) else created
  }

  /**
   * The roles table after a batch sync has visited `links` in order; a visit
   * saves the user when `p` holds of the row as the visit found it.
   */
  function RunRoles(rows: seq<User>, roles: set<RoleName>, links: seq<Auth0Link>, all: seq<Auth0Link>,
                    visit: (User, seq<string>, Option<seq<string>>) -> User, p: (User, seq<string>) -> bool): (r: set<RoleName>)
    ensures roles <= r
  {
    if links == [] then roles
    else
      var prev := RunLinks(rows, links[..|links| - 1], all, visit);
      var pr := RunRoles(rows, roles, links[..|links| - 1], all, visit, p);
      var l := links[|links| - 1];
      if l.user < |prev| then VisitRoles(pr, l, all, p(prev[l.user], l.roles)) else pr
  }

  /** The roles table after one more link. */
  lemma RunRolesSnoc(rows: seq<User>, roles: set<RoleName>, links: seq<Auth0Link>, all: seq<Auth0Link>, k: nat,
                     visit: (User, seq<string>, Option<seq<string>>) -> User, p: (User, seq<string>) -> bool)
    requires k < |links| && links[k].user < |rows|
    ensures var prev := RunLinks(rows, links[..k], all, visit);
      RunRoles(rows, roles, links[..k + 1], all, visit, p)
      == VisitRoles(RunRoles(rows, roles, links[..k], all, visit, p), links[k], all, p(prev[links[k].user], links[k].roles))
  {
    assert links[..k + 1][..k] == links[..k];
  }

  /**
   * After the first `k` links, the role each visited link asks for exists,
   * and the batch sync has created only roles that some Auth0 link asks for.
   */
  lemma {:induction false} RunRolesWithin(rows: seq<User>, roles: set<RoleName>, all: seq<Auth0Link>, k: nat,
                                          visit: (User, seq<string>, Option<seq<string>>) -> User, p: (User, seq<string>) -> bool)
    requires k <= |all|
    ensures forall j | 0 <= j < k && all[j].user < |rows| :: DeriveAccess(all[j].roles).role in RunRoles(rows, roles, all[..k], all, visit, p)
    ensures RunRoles(rows, roles, all[..k], all, visit, p) <= roles + LinkDerivedRoles(all)
  {
    if k == 0 {
      assert all[..0] == [];
    } else {
      RunRolesWithin(rows, roles, all, k - 1, visit, p);
      RunRolesStep(rows, roles, all, k - 1, visit, p);
      var after := RunRoles(rows, roles, all[..k], all, visit, p);
      forall j | 0 <= j < k && all[j].user < |rows|
        ensures DeriveAccess(all[j].roles).role in after
      {
        if j < k - 1 {
          assert DeriveAccess(all[j].roles).role in RunRoles(rows, roles, all[..k - 1], all, visit, p);
        }
      }
    }
  }

  /** One link more: the roles table only grows, by the visited link's role and its user's first link's role. */
  lemma {:induction false} RunRolesStep(rows: seq<User>, roles: set<RoleName>, all: seq<Auth0Link>, k: nat,
                                        visit: (User, seq<string>, Option<seq<string>>) -> User, p: (User, seq<string>) -> bool)
    requires k < |all|
    ensures var before := RunRoles(rows, roles, all[..k], all, visit, p);
      var after := RunRoles(rows, roles, all[..k + 1], all, visit, p);
      && before <= after
      && (all[k].user < |rows| ==> DeriveAccess(all[k].roles).role in after)
      && after <= before + LinkDerivedRoles(all)
  {
    var l := all[k];
    assert all[..k + 1][..k] == all[..k] && all[..k + 1][k] == l;
    assert l in all;
    if LinkRoles(all, l.user).Some? {
      LinkRolesDerivedWithin(all, l.user);
    }
  }

  /** One loop step of a batch sync: the rows, roles table and count after visiting `links[k]` are those of the walk. */
  lemma {:induction false} RunAdvance(rows0: seq<User>, roles0: set<RoleName>, links: seq<Auth0Link>, k: nat,
                                      visit: (User, seq<string>, Option<seq<string>>) -> User, p: (User, seq<string>) -> bool,
                                      rows: seq<User>, roles: set<RoleName>, count: nat,
                                      rows': seq<User>, roles': set<RoleName>, changed: bool)
    requires k < |links| && links[k].user < |rows0|
    requires rows == RunLinks(rows0, links[..k], links, visit)
    requires roles == RunRoles(rows0, roles0, links[..k], links, visit, p)
    requires count == RunCount(rows0, links[..k], links, visit, p)
    requires var u := links[k].user;
      && rows' == rows[u := visit(rows[u], links[k].roles, LinkRoles(links, u))]
      && roles' == VisitRoles(roles, links[k], links, changed)
      && changed == p(rows[u], links[k].roles)
    ensures rows' == RunLinks(rows0, links[..k + 1], links, visit)
    ensures roles' == RunRoles(rows0, roles0, links[..k + 1], links, visit, p)
    ensures (if changed then count + 1 else count) == RunCount(rows0, links[..k + 1], links, visit, p)
  {
    RunSnoc(rows0, links, links, k, visit, p);
    RunRolesSnoc(rows0, roles0, links, links, k, visit, p);
  }

  /** The end of a batch sync's loop: the walk over every link. */
  lemma {:induction false} RunComplete(rows0: seq<User>, roles0: set<RoleName>, links: seq<Auth0Link>,
                                       visit: (User, seq<string>, Option<seq<string>>) -> User, p: (User, seq<string>) -> bool,
                                       rows: seq<User>, roles: set<RoleName>, count: nat)
    requires rows == RunLinks(rows0, links[..|links|], links, visit)
    requires roles == RunRoles(rows0, roles0, links[..|links|], links, visit, p)
    requires count == RunCount(rows0, links[..|links|], links, visit, p)
    ensures rows == RunLinks(rows0, links, links, visit)
    ensures roles == RunRoles(rows0, roles0, links, links, visit, p)
    ensures count == RunCount(rows0, links, links, visit, p)
  {
    assert links[..|links|] == links;
  }

  /**
   * With one link per user every visit finds the row as it was before the
   * command, and the visited link is the user's first: the walk then relates
   * each linked user's row to its row before by `rel` and counts as
   * `CountLinks` does.
   */
  lemma {:induction false} RunLinksDistinct(rows0: seq<User>, all: seq<Auth0Link>, k: nat,
                                             visit: (User, seq<string>, Option<seq<string>>) -> User,
                                             rel: (User, seq<string>, User) -> bool, p: (User, seq<string>) -> bool)
    requires k <= |all| && DistinctUsers(all)
    requires forall j | 0 <= j < |all| :: all[j].user < |rows0|
    requires forall u: User, r: seq<string> {:trigger visit(u, r, Some(r))} :: rel(u, r, visit(u, r, Some(r)))
    ensures AppliedThrough(rows0, RunLinks(rows0, all[..k], all, visit), all[..k], rel)
    ensures RunCount(rows0, all[..k], all, visit, p) == CountLinks(rows0, all[..k], p)
  {
    if k == 0 {
      assert all[..0] == [];
    } else {
      RunLinksDistinct(rows0, all, k - 1, visit, rel, p);
      var prev := RunLinks(rows0, all[..k - 1], all, visit);
      var l := all[k - 1];
      assert rel(prev[l.user], l.roles, visit(prev[l.user], l.roles, Some(l.roles)));
      RunLinksDistinctStep(rows0, all, k - 1, visit, rel, p);
    }
  }

  /** The step of `RunLinksDistinct`: the visited link is its user's first, and the user is not visited yet. */
  lemma {:induction false} RunLinksDistinctStep(rows0: seq<User>, all: seq<Auth0Link>, k: nat,
                                                 visit: (User, seq<string>, Option<seq<string>>) -> User,
                                                 rel: (User, seq<string>, User) -> bool, p: (User, seq<string>) -> bool)
    requires k < |all| && DistinctUsers(all)
    requires forall j | 0 <= j < |all| :: all[j].user < |rows0|
    requires AppliedThrough(rows0, RunLinks(rows0, all[..k], all, visit), all[..k], rel)
    requires RunCount(rows0, all[..k], all, visit, p) == CountLinks(rows0, all[..k], p)
    requires var prev := RunLinks(rows0, all[..k], all, visit);
      rel(prev[all[k].user], all[k].roles, visit(prev[all[k].user], all[k].roles, Some(all[k].roles)))
    ensures AppliedThrough(rows0, RunLinks(rows0, all[..k + 1], all, visit), all[..k + 1], rel)
    ensures RunCount(rows0, all[..k + 1], all, visit, p) == CountLinks(rows0, all[..k + 1], p)
  {
    var prev := RunLinks(rows0, all[..k], all, visit);
    var l := all[k];
    RunSnoc(rows0, all, all, k, visit, p);
    LinkRolesOfLink(all, k);
    var next := prev[l.user := visit(prev[l.user], l.roles, Some(l.roles))];
    assert RunLinks(rows0, all[..k + 1], all, visit) == next;
    AdvanceLinks(rows0, prev, next, all, k, rel, p, p(prev[l.user], l.roles), RunCount(rows0, all[..k], all, visit, p));
  }

  /** A row given derived access is left alone by normalisation and by the superuser rule of `save`. */
  lemma DerivedRowIsFixed(u: User, auth0Roles: seq<string>, roles: set<RoleName>)
    ensures var w := WithAccess(u, DeriveAccess(auth0Roles));
      Normalise(w) == w && SuperuserAdminRole(w, roles) == w
  {
    DerivedAccessNormalised(u, auth0Roles);
    NormaliseFixesExactlyNormalised(WithAccess(u, DeriveAccess(auth0Roles)));
  }

  /* ---------------- sync_all_auth0_users ---------------- */

  /** `needs_update` of sync_all_auth0_users. */
  predicate SyncAllNeedsUpdate(u: User, a: Access, force: bool) {
    (!u.manuallyModified && !HasAccess(u, a)) || (u.manuallyModified && force)
  }

  /** The stored result for one Auth0 user of sync_all_auth0_users whose visited link is its first. */
  function SyncAllOutcome(u: User, auth0Roles: seq<string>, force: bool): User {
    var a := DeriveAccess(auth0Roles);
    if SyncAllNeedsUpdate(u, a, force) then WithAccess(u, a).(manuallyModified := !HasAccess(u, a)) else u
  }

  /** The instance sync_all_auth0_users hands to `save`: the derived access, and the flag reset under `--force`. */
  function SyncAllAssigned(u: User, auth0Roles: seq<string>, force: bool): User {
    WithAccess(u.(manuallyModified := if force && u.manuallyModified then false else u.manuallyModified), DeriveAccess(auth0Roles))
  }

  /** What one visit of sync_all_auth0_users stores, `first` being the Auth0 roles of the user's first link. */
  function SyncAllVisit(force: bool): (User, seq<string>, Option<seq<string>>) -> User {
    (u: User, r: seq<string>, first: Option<seq<string>>) =>
      if SyncAllNeedsUpdate(u, DeriveAccess(r), force) then PreSave(SyncAllAssigned(u, r, force), Some(u), first) else u
  }

  /**
   * What the command's save stores: the derived access, and a
   * `manually_modified` flag that ends up True whenever the access changed,
   * even when `--force` had just reset it.
   */
  lemma {:induction false} SyncAllSaveClosedForm(u: User, auth0Roles: seq<string>, force: bool, roles: set<RoleName>)
    requires SyncAllNeedsUpdate(u, DeriveAccess(auth0Roles), force)
    ensures SaveExisting(Normalise(SyncAllAssigned(u, auth0Roles, force)), Some(u), roles, Some(auth0Roles))
            == SyncAllOutcome(u, auth0Roles, force)
  {
    var a := DeriveAccess(auth0Roles);
    var w := SyncAllAssigned(u, auth0Roles, force);
    DerivedRowIsFixed(u.(manuallyModified := w.manuallyModified), auth0Roles, roles);
    assert SuperuserAdminRole(w, roles) == w;
    var m := MarkModified(w, Some(u));
    assert m == w.(manuallyModified := !HasAccess(u, a));
    assert Auth0Merge(m, Some(u), a) == m;
    NormaliseFixesExactlyNormalised(m);
  }

  /** When the visited link is the user's first, a visit stores `SyncAllOutcome`. */
  lemma SyncAllVisitsAgree(force: bool)
    ensures forall u: User, r: seq<string> {:trigger SyncAllVisit(force)(u, r, Some(r))} ::
      SyncAllResult(force)(u, r, SyncAllVisit(force)(u, r, Some(r)))
  {
    forall u: User, r: seq<string>
      ensures SyncAllResult(force)(u, r, SyncAllVisit(force)(u, r, Some(r)))
    {
      if SyncAllNeedsUpdate(u, DeriveAccess(r), force) {
        var w := SyncAllAssigned(u, r, force);
        DerivedRowIsFixed(u.(manuallyModified := w.manuallyModified), r, {});
        assert Normalise(w) == w && SuperuserAdminRole(w, {}) == w;
        SyncAllSaveClosedForm(u, r, force, {});
        assert SaveExisting(Normalise(w), Some(u), {}, Some(r)) == PreSave(w, Some(u), Some(r));
        assert SyncAllVisit(force)(u, r, Some(r)) == PreSave(w, Some(u), Some(r));
      } else {
        assert SyncAllVisit(force)(u, r, Some(r)) == u == SyncAllOutcome(u, r, force);
      }
    }
  }

  /**
   * A user with several links, without `--force`: the visit that changes the
   * user's access also marks it through the `pre_save` handler, so every later
   * link of that user is skipped, whatever its Auth0 roles.
   */
  lemma {:induction false} ChangedUserSkippedLater(u: User, r: seq<string>, first: Option<seq<string>>,
                                                    later: seq<string>, laterFirst: Option<seq<string>>)
    requires SyncAllNeedsUpdate(u, DeriveAccess(r), false)
    ensures SyncAllVisit(false)(u, r, first).manuallyModified
    ensures SyncAllVisit(false)(SyncAllVisit(false)(u, r, first), later, laterFirst) == SyncAllVisit(false)(u, r, first)
  {
    var w := SyncAllAssigned(u, r, false);
    DerivedRowIsFixed(u, r, {});
    assert AccessChanged(u, Normalise(w));
  }

  /** Without `--force`, a manually-modified user is never touched. */
  lemma ManuallyModifiedSkippedWithoutForce(u: User, auth0Roles: seq<string>)
    requires u.manuallyModified
    ensures SyncAllOutcome(u, auth0Roles, false) == u
  {
  }

  /**
   * With `--force`, the reset of `manually_modified` survives only when the
   * user's access was already the derived one.
   */
  lemma ForcedResetSurvivesOnlyWithoutChange(u: User, auth0Roles: seq<string>)
    requires u.manuallyModified
    ensures !SyncAllOutcome(u, auth0Roles, true).manuallyModified <==> HasAccess(u, DeriveAccess(auth0Roles))
    ensures HasAccess(SyncAllOutcome(u, auth0Roles, true), DeriveAccess(auth0Roles))
  {
  }

  /** The field assignments of sync_all_auth0_users for a user that needs an update. */
  method AssignSyncAllFields(user: UserInstance, newRole: RoleName, isStaff: bool, isSuperuser: bool, force: bool)
    requires !user.manuallyModified || force
    modifies user
    ensures user.pk == old(user.pk) && user.email == old(user.email)
    ensures user.Value() == WithAccess(old(user.Value()), Access(newRole, isStaff, isSuperuser))
                              .(manuallyModified := if force && old(user.manuallyModified) then false else old(user.manuallyModified))
  {
    if user.manuallyModified && !force {
      // the field-preserving branch: `needs_update` excludes it
      assert false;
    } else {
      user.role := Some(newRole);
      user.isStaff := isStaff;
      user.isSuperuser := isSuperuser;
      if force && user.manuallyModified {
        user.manuallyModified := false;
      }
    }
  }

  /** The relation sync_all_auth0_users establishes between a user's rows before and after. */
  function SyncAllResult(force: bool): (User, seq<string>, User) -> bool {
    (u: User, r: seq<string>, v: User) => v == SyncAllOutcome(u, r, force)
  }

  /** The users sync_all_auth0_users counts as updated. */
  function SyncAllCounted(force: bool): (User, seq<string>) -> bool {
    (u: User, r: seq<string>) => SyncAllNeedsUpdate(u, DeriveAccess(r), force)
  }

  /** The update branch of sync_all_auth0_users: assign, normalise, save. */
  method SyncAllSave(d: Directory, k: nat, user: UserInstance, newRole: RoleName, isStaff: bool, isSuperuser: bool, force: bool)
    requires d.Valid() && k < |d.links|
    requires user.pk == Some(d.links[k].user) && user.Value() == d.rows[d.links[k].user]
    requires Access(newRole, isStaff, isSuperuser) == DeriveAccess(d.links[k].roles)
    requires SyncAllNeedsUpdate(user.Value(), DeriveAccess(d.links[k].roles), force)
    modifies d, user
    ensures d.Valid() && d.links == old(d.links)
    ensures var uid := d.links[k].user;
      d.rows == old(d.rows)[uid := SyncAllVisit(force)(old(d.rows)[uid], d.links[k].roles, LinkRoles(d.links, uid))]
    ensures d.roles == RolesAfterPreSave(old(d.roles), LinkRoles(d.links, d.links[k].user))
    ensures LinkRoles(d.links, d.links[k].user) == Some(d.links[k].roles) ==>
      d.rows[d.links[k].user] == SyncAllOutcome(old(d.rows)[d.links[k].user], d.links[k].roles, force)
  {
    ghost var stored := user.Value();
    ghost var w := SyncAllAssigned(stored, d.links[k].roles, force);
    ghost var rolesBefore := d.roles;
    AssignSyncAllFields(user, newRole, isStaff, isSuperuser, force);
    DerivedRowIsFixed(stored.(manuallyModified := w.manuallyModified), d.links[k].roles, d.roles);
    assert user.Value() == w && Normalise(w) == w && SuperuserAdminRole(w, d.roles) == w;
    NormaliseInstance(user);
    d.SaveLoaded(user);
    if LinkRoles(d.links, d.links[k].user) == Some(d.links[k].roles) {
      SyncAllSaveClosedForm(stored, d.links[k].roles, force, rolesBefore);
    }
  }

  /** One iteration of sync_all_auth0_users, for the link `d.links[k]`. */
  method SyncAllStep(d: Directory, k: nat, force: bool) returns (updated: bool)
    requires d.Valid() && k < |d.links|
    modifies d
    ensures d.Valid() && d.links == old(d.links)
    ensures var uid := d.links[k].user;
      d.rows == old(d.rows)[uid := SyncAllVisit(force)(old(d.rows)[uid], d.links[k].roles, LinkRoles(d.links, uid))]
    ensures d.roles == VisitRoles(old(d.roles), d.links[k], d.links, updated)
    ensures updated == SyncAllCounted(force)(old(d.rows)[d.links[k].user], d.links[k].roles)
    ensures LinkRoles(d.links, d.links[k].user) == Some(d.links[k].roles) ==>
      SyncAllResult(force)(old(d.rows)[d.links[k].user], d.links[k].roles, d.rows[d.links[k].user])
  {
    var link := d.links[k];
    var uid := link.user;
    var user := new UserInstance.Load(d.rows[uid]);
    var newRole, isStaff, isSuperuser := DeriveFields(link.roles);
    d.roles := d.roles + {newRole};
    var needsUpdate :=
      (!user.manuallyModified && (user.role != Some(newRole) || user.isStaff != isStaff || user.isSuperuser != isSuperuser))
      || (user.manuallyModified && force);
    assert needsUpdate == SyncAllCounted(force)(d.rows[uid], link.roles);
    if needsUpdate {
      SyncAllSave(d, k, user, newRole, isStaff, isSuperuser, force);
    }
    return needsUpdate;
  }

  /**
   * sync_all_auth0_users: every visited link is either updated or skipped,
   * and the count of field-preserving updates stays 0. The rows are those of
   * the walk over the links; with one link per user, every Auth0 user ends at
   * `SyncAllOutcome` of its row before the command.
   */
  method SyncAllAuth0Users(d: Directory, force: bool) returns (updated: nat, skipped: nat, preserved: nat)
    requires d.Valid()
    modifies d
    ensures d.Valid() && d.links == old(d.links)
    ensures updated + skipped == |d.links| && preserved == 0
    ensures d.rows == RunLinks(old(d.rows), d.links, d.links, SyncAllVisit(force))
    ensures d.roles == RunRoles(old(d.rows), old(d.roles), d.links, d.links, SyncAllVisit(force), SyncAllCounted(force))
    ensures updated == RunCount(old(d.rows), d.links, d.links, SyncAllVisit(force), SyncAllCounted(force))
    ensures DistinctUsers(d.links) ==> updated == CountLinks(old(d.rows), d.links, SyncAllCounted(force))
    ensures DistinctUsers(d.links) ==> AppliedThrough(old(d.rows), d.rows, d.links, SyncAllResult(force))
  {
    updated, skipped, preserved := 0, 0, 0;
    ghost var visit := SyncAllVisit(force);
    ghost var p := SyncAllCounted(force);
    // with no Auth0 users the command only warns: the loop below runs zero times
    var k := 0;
    while k < |d.links|
      invariant 0 <= k <= |d.links|
      invariant d.Valid() && d.links == old(d.links)
      invariant updated + skipped == k && preserved == 0
      invariant d.rows == RunLinks(old(d.rows), d.links[..k], d.links, visit)
      invariant d.roles == RunRoles(old(d.rows), old(d.roles), d.links[..k], d.links, visit, p)
      invariant updated == RunCount(old(d.rows), d.links[..k], d.links, visit, p)
    {
      ghost var rows, roles, count := d.rows, d.roles, updated;
      var changed := SyncAllStep(d, k, force);
      if changed {
        updated := updated + 1;
      } else {
        skipped := skipped + 1;
      }
      RunAdvance(old(d.rows), old(d.roles), d.links, k, visit, p, rows, roles, count, d.rows, d.roles, changed);
      k := k + 1;
    }
    RunComplete(old(d.rows), old(d.roles), d.links, visit, p, d.rows, d.roles, updated);
    if DistinctUsers(d.links) {
      SyncAllDistinct(old(d.rows), d.links, force);
    }
  }

  /** With one link per user, sync_all_auth0_users takes every Auth0 user to `SyncAllOutcome` and counts those it updates. */
  lemma SyncAllDistinct(rows0: seq<User>, links: seq<Auth0Link>, force: bool)
    requires DistinctUsers(links) && forall j | 0 <= j < |links| :: links[j].user < |rows0|
    ensures AppliedThrough(rows0, RunLinks(rows0, links, links, SyncAllVisit(force)), links, SyncAllResult(force))
    ensures RunCount(rows0, links, links, SyncAllVisit(force), SyncAllCounted(force)) == CountLinks(rows0, links, SyncAllCounted(force))
  {
    SyncAllVisitsAgree(force);
    RunLinksDistinct(rows0, links, |links|, SyncAllVisit(force), SyncAllResult(force), SyncAllCounted(force));
    assert links[..|links|] == links;
  }

  /* ---------------- sync_auth0_roles ---------------- */

  /** `needs_update` of sync_auth0_roles. */
  predicate RolesSyncNeedsUpdate(u: User, a: Access, force: bool) {
    force || !HasAccess(u, a)
  }

  /** The stored result for one Auth0 user of sync_auth0_roles whose visited link is its first. */
  function RolesSyncOutcome(u: User, auth0Roles: seq<string>, force: bool): User {
    var a := DeriveAccess(auth0Roles);
    if RolesSyncNeedsUpdate(u, a, force) then WithAccess(u, a).(manuallyModified := u.manuallyModified || !HasAccess(u, a)) else u
  }

  /** What one visit of sync_auth0_roles stores, `first` being the Auth0 roles of the user's first link. */
  function RolesSyncVisit(force: bool): (User, seq<string>, Option<seq<string>>) -> User {
    (u: User, r: seq<string>, first: Option<seq<string>>) =>
      if RolesSyncNeedsUpdate(u, DeriveAccess(r), force) then PreSave(WithAccess(u, DeriveAccess(r)), Some(u), first) else u
  }

  /**
   * What the save of sync_auth0_roles stores: the derived access, with the
   * `manually_modified` flag raised by the `pre_save` handler whenever the
   * access changed.
   */
  lemma {:induction false} RolesSyncSaveClosedForm(u: User, auth0Roles: seq<string>, roles: set<RoleName>)
    ensures var a := DeriveAccess(auth0Roles);
      SaveExisting(WithAccess(u, a), Some(u), roles, Some(auth0Roles))
      == WithAccess(u, a).(manuallyModified := u.manuallyModified || !HasAccess(u, a))
  {
    var a := DeriveAccess(auth0Roles);
    var w := WithAccess(u, a);
    DerivedAccessNormalised(u, auth0Roles);
    NormaliseFixesExactlyNormalised(w);
    assert SuperuserAdminRole(w, roles) == w;
    var m := MarkModified(w, Some(u));
    assert m == w.(manuallyModified := u.manuallyModified || !HasAccess(u, a));
    assert Auth0Merge(m, Some(u), a) == m;
    NormaliseFixesExactlyNormalised(m);
  }

  /** When the visited link is the user's first, a visit stores `RolesSyncOutcome`. */
  lemma RolesSyncVisitsAgree(force: bool)
    ensures forall u: User, r: seq<string> {:trigger RolesSyncVisit(force)(u, r, Some(r))} ::
      RolesSyncResult(force)(u, r, RolesSyncVisit(force)(u, r, Some(r)))
  {
    forall u: User, r: seq<string>
      ensures RolesSyncResult(force)(u, r, RolesSyncVisit(force)(u, r, Some(r)))
    {
      DerivedRowIsFixed(u, r, {});
      RolesSyncSaveClosedForm(u, r, {});
    }
  }

  /**
   * A user with several links: a visit whose link calls for another role
   * stores that role and marks the user, whatever its first link says, since
   * the `pre_save` merge keeps the fields the visit changed.
   */
  lemma {:induction false} VisitedLinkRoleWins(u: User, r: seq<string>, first: Option<seq<string>>, force: bool)
    requires u.role != Some(DeriveAccess(r).role)
    ensures RolesSyncVisit(force)(u, r, first).role == Some(DeriveAccess(r).role)
    ensures RolesSyncVisit(force)(u, r, first).manuallyModified
  {
    var w := WithAccess(u, DeriveAccess(r));
    DerivedRowIsFixed(u, r, {});
    var m := MarkModified(Normalise(w), Some(u));
    assert m.manuallyModified && m.role == w.role;
    assert RolesSyncVisit(force)(u, r, first) == PreSave(w, Some(u), first);
    if first.Some? {
      var merged := Auth0Merge(m, Some(u), DeriveAccess(first.value));
      assert merged.role == w.role;
      assert PreSave(w, Some(u), first) == Normalise(merged);
    }
  }

  /**
   * sync_auth0_roles ignores `manually_modified`: every Auth0 user ends with
   * the derived access, and the two batch syncs agree on that access.
   */
  lemma RolesSyncAlwaysDerives(u: User, auth0Roles: seq<string>, force: bool)
    ensures HasAccess(RolesSyncOutcome(u, auth0Roles, force), DeriveAccess(auth0Roles))
    ensures SyncAllNeedsUpdate(u, DeriveAccess(auth0Roles), force) ==>
      AccessOf(SyncAllOutcome(u, auth0Roles, force)) == AccessOf(RolesSyncOutcome(u, auth0Roles, force))
  {
  }

  /** A user's three access fields. */
  function AccessOf(u: User): (Option<RoleName>, bool, bool) {
    (u.role, u.isStaff, u.isSuperuser)
  }

  function RolesSyncResult(force: bool): (User, seq<string>, User) -> bool {
    (u: User, r: seq<string>, v: User) => v == RolesSyncOutcome(u, r, force)
  }

  function RolesSyncCounted(force: bool): (User, seq<string>) -> bool {
    (u: User, r: seq<string>) => RolesSyncNeedsUpdate(u, DeriveAccess(r), force)
  }

  /** The update branch of sync_auth0_roles: assign and save. */
  method RolesSyncSave(d: Directory, k: nat, user: UserInstance, newRole: RoleName, isStaff: bool, isSuperuser: bool, force: bool)
    requires d.Valid() && k < |d.links|
    requires user.pk == Some(d.links[k].user) && user.Value() == d.rows[d.links[k].user]
    requires Access(newRole, isStaff, isSuperuser) == DeriveAccess(d.links[k].roles)
    requires RolesSyncNeedsUpdate(user.Value(), DeriveAccess(d.links[k].roles), force)
    modifies d, user
    ensures d.Valid() && d.links == old(d.links)
    ensures var uid := d.links[k].user;
      d.rows == old(d.rows)[uid := RolesSyncVisit(force)(old(d.rows)[uid], d.links[k].roles, LinkRoles(d.links, uid))]
    ensures d.roles == RolesAfterPreSave(old(d.roles), LinkRoles(d.links, d.links[k].user))
    ensures LinkRoles(d.links, d.links[k].user) == Some(d.links[k].roles) ==>
      d.rows[d.links[k].user] == RolesSyncOutcome(old(d.rows)[d.links[k].user], d.links[k].roles, force)
  {
    ghost var stored := user.Value();
    ghost var rolesBefore := d.roles;
    user.role := Some(newRole);
    user.isStaff := isStaff;
    user.isSuperuser := isSuperuser;
    DerivedRowIsFixed(stored, d.links[k].roles, d.roles);
    assert user.Value() == WithAccess(stored, DeriveAccess(d.links[k].roles));
    d.SaveLoaded(user);
    if LinkRoles(d.links, d.links[k].user) == Some(d.links[k].roles) {
      RolesSyncSaveClosedForm(stored, d.links[k].roles, rolesBefore);
    }
  }

  /** One iteration of sync_auth0_roles, for the link `d.links[k]`. */
  method RolesSyncStep(d: Directory, k: nat, force: bool) returns (updated: bool)
    requires d.Valid() && k < |d.links|
    modifies d
    ensures d.Valid() && d.links == old(d.links)
    ensures var uid := d.links[k].user;
      d.rows == old(d.rows)[uid := RolesSyncVisit(force)(old(d.rows)[uid], d.links[k].roles, LinkRoles(d.links, uid))]
    ensures d.roles == VisitRoles(old(d.roles), d.links[k], d.links, updated)
    ensures updated == RolesSyncCounted(force)(old(d.rows)[d.links[k].user], d.links[k].roles)
    ensures LinkRoles(d.links, d.links[k].user) == Some(d.links[k].roles) ==>
      RolesSyncResult(force)(old(d.rows)[d.links[k].user], d.links[k].roles, d.rows[d.links[k].user])
  {
    var link := d.links[k];
    var uid := link.user;
    var user := new UserInstance.Load(d.rows[uid]);
    var newRole, isStaff, isSuperuser := DeriveFields(link.roles);
    d.roles := d.roles + {newRole};
    var needsUpdate := force || user.role != Some(newRole) || user.isStaff != isStaff || user.isSuperuser != isSuperuser;
    assert needsUpdate == RolesSyncCounted(force)(d.rows[uid], link.roles);
    if needsUpdate {
      RolesSyncSave(d, k, user, newRole, isStaff, isSuperuser, force);
    }
    return needsUpdate;
  }

  /**
   * sync_auth0_roles: every visited link is either updated or skipped. The
   * rows are those of the walk over the links; with one link per user, every
   * Auth0 user ends at `RolesSyncOutcome` of its row before the command.
   */
  method SyncAuth0Roles(d: Directory, force: bool) returns (updated: nat, skipped: nat)
    requires d.Valid()
    modifies d
    ensures d.Valid() && d.links == old(d.links)
    ensures updated + skipped == |d.links|
    ensures d.rows == RunLinks(old(d.rows), d.links, d.links, RolesSyncVisit(force))
    ensures d.roles == RunRoles(old(d.rows), old(d.roles), d.links, d.links, RolesSyncVisit(force), RolesSyncCounted(force))
    ensures updated == RunCount(old(d.rows), d.links, d.links, RolesSyncVisit(force), RolesSyncCounted(force))
    ensures DistinctUsers(d.links) ==> updated == CountLinks(old(d.rows), d.links, RolesSyncCounted(force))
    ensures DistinctUsers(d.links) ==> AppliedThrough(old(d.rows), d.rows, d.links, RolesSyncResult(force))
  {
    updated, skipped := 0, 0;
    ghost var visit := RolesSyncVisit(force);
    ghost var p := RolesSyncCounted(force);
    // with no Auth0 users the command only warns: the loop below runs zero times
    var k := 0;
    while k < |d.links|
      invariant 0 <= k <= |d.links|
      invariant d.Valid() && d.links == old(d.links)
      invariant updated + skipped == k
      invariant d.rows == RunLinks(old(d.rows), d.links[..k], d.links, visit)
      invariant d.roles == RunRoles(old(d.rows), old(d.roles), d.links[..k], d.links, visit, p)
      invariant updated == RunCount(old(d.rows), d.links[..k], d.links, visit, p)
    {
      ghost var rows, roles, count := d.rows, d.roles, updated;
      var changed := RolesSyncStep(d, k, force);
      if changed {
        updated := updated + 1;
      } else {
        skipped := skipped + 1;
      }
      RunAdvance(old(d.rows), old(d.roles), d.links, k, visit, p, rows, roles, count, d.rows, d.roles, changed);
      k := k + 1;
    }
    RunComplete(old(d.rows), old(d.roles), d.links, visit, p, d.rows, d.roles, updated);
    if DistinctUsers(d.links) {
      RolesSyncDistinct(old(d.rows), d.links, force);
    }
  }

  /** With one link per user, sync_auth0_roles takes every Auth0 user to `RolesSyncOutcome` and counts those it updates. */
  lemma RolesSyncDistinct(rows0: seq<User>, links: seq<Auth0Link>, force: bool)
    requires DistinctUsers(links) && forall j | 0 <= j < |links| :: links[j].user < |rows0|
    ensures AppliedThrough(rows0, RunLinks(rows0, links, links, RolesSyncVisit(force)), links, RolesSyncResult(force))
    ensures RunCount(rows0, links, links, RolesSyncVisit(force), RolesSyncCounted(force)) == CountLinks(rows0, links, RolesSyncCounted(force))
  {
    RolesSyncVisitsAgree(force);
    RunLinksDistinct(rows0, links, |links|, RolesSyncVisit(force), RolesSyncResult(force), RolesSyncCounted(force));
    assert links[..|links|] == links;
  }

  /* ---------------- update_auth0_user_role ---------------- */

  /** Why update_auth0_user_role or update_superuser_roles stops. */
  datatype CommandError = InvalidRole | RoleMissing | UnknownEmail

  /**
   * The row the override's `user.role = role; user.save()` stores when the
   * roles table holds `roles` at the time of the save.
   */
  function OverrideOutcome(u: User, target: RoleName, roles: set<RoleName>, link: Option<seq<string>>): User {
    SaveExisting(u.(role := Some(target)), Some(u), roles, link)
  }

  /**
   * In the domain mode the roles table may grow during the loop (each save of
   * an Auth0 user creates its derived role), so the outcome is stated for
   * some table that contains the one at the start.
   */
  ghost predicate OverrideApplied(before: User, after: User, target: RoleName, roles0: set<RoleName>, auth0Roles: seq<string>) {
    exists roles: set<RoleName> :: roles0 <= roles && after == OverrideOutcome(before, target, roles, Some(auth0Roles))
  }

  /**
   * The override sticks, and freezes the user against later automatic syncs,
   * unless the user is a superuser being moved off `admin`.
   */
  lemma {:induction false} OverrideSticks(u: User, target: RoleName, roles: set<RoleName>, link: Option<seq<string>>)
    requires u.role != Some(target)
    requires !u.isSuperuser || target == Admin
    ensures OverrideOutcome(u, target, roles, link).role == Some(target)
    ensures OverrideOutcome(u, target, roles, link).manuallyModified
    ensures SameProfile(u, OverrideOutcome(u, target, roles, link))
  {
    var w := u.(role := Some(target));
    assert SuperuserAdminRole(w, roles) == w;
    var n := Normalise(w);
    var m := MarkModified(n, Some(u));
    assert m.manuallyModified && m.role == Some(target);
    if link.Some? {
      assert Auth0Merge(m, Some(u), DeriveAccess(link.value)).role == Some(target);
    }
  }

  /**
   * A superuser without an Auth0 link cannot be moved off `admin` while the
   * `admin` role exists: `CustomUser.save` puts the role back before the
   * handlers run, although the command reports the update.
   */
  lemma {:induction false} SuperuserKeepsAdmin(u: User, target: RoleName, roles: set<RoleName>)
    requires u.isSuperuser && Admin in roles
    ensures OverrideOutcome(u, target, roles, None).role == Some(Admin)
    ensures OverrideOutcome(u, target, roles, None).isSuperuser
  {
    var w := SuperuserAdminRole(u.(role := Some(target)), roles);
    assert w.role == Some(Admin);
  }

  /** The database engine: SQLite unless a `DATABASE_URL` selects PostgreSQL. */
  datatype Backend = SQLite | PostgreSQL

  /**
   * The `user__email__endswith` lookup. It compiles to `LIKE`, which SQLite
   * compares without regard to the case of ASCII letters and PostgreSQL
   * compares exactly.
   */
  datatype DomainFilter = DomainFilter(suffix: string, backend: Backend) {
    predicate Matches(email: string) {
      match backend
      case SQLite => EndsWith(Lower(email), Lower(suffix))
      case PostgreSQL => EndsWith(email, suffix)
    }
  }

  /** An exact match is also a match without regard to case: SQLite selects every user PostgreSQL selects. */
  lemma ExactMatchIgnoringCase(email: string, suffix: string)
    requires DomainFilter(suffix, PostgreSQL).Matches(email)
    ensures DomainFilter(suffix, SQLite).Matches(email)
  {
    var n := |email| - |suffix|;
    forall i | 0 <= i < |suffix|
      ensures Lower(email)[n + i] == Lower(suffix)[i]
    {
      assert email[n + i] == email[n..][i] == suffix[i];
    }
    assert Lower(email)[n..] == Lower(suffix);
  }

  /** The two engines differ: SQLite selects an upper-case address for a lower-case domain, PostgreSQL does not. */
  lemma EnginesDisagreeOnCase()
    ensures DomainFilter("@x", SQLite).Matches("A@X")
    ensures !DomainFilter("@x", PostgreSQL).Matches("A@X")
  {
    assert Lower("A@X") == "a@x";
    assert Lower("@x") == "@x";
    assert "A@X"[1..] == "@X";
  }

  /** The relation the domain mode establishes for a linked user. */
  ghost function DomainOverrideResult(target: RoleName, filter: DomainFilter, roles0: set<RoleName>): (User, seq<string>, User) -> bool {
    (u: User, r: seq<string>, v: User) =>
      if filter.Matches(u.email) && u.role != Some(target) then OverrideApplied(u, v, target, roles0, r) else v == u
  }

  function DomainOverrideCounted(target: RoleName, filter: DomainFilter): (User, seq<string>) -> bool {
    (u: User, r: seq<string>) => filter.Matches(u.email) && u.role != Some(target)
  }

  /** Where the domain mode stands: the rows, the roles table and the number of users updated. */
  datatype DomainState = DomainState(rows: seq<User>, roles: set<RoleName>, count: nat)

  /**
   * One visit of the domain mode: a user whose email matches and whose role
   * is not the target gets it through `save`, which also creates the role its
   * first link derives, and is counted; anyone else is skipped.
   */
  function DomainVisit(s: DomainState, l: Auth0Link, all: seq<Auth0Link>, target: RoleName, filter: DomainFilter): (t: DomainState)
    ensures |t.rows| == |s.rows| && s.roles <= t.roles
    ensures t.count == s.count + (if l.user < |s.rows| && DomainOverrideCounted(target, filter)(s.rows[l.user], l.roles) then 1 else 0)
  {
    if l.user < |s.rows| && DomainOverrideCounted(target, filter)(s.rows[l.user], l.roles) then
      var link := LinkRoles(all, l.user);
      DomainState(s.rows[l.user := OverrideOutcome(s.rows[l.user], target, s.roles, link)], RolesAfterPreSave(s.roles, link), s.count + 1)
    else s
  }

  /** The domain mode after visiting `links` in order, each visit reading the user's current row. */
  function DomainRun(rows: seq<User>, roles: set<RoleName>, links: seq<Auth0Link>, all: seq<Auth0Link>,
                     target: RoleName, filter: DomainFilter): (s: DomainState)
    ensures |s.rows| == |rows| && roles <= s.roles && s.count <= |links|
  {
    if links == [] then DomainState(rows, roles, 0)
    else DomainVisit(DomainRun(rows, roles, links[..|links| - 1], all, target, filter), links[|links| - 1], all, target, filter)
  }

  /** Walking one more link in the domain mode. */
  lemma DomainRunSnoc(rows: seq<User>, roles: set<RoleName>, links: seq<Auth0Link>, all: seq<Auth0Link>, k: nat,
                      target: RoleName, filter: DomainFilter)
    requires k < |links|
    ensures DomainRun(rows, roles, links[..k + 1], all, target, filter)
            == DomainVisit(DomainRun(rows, roles, links[..k], all, target, filter), links[k], all, target, filter)
  {
    assert links[..k + 1][..k] == links[..k];
  }

  /** What one step of the domain mode leaves behind is what the relation and the count ask for. */
  lemma DomainStepRelated(u: User, v: User, r: seq<string>, target: RoleName, filter: DomainFilter,
                          roles0: set<RoleName>, rolesNow: set<RoleName>, changed: bool)
    requires roles0 <= rolesNow
    requires changed <==> filter.Matches(u.email) && u.role != Some(target)
    requires v == if changed then OverrideOutcome(u, target, rolesNow, Some(r)) else u
    ensures DomainOverrideResult(target, filter, roles0)(u, r, v)
    ensures changed == DomainOverrideCounted(target, filter)(u, r)
  {
    if changed {
      assert OverrideApplied(u, v, target, roles0, r);
    }
  }

  /**
   * With one link per user the domain mode gives every matching Auth0 user
   * without the role the override, for some roles table containing the one
   * at the start, and counts them.
   */
  lemma {:induction false} DomainRunDistinct(rows0: seq<User>, roles0: set<RoleName>, all: seq<Auth0Link>, k: nat,
                                              target: RoleName, filter: DomainFilter)
    requires k <= |all| && DistinctUsers(all)
    requires forall j | 0 <= j < |all| :: all[j].user < |rows0|
    ensures var s := DomainRun(rows0, roles0, all[..k], all, target, filter);
      && AppliedThrough(rows0, s.rows, all[..k], DomainOverrideResult(target, filter, roles0))
      && s.count == CountLinks(rows0, all[..k], DomainOverrideCounted(target, filter))
  {
    if k == 0 {
      assert all[..0] == [];
    } else {
      DomainRunDistinct(rows0, roles0, all, k - 1, target, filter);
      DomainRunDistinctStep(rows0, roles0, all, k - 1, target, filter);
    }
  }

  /** The step of `DomainRunDistinct`: the visited link is its user's first, and the user is not visited yet. */
  lemma {:induction false} DomainRunDistinctStep(rows0: seq<User>, roles0: set<RoleName>, all: seq<Auth0Link>, k: nat,
                                                  target: RoleName, filter: DomainFilter)
    requires k < |all| && DistinctUsers(all)
    requires forall j | 0 <= j < |all| :: all[j].user < |rows0|
    requires var s := DomainRun(rows0, roles0, all[..k], all, target, filter);
      && AppliedThrough(rows0, s.rows, all[..k], DomainOverrideResult(target, filter, roles0))
      && s.count == CountLinks(rows0, all[..k], DomainOverrideCounted(target, filter))
    ensures var s := DomainRun(rows0, roles0, all[..k + 1], all, target, filter);
      && AppliedThrough(rows0, s.rows, all[..k + 1], DomainOverrideResult(target, filter, roles0))
      && s.count == CountLinks(rows0, all[..k + 1], DomainOverrideCounted(target, filter))
  {
    DomainRunSnoc(rows0, roles0, all, all, k, target, filter);
    var prev := DomainRun(rows0, roles0, all[..k], all, target, filter);
    var next := DomainRun(rows0, roles0, all[..k + 1], all, target, filter);
    var l := all[k];
    LinkRolesOfLink(all, k);
    var changed := DomainOverrideCounted(target, filter)(prev.rows[l.user], l.roles);
    DomainStepRelated(prev.rows[l.user], next.rows[l.user], l.roles, target, filter, roles0, prev.roles, changed);
    AdvanceLinks(rows0, prev.rows, next.rows, all, k, DomainOverrideResult(target, filter, roles0),
                 DomainOverrideCounted(target, filter), changed, prev.count);
  }

  /** One iteration of the domain mode, for the link `d.links[k]` (a link whose email does not match is not selected). */
  method DomainOverrideStep(d: Directory, k: nat, target: RoleName, filter: DomainFilter, ghost count: nat) returns (updated: bool)
    requires d.Valid() && k < |d.links|
    modifies d
    ensures d.Valid() && d.links == old(d.links)
    ensures DomainVisit(DomainState(old(d.rows), old(d.roles), count), d.links[k], d.links, target, filter)
            == DomainState(d.rows, d.roles, if updated then count + 1 else count)
    ensures var u := old(d.rows)[d.links[k].user];
      updated <==> filter.Matches(u.email) && u.role != Some(target)
  {
    var uid := d.links[k].user;
    ghost var s := DomainState(d.rows, d.roles, count);
    var user := new UserInstance.Load(d.rows[uid]);
    if !filter.Matches(user.email) || user.role == Some(target) {
      assert DomainVisit(s, d.links[k], d.links, target, filter) == s;
      return false;
    }
    ghost var link := LinkRoles(d.links, uid);
    user.role := Some(target);
    assert user.Value() == s.rows[uid].(role := Some(target));
    d.SaveLoaded(user);
    assert d.rows == s.rows[uid := OverrideOutcome(s.rows[uid], target, s.roles, link)];
    assert d.roles == RolesAfterPreSave(s.roles, link);
    return true;
  }

  /**
   * The domain mode of update_auth0_user_role: the walk over the links, which
   * gives every matching Auth0 user without the role the override. With one
   * link per user that is one override per such user, counted once.
   */
  method DomainOverride(d: Directory, target: RoleName, filter: DomainFilter) returns (count: nat)
    requires d.Valid()
    modifies d
    ensures d.Valid() && d.links == old(d.links) && old(d.roles) <= d.roles
    ensures DomainRun(old(d.rows), old(d.roles), d.links, d.links, target, filter) == DomainState(d.rows, d.roles, count)
    ensures DistinctUsers(d.links) ==> count == CountLinks(old(d.rows), d.links, DomainOverrideCounted(target, filter))
    ensures DistinctUsers(d.links) ==>
      AppliedThrough(old(d.rows), d.rows, d.links, DomainOverrideResult(target, filter, old(d.roles)))
  {
    count := 0;
    var k := 0;
    while k < |d.links|
      invariant 0 <= k <= |d.links|
      invariant d.Valid() && d.links == old(d.links)
      invariant DomainRun(old(d.rows), old(d.roles), d.links[..k], d.links, target, filter) == DomainState(d.rows, d.roles, count)
    {
      var changed := DomainOverrideStep(d, k, target, filter, count);
      if changed {
        count := count + 1;
      }
      DomainRunSnoc(old(d.rows), old(d.roles), d.links, d.links, k, target, filter);
      k := k + 1;
    }
    assert d.links[..k] == d.links;
    if DistinctUsers(d.links) {
      DomainRunDistinct(old(d.rows), old(d.roles), d.links, k, target, filter);
    }
  }

  /** The index of the user with this email, if any (emails are unique). */
  function FindByEmail(rows: seq<User>, email: string): (r: Option<nat>)
    ensures r.None? <==> forall i | 0 <= i < |rows| :: rows[i].email != email
    ensures r.Some? ==> r.value < |rows| && rows[r.value].email == email
  {
    if rows == [] then None
    else if rows[|rows| - 1].email == email then Some(|rows| - 1)
    else FindByEmail(rows[..|rows| - 1], email)
  }

  /**
   * update_auth0_user_role: validate the role name, fetch the role row, then
   * either the domain mode (`--all-users` with a non-empty `--domain`) or the
   * single user with this email. Returns the number of users updated.
   */
  method UpdateAuth0UserRole(d: Directory, email: string, roleName: string, allUsers: bool, domain: Option<string>, backend: Backend)
    returns (r: Result<nat, CommandError>)
    requires d.Valid()
    modifies d
    ensures d.Valid() && d.links == old(d.links) && old(d.roles) <= d.roles
    ensures ParseRoleName(roleName).None? ==> r == Err(InvalidRole) && d.rows == old(d.rows)
    ensures ParseRoleName(roleName).Some? && ParseRoleName(roleName).value !in old(d.roles) ==>
      r == Err(RoleMissing) && d.rows == old(d.rows)
    ensures r.Ok? ==> ParseRoleName(roleName).Some? && ParseRoleName(roleName).value in old(d.roles)
    ensures r.Ok? && allUsers && domain.Some? && domain.value != [] ==>
      var target := ParseRoleName(roleName).value;
      DomainRun(old(d.rows), old(d.roles), d.links, d.links, target, DomainFilter("@" + domain.value, backend)) == DomainState(d.rows, d.roles, r.value)
    ensures r.Ok? && allUsers && domain.Some? && domain.value != [] && DistinctUsers(d.links) ==>
      var target := ParseRoleName(roleName).value;
      r.value == CountLinks(old(d.rows), d.links, DomainOverrideCounted(target, DomainFilter("@" + domain.value, backend)))
      && AppliedThrough(old(d.rows), d.rows, d.links, DomainOverrideResult(target, DomainFilter("@" + domain.value, backend), old(d.roles)))
    ensures ParseRoleName(roleName).Some? && ParseRoleName(roleName).value in old(d.roles)
            && !(allUsers && domain.Some? && domain.value != []) ==>
      match FindByEmail(old(d.rows), email)
      case None => r == Err(UnknownEmail) && d.rows == old(d.rows)
      case Some(i) =>
        var target := ParseRoleName(roleName).value;
        if old(d.rows)[i].role == Some(target) then r == Ok(0) && d.rows == old(d.rows)
        else r == Ok(1) && d.rows == old(d.rows)[i := OverrideOutcome(old(d.rows)[i], target, old(d.roles), LinkRoles(d.links, i))]
  {
    var parsed := ParseRoleName(roleName);
    if parsed.None? {
      return Err(InvalidRole);
    }
    var target := parsed.value;
    if target !in d.roles {
      return Err(RoleMissing);
    }
    if allUsers && domain.Some? && domain.value != [] {
      var count := DomainOverride(d, target, DomainFilter("@" + domain.value, backend));
      return Ok(count);
    }
    var found := FindByEmail(d.rows, email);
    if found.None? {
      return Err(UnknownEmail);
    }
    var i := found.value;
    var user := new UserInstance.Load(d.rows[i]);
    if user.role == Some(target) {
      return Ok(0);
    }
    user.role := Some(target);
    d.SaveLoaded(user);
    return Ok(1);
  }

  /* ---------------- update_superuser_roles ---------------- */

  /** A superuser whose role is not `admin`. */
  predicate NeedsPromotion(u: User) {
    u.isSuperuser && u.role != Some(Admin)
  }

  /** The row update_superuser_roles stores for a user that needs promotion. */
  function Promoted(u: User): User {
    u.(role := Some(Admin), isStaff := true, isSuperuser := true, manuallyModified := true)
  }

  /**
   * Giving a superuser the `admin` role through `save` yields the same row
   * whatever the roles table and the user's Auth0 roles: admin, staff,
   * superuser, and marked as manually modified.
   */
  lemma {:induction false} PromotionClosedForm(u: User, roles: set<RoleName>, link: Option<seq<string>>)
    requires NeedsPromotion(u)
    ensures SaveExisting(u.(role := Some(Admin)), Some(u), roles, link) == Promoted(u)
  {
    var w := u.(role := Some(Admin));
    assert SuperuserAdminRole(w, roles) == w;
    var n := Normalise(w);
    assert n == w.(isStaff := true);
    var m := MarkModified(n, Some(u));
    assert m == Promoted(u);
    if link.Some? {
      var g := Auth0Merge(m, Some(u), DeriveAccess(link.value));
      assert g.role == Some(Admin);
      assert Normalise(g) == Promoted(u);
    }
  }

  /** The rows once the first `i` users have been visited: each superuser among them without `admin` promoted. */
  function PromotedRows(rows0: seq<User>, i: nat): (r: seq<User>)
    ensures |r| == |rows0|
  {
    seq(|rows0|, j requires 0 <= j < |rows0| => if j < i && NeedsPromotion(rows0[j]) then Promoted(rows0[j]) else rows0[j])
  }

  /** Visiting user `i` promotes it when it needs promotion. */
  lemma PromotedRowsSnoc(rows0: seq<User>, i: nat)
    requires i < |rows0|
    ensures PromotedRows(rows0, i)[i] == rows0[i]
    ensures PromotedRows(rows0, i + 1)
            == PromotedRows(rows0, i)[i := if NeedsPromotion(rows0[i]) then Promoted(rows0[i]) else rows0[i]]
  {
    var a := PromotedRows(rows0, i);
    var b := PromotedRows(rows0, i + 1);
    var c := a[i := if NeedsPromotion(rows0[i]) then Promoted(rows0[i]) else rows0[i]];
    forall j | 0 <= j < |b|
      ensures b[j] == c[j]
    {
      if j != i {
        assert b[j] == a[j];
      }
    }
  }

  /**
   * The roles the saves of the first `i` users create: the `pre_save` merge
   * of each promoted superuser with an Auth0 link creates the role its first
   * link asks for.
   */
  function PromotionLinkRoles(rows0: seq<User>, links: seq<Auth0Link>, i: nat): set<RoleName> {
    set j | 0 <= j < i && j < |rows0| && NeedsPromotion(rows0[j]) && LinkRoles(links, j).Some? :: DeriveAccess(LinkRoles(links, j).value).role
  }

  /** Visiting one more user adds the role its promotion creates, if any. */
  lemma PromotionLinkRolesSnoc(rows0: seq<User>, links: seq<Auth0Link>, i: nat)
    requires i < |rows0|
    ensures PromotionLinkRoles(rows0, links, i + 1)
            == PromotionLinkRoles(rows0, links, i)
               + (if NeedsPromotion(rows0[i]) && LinkRoles(links, i).Some? then {DeriveAccess(LinkRoles(links, i).value).role} else {})
  {
    var extra := if NeedsPromotion(rows0[i]) && LinkRoles(links, i).Some? then {DeriveAccess(LinkRoles(links, i).value).role} else {};
    forall x | x in PromotionLinkRoles(rows0, links, i + 1)
      ensures x in PromotionLinkRoles(rows0, links, i) + extra
    {
      var j :| 0 <= j < i + 1 && j < |rows0| && NeedsPromotion(rows0[j]) && LinkRoles(links, j).Some?
               && x == DeriveAccess(LinkRoles(links, j).value).role;
      if j < i {
        assert x in PromotionLinkRoles(rows0, links, i);
      }
    }
    if NeedsPromotion(rows0[i]) && LinkRoles(links, i).Some? {
      assert DeriveAccess(LinkRoles(links, i).value).role in PromotionLinkRoles(rows0, links, i + 1);
    }
  }

  /** One iteration of update_superuser_roles, for the user with key `i`. */
  method PromoteStep(d: Directory, i: nat) returns (updated: bool)
    requires d.Valid() && i < |d.rows|
    modifies d
    ensures d.Valid() && d.links == old(d.links)
    ensures updated == NeedsPromotion(old(d.rows)[i])
    ensures d.rows == old(d.rows)[i := if updated then Promoted(old(d.rows)[i]) else old(d.rows)[i]]
    ensures d.roles == if updated then RolesAfterPreSave(old(d.roles), LinkRoles(d.links, i)) else old(d.roles)
  {
    var user := new UserInstance.Load(d.rows[i]);
    if !user.isSuperuser || user.role == Some(Admin) {
      return false;
    }
    PromotionClosedForm(d.rows[i], d.roles, LinkRoles(d.links, i));
    user.role := Some(Admin);
    d.SaveLoaded(user);
    return true;
  }

  /** One loop step of update_superuser_roles: the rows and roles table after visiting user `i`. */
  lemma {:induction false} PromoteAdvance(rows0: seq<User>, roles0: set<RoleName>, links: seq<Auth0Link>, i: nat,
                                          rows: seq<User>, roles: set<RoleName>,
                                          rows': seq<User>, roles': set<RoleName>, changed: bool)
    requires i < |rows0|
    requires rows == PromotedRows(rows0, i) && roles == roles0 + PromotionLinkRoles(rows0, links, i)
    requires changed == NeedsPromotion(rows[i])
    requires rows' == rows[i := if changed then Promoted(rows[i]) else rows[i]]
    requires roles' == if changed then RolesAfterPreSave(roles, LinkRoles(links, i)) else roles
    ensures changed == NeedsPromotion(rows0[i])
    ensures rows' == PromotedRows(rows0, i + 1) && roles' == roles0 + PromotionLinkRoles(rows0, links, i + 1)
  {
    PromotedRowsSnoc(rows0, i);
    PromotionLinkRolesSnoc(rows0, links, i);
    var link := LinkRoles(links, i);
    assert roles' == roles + (if changed && link.Some? then {DeriveAccess(link.value).role} else {});
  }

  /**
   * One iteration of update_superuser_roles inside its loop: after visiting
   * user `i`, the rows, roles table and count are those after the first
   * `i + 1` users of `rows0`.
   */
  method PromoteVisit(d: Directory, ghost rows0: seq<User>, ghost roles0: set<RoleName>, i: nat, count: nat)
    returns (count': nat)
    requires d.Valid() && i < |rows0| == |d.rows|
    requires d.rows == PromotedRows(rows0, i) && d.roles == roles0 + PromotionLinkRoles(rows0, d.links, i)
    requires count == |Filter(rows0[..i], NeedsPromotion)|
    modifies d
    ensures d.Valid() && d.links == old(d.links) && |d.rows| == |rows0|
    ensures d.rows == PromotedRows(rows0, i + 1) && d.roles == roles0 + PromotionLinkRoles(rows0, d.links, i + 1)
    ensures count' == |Filter(rows0[..i + 1], NeedsPromotion)|
  {
    ghost var rows, roles := d.rows, d.roles;
    var changed := PromoteStep(d, i);
    PromoteAdvance(rows0, roles0, d.links, i, rows, roles, d.rows, d.roles, changed);
    PromoteCountStep(rows0, i);
    count' := if changed then count + 1 else count;
  }

  /**
   * The loop of update_superuser_roles over every user: each superuser
   * without `admin` is promoted and counted, and the roles table gains what
   * their saves create.
   */
  method PromoteSuperusers(d: Directory) returns (count: nat)
    requires d.Valid()
    modifies d
    ensures d.Valid() && d.links == old(d.links)
    ensures d.rows == PromotedRows(old(d.rows), |old(d.rows)|)
    ensures d.roles == old(d.roles) + PromotionLinkRoles(old(d.rows), d.links, |old(d.rows)|)
    ensures count == |Filter(old(d.rows), NeedsPromotion)|
  {
    ghost var rows0, roles0 := d.rows, d.roles;
    count := 0;
    var i := 0;
    while i < |d.rows|
      invariant 0 <= i <= |d.rows| == |rows0|
      invariant d.Valid() && d.links == old(d.links)
      invariant d.rows == PromotedRows(rows0, i) && d.roles == roles0 + PromotionLinkRoles(rows0, d.links, i)
      invariant count == |Filter(rows0[..i], NeedsPromotion)|
    {
      count := PromoteVisit(d, rows0, roles0, i, count);
      i := i + 1;
    }
    assert rows0[..i] == rows0;
  }

  /**
   * update_superuser_roles: with the `admin` role present, every superuser
   * whose role is not `admin` is promoted and counted, and the roles table
   * gains what their saves create; afterwards every superuser has the
   * `admin` role. Without the `admin` role nothing changes.
   */
  method UpdateSuperuserRoles(d: Directory) returns (r: Result<nat, CommandError>)
    requires d.Valid()
    modifies d
    ensures d.Valid() && d.links == old(d.links)
    ensures Admin !in old(d.roles) <==> r == Err(RoleMissing)
    ensures r.Err? ==> d.rows == old(d.rows) && d.roles == old(d.roles)
    ensures r.Ok? ==> d.roles == old(d.roles) + PromotionLinkRoles(old(d.rows), d.links, |old(d.rows)|)
    ensures r.Ok? ==>
      r.value == |Filter(old(d.rows), NeedsPromotion)|
      && |d.rows| == |old(d.rows)|
      && (forall i | 0 <= i < |d.rows| ::
            d.rows[i] == if NeedsPromotion(old(d.rows)[i]) then Promoted(old(d.rows)[i]) else old(d.rows)[i])
      && (forall i | 0 <= i < |d.rows| && d.rows[i].isSuperuser :: d.rows[i].role == Some(Admin))
  {
    if Admin !in d.roles {
      return Err(RoleMissing);
    }
    var count := PromoteSuperusers(d);
    PromotedRowsComplete(old(d.rows), d.rows);
    return Ok(count);
  }

  /** Visiting one more user counts it exactly when it needs promotion. */
  lemma PromoteCountStep(rows0: seq<User>, i: nat)
    requires i < |rows0|
    ensures |Filter(rows0[..i + 1], NeedsPromotion)|
            == |Filter(rows0[..i], NeedsPromotion)| + (if NeedsPromotion(rows0[i]) then 1 else 0)
  {
    assert rows0[..i + 1] == rows0[..i] + [rows0[i]];
    FilterSnoc(rows0[..i], rows0[i], NeedsPromotion);
  }

  /** Once every user is visited, each superuser has the `admin` role. */
  lemma PromotedRowsComplete(rows0: seq<User>, rows: seq<User>)
    requires rows == PromotedRows(rows0, |rows0|)
    ensures |rows| == |rows0|
    ensures forall i | 0 <= i < |rows| :: rows[i] == if NeedsPromotion(rows0[i]) then Promoted(rows0[i]) else rows0[i]
    ensures forall i | 0 <= i < |rows| && rows[i].isSuperuser :: rows[i].role == Some(Admin)
  {
    forall i | 0 <= i < |rows| && rows[i].isSuperuser
      ensures rows[i].role == Some(Admin)
    {
      assert rows[i] == if NeedsPromotion(rows0[i]) then Promoted(rows0[i]) else rows0[i];
    }
  }
}

=== FILE: role_guards.dfy ===
/**
 * The role checks of users/views.py: `has_role` and the three view
 * decorators, which either run the wrapped view or answer 403.
 */
module RoleGuards {
  import opened Wrappers
  import opened Users

  /** The `request.user` of a request: anonymous, or a signed-in user. */
  datatype Requester = Anonymous | SignedIn(user: User)

  /** A decorated view's outcome: the view's own response, or 403 without running it. */
  datatype Guarded<R> = Ran(response: R) | Forbidden

  /**
   * `has_role(user, name)`: every superuser has `admin`; otherwise the user
   * must be signed in and hold exactly that role.
   */
  predicate HasRole(r: Requester, role: RoleName) {
    (r.SignedIn? && r.user.isSuperuser && role == Admin)
    || (r.SignedIn? && r.user.role == Some(role))
  }

  /** The anonymous user has no role at all. */
  lemma AnonymousHasNoRole(role: RoleName)
    ensures !HasRole(Anonymous, role)
  {
  }

  /** A superuser has `admin` regardless of the stored role; every other role must be stored. */
  lemma SuperuserIsAdmin(u: User, role: RoleName)
    ensures u.isSuperuser ==> HasRole(SignedIn(u), Admin)
    ensures role != Admin ==> (HasRole(SignedIn(u), role) <==> u.role == Some(role))
    ensures !u.isSuperuser ==> (HasRole(SignedIn(u), Admin) <==> u.role == Some(Admin))
  {
  }

  /** `admin_required`. */
  function AdminRequired<R>(r: Requester, view: Requester -> R): (g: Guarded<R>)
    ensures g.Ran? <==> HasRole(r, Admin)
    ensures g.Ran? ==> g.response == view(r)
  {
    if HasRole(r, Admin) then Ran(view(r)) else Forbidden
  }

  /** `staff_required`: admin or staff. */
  function StaffRequired<R>(r: Requester, view: Requester -> R): (g: Guarded<R>)
    ensures g.Ran? <==> HasRole(r, Admin) || HasRole(r, Staff)
    ensures g.Ran? ==> g.response == view(r)
  {
    if HasRole(r, Admin) || HasRole(r, Staff) then Ran(view(r)) else Forbidden
  }

  /** `client_required`: admin, staff or client. */
  function ClientRequired<R>(r: Requester, view: Requester -> R): (g: Guarded<R>)
    ensures g.Ran? <==> HasRole(r, Admin) || HasRole(r, Staff) || HasRole(r, Client)
    ensures g.Ran? ==> g.response == view(r)
  {
    if HasRole(r, Admin) || HasRole(r, Staff) || HasRole(r, Client) then Ran(view(r)) else Forbidden
  }

  /** The decorators are nested: whoever passes `admin_required` passes `staff_required`, and so on. */
  lemma GuardHierarchy<R>(r: Requester, view: Requester -> R)
    ensures AdminRequired(r, view).Ran? ==> StaffRequired(r, view).Ran?
    ensures StaffRequired(r, view).Ran? ==> ClientRequired(r, view).Ran?
  {
  }

  /** The nesting is strict: a staff member is refused admin pages, a client staff pages. */
  lemma GuardHierarchyStrict<R>(u: User, view: Requester -> R)
    requires !u.isSuperuser
    ensures u.role == Some(Staff) ==> AdminRequired(SignedIn(u), view).Forbidden? && StaffRequired(SignedIn(u), view).Ran?
    ensures u.role == Some(Client) ==> StaffRequired(SignedIn(u), view).Forbidden? && ClientRequired(SignedIn(u), view).Ran?
  {
  }

  /**
   * The `user` role, or no role, passes none of the three decorators unless
   * the user is a superuser; a superuser passes all three.
   */
  lemma BasicUsersRefused<R>(u: User, view: Requester -> R)
    ensures !u.isSuperuser && (u.role.None? || u.role == Some(Basic)) ==>
      AdminRequired(SignedIn(u), view).Forbidden? && StaffRequired(SignedIn(u), view).Forbidden?
      && ClientRequired(SignedIn(u), view).Forbidden?
    ensures u.isSuperuser ==> ClientRequired(SignedIn(u), view).Ran? && StaffRequired(SignedIn(u), view).Ran?
  {
  }

  /** `client_required` admits exactly the team (`IsTeam`) and clients. */
  lemma ClientRequiredIsTeamOrClient<R>(u: User, view: Requester -> R)
    ensures ClientRequired(SignedIn(u), view).Ran? <==> IsTeam(u) || u.role == Some(Client)
    ensures StaffRequired(SignedIn(u), view).Ran? <==> IsTeam(u)
  {
  }
}

=== FILE: role_sync.dfy ===
/**
 * Auth0 role derivation and the three `pre_save` handlers on users
 * (users/signals.py). Each handler is a method that changes the instance in
 * place; each is specified by a function on row values, and the lemmas below
 * are stated about those functions.
 */
module RoleSync {
  import opened Wrappers
  import opened Users

  /** A (role, is_staff, is_superuser) triple. */
  datatype Access = Access(role: RoleName, isStaff: bool, isSuperuser: bool)

  /**
   * The access an Auth0 role list calls for, with precedence
   * admin > staff > client > user.
   */
  function DeriveAccess(auth0Roles: seq<string>): (a: Access)
    ensures a.role == Admin <==> "admin" in auth0Roles
    ensures a.role == Staff <==> "admin" !in auth0Roles && "staff" in auth0Roles
    ensures a.role == Client <==> "admin" !in auth0Roles && "staff" !in auth0Roles && "client" in auth0Roles
    ensures a.isStaff <==> a.role == Admin || a.role == Staff
    ensures a.isSuperuser <==> a.role == Admin
  {
    if "admin" in auth0Roles then Access(Admin, true, true)
    else if "staff" in auth0Roles then Access(Staff, true, false)
    else if "client" in auth0Roles then Access(Client, false, false)
    else Access(Basic, false, false)
  }

  /** The user with its three access fields replaced. */
  function WithAccess(u: User, a: Access): User {
    u.(role := Some(a.role), isStaff := a.isStaff, isSuperuser := a.isSuperuser)
  }

  /** The user's three access fields already equal `a` (the negation of `needs_update`). */
  predicate HasAccess(u: User, a: Access) {
    u.role == Some(a.role) && u.isStaff == a.isStaff && u.isSuperuser == a.isSuperuser
  }

  /** Two versions of a user that differ at most in the three access fields and `manually_modified`. */
  predicate SameProfile(a: User, b: User) {
    a.id == b.id && a.email == b.email && a.firstName == b.firstName
    && a.lastName == b.lastName && a.isActive == b.isActive
  }

  /** Whether role, is_staff or is_superuser differ between two versions of a user. */
  predicate AccessChanged(before: User, after: User) {
    before.role != after.role || before.isStaff != after.isStaff || before.isSuperuser != after.isSuperuser
  }

  /** Derived access is always normalised. */
  lemma DerivedAccessNormalised(u: User, roles: seq<string>)
    ensures Normalised(WithAccess(u, DeriveAccess(roles)))
  {
  }

  /**
   * "Admins always have staff status and superusers always have staff access":
   * the least change of the two flags that makes the user normalised.
   */
  function Normalise(u: User): (r: User)
    ensures Normalised(r)
    ensures r == u.(isStaff := r.isStaff, isSuperuser := r.isSuperuser)
    ensures r.isSuperuser <==> u.isSuperuser || u.role == Some(Admin)
    ensures r.isStaff <==> u.isStaff || u.isSuperuser || u.role == Some(Admin)
  {
    var v := if u.role == Some(Admin) then u.(isStaff := true, isSuperuser := true) else u;
    if v.isSuperuser then v.(isStaff := true) else v
  }

  /** Normalising changes exactly the users that are not yet normalised. */
  lemma NormaliseFixesExactlyNormalised(u: User)
    ensures Normalise(u) == u <==> Normalised(u)
  {
  }

  /**
   * `mark_user_as_manually_modified` for an instance with a primary key:
   * the flag is raised when the stored row differs in an access field.
   * `stored` is None when the row cannot be found.
   */
  function MarkModified(u: User, stored: Option<User>): (r: User)
    ensures r == u.(manuallyModified := r.manuallyModified)
    ensures r.manuallyModified <==> u.manuallyModified || (stored.Some? && AccessChanged(stored.value, u))
  {
    if stored.Some? && AccessChanged(stored.value, u) then u.(manuallyModified := true) else u
  }

  /** The handler never clears the flag. */
  lemma MarkNeverClears(u: User, stored: Option<User>)
    ensures u.manuallyModified ==> MarkModified(u, stored).manuallyModified
  {
  }

  /**
   * The field update of `sync_auth0_on_user_update` before normalisation:
   * a manually-modified user gets the derived value only in the fields that
   * still equal the stored row; any other user gets all three.
   */
  function Auth0Merge(u: User, stored: Option<User>, a: Access): (r: User)
    ensures !u.manuallyModified ==> r == WithAccess(u, a)
    ensures u.manuallyModified && stored.None? ==> r == u
    ensures u.manuallyModified && stored.Some? ==>
      r == u.(role := r.role, isStaff := r.isStaff, isSuperuser := r.isSuperuser)
      && r.role == (if stored.value.role == u.role then Some(a.role) else u.role)
      && r.isStaff == (if stored.value.isStaff == u.isStaff then a.isStaff else u.isStaff)
      && r.isSuperuser == (if stored.value.isSuperuser == u.isSuperuser then a.isSuperuser else u.isSuperuser)
  {
    if u.manuallyModified then
      if stored.Some? then
        var o := stored.value;
        u.(role := if o.role == u.role then Some(a.role) else u.role,
           isStaff := if o.isStaff == u.isStaff then a.isStaff else u.isStaff,
           isSuperuser := if o.isSuperuser == u.isSuperuser then a.isSuperuser else u.isSuperuser)
      else u
    else WithAccess(u, a)
  }

  /** `sync_auth0_on_user_update` for a user with an Auth0 link: merge, then normalise. */
  function Auth0Update(u: User, stored: Option<User>, auth0Roles: seq<string>): (r: User)
    ensures Normalised(r) && SameProfile(u, r)
    ensures r.manuallyModified == u.manuallyModified
  {
    Normalise(Auth0Merge(u, stored, DeriveAccess(auth0Roles)))
  }

  /**
   * The three `pre_save` handlers in file order for an instance that has a
   * primary key: `ensure_admin_staff_status`, `mark_user_as_manually_modified`,
   * then `sync_auth0_on_user_update` (which does nothing without an Auth0 link).
   */
  function PreSave(u: User, stored: Option<User>, link: Option<seq<string>>): (r: User)
    ensures Normalised(r) && SameProfile(u, r)
    ensures r.manuallyModified <==> u.manuallyModified || (stored.Some? && AccessChanged(stored.value, Normalise(u)))
  {
    var marked := MarkModified(Normalise(u), stored);
    if link.Some? then Auth0Update(marked, stored, link.value) else marked
  }

  /** The role rows after `pre_save`: `get_or_create` adds the derived role of an Auth0 user. */
  function RolesAfterPreSave(roles: set<RoleName>, link: Option<seq<string>>): (r: set<RoleName>)
    ensures roles <= r
    ensures link.Some? ==> DeriveAccess(link.value).role in r
  {
    if link.Some? then roles + {DeriveAccess(link.value).role} else roles
  }

  /**
   * Saving an existing user (`CustomUser.save` body, then `pre_save`): the
   * stored result is always normalised.
   */
  function SaveExisting(u: User, stored: Option<User>, roles: set<RoleName>, link: Option<seq<string>>): (r: User)
    ensures Normalised(r) && SameProfile(u, r)
  {
    PreSave(SuperuserAdminRole(u, roles), stored, link)
  }

  /**
   * For an Auth0 user who is not manually modified and whose access fields are
   * unchanged since they were loaded, saving re-applies the derived access.
   */
  lemma {:induction false} UnchangedSaveResyncs(u: User, roles: set<RoleName>, auth0Roles: seq<string>)
    requires !u.manuallyModified && Normalised(u)
    requires !(u.isSuperuser && u.role != Some(Admin) && Admin in roles)
    ensures SaveExisting(u, Some(u), roles, Some(auth0Roles)) == WithAccess(u, DeriveAccess(auth0Roles))
  {
    NormaliseFixesExactlyNormalised(u);
    assert SuperuserAdminRole(u, roles) == u;
    assert MarkModified(u, Some(u)) == u;
    DerivedAccessNormalised(u, auth0Roles);
    NormaliseFixesExactlyNormalised(WithAccess(u, DeriveAccess(auth0Roles)));
  }

  /**
   * A field an administrator changed survives the save of an Auth0 user:
   * after an edit of the role of a non-superuser, the saved role is the edited
   * one, whatever the Auth0 roles say.
   */
  lemma {:induction false} EditedRoleSurvives(stored: User, newRole: Option<RoleName>, roles: set<RoleName>, auth0Roles: seq<string>)
    requires !stored.isSuperuser && newRole != stored.role
    requires newRole != Some(Admin)
    ensures SaveExisting(stored.(role := newRole), Some(stored), roles, Some(auth0Roles)).role == newRole
    ensures SaveExisting(stored.(role := newRole), Some(stored), roles, Some(auth0Roles)).manuallyModified
  {
    var u := stored.(role := newRole);
    assert SuperuserAdminRole(u, roles) == u;
    var n := Normalise(u);
    assert n.role == newRole && n.isSuperuser == stored.isSuperuser;
    var m := MarkModified(n, Some(stored));
    assert m.manuallyModified;
    assert Auth0Merge(m, Some(stored), DeriveAccess(auth0Roles)).role == newRole;
  }

  /** The two "ensure" steps on an instance, as in every handler and command that normalises. */
  method NormaliseInstance(inst: UserInstance)
    modifies inst
    ensures inst.pk == old(inst.pk)
    ensures inst.Value() == Normalise(old(inst.Value()))
  {
    if inst.role == Some(Admin) {
      inst.isStaff := true;
      inst.isSuperuser := true;
    }
    if inst.isSuperuser {
      inst.isStaff := true;
    }
  }

  /** The role selection shared by the sync handlers, the middleware and the commands. */
  method DeriveFields(auth0Roles: seq<string>) returns (newRole: RoleName, isStaff: bool, isSuperuser: bool)
    ensures Access(newRole, isStaff, isSuperuser) == DeriveAccess(auth0Roles)
  {
    isStaff := false;
    isSuperuser := false;
    if "admin" in auth0Roles {
      newRole := Admin;
      isStaff := true;
      isSuperuser := true;
    } else if "staff" in auth0Roles {
      newRole := Staff;
      isStaff := true;
    } else if "client" in auth0Roles {
      newRole := Client;
    } else {
      newRole := Basic;
    }
  }

  /** `ensure_admin_staff_status` (skips new users). */
  method EnsureAdminStaffStatus(inst: UserInstance)
    modifies inst
    ensures inst.pk == old(inst.pk)
    ensures inst.Value() == if inst.pk.None? then old(inst.Value()) else Normalise(old(inst.Value()))
  {
    if inst.pk.None? {
      return;
    }
    NormaliseInstance(inst);
  }

  /** `mark_user_as_manually_modified` (skips new users); `stored` is the row found for its key. */
  method MarkUserAsManuallyModified(inst: UserInstance, stored: Option<User>)
    modifies inst
    ensures inst.pk == old(inst.pk)
    ensures inst.Value() == if inst.pk.None? then old(inst.Value()) else MarkModified(old(inst.Value()), stored)
  {
    if inst.pk.None? {
      return;
    }
    if stored.Some? {
      var original := stored.value;
      if original.role != inst.role || original.isStaff != inst.isStaff || original.isSuperuser != inst.isSuperuser {
        inst.manuallyModified := true;
      }
    }
  }

  /** The field update of `sync_auth0_on_user_update`, before normalisation. */
  method MergeDerivedFields(inst: UserInstance, stored: Option<User>, newRole: RoleName, isStaff: bool, isSuperuser: bool)
    modifies inst
    ensures inst.pk == old(inst.pk)
    ensures inst.Value() == Auth0Merge(old(inst.Value()), stored, Access(newRole, isStaff, isSuperuser))
  {
    if inst.manuallyModified {
      if stored.Some? {
        var original := stored.value;
        var roleModified := original.role != inst.role;
        var staffModified := original.isStaff != inst.isStaff;
        var superuserModified := original.isSuperuser != inst.isSuperuser;
        if !roleModified {
          inst.role := Some(newRole);
        }
        if !staffModified {
          inst.isStaff := isStaff;
        }
        if !superuserModified {
          inst.isSuperuser := isSuperuser;
        }
      }
    } else {
      inst.role := Some(newRole);
      inst.isStaff := isStaff;
      inst.isSuperuser := isSuperuser;
    }
  }

  /**
   * `sync_auth0_on_user_update` (skips new users and users without an Auth0
   * link). Returns the role `get_or_create` made sure of, if any.
   */
  method SyncAuth0OnUserUpdate(inst: UserInstance, stored: Option<User>, link: Option<seq<string>>)
    returns (ensured: Option<RoleName>)
    modifies inst
    ensures inst.pk == old(inst.pk)
    ensures inst.pk.None? || link.None? ==> inst.Value() == old(inst.Value()) && ensured.None?
    ensures inst.pk.Some? && link.Some? ==>
      inst.Value() == Auth0Update(old(inst.Value()), stored, link.value)
      && ensured == Some(DeriveAccess(link.value).role)
  {
    if inst.pk.None? || link.None? {
      return None;
    }
    var newRole, isStaff, isSuperuser := DeriveFields(link.value);
    ensured := Some(newRole);
    MergeDerivedFields(inst, stored, newRole, isStaff, isSuperuser);
    NormaliseInstance(inst);
  }
}

=== FILE: seqs.dfy ===
/**
 * Sequence helpers shared by the model: order-preserving filtering,
 * duplicate-freedom and Python's "append unless already present" loop.
 */
module Seqs {
  /** Keeps, in order, the elements that satisfy `p` (a Python list comprehension with a guard). */
  function Filter<T(==,!new)>(s: seq<T>, p: T -> bool): (r: seq<T>)
    ensures |r| <= |s|
    ensures forall x :: x in r <==> x in s && p(x)
  {
    if s == [] then [] else (if p(s[0]) then [s[0]] else []) + Filter(s[1..], p)
  }

  /** Every element the filter keeps satisfies the predicate. */
  lemma FilterSatisfies<T(!new)>(s: seq<T>, p: T -> bool)
    ensures forall i | 0 <= i < |Filter(s, p)| :: p(Filter(s, p)[i])
  {
    forall i | 0 <= i < |Filter(s, p)| ensures p(Filter(s, p)[i]) {
      assert Filter(s, p)[i] in Filter(s, p);
    }
  }

  /** Filtering everything keeps everything. */
  lemma {:induction false} FilterAll<T(!new)>(s: seq<T>, p: T -> bool)
    requires forall x :: x in s ==> p(x)
    ensures Filter(s, p) == s
  {
    if s != [] {
      FilterAll(s[1..], p);
    }
  }

  /** Filtering out everything leaves nothing. */
  lemma {:induction false} FilterNone<T(!new)>(s: seq<T>, p: T -> bool)
    requires forall x | x in s :: !p(x)
    ensures Filter(s, p) == []
  {
    if s != [] {
      FilterNone(s[1..], p);
    }
  }

  /** Filtering a list that grows by one element. */
  lemma {:induction false} FilterSnoc<T(!new)>(s: seq<T>, x: T, p: T -> bool)
    ensures Filter(s + [x], p) == Filter(s, p) + (if p(x) then [x] else [])
  {
    if s == [] {
      assert [x][1..] == [];
    } else {
      assert (s + [x])[1..] == s[1..] + [x];
      FilterSnoc(s[1..], x, p);
    }
  }

  predicate Distinct<T(==)>(s: seq<T>) {
    forall i, j | 0 <= i < j < |s| :: s[i] != s[j]
  }

  /** The set of elements of a list, Python's `set(s)`. */
  function Elements<T(==,!new)>(s: seq<T>): (r: set<T>)
    ensures forall x :: x in r <==> x in s
  {
    set x | x in s
  }

  /** The prefix one longer is the prefix and the next element, and a distinct list has not met it yet. */
  lemma PrefixSnoc<T(!new)>(s: seq<T>, i: nat)
    requires i < |s|
    ensures s[..i + 1] == s[..i] + [s[i]]
    ensures Elements(s[..i + 1]) == Elements(s[..i]) + {s[i]}
    ensures Distinct(s) ==> s[i] !in Elements(s[..i])
  {
    assert s[..i + 1] == s[..i] + [s[i]];
  }

  /** `len(set(s)) == len(s)` holds exactly when `s` has no repeated element. */
  lemma {:induction false} DistinctIffSameSize<T(!new)>(s: seq<T>)
    ensures |Elements(s)| <= |s|
    ensures |Elements(s)| == |s| <==> Distinct(s)
  {
    if s == [] {
    } else {
      var rest := s[1..];
      DistinctIffSameSize(rest);
      assert Elements(s) == {s[0]} + Elements(rest) by {
        forall x ensures x in Elements(s) <==> x in {s[0]} + Elements(rest) {
          assert x in s <==> x == s[0] || x in rest by {
            assert s == [s[0]] + rest;
          }
        }
      }
      if s[0] in rest {
        assert Elements(s) == Elements(rest);
        var k :| 0 <= k < |rest| && rest[k] == s[0];
        assert s[0] == s[k + 1];
        assert !Distinct(s);
      } else {
        assert |Elements(s)| == 1 + |Elements(rest)|;
        if Distinct(rest) {
          forall i, j | 0 <= i < j < |s| ensures s[i] != s[j] {
            if i == 0 {
              assert s[j] == rest[j - 1];
            } else {
              assert s[i] == rest[i - 1] && s[j] == rest[j - 1];
            }
          }
        } else {
          var i, j :| 0 <= i < j < |rest| && rest[i] == rest[j];
          assert s[i + 1] == s[j + 1];
        }
      }
    }
  }

  /**
   * The loop `for x in cands: if x not in acc and keep(x): acc.append(x)`.
   */
  function AppendMissing<T(==,!new)>(acc: seq<T>, cands: seq<T>, keep: T -> bool): (r: seq<T>)
    ensures acc <= r
    ensures forall x :: x in r <==> x in acc || (x in cands && keep(x))
    ensures Distinct(acc) ==> Distinct(r)
    decreases |cands|
  {
    if cands == [] then acc
    else if cands[0] !in acc && keep(cands[0]) then
      assert Distinct(acc) ==> Distinct(acc + [cands[0]]);
      AppendMissing(acc + [cands[0]], cands[1..], keep)
    else
      AppendMissing(acc, cands[1..], keep)
  }

  /** The candidates `AppendMissing` would take on top of `acc`. */
  function NewTo<T(==)>(acc: seq<T>, keep: T -> bool): T -> bool {
    x => x !in acc && keep(x)
  }

  /** Elements already present keep their place; only new ones are appended, in candidate order. */
  lemma {:induction false} AppendMissingOrder<T(!new)>(acc: seq<T>, cands: seq<T>, keep: T -> bool)
    requires Distinct(cands)
    ensures AppendMissing(acc, cands, keep) == acc + Filter(cands, NewTo(acc, keep))
    decreases |cands|
  {
    if cands != [] {
      var c := cands[0];
      var rest := cands[1..];
      assert Distinct(rest);
      if NewTo(acc, keep)(c) {
        AppendMissingOrder(acc + [c], rest, keep);
        TakeStep(acc, cands, keep);
      } else {
        assert AppendMissing(acc, cands, keep) == AppendMissing(acc, rest, keep);
        AppendMissingOrder(acc, rest, keep);
        assert Filter(cands, NewTo(acc, keep)) == Filter(rest, NewTo(acc, keep));
      }
    }
  }

  /** The step of `AppendMissingOrder` for a first candidate that is taken. */
  lemma {:induction false} TakeStep<T(!new)>(acc: seq<T>, cands: seq<T>, keep: T -> bool)
    requires Distinct(cands) && cands != [] && NewTo(acc, keep)(cands[0])
    requires AppendMissing(acc + [cands[0]], cands[1..], keep) == acc + [cands[0]] + Filter(cands[1..], NewTo(acc + [cands[0]], keep))
    ensures AppendMissing(acc, cands, keep) == acc + Filter(cands, NewTo(acc, keep))
  {
    var c, rest := cands[0], cands[1..];
    assert AppendMissing(acc, cands, keep) == AppendMissing(acc + [c], rest, keep);
    FilterShift(rest, acc, c, keep);
    assert Filter(cands, NewTo(acc, keep)) == [c] + Filter(rest, NewTo(acc, keep));
    assert acc + [c] + Filter(rest, NewTo(acc, keep)) == acc + ([c] + Filter(rest, NewTo(acc, keep)));
  }

  lemma {:induction false} FilterShift<T(!new)>(rest: seq<T>, acc: seq<T>, c: T, keep: T -> bool)
    requires c !in rest
    ensures Filter(rest, NewTo(acc + [c], keep)) == Filter(rest, NewTo(acc, keep))
  {
    if rest != [] {
      FilterShift(rest[1..], acc, c, keep);
    }
  }
}

=== FILE: status_repair.dfy ===
/**
 * The one-shot script fix_status_choices.py: it gives the type named
 * exactly `accessibility` the accessibility list, then walks the types it
 * listed before that step and saves each one whose repaired list differs
 * from the list it had when listed.
 */
module StatusRepair {
  import opened Wrappers
  import opened Seqs
  import opened Text
  import opened ChoiceLists
  import opened Projects

  /** A stored type after a save with the given status list: the choices replaced, the slug filled. */
  function Resaved(row: ProjectType, choices: seq<seq<string>>, slugify: string -> string): (r: ProjectType)
    ensures r.statusChoices == choices && r.name == row.name && r.milestoneChoices == row.milestoneChoices
    ensures row.slug != [] ==> r.slug == row.slug
  {
    row.(statusChoices := choices, slug := FilledSlug(row.slug, row.name, slugify))
  }

  /** The type the first step writes: exactly the name `accessibility`. */
  predicate NamedAccessibility(row: ProjectType) {
    row.name == "accessibility"
  }

  /** The walk saves a type when its repaired list differs from its listed one. */
  predicate NeedsRepair(row: ProjectType) {
    RepairedChoices(row.name, row.statusChoices) != row.statusChoices
  }

  /** A type as the first step leaves it. */
  function AfterFirstStep(row: ProjectType, slugify: string -> string): ProjectType {
    if NamedAccessibility(row) then Resaved(row, AccessibilityStatusChoices, slugify) else row
  }

  /** A type as the whole script leaves it, from the row it had when listed. */
  function Fixed(row: ProjectType, slugify: string -> string): (r: ProjectType)
    ensures r.statusChoices == RepairedChoices(row.name, row.statusChoices)
    ensures r.name == row.name && r.description == row.description
    ensures r.supportsStandards == row.supportsStandards && r.milestoneChoices == row.milestoneChoices
    ensures !NamedAccessibility(row) && !NeedsRepair(row) ==> r == row
  {
    if NamedAccessibility(row) || NeedsRepair(row) then Resaved(row, RepairedChoices(row.name, row.statusChoices), slugify)
    else row
  }

  /** A listed type the walk does not save is left as the first step left it; a saved one gets its repaired list. */
  lemma FixedAfterFirstStep(row: ProjectType, slugify: string -> string)
    ensures !NeedsRepair(row) ==> Fixed(row, slugify) == AfterFirstStep(row, slugify)
    ensures NeedsRepair(row) ==> Fixed(row, slugify) == Resaved(row, RepairedChoices(row.name, row.statusChoices), slugify)
  {
    if NamedAccessibility(row) {
      AccessibilityIsRepairedToItsList(row);
    }
  }

  /** The type named `accessibility` is repaired to the accessibility list, whatever it held. */
  lemma AccessibilityIsRepairedToItsList(row: ProjectType)
    requires NamedAccessibility(row)
    ensures RepairedChoices(row.name, row.statusChoices) == AccessibilityStatusChoices
  {
    var name := "accessibility";
    assert name == ['a', 'c', 'c', 'e', 's', 's', 'i', 'b', 'i', 'l', 'i', 't', 'y'];
    LowerOfLower(name);
  }

  /** The types while the walk is under way: those in `done` repaired, the rest as the first step left them. */
  function Partial(listed: map<nat, ProjectType>, done: set<nat>, slugify: string -> string): (m: map<nat, ProjectType>)
    ensures m.Keys == listed.Keys
  {
    map t | t in listed :: if t in done then Fixed(listed[t], slugify) else AfterFirstStep(listed[t], slugify)
  }

  /** One more type repaired. */
  lemma PartialStep(listed: map<nat, ProjectType>, done: set<nat>, t: nat, slugify: string -> string)
    requires t in listed
    ensures Partial(listed, done + {t}, slugify) == Partial(listed, done, slugify)[t := Fixed(listed[t], slugify)]
  {
  }

  /** After the script every type passes the keep condition, and a second run would save nothing. */
  lemma FixedNeedsNoRepair(row: ProjectType, slugify: string -> string)
    ensures Keepable(Fixed(row, slugify).statusChoices)
    ensures !NeedsRepair(Fixed(row, slugify))
  {
    RepairedIsKeepable(row.name, row.statusChoices);
    RepairIsIdempotent(row.name, row.statusChoices);
  }

  /** `ProjectType.objects.get(name=name)`: the type with exactly that name, if any. */
  method FindTypeNamed(store: ProjectStore, order: seq<nat>, name: string) returns (t: Option<nat>)
    requires Elements(order) == store.types.Keys
    ensures t.Some? ==> t.value in store.types && store.types[t.value].name == name
    ensures t.None? ==> forall k | k in store.types :: store.types[k].name != name
  {
    var i := 0;
    while i < |order|
      invariant 0 <= i <= |order|
      invariant forall j | 0 <= j < i :: store.types[order[j]].name != name
    {
      if store.types[order[i]].name == name {
        return Some(order[i]);
      }
      i := i + 1;
    }
    forall k | k in store.types ensures store.types[k].name != name {
      var j :| 0 <= j < |order| && order[j] == k;
    }
    return None;
  }

  /** Saving a loaded copy of `row` with a new status list. */
  method SaveWithChoices(store: ProjectStore, t: nat, row: ProjectType, choices: seq<seq<string>>,
                         slugify: string -> string) returns (r: Result<nat, DbError>)
    requires store.Valid() && t in store.types
    modifies store
    ensures store.Valid()
    ensures r.Ok? ==> r.value == t && store.types == old(store.types)[t := Resaved(row, choices, slugify)]
    ensures r.Err? ==> store.types == old(store.types)
    ensures store.projects == old(store.projects) && store.standards == old(store.standards)
    ensures store.violations == old(store.violations) && store.projectViolations == old(store.projectViolations)
    ensures store.projectStandards == old(store.projectStandards) && store.pages == old(store.pages)
  {
    var inst := new ProjectTypeInstance.Load(t, row);
    inst.statusChoices := Some(choices);
    r := store.SaveProjectType(inst, slugify);
  }

  /** The first step: `get(name='accessibility')`, and if found, that type saved with the accessibility list. */
  method FirstStep(store: ProjectStore, order: seq<nat>, slugify: string -> string) returns (r: Option<DbError>)
    requires store.Valid() && Elements(order) == store.types.Keys
    modifies store
    ensures store.Valid()
    ensures r.None? ==> (store.types.Keys == old(store.types).Keys
      && forall t | t in old(store.types) :: store.types[t] == AfterFirstStep(old(store.types)[t], slugify))
    ensures store.projects == old(store.projects) && store.standards == old(store.standards)
    ensures store.violations == old(store.violations) && store.projectViolations == old(store.projectViolations)
    ensures store.projectStandards == old(store.projectStandards) && store.pages == old(store.pages)
  {
    var found := FindTypeNamed(store, order, "accessibility");
    if found.None? {
      return None;
    }
    var t := found.value;
    assert TypesUnique(store.types);
    var saved := SaveWithChoices(store, t, store.types[t], AccessibilityStatusChoices, slugify);
    if saved.Err? {
      return Some(saved.error);
    }
    return None;
  }

  /** One turn of the walk: the listed row repaired, and saved when its list changes. */
  method RepairOne(store: ProjectStore, t: nat, row: ProjectType, slugify: string -> string) returns (r: Result<bool, DbError>)
    requires store.Valid() && t in store.types && store.types[t] == AfterFirstStep(row, slugify)
    modifies store
    ensures store.Valid()
    ensures r.Ok? ==> store.types == old(store.types)[t := Fixed(row, slugify)] && (r.value <==> NeedsRepair(row))
    ensures store.projects == old(store.projects) && store.standards == old(store.standards)
    ensures store.violations == old(store.violations) && store.projectViolations == old(store.projectViolations)
    ensures store.projectStandards == old(store.projectStandards) && store.pages == old(store.pages)
  {
    FixedAfterFirstStep(row, slugify);
    var choices := RepairedChoices(row.name, row.statusChoices);
    if choices == row.statusChoices {
      assert store.types == old(store.types)[t := Fixed(row, slugify)];
      return Ok(false);
    }
    var saved := SaveWithChoices(store, t, row, choices, slugify);
    if saved.Err? {
      return Err(saved.error);
    }
    return Ok(true);
  }

  /** The listed types the walk saves. */
  function SavedByWalk(listed: map<nat, ProjectType>): nat -> bool {
    t => t in listed && NeedsRepair(listed[t])
  }

  /** The walk over the listed rows; the result is the ids it saved, in listing order. */
  method Walk(store: ProjectStore, listed: map<nat, ProjectType>, order: seq<nat>, slugify: string -> string)
    returns (r: Result<seq<nat>, DbError>)
    requires store.Valid() && Distinct(order) && Elements(order) == listed.Keys
    requires store.types == Partial(listed, {}, slugify)
    modifies store
    ensures store.Valid()
    ensures r.Ok? ==> store.types == Partial(listed, listed.Keys, slugify)
    ensures r.Ok? ==> r.value == Filter(order, SavedByWalk(listed))
    ensures store.projects == old(store.projects) && store.standards == old(store.standards)
    ensures store.violations == old(store.violations) && store.projectViolations == old(store.projectViolations)
    ensures store.projectStandards == old(store.projectStandards) && store.pages == old(store.pages)
  {
    var updated: seq<nat> := [];
    var i := 0;
    assert Elements(order[..0]) == {};
    while i < |order|
      invariant 0 <= i <= |order|
      invariant store.Valid() && store.types == Partial(listed, Elements(order[..i]), slugify)
      invariant updated == Filter(order[..i], SavedByWalk(listed))
      invariant store.projects == old(store.projects) && store.standards == old(store.standards)
      invariant store.violations == old(store.violations) && store.projectViolations == old(store.projectViolations)
      invariant store.projectStandards == old(store.projectStandards) && store.pages == old(store.pages)
    {
      var t := order[i];
      PrefixSnoc(order, i);
      FilterSnoc(order[..i], t, SavedByWalk(listed));
      PartialStep(listed, Elements(order[..i]), t, slugify);
      var saved := RepairOne(store, t, listed[t], slugify);
      if saved.Err? {
        return Err(saved.error);
      }
      if saved.value {
        updated := updated + [t];
      }
      i := i + 1;
    }
    assert order[..i] == order;
    return Ok(updated);
  }

  /**
   * The script. `order` is the listing of the types, taken before the first
   * step; the walk works on those listed rows. The result is the ids the
   * walk saved; a refused save ends the script with the error.
   */
  method FixStatusChoices(store: ProjectStore, order: seq<nat>, slugify: string -> string) returns (r: Result<seq<nat>, DbError>)
    requires store.Valid() && Distinct(order) && Elements(order) == store.types.Keys
    modifies store
    ensures store.Valid()
    ensures r.Ok? ==> store.types.Keys == old(store.types).Keys
    ensures r.Ok? ==> forall t | t in old(store.types) :: store.types[t] == Fixed(old(store.types)[t], slugify)
    ensures r.Ok? ==> r.value == Filter(order, SavedByWalk(old(store.types)))
    ensures store.projects == old(store.projects) && store.standards == old(store.standards)
    ensures store.violations == old(store.violations) && store.projectViolations == old(store.projectViolations)
    ensures store.projectStandards == old(store.projectStandards) && store.pages == old(store.pages)
  {
    var listed := store.types;
    var failed := FirstStep(store, order, slugify);
    if failed.Some? {
      return Err(failed.value);
    }
    assert store.types == Partial(listed, {}, slugify);
    r := Walk(store, listed, order, slugify);
  }
}

=== FILE: text.dfy ===
/**
 * Python string operations used by the application, on `seq<char>`:
 * `str.isspace`, `str.strip()`, `str.split(sep)`, `str.split(c, 1)` and
 * `sep.join(parts)`, plus ASCII `str.lower()` and `str.endswith`.
 */
module Text {
  /** Python's `str.isspace()` for one character (ASCII and Unicode white space). */
  predicate IsSpace(c: char) {
    c == ' ' || ('\t' <= c <= '\r') || ('\U{1C}' <= c <= '\U{1F}')
    || c == '\U{85}' || c == '\U{A0}' || c == '\U{1680}'
    || ('\U{2000}' <= c <= '\U{200A}') || c == '\U{2028}' || c == '\U{2029}'
    || c == '\U{202F}' || c == '\U{205F}' || c == '\U{3000}'
  }

  /** A string with no white space at either end. */
  predicate IsStripped(s: string) {
    s == [] || (!IsSpace(s[0]) && !IsSpace(s[|s| - 1]))
  }

  /** Python's `s.strip()`: removes white space at both ends. */
  function Strip(s: string): (r: string)
    ensures IsStripped(r)
    ensures |r| <= |s|
    decreases |s|
  {
    if s != [] && IsSpace(s[0]) then Strip(s[1..])
    else if s != [] && IsSpace(s[|s| - 1]) then Strip(s[..|s| - 1])
    else s
  }

  /** `strip()` removes characters and never introduces any. */
  lemma {:induction false} StripKeepsCharacters(s: string)
    ensures forall c | c in Strip(s) :: c in s
    decreases |s|
  {
    if s != [] && IsSpace(s[0]) {
      StripKeepsCharacters(s[1..]);
    } else if s != [] && IsSpace(s[|s| - 1]) {
      StripKeepsCharacters(s[..|s| - 1]);
    }
  }

  /** A string strips to the empty string exactly when it is all white space. */
  lemma {:induction false} BlankStripsToEmpty(s: string)
    ensures Strip(s) == [] <==> forall k | 0 <= k < |s| :: IsSpace(s[k])
    decreases |s|
  {
    if s != [] && IsSpace(s[0]) {
      BlankStripsToEmpty(s[1..]);
      assert forall k | 1 <= k < |s| :: s[k] == s[1..][k - 1];
    } else if s != [] && IsSpace(s[|s| - 1]) {
      BlankStripsToEmpty(s[..|s| - 1]);
      assert forall k | 0 <= k < |s| - 1 :: s[k] == s[..|s| - 1][k];
    }
  }

  /** Stripping a string that is already stripped changes nothing. */
  lemma {:induction false} StripOfStripped(s: string)
    requires IsStripped(s)
    ensures Strip(s) == s
  {
  }

  /** Only white space lies before `i` and from `j` on. */
  predicate BlankOutside(s: string, i: nat, j: nat) {
    (forall k | 0 <= k < i && k < |s| :: IsSpace(s[k])) && (forall k | j <= k < |s| :: IsSpace(s[k]))
  }

  /** The bounds of the slice `strip()` keeps. */
  lemma {:induction false} StripBounds(s: string) returns (i: nat, j: nat)
    ensures i <= j <= |s| && Strip(s) == s[i..j] && BlankOutside(s, i, j)
    decreases |s|
  {
    if s != [] && IsSpace(s[0]) {
      var t := s[1..];
      var i', j' := StripBounds(t);
      i, j := i' + 1, j' + 1;
      assert t[i'..j'] == s[i..j];
      forall k | 0 <= k < i ensures IsSpace(s[k]) {
        if k > 0 { assert s[k] == t[k - 1]; }
      }
      forall k | j <= k < |s| ensures IsSpace(s[k]) {
        assert s[k] == t[k - 1];
      }
    } else if s != [] && IsSpace(s[|s| - 1]) {
      var t := s[..|s| - 1];
      i, j := StripBounds(t);
      assert t[i..j] == s[i..j];
      forall k | j <= k < |s| ensures IsSpace(s[k]) {
        if k < |t| { assert s[k] == t[k]; }
      }
    } else {
      i, j := 0, |s|;
    }
  }

  /**
   * `strip()` cuts a run of white space off each end and nothing else: the
   * result is a slice of the input with only white space before and after it.
   */
  lemma StripTrimsEnds(s: string)
    ensures exists i, j | 0 <= i <= j <= |s| :: Strip(s) == s[i..j] && BlankOutside(s, i, j)
  {
    var i, j := StripBounds(s);
  }

  /** A leading blank before a stripped string is removed by `strip()`. */
  lemma {:induction false} StripAfterBlank(s: string)
    requires IsStripped(s)
    ensures Strip([' '] + s) == s
  {
    assert ([' '] + s)[1..] == s;
    StripOfStripped(s);
  }

  /** Python's `s.split(sep)` for a non-empty separator: the pieces between the leftmost non-overlapping occurrences. */
  function Split(s: string, sep: string): (r: seq<string>)
    requires sep != []
    ensures r != []
    decreases |s|
  {
    if |s| < |sep| then [s]
    else if s[..|sep|] == sep then [""] + Split(s[|sep|..], sep)
    else
      var rest := Split(s[1..], sep);
      [[s[0]] + rest[0]] + rest[1..]
  }

  /** Python's `sep.join(parts)`. */
  function Join(parts: seq<string>, sep: string): string {
    if parts == [] then ""
    else if |parts| == 1 then parts[0]
    else parts[0] + sep + Join(parts[1..], sep)
  }

  /** The number of leftmost non-overlapping occurrences of `sep` in `s` (Python's `s.count(sep)`). */
  function Occurrences(s: string, sep: string): nat
    requires sep != []
    decreases |s|
  {
    if |s| < |sep| then 0
    else if s[..|sep|] == sep then 1 + Occurrences(s[|sep|..], sep)
    else Occurrences(s[1..], sep)
  }

  lemma {:induction false} JoinConsFirst(c: char, parts: seq<string>, sep: string)
    requires parts != []
    ensures Join([[c] + parts[0]] + parts[1..], sep) == [c] + Join(parts, sep)
  {
    var q := [[c] + parts[0]] + parts[1..];
    assert q[1..] == parts[1..];
  }

  lemma {:induction false} JoinConsEmpty(parts: seq<string>, sep: string)
    requires parts != []
    ensures Join([""] + parts, sep) == sep + Join(parts, sep)
  {
    assert ([""] + parts)[1..] == parts;
  }

  /** Joining the pieces of a split with the same separator gives back the original string. */
  lemma {:induction false} JoinOfSplit(s: string, sep: string)
    requires sep != []
    ensures Join(Split(s, sep), sep) == s
    decreases |s|
  {
    if |s| < |sep| {
    } else if s[..|sep|] == sep {
      var tail := s[|sep|..];
      JoinOfSplit(tail, sep);
      JoinConsEmpty(Split(tail, sep), sep);
      assert s == sep + tail;
    } else {
      JoinOfSplit(s[1..], sep);
      JoinConsFirst(s[0], Split(s[1..], sep), sep);
      assert s == [s[0]] + s[1..];
    }
  }

  /** A split has exactly one more piece than the separator has occurrences. */
  lemma {:induction false} SplitCount(s: string, sep: string)
    requires sep != []
    ensures |Split(s, sep)| == Occurrences(s, sep) + 1
    decreases |s|
  {
    if |s| < |sep| {
    } else if s[..|sep|] == sep {
      SplitCount(s[|sep|..], sep);
    } else {
      SplitCount(s[1..], sep);
    }
  }

  /** A one-character separator never occurs inside a piece of the split. */
  lemma {:induction false} SplitPiecesAvoidSeparator(s: string, c: char)
    ensures forall p | p in Split(s, [c]) :: c !in p
    decreases |s|
  {
    if |s| < 1 {
    } else if s[..1] == [c] {
      SplitPiecesAvoidSeparator(s[1..], c);
    } else {
      SplitPiecesAvoidSeparator(s[1..], c);
      var rest := Split(s[1..], [c]);
      assert s[0] != c by { assert s[..1] == [s[0]]; }
      assert c !in [s[0]] + rest[0];
      forall p | p in Split(s, [c]) ensures c !in p {
        if p != [s[0]] + rest[0] {
          assert p in rest[1..];
        }
      }
    }
  }

  lemma {:induction false} SplitWithoutSeparator(x: string, c: char)
    requires c !in x
    ensures Split(x, [c]) == [x]
    decreases |x|
  {
    if |x| >= 1 {
      assert x[..1] != [c] by { assert x[..1] == [x[0]]; }
      SplitWithoutSeparator(x[1..], c);
      assert x == [x[0]] + x[1..];
    }
  }

  lemma {:induction false} SplitAtFirstSeparator(x: string, c: char, y: string)
    requires c !in x
    ensures Split(x + [c] + y, [c]) == [x] + Split(y, [c])
    decreases |x|
  {
    var s := x + [c] + y;
    if x == [] {
      assert s[..1] == [c];
      assert s[1..] == y;
    } else {
      assert s[..1] != [c] by { assert s[..1] == [x[0]]; }
      assert s[1..] == x[1..] + [c] + y;
      SplitAtFirstSeparator(x[1..], c, y);
      assert [x[0]] + x[1..] == x;
    }
  }

  /** Splitting a join on a one-character separator that no part contains gives back the parts. */
  lemma {:induction false} SplitOfJoin(parts: seq<string>, c: char)
    requires parts != []
    requires forall p | p in parts :: c !in p
    ensures Split(Join(parts, [c]), [c]) == parts
    decreases |parts|
  {
    if |parts| == 1 {
      SplitWithoutSeparator(parts[0], c);
    } else {
      SplitOfJoin(parts[1..], c);
      SplitAtFirstSeparator(parts[0], c, Join(parts[1..], [c]));
      assert parts == [parts[0]] + parts[1..];
    }
  }

  /** The index of the first `c` in `s`. */
  function IndexOf(s: string, c: char): (i: nat)
    requires c in s
    ensures i < |s| && s[i] == c && c !in s[..i]
  {
    if s[0] == c then 0 else 1 + IndexOf(s[1..], c)
  }

  /** The index of the last `c` in `s` (where `s.rsplit(c, 1)` cuts). */
  function LastIndexOf(s: string, c: char): (i: nat)
    requires c in s
    ensures i < |s| && s[i] == c && c !in s[i + 1..]
    decreases |s|
  {
    if s[|s| - 1] == c then |s| - 1
    else
      assert c in s[..|s| - 1] by {
        var k :| 0 <= k < |s| && s[k] == c;
        assert s[..|s| - 1][k] == c;
      }
      var i := LastIndexOf(s[..|s| - 1], c);
      assert s[i + 1..] == s[..|s| - 1][i + 1..] + [s[|s| - 1]];
      i
  }

  /** Python's `s.split(c, 1)`: the text before the first `c` and everything after it, or `[s]` when there is none. */
  function SplitOnce(s: string, c: char): (r: seq<string>)
    ensures c !in s ==> r == [s]
    ensures c in s ==> |r| == 2 && s == r[0] + [c] + r[1] && c !in r[0]
  {
    if c in s then
      var i := IndexOf(s, c);
      assert s == s[..i] + [c] + s[i + 1..];
      [s[..i], s[i + 1..]]
    else [s]
  }

  /** The split at the first `c` is determined by the part before it. */
  lemma SplitOnceAt(x: string, c: char, y: string)
    requires c !in x
    ensures SplitOnce(x + [c] + y, c) == [x, y]
  {
    var s := x + [c] + y;
    assert s[|x|] == c;
    var r := SplitOnce(s, c);
    assert forall k | 0 <= k < |x| :: s[k] == x[k];
    assert forall k | 0 <= k < |r[0]| :: s[k] == r[0][k];
    assert s[|r[0]|] == c;
    assert |r[0]| == |x|;
    assert r[0] == x;
    assert r[1] == s[|x| + 1..];
  }

  /** Strips every element (`[p.strip() for p in parts]`). */
  function StripAll(parts: seq<string>): (r: seq<string>)
    ensures |r| == |parts|
    ensures forall i | 0 <= i < |r| :: r[i] == Strip(parts[i])
  {
    seq(|parts|, i requires 0 <= i < |parts| => Strip(parts[i]))
  }

  /** ASCII `str.lower()`. */
  function Lower(s: string): (r: string)
    ensures |r| == |s|
    ensures forall i | 0 <= i < |s| :: r[i] == (if 'A' <= s[i] <= 'Z' then s[i] - 'A' + 'a' else s[i])
  {
    if s == [] then []
    else [if 'A' <= s[0] <= 'Z' then s[0] - 'A' + 'a' else s[0]] + Lower(s[1..])
  }

  /** A string without upper-case ASCII letters is its own lower case. */
  lemma LowerOfLower(s: string)
    requires forall i | 0 <= i < |s| :: !('A' <= s[i] <= 'Z')
    ensures Lower(s) == s
  {
  }

  /** Python's `s.endswith(suffix)`. */
  predicate EndsWith(s: string, suffix: string) {
    |suffix| <= |s| && s[|s| - |suffix|..] == suffix
  }
}

=== FILE: users.dfy ===
/**
 * Platform users and roles (users/models.py): the four role names, the
 * stored user row, the in-memory model instance that views, signal handlers
 * and commands mutate before saving, and the rule `CustomUser.save` applies
 * to superusers before the row is written.
 */
module Users {
  import opened Wrappers

  /** The rows of the Role table, by name; names are unique. */
  datatype RoleName = Admin | Staff | Client | Basic

  /** The stored `Role.name` of each role (`Basic` is the role named `user`). */
  function RoleLabel(r: RoleName): string {
    match r
    case Admin => "admin"
    case Staff => "staff"
    case Client => "client"
    case Basic => "user"
  }

  /** The role whose name is `s`, if `s` is one of the four valid names. */
  function ParseRoleName(s: string): (r: Option<RoleName>)
    ensures r.Some? ==> RoleLabel(r.value) == s
    ensures r.None? ==> forall n: RoleName :: RoleLabel(n) != s
  {
    if s == "admin" then Some(Admin)
    else if s == "staff" then Some(Staff)
    else if s == "client" then Some(Client)
    else if s == "user" then Some(Basic)
    else None
  }

  /** Role names are unique: the name determines the role. */
  lemma RoleLabelInjective(a: RoleName, b: RoleName)
    ensures RoleLabel(a) == RoleLabel(b) ==> a == b
  {
  }

  /** A stored `CustomUser` row; `id` is its primary key. */
  datatype User = User(
    id: nat,
    email: string,
    firstName: string,
    lastName: string,
    role: Option<RoleName>,
    isStaff: bool,
    isSuperuser: bool,
    isActive: bool,
    manuallyModified: bool)

  /** Superuser, or platform role admin or staff: the test most views use for "team member". */
  predicate IsTeam(u: User) {
    u.isSuperuser || u.role == Some(Admin) || u.role == Some(Staff)
  }

  /** The invariant the signal handlers restore: admin implies staff and superuser, superuser implies staff. */
  predicate Normalised(u: User) {
    (u.role == Some(Admin) ==> u.isStaff && u.isSuperuser) && (u.isSuperuser ==> u.isStaff)
  }

  /**
   * The body of `CustomUser.save` before the row is written: a superuser whose
   * role is missing or not admin is switched to admin when that role exists.
   */
  function SuperuserAdminRole(u: User, roles: set<RoleName>): (r: User)
    ensures r == u || r == u.(role := Some(Admin))
    ensures r.role != u.role <==> u.isSuperuser && u.role != Some(Admin) && Admin in roles
  {
    if u.isSuperuser && u.role != Some(Admin) && Admin in roles then u.(role := Some(Admin)) else u
  }

  /** A non-superuser's role is never touched by `save`. */
  lemma SaveKeepsNonSuperuserRole(u: User, roles: set<RoleName>)
    requires !u.isSuperuser
    ensures SuperuserAdminRole(u, roles) == u
  {
  }

  /**
   * An in-memory `CustomUser` instance. Its fields are changed in place by
   * views, signal handlers and commands, and written back by `save`.
   * `pk` is None until the instance is first saved.
   */
  class UserInstance {
    var pk: Option<nat>
    var email: string
    var firstName: string
    var lastName: string
    var role: Option<RoleName>
    var isStaff: bool
    var isSuperuser: bool
    var isActive: bool
    var manuallyModified: bool

    /** The instance's fields as a row value (an unsaved instance reports id 0). */
    function Value(): User
      reads this
    {
      User(if pk.Some? then pk.value else 0, email, firstName, lastName,
           role, isStaff, isSuperuser, isActive, manuallyModified)
    }

    /** `User.objects.get(pk=...)`: a fresh instance holding a stored row. */
    constructor Load(row: User)
      ensures pk == Some(row.id) && Value() == row
    {
      pk := Some(row.id);
      email := row.email;
      firstName := row.firstName;
      lastName := row.lastName;
      role := row.role;
      isStaff := row.isStaff;
      isSuperuser := row.isSuperuser;
      isActive := row.isActive;
      manuallyModified := row.manuallyModified;
    }

    /** `self.model(email=email, **extra_fields)`: an unsaved instance. */
    constructor Create(email: string, role: Option<RoleName>, isStaff: bool, isSuperuser: bool)
      ensures pk.None? && Value() == User(0, email, "", "", role, isStaff, isSuperuser, true, false)
    {
      pk := None;
      this.email := email;
      firstName := "";
      lastName := "";
      this.role := role;
      this.isStaff := isStaff;
      this.isSuperuser := isSuperuser;
      isActive := true;
      manuallyModified := false;
    }
  }
}

=== FILE: wrappers.dfy ===
/** Optional values and results with an error, as used throughout the model. */
module Wrappers {
  datatype Option<T> = None | Some(value: T)

  datatype Result<T, E> = Ok(value: T) | Err(error: E)
}
